=== FILE: README.md ===
# A verified model of the portfolio's tutorial services

This project models, in Dafny, the logic at the core of a collection of
Python tutorials and small demo services. Each service becomes one module:

- **RAG ingestion.** The ingestion service's chunker (heading split,
  sliding-window chunking, size normalisation, text cleaning, parser
  registry) is in `Chunker`. The FAISS vector-index bookkeeping is in
  `VectorIndex`. The knowledge-base sentence-window chunker is in
  `KnowledgeBase`. The LLM service's prompt and reply text handling is in
  `LlmText`.
- **In-place data structures.**
  - The simple, LRU and TTL response caches with their wrappers are in
    `Caches`.
  - The conversation memories and their session manager are in `Memory`.
  - The round-robin and weighted endpoint balancers are in `LoadBalancing`.
  - The tool registry is in `Tools`.
  - The agent's state machine and keyword rules are in `Agent`.
  - The command-line chatbot's history and command parsing are in `Chatbot`.
- **Rules and string logic.**
  - PAN/Aadhaar detection is in `KycDetect`, OCR word-window masking in
    `KycMask`, and the upload gates and on-screen masks in `KycShield`.
  - The paper-to-notebook backend's JSON fence stripping, retry policy,
    notebook building, metric clean-up and id/URL validation are in
    `Notebook`.
  - The per-model prompt templates are in `PromptFormat`.
  - The event-stream reply loop is in `Streaming`.
  - The date, city, category and instalment rules of the marketplace
    transform script are in `Transform`.
- **Shared modules.** `Wrappers` holds `Option` and `Result`. `PyText`
  holds the Python string operations the services use: `strip`, `lower`,
  `split`, `join`, `find`, slicing with negative indices, and the character
  classes.

Everything outside the program is an input of the model:

- LLM and HTTP replies, FAISS's raw `(distance, index)` rows and OCR word
  lists;
- the clock and random draws;
- JSON decoding, `eval` and MD5.

Methods that change state are proved against specification functions of
the old state and the inputs. The properties the code promises are proved
about those functions as lemmas.

## Model

| member | source | states |
|---|---|---|
| Chunker.UpdateMeta | aimagine/src/services/data_ingestion.py:205-206 | every metadata key present in the overriding dictionary takes its value, every other key keeps the old one |
| Chunker.InsertByPositionPerm | aimagine/src/services/data_ingestion.py:125 | inserting a heading into the sorted list adds exactly that heading |
| Chunker.InsertByPositionSorted | aimagine/src/services/data_ingestion.py:125 | insertion keeps a list sorted by position |
| Chunker.SortByPositionSpec | aimagine/src/services/data_ingestion.py:125 | `sorted(headers, key=position)` is a permutation of the headings, sorted by position |
| Chunker.SortByPosition | aimagine/src/services/data_ingestion.py:125 | the headings sorted stably by position, as many as given (stated by `SortByPositionSpec`) |
| Chunker.Sections | aimagine/src/services/data_ingestion.py:127-143 | one entry per sorted heading: its section chunk, or none for a blank section |
| Chunker.HeadingChunks | aimagine/src/services/data_ingestion.py:122-145 | the chunks of the non-blank sections, in heading order, at most one per heading (further stated by `HeadingChunksInOrder`, `HeadingChunksAreSections`, `HeadingChunksOnePerHeading`) |
| Chunker.AncestorsAbove | aimagine/src/services/data_ingestion.py:147-157 | the hierarchy lists only headings positioned before the current one and of a lower level, with levels strictly increasing from root to leaf |
| Chunker.AncestorsNearest | aimagine/src/services/data_ingestion.py:152-155 | the hierarchy is empty exactly when no heading qualifies, and its last entry is the last qualifying heading of the list |
| Chunker.ChunkHierarchy | aimagine/src/services/data_ingestion.py:147-157 | the reversed scan with a running level returns the texts of the ancestors, root first |
| Chunker.SplitOnHeaders | aimagine/src/services/data_ingestion.py:122-145 | the loop over the sorted headings returns the heading chunks of the specification |
| Chunker.SectionChunkSpec | aimagine/src/services/data_ingestion.py:129-143 | a section yields a chunk exactly when its slice is not blank; the chunk is the stripped slice with the unstripped bounds and its heading's text, level and hierarchy |
| Chunker.HeadingChunksInOrder | aimagine/src/services/data_ingestion.py:125-145 | heading chunks come in position order: each ends no later than the next starts |
| Chunker.HeadingChunksAreSections | aimagine/src/services/data_ingestion.py:127-143 | every heading chunk is the non-blank stripped slice of its span and carries its heading's metadata |
| Chunker.HeadingChunksOnePerHeading | aimagine/src/services/data_ingestion.py:127-143 | with no blank section there is one chunk per heading, spanning to the next heading or to the end of the text |
| Chunker.WindowEnd | aimagine/src/services/data_ingestion.py:165-179 | a cut window ends inside the text, and at 1 or later on a non-empty text |
| Chunker.WindowEndSpec | aimagine/src/services/data_ingestion.py:165-179 | a window short of the end is cut just after its rightmost '.', '!', '?' or newline; `max()` over no break raises; a window reaching the end ends at `len(text)` |
| Chunker.Absorbing | aimagine/src/services/data_ingestion.py:164 | once the basic loop has left, its state never changes |
| Chunker.TerminalUnique | aimagine/src/services/data_ingestion.py:164 | the basic loop leaves at most one way |
| Chunker.SpecFromExit | aimagine/src/services/data_ingestion.py:164-194 | the outcome of the loop is the way it leaves: its chunks, or the `ValueError` |
| Chunker.NextStart | aimagine/src/services/data_ingestion.py:192 | an iteration that moves on runs next from `end - chunk_overlap` |
| Chunker.RepeatedStartLoops | aimagine/src/services/data_ingestion.py:164-192 | the loop's only state besides its output is `start`, so a start that comes back means the loop never ends |
| Chunker.RunLoop | aimagine/src/services/data_ingestion.py:164-194 | running the loop while remembering the starts seen gives exactly the loop's outcome: chunks, `ValueError` or no return |
| Chunker.MovesStayInRange | aimagine/src/services/data_ingestion.py:164-192 | on a non-empty text an iteration leaves exactly when `start >= len(text)`, and the next start is at least `1 - chunk_overlap` |
| Chunker.BasicChunks | aimagine/src/services/data_ingestion.py:159-194 | `_create_basic_chunks` returns, raises or never returns exactly as its specification says |
| Chunker.StartsStayBelowEnd | aimagine/src/services/data_ingestion.py:179-192 | with a positive overlap every start stays below `len(text)` unless the loop raised |
| Chunker.BasicNeverReturns | aimagine/src/services/data_ingestion.py:164-192 | with a positive overlap, basic chunking of a non-empty text raises or never returns |
| Chunker.FinalWindowRepeats | aimagine/src/services/data_ingestion.py:179-192 | once a window reaches the end with `0 < overlap <= chunk_size`, the final window repeats forever |
| Chunker.WindowReachingEnd | aimagine/src/services/data_ingestion.py:178-192 | a window that reaches the end moves on to `len(text) - chunk_overlap` |
| Chunker.FixedPointLoops | aimagine/src/services/data_ingestion.py:164-192 | a loop reaching a start that moves to itself never ends |
| Chunker.DefaultShortTextLoops | aimagine/src/services/data_ingestion.py:164-192 | with the default configuration any non-empty text of at most 1000 characters loops forever; the defaults are at lines 10-17 |
| Chunker.DefaultNoBreakRaises | aimagine/src/services/data_ingestion.py:169-175 | a first window of the default configuration without a break character raises `ValueError` |
| Chunker.TraceChunksWellFormed | aimagine/src/services/data_ingestion.py:181-190 | every chunk the loop has emitted is the non-blank stripped slice of its span, typed `basic_chunk`, at most `chunk_size` long |
| Chunker.BasicChunksWellFormed | aimagine/src/services/data_ingestion.py:181-190 | every chunk basic chunking returns is well formed in that sense |
| Chunker.WithMeta | aimagine/src/services/data_ingestion.py:205-206 | the merged list keeps one entry per sub-chunk (each entry's merged metadata is `UpdateMeta`'s contract) |
| Chunker.NormalizeFailureSticks | aimagine/src/services/data_ingestion.py:200-207 | once re-splitting an oversized chunk raises or loops, the whole normalisation does |
| Chunker.NormalizeChunkSizes | aimagine/src/services/data_ingestion.py:196-220 | the normalisation loop gives the outcome of its specification |
| Chunker.NormalizeInRange | aimagine/src/services/data_ingestion.py:200-218 | chunks all within the size bounds come out unchanged |
| Chunker.AppendOrMergeSpec | aimagine/src/services/data_ingestion.py:208-218 | appending or merging one chunk keeps every output chunk within `max_chunk_size`, never merges the first chunk away, and extends the space-joined text by `' ' + text` |
| Chunker.NormalizeKeepsText | aimagine/src/services/data_ingestion.py:196-220 | with no oversized chunk, normalisation returns, produces no oversized chunk, keeps the first chunk's start and metadata, and keeps the space-joined text |
| Chunker.NormalizeOversizedNeverReturns | aimagine/src/services/data_ingestion.py:202-204 | with a positive overlap, one oversized chunk makes normalisation raise or loop |
| Chunker.CreateStructuredChunks | aimagine/src/services/data_ingestion.py:106-120 | headings are used exactly when configured and present, otherwise basic chunking, and normalisation runs in either case |
| Chunker.StructuredHeadingMode | aimagine/src/services/data_ingestion.py:110-118 | in heading mode, with every section within bounds, the result is exactly the heading chunks |
| Chunker.StructuredWithoutHeadingsNeverReturns | aimagine/src/services/data_ingestion.py:113-115 | without heading mode and with a positive overlap, a non-empty document never yields chunks |
| Chunker.StructuredSpec | aimagine/src/services/data_ingestion.py:106-120 | heading mode splits on the headings, else the sliding windows; both are then normalised, and a window error or a loop carries through (stated by `CreateStructuredChunks` and `StructuredHeadingMode`) |
| Chunker.CollapseWhitespace | aimagine/src/services/data_ingestion.py:225 | `\s+` to one space: the only whitespace left is plain spaces, and every other character comes from the input |
| Chunker.CollapseKeepsNonSpace | aimagine/src/services/data_ingestion.py:225 | collapsing whitespace keeps every other character, in order |
| Chunker.CollapseNoDoubleSpace | aimagine/src/services/data_ingestion.py:225 | after collapsing, no two spaces stand side by side and no other whitespace is left |
| Chunker.SqueezeNewlinesNoop | aimagine/src/services/data_ingestion.py:227 | the `\n{3,}` rule changes nothing on a text without newlines |
| Chunker.KeepAllowed | aimagine/src/services/data_ingestion.py:229 | every character the filter keeps is an allowed one taken from the input |
| Chunker.CleanTextSpec | aimagine/src/services/data_ingestion.py:222-230 | cleaned text holds no newline, only allowed characters, no whitespace but spaces, and none at either end |
| Chunker.CleanText | aimagine/src/services/data_ingestion.py:222-230 | whitespace runs collapsed, newline runs squeezed, disallowed characters removed, then stripped (stated by `CleanTextSpec`) |
| Chunker.DataIngestionService.constructor | aimagine/src/services/data_ingestion.py:78-83 | no documents, the Markdown parser for `.md`, the default configuration when none is given |
| Chunker.DataIngestionService.ProcessFile | aimagine/src/services/data_ingestion.py:232-257 | a missing file, an unknown suffix and a parser failure raise; otherwise the document is stored under its path and nothing else changes; the parsers are at lines 85-104 |
| Chunker.DataIngestionService.GetProcessedDocuments | aimagine/src/services/data_ingestion.py:259-261 | returns the stored documents |
| Chunker.DataIngestionService.AddParser | aimagine/src/services/data_ingestion.py:263-265 | registers the parser under the lower-cased extension, replacing any parser there |
| Chunker.StoredDocumentSpec | aimagine/src/services/data_ingestion.py:85-104 | a stored document records its cleaned text, lower-cased suffix and chunk count, under a suffix the registry knows |
| Chunker.UndottedExtensionNeverMatches | aimagine/src/services/data_ingestion.py:238-265 | a parser added under an extension without a leading dot is never chosen |
| Chunker.IntendedEnd | aimagine/src/services/data_ingestion.py:165-179 | the corrected window end lies after the start and at most `chunk_size` later |
| Chunker.IntendedEndOfBounds | aimagine/src/services/data_ingestion.py:165-179 | every corrected window is non-empty and at most `chunk_size` long |
| Chunker.WindowsCover | aimagine/src/services/data_ingestion.py:164-192 | a window loop whose windows are non-empty and bounded ends, and its windows chain from the start to the end |
| Chunker.IntendedWindowsCover | aimagine/src/services/data_ingestion.py:164-192 | the corrected loop ends and its windows cover the text without gaps, each at most `chunk_size` long, each starting after the previous start |
| Chunker.IntendedWindowsReachAll | aimagine/src/services/data_ingestion.py:164-192 | every character from the start on lies in some corrected window |
| VectorIndex.CreateIndex | aimagine/src/services/faiss_service.py:20-27 | "cosine" gives an inner-product index and every other index type an L2 index |
| VectorIndex.StoredBatch | aimagine/src/services/faiss_service.py:42-48 | one store entry per chunk, the i-th at position `start + i`, with its text and metadata defaulting to `{}` |
| VectorIndex.AppendKeepsPositions | aimagine/src/services/faiss_service.py:36-48 | after a batch is appended every entry still records its own position |
| VectorIndex.ResultsSound | aimagine/src/services/faiss_service.py:67-76 | each result comes from a non-sentinel entry of the raw row and carries that chunk's text and metadata, the entry's score and its 1-based row position as rank |
| VectorIndex.ResultsOrdered | aimagine/src/services/faiss_service.py:68-75 | ranks strictly increase, skipping the positions of sentinels |
| VectorIndex.ResultsComplete | aimagine/src/services/faiss_service.py:68-76 | every non-sentinel entry has a result with its rank |
| VectorIndex.Results | aimagine/src/services/faiss_service.py:67-76 | one result per row entry that is not -1, in row order (stated by `ResultsSound`, `ResultsOrdered`, `ResultsComplete`) |
| VectorIndex.ScoreFor | aimagine/src/services/faiss_service.py:74 | `1/(1+d)` when the index type string is "l2", the raw distance otherwise (stated by `OtherIndexTypeScoresRawDistances`) |
| VectorIndex.Similarity | aimagine/src/services/faiss_service.py:74 | `1/(1+d)` lies in (0, 1] for a distance of 0 or more |
| VectorIndex.SimilarityAntitone | aimagine/src/services/faiss_service.py:74 | closer results score higher under `1/(1+d)` |
| VectorIndex.FaissService.constructor | aimagine/src/services/faiss_service.py:8-18 | an empty index of the class `_create_index` picks and an empty chunk store |
| VectorIndex.FaissService.AddChunks | aimagine/src/services/faiss_service.py:29-48 | the embeddings join the index and the i-th chunk is stored at `len(chunk_store) + i`; an empty batch, or one with a vector of the wrong dimension, raises and changes nothing |
| VectorIndex.FaissService.Search | aimagine/src/services/faiss_service.py:50-78 | the loop over the raw row returns exactly the specified results |
| VectorIndex.FaissService.SaveIndex | aimagine/src/services/faiss_service.py:80-89 | writes the index and the chunk store |
| VectorIndex.FaissService.LoadIndex | aimagine/src/services/faiss_service.py:91-98 | replaces both the index and the chunk store |
| VectorIndex.OtherIndexTypeScoresRawDistances | aimagine/src/services/faiss_service.py:74 | an index type other than "l2" and "cosine" builds an L2 index yet scores raw distances; the index class is chosen at lines 22-27 |
| VectorIndex.IntendedScore | aimagine/src/services/faiss_service.py:74 | the corrected score of the row distance `d`: `1/(1+d)` for an L2 index, `d` itself for an inner-product index |
| VectorIndex.IntendedScoreFollowsIndex | aimagine/src/services/faiss_service.py:74 | with corrected scoring every type that builds an L2 index scores by similarity; the index class is chosen at lines 22-27 |
| KnowledgeBase.SentencePieces | aimagine/src/services/api_service.py:55 | `re.split(r'\.(?:\s+\|\n+)')` gives at least one piece |
| KnowledgeBase.SentencePiecesRebuild | aimagine/src/services/api_service.py:55 | the pieces with the removed separators put back give the text again, each separator a dot and whitespace |
| KnowledgeBase.SentencePiecesMaximal | aimagine/src/services/api_service.py:55 | no piece contains a break and no piece after the first starts with whitespace |
| KnowledgeBase.Sentences | aimagine/src/services/api_service.py:57 | the blank pieces are dropped, so there are at most as many sentences as pieces |
| KnowledgeBase.TokenizeWellFormed | aimagine/src/services/api_service.py:52-57 | every sentence is stripped text plus '.', one per non-blank piece |
| KnowledgeBase.Tokenize | aimagine/src/services/api_service.py:52-57 | the non-blank pieces between sentence breaks, each stripped and ended with a period (stated by `TokenizeWellFormed` and `FinalPeriodDoubled`) |
| KnowledgeBase.FinalPeriodDoubled | aimagine/src/services/api_service.py:55-57 | "A. B." tokenizes to "A." and "B.." |
| KnowledgeBase.WindowsShape | aimagine/src/services/api_service.py:85-86 | with positive size and step, window k is `sentences[k*step : k*step + size]`, one per multiple of the step below the length |
| KnowledgeBase.WindowsOverlap | aimagine/src/services/api_service.py:85-86 | consecutive windows share `size - step` sentences |
| KnowledgeBase.WindowsCover | aimagine/src/services/api_service.py:85-87 | with a step no larger than the size, every sentence lies in some window |
| KnowledgeBase.Subsections | aimagine/src/services/api_service.py:66 | the numbered-label split gives at least one subsection |
| KnowledgeBase.SubsectionsRebuild | aimagine/src/services/api_service.py:66 | joining the subsections with newlines gives the section back, and each later one starts with its label's digit |
| KnowledgeBase.SectionsIgnorePreamble | aimagine/src/services/api_service.py:61 | text before the first '#' does not change the sections |
| KnowledgeBase.SubsectionParts | aimagine/src/services/api_service.py:69-79 | a blank subsection or one without content is skipped; otherwise context and content are the stripped first line and the stripped rest |
| KnowledgeBase.LabelledAt | aimagine/src/services/api_service.py:87-91 | chunk k carries the context and window k joined by single spaces |
| KnowledgeBase.WindowLoop | aimagine/src/services/api_service.py:85-91 | the inner loop appends one chunk per non-empty window, in order |
| KnowledgeBase.ChunkSection | aimagine/src/services/api_service.py:64-91 | one section's loop gives its subsections' chunks in order, or the zero-step error |
| KnowledgeBase.ChunkText | aimagine/src/services/api_service.py:59-93 | `chunk_text` returns the sections' chunks in order, or raises on a zero step |
| KnowledgeBase.ChunkTextSpec | aimagine/src/services/api_service.py:59-93 | the chunks of every section's subsections in order, or the first error a window raises (stated by `ChunkText`, `ChunkSection`, `DefaultNeverFails`) |
| KnowledgeBase.EmbeddingText | aimagine/src/services/api_service.py:98 | the embedded text is the context, ": " and the chunk text |
| KnowledgeBase.EmbeddingTextInjective | aimagine/src/services/api_service.py:98 | chunks with the same context embed the same text only when their texts agree |
| KnowledgeBase.ProcessKnowledgeBaseSpec | aimagine/src/services/api_service.py:151-178 | a processed file reports exactly its chunk count, at least one; no connection, no chunks or a count mismatch is an error; the default window never fails |
| KnowledgeBase.ProcessKnowledgeBase | aimagine/src/services/api_service.py:151-178 | no connection, an unreadable file, a chunking failure, no chunks, or a stored count that differs are errors; otherwise the count stored, which is then positive (further stated by `ProcessKnowledgeBaseSpec`) |
| KnowledgeBase.DefaultNeverFails | aimagine/src/services/api_service.py:59-85 | `chunk_text` with the defaults (3, 1) never raises |
| KnowledgeBase.ValidateQuery | aimagine/src/services/api_service.py:24-27 | a query is accepted exactly when `num_results` is in 1..10 and `min_score` in 0..1 |
| LlmText.NewService | aimagine/src/services/llm_service.py:7-20 | construction succeeds exactly when the API key is set and non-empty, otherwise the `ValueError` message; unset settings take their defaults |
| LlmText.ContextBlocks | aimagine/src/services/llm_service.py:29-30 | one block per retrieved chunk |
| LlmText.ContextBlocksAt | aimagine/src/services/llm_service.py:29-30 | block i is "Context i+1:\n" followed by chunk i's text |
| LlmText.ContextStringSnoc | aimagine/src/services/llm_service.py:29-30 | one more chunk adds "\n\n" and its block, numbered after all earlier ones, at the end of the context string |
| LlmText.ContextStringSingle | aimagine/src/services/llm_service.py:29-30 | a single chunk gives its block alone, with no separator |
| LlmText.ContextBlockInjective | aimagine/src/services/llm_service.py:29-30 | a block determines the number and the text it was built from |
| LlmText.ContextBlock | aimagine/src/services/llm_service.py:29-30 | the block of the i-th chunk: "Context i+1:" on its own line, then the text (stated by `ContextBlocksAt` and `ContextBlockInjective`) |
| LlmText.ContextString | aimagine/src/services/llm_service.py:29-30 | the blocks in retrieval order joined by a blank line (stated by `ContextStringSingle` and `ContextStringSnoc`) |
| LlmText.FillSpec | aimagine/src/services/llm_service.py:69-74 | each value substituted into a two-hole template occurs right after the text preceding it; the same template shape is at lines 42-46 |
| LlmText.AnswerRequest | aimagine/src/services/llm_service.py:22-56 | the request is a system message (the given prompt, or the built-in one when none) and a user message holding the query and then the context string, with the service's model, token limit and temperature |
| LlmText.AnswerPrompt | aimagine/src/services/llm_service.py:41-46 | the user prompt holding the question, then the context string (stated through `AnswerRequest`) |
| LlmText.AnswerOf | aimagine/src/services/llm_service.py:49-61 | the answer is the reply text, or the failure re-raised as "Error generating LLM response: " followed by its message |
| LlmText.FollowupRequest | aimagine/src/services/llm_service.py:69-85 | the follow-up request has its fixed system prompt, a user prompt holding the query and then the response, 200 tokens and temperature 0.7 |
| LlmText.FollowupPrompt | aimagine/src/services/llm_service.py:69-74 | the user prompt holding the question, then the answer, then the number of questions asked for (stated through `FollowupRequest`) |
| LlmText.QuestionsOf | aimagine/src/services/llm_service.py:88-90 | no more questions than lines |
| LlmText.FollowupQuestions | aimagine/src/services/llm_service.py:87-95 | a failed call gives `[]`; otherwise a prefix of the questions, the first `max_questions` of them for a non-negative bound |
| LlmText.QuestionsOfSound | aimagine/src/services/llm_service.py:88-90 | every question is a stripped, non-blank line of the reply |
| LlmText.QuestionsOfComplete | aimagine/src/services/llm_service.py:88-90 | every non-blank line yields its stripped text as a question |
| LlmText.QuestionsOfOrdered | aimagine/src/services/llm_service.py:88-90 | questions keep the order of their lines |
| LlmText.Questions | aimagine/src/services/llm_service.py:88-90 | the stripped non-blank lines of the reply, in order (stated by `QuestionsOfSound`, `QuestionsOfComplete`, `QuestionsOfOrdered`) |
| LlmText.QuestionsSingleLine | aimagine/src/services/llm_service.py:88-90 | no question contains a newline |
| LlmText.FollowupBlankReply | aimagine/src/services/llm_service.py:88-92 | a reply with no non-blank line gives no questions |
| Caches.CacheKey | module12/module12.py:94-96 | the key string is the prompt, ':' and the model; the same key is built at lines 139-141 and 198-200 |
| Caches.KeyAmbiguous | module12/module12.py:96 | ("a:b", "c") and ("a", "b:c") get the same key |
| Caches.KeyInjective | module12/module12.py:96 | without a colon in the prompts, the key determines the prompt and the model |
| Caches.ChatWithoutCache | module12/module12.py:29-83 | the reply text, or "Error: " and the reason on a failed request, never marked as a cache hit |
| Caches.SimpleCache.constructor | module12/module12.py:89-92 | empty store, counters at zero |
| Caches.SimpleCache.Get | module12/module12.py:98-105 | a hit returns the stored reply and counts only a hit; a miss returns nothing and counts only a miss |
| Caches.SimpleCache.Set | module12/module12.py:107-110 | stores the reply under its key, overwriting |
| Caches.SimpleCache.Clear | module12/module12.py:112-116 | empties the store and zeroes both counters |
| Caches.SimpleCache.Stats | module12/module12.py:118-128 | reports the size and both counters |
| Caches.Without | module12/module12.py:143-167 | taking a key out of the order removes exactly that key |
| Caches.WithoutCount | module12/module12.py:143-167 | in a distinct order, taking out a present key removes one position |
| Caches.TouchKeepsOthers | module12/module12.py:148 | moving a key to the end keeps the order of every other key |
| Caches.Touch | module12/module12.py:148 | a held key becomes the most recent, and the others keep their order (stated by `TouchKeepsOthers` and `TouchValid`) |
| Caches.TouchValid | module12/module12.py:143-152 | a lookup keeps the ordered dictionary well formed, and a hit makes the key the most recent |
| Caches.PutValid | module12/module12.py:154-167 | `set` keeps the ordered dictionary well formed and within the capacity |
| Caches.PutPresent | module12/module12.py:156-160 | storing under a present key evicts nothing and makes it the most recent with the new reply |
| Caches.PutNew | module12/module12.py:161-167 | storing a new key into a full cache evicts exactly the least recently used entry, and into one with room evicts nothing |
| Caches.Put | module12/module12.py:154-167 | the key becomes the most recent with the new reply, and the oldest key is dropped when the size passes the capacity (stated by `PutValid`, `PutPresent`, `PutNew`) |
| Caches.LruCache.constructor | module12/module12.py:133-137 | an empty ordered dictionary with the given capacity and counters at zero |
| Caches.LruCache.Get | module12/module12.py:143-152 | a hit returns the reply, counts a hit and makes the key the most recent; a miss counts a miss and leaves the order |
| Caches.LruCache.Set | module12/module12.py:154-167 | the new state is `Put` of the old one: most recent with the new reply, the oldest evicted on overflow |
| Caches.LruCache.Clear | module12/module12.py:169-173 | empties the dictionary and zeroes both counters |
| Caches.Expired | module12/module12.py:232-241 | the expired keys are exactly those whose expiry time has been reached |
| Caches.SetThenLookup | module12/module12.py:202-223 | a reply stored at time t is served exactly while `now < t + ttl` |
| Caches.Lookup | module12/module12.py:202-217 | an entry is served exactly while the time is before its expiry (stated by `SetThenLookup` and `CleanupInvisible`) |
| Caches.CleanupInvisible | module12/module12.py:202-241 | dropping expired entries changes no lookup at the same time and leaves only live entries |
| Caches.NonPositiveTtlDropsAtOnce | module12/module12.py:219-241 | with a non-positive time-to-live a stored reply does not survive a cleanup |
| Caches.TtlCache.constructor | module12/module12.py:191-196 | empty dictionaries, the given time-to-live, counters at zero |
| Caches.TtlCache.Get | module12/module12.py:202-217 | a live entry is a hit; an expired one is removed from both dictionaries and counted as a miss |
| Caches.TtlCache.Set | module12/module12.py:219-223 | stores the reply with expiry `now + ttl` |
| Caches.TtlCache.Clear | module12/module12.py:225-230 | empties both dictionaries and zeroes both counters |
| Caches.TtlCache.Cleanup | module12/module12.py:232-241 | removes exactly the expired entries from both dictionaries and returns their count |
| Caches.ChatWithSimpleCache | module12/module12.py:256-273 | a cached reply is marked as a hit, in the cache too, and returned; otherwise the API reply, errors included, is stored and returned; one lookup is counted |
| Caches.ChatWithLruCache | module12/module12.py:275-292 | the same through the LRU cache: a key already held is one hit and is made the most recent; any other key is one miss, and `Put` stores the API reply |
| Caches.ChatWithTtlCache | module12/module12.py:294-315 | the same through the TTL cache: a live entry is one hit; an absent or expired key is one miss, the API reply is stored with a new expiry and a cleanup follows |
| Memory.EstimateTokens | module6.py:30-41 | the estimate is `len(text) // 4` |
| Memory.MessageTokens | module6.py:44-55 | a message costs 2 plus the estimate of its content |
| Memory.ConversationTokens | module6.py:58-68 | a conversation costs at least 2 per message |
| Memory.ConversationTokensAppend | module6.py:58-68 | the estimate of two conversations together is the sum of their estimates |
| Memory.DropSecondTokens | module6.py:143-147 | popping index 1 lowers the estimate by exactly that message's cost |
| Memory.SystemMessage | module6.py:77 | the message every memory starts with: role "system" and the given text (used by `FreshSessionInfo` and the constructors) |
| Memory.TrimWindow | module6.py:137-141 | with more than `window_size + 1` messages, the first message and `messages[-window_size:]`; otherwise all of them; the result always starts with the system message (further stated by `TrimWindowKeepsNewest` and `WindowZeroDuplicatesSystem`) |
| Memory.TrimTokens | module6.py:287-291 | the trimmed list is never empty when the input is not; the same trim is at lines 143-147 |
| Memory.TrimTokensSpec | module6.py:287-291 | the token trim keeps the first message and a suffix of the rest, so the newest survives in order; afterwards the estimate fits or only two messages remain; a conversation that fits is untouched; the same trim is at lines 143-147 |
| Memory.TrimWindowKeepsNewest | module6.py:137-141 | for a positive window the trim keeps the first message and the newest `window_size`, at most `window_size + 1` in all |
| Memory.WindowZeroDuplicatesSystem | module6.py:137-141 | with `window_size` 0 the trim returns the first message followed by the whole list: one message more, the system message twice |
| Memory.IntendedTrimWindowBound | module6.py:137-141 | the corrected trim keeps the first message and at most `window_size` newest ones for every window size |
| Memory.SummaryPartition | module6.py:184-209 | for a positive active window the summarised and kept messages are exactly the messages after the first, and the result holds `active_window + 2` messages ending in the kept ones |
| Memory.ActiveWindowZeroNeverSummarizes | module6.py:186-188 | an active window of 0 leaves nothing to summarise, since `messages[1:-0]` is empty |
| Memory.ConversationTextSingle | module6.py:190-193 | the summariser text of one message is its "role: content" line |
| Memory.ConversationTextSnoc | module6.py:190-193 | one more message adds a newline and its "role: content" line, so the text holds one line per message, in order |
| Memory.ConversationMemory.constructor | module6.py:74-79 | the message list is the system message alone |
| Memory.ConversationMemory.AddMessage | module6.py:81-90 | appends the message |
| Memory.ConversationMemory.Clear | module6.py:96-98 | back to the system message alone |
| Memory.ConversationMemory.TokenCount | module6.py:100-102 | the estimate of the held messages |
| Memory.TrimToTokens | module6.py:287-291 | the popping loop computes the token trim; the same trim is at lines 143-147 |
| Memory.WindowMemory.constructor | module6.py:108-120 | the system message alone, the window and budget given, an empty full history |
| Memory.WindowMemory.AddMessage | module6.py:122-135 | the message joins the full history, and the window becomes the count trim then the token trim of the list with the message |
| Memory.WindowMemory.GetFullHistory | module6.py:149-151 | the system message and every message ever added |
| Memory.WindowMemory.Clear | module6.py:96-98 | resets the window and leaves the full history |
| Memory.WindowAddKeepsNewest | module6.py:122-147 | with a positive window, adding keeps the system message first and the new message last, with at most `window_size + 1` messages |
| Memory.SummaryMemory.constructor | module6.py:157-173 | the system message alone, no summary, nothing summarised |
| Memory.SummaryMemory.CreateSummary | module6.py:184-209 | the older messages are replaced by the summary on success; the count is recorded even when the summary fails and the messages stay |
| Memory.SummaryMemory.AddMessage | module6.py:175-182 | appends the message and summarises exactly when the estimate exceeds the budget; over budget with nothing to summarise, the summary and count are kept; otherwise the count is the summarised prefix and the summary is the usable reply or the old one |
| Memory.SummaryMemory.Clear | module6.py:250-255 | the system message alone, no summary, nothing summarised |
| Memory.TokenWindowMemory.constructor | module6.py:263-275 | the system message alone, its token cost, and the budget left after it |
| Memory.TokenWindowMemory.AddMessage | module6.py:277-293 | the messages become the token trim of the list with the new message |
| Memory.TokenWindowMemory.Clear | module6.py:96-98 | back to the system message alone |
| Memory.KindFor | module6.py:312-322 | "summary" and "token" get their memories and every other type a window memory |
| Memory.MemoryManager.constructor | module6.py:296-298 | no sessions |
| Memory.MemoryManager.GetMemory | module6.py:300-324 | an existing session is returned unchanged whatever is requested; otherwise a fresh memory of the requested kind is registered |
| Memory.MemoryManager.ClearMemory | module6.py:326-329 | a known session is cleared the way its kind clears and stays well formed; its settings (system message, window or budget, and the token memory's costs) keep their values; an unknown id is ignored |
| Memory.MemoryManager.DeleteSession | module6.py:331-334 | the session is forgotten; an unknown id is ignored |
| Memory.MemoryManager.SessionInfos | module6.py:336-348 | one report per session and no other: its memory class name, `len(messages) - 1` as the message count, and the token estimate of its messages |
| Memory.InfoOf | module6.py:339-347 | the report of one memory: the class name of its kind, `len(messages) - 1`, and a token count of at least 2 per message held |
| Memory.FreshSessionInfo | module6.py:336-348 | a memory holding only its system message reports 0 messages and that message's token estimate |
| Memory.InfoAfterAdd | module6.py:336-348 | one more message raises the reported message count by one and the token count by that message's estimate |
| LoadBalancing.PushSample | module12/module12_load_balancing.py:34-36 | the bounded deque keeps the newest samples, at most 10, the new one last; called at line 86 |
| LoadBalancing.TableIndex | module12/module12_load_balancing.py:51 | Python's table index: a negative index counts from the end |
| LoadBalancing.ChatWithEndpoint | module12/module12_load_balancing.py:40-106 | success records the response time at that endpoint and returns the content; failure marks it unhealthy and returns "Error: ..."; no other endpoint changes |
| LoadBalancing.AdvanceSpec | module12/module12_load_balancing.py:122 | `(i + 1) % n` is the next index, wrapping to 0 |
| LoadBalancing.ScanSpec | module12/module12_load_balancing.py:120-131 | the scan stops at the first healthy endpoint, passing only unhealthy ones |
| LoadBalancing.Scan | module12/module12_load_balancing.py:118-131 | the number of endpoints the loop passes over, from the current index round the table, before a healthy one; the table size when none is healthy |
| LoadBalancing.RoundRobinNext | module12/module12_load_balancing.py:116-131 | the returned index lies in the table |
| LoadBalancing.RoundRobinAfterHealthy | module12/module12_load_balancing.py:121-125 | with a healthy endpoint present, the returned index is the one after the first healthy endpoint, not that endpoint |
| LoadBalancing.TargetMayBeUnhealthy | module12/module12_load_balancing.py:121-136 | from index 0 over a healthy then an unhealthy endpoint, the request goes to the unhealthy one |
| LoadBalancing.IntendedRoundRobinNext | module12/module12_load_balancing.py:116-131 | the corrected selection lies in the table |
| LoadBalancing.IntendedTargetsHealthy | module12/module12_load_balancing.py:121-125 | the corrected selection targets a healthy endpoint whenever one exists |
| LoadBalancing.AllHealthy | module12/module12_load_balancing.py:129-130 | every status becomes healthy and nothing else changes; the same reset is at lines 172-173 |
| LoadBalancing.RoundRobinLoadBalancer.constructor | module12/module12_load_balancing.py:112-114 | the shared table, scanning from 0 |
| LoadBalancing.RoundRobinLoadBalancer.GetNextEndpoint | module12/module12_load_balancing.py:116-131 | returns `RoundRobinNext` and keeps the index in range; with no healthy endpoint, marks all healthy and returns the start |
| LoadBalancing.RoundRobinLoadBalancer.SendRequest | module12/module12_load_balancing.py:116-136 | with no endpoint there is no reply and the index stays; otherwise the index moves to `RoundRobinNext`, the table is first reset to healthy when no endpoint was healthy, and the endpoint at the new index answers: on success it gains a response-time sample, on failure it is marked unhealthy, and the reply names it |
| LoadBalancing.ReplyFrom | module12/module12_load_balancing.py:84-106 | the reply names the endpoint and its model, carries the elapsed time, and reports success exactly when the call succeeded |
| LoadBalancing.Served | module12/module12_load_balancing.py:84-95 | the endpoint after a call: on success its status is kept and the time is appended to its last ten samples; on failure it is unhealthy and its samples are kept; name, model and weight never change |
| LoadBalancing.WeightFor | module12/module12_load_balancing.py:146-162 | a weight is positive exactly for a healthy endpoint, and 1.0 for a healthy endpoint with no samples |
| LoadBalancing.WeightsPositiveIffHealthy | module12/module12_load_balancing.py:146-162 | after `update_weights` every weight is non-negative, and positive exactly for a healthy endpoint |
| LoadBalancing.PickPositive | module12/module12_load_balancing.py:184-189 | a positive draw up to the total picks an endpoint of positive weight |
| LoadBalancing.PickZeroDraw | module12/module12_load_balancing.py:186-188 | a draw of exactly 0 picks the first endpoint whatever its weight |
| LoadBalancing.Pick | module12/module12_load_balancing.py:184-189 | the first endpoint whose running weight total reaches the draw; 0 when none does, so the result is 0 or a position from the start on (further stated by `PickPositive` and `PickZeroDraw`) |
| LoadBalancing.HealthyTotalPositive | module12/module12_load_balancing.py:170-177 | once all endpoints are healthy the total weight is positive |
| LoadBalancing.WeightedLoadBalancer.constructor | module12/module12_load_balancing.py:142-144 | the shared table with its weights computed |
| LoadBalancing.WeightedLoadBalancer.UpdateWeights | module12/module12_load_balancing.py:146-162 | every weight becomes `WeightFor` of its endpoint |
| LoadBalancing.WeightedLoadBalancer.Refresh | module12/module12_load_balancing.py:166-174 | recomputes the weights and, when none is healthy, marks all healthy and recomputes |
| LoadBalancing.WeightedLoadBalancer.GetNextEndpoint | module12/module12_load_balancing.py:164-192 | an empty table raises; otherwise the index lies in the table, and a positive draw picks a healthy endpoint; the statuses are reset only when no endpoint was healthy, and are left alone otherwise |
| LoadBalancing.WeightedLoadBalancer.MarkAllHealthy | module12/module12_load_balancing.py:172-173 | the table becomes `AllHealthy` of the old one |
| LoadBalancing.Choose | module12/module12_load_balancing.py:184-192 | the walk over the running total stops inside the table at `Pick`, and at a positive weight for a positive draw |
| LoadBalancing.DrawBelowTotal | module12/module12_load_balancing.py:184 | the scaled draw lies in [0, total) |
| LoadBalancing.Draw | module12/module12_load_balancing.py:184 | `random.uniform(0, total)` as the uniform number scaled by the total weight (stated by `DrawBelowTotal`) |
| LoadBalancing.SomeHealthyTotalPositive | module12/module12_load_balancing.py:146-177 | one healthy endpoint makes the total weight positive |
| Tools.Register | module14/tools.py:20-35 | registering replaces the name's entry; a new name is appended to the listing order, and a known name keeps its place |
| Tools.MakeEntry | module14/tools.py:31-35 | the entry keeps description and function, and a missing parameter list becomes empty |
| Tools.Lookup | module14/tools.py:37-41 | found exactly when the name is registered, with its entry; otherwise the not-found error naming the tool |
| Tools.List | module14/tools.py:43-52 | one listing item per registered name |
| Tools.Info | module14/tools.py:45-51 | the item `list_tools` shows for a tool: its name, description and parameters (stated through `ListMatchesRegistry`) |
| Tools.RegisterWellFormed | module14/tools.py:20-35 | registration keeps the table and its insertion order in step |
| Tools.LookupAfterRegister | module14/tools.py:20-41 | a registered tool is found, and registering leaves every other name's lookup unchanged |
| Tools.ListMatchesRegistry | module14/tools.py:43-52 | the listing shows each registered tool exactly once, with its own description and parameters |
| Tools.ListRegisterNew | module14/tools.py:20-52 | a new tool is listed last, after the earlier ones unchanged |
| Tools.ListRegisterExisting | module14/tools.py:20-52 | re-registering a tool changes only its own listing item, in place |
| Tools.Execute | module14/tools.py:54-72 | an unknown name raises; otherwise the function's result, or its exception as an error string naming the tool |
| Tools.ToolRegistry.constructor | module14/tools.py:17-18 | a new registry is empty |
| Tools.ToolRegistry.RegisterTool | module14/tools.py:20-35 | the registry becomes `Register` of the old one with the built entry, and stays well formed |
| Tools.CalculatorExpression | module14/tools.py:88 | no `^` remains, and an expression without `^` is unchanged |
| Tools.CalculatorExpressionLength | module14/tools.py:88 | each `^` becomes two characters, so the length grows by the number of carets |
| Tools.Calculator | module14/tools.py:77-111 | the rewritten expression's value, or `Invalid expression: ` and the evaluation error |
| Tools.CurrentTime | module14/tools.py:114-127 | `Current time (`, the timezone, `): `, then the clock reading |
| Tools.SearchWikipedia | module14/tools.py:130-145 | the fixed mock reply with the query quoted at its place |
| Tools.CreateDefaultToolRegistry | module14/tools.py:148-199 | a fresh registry holding the calculator, the clock and the Wikipedia search, in that order |
| Agent.DetermineIfTask | module14/agent_framework.py:120-163 | a time or arithmetic keyword makes a task without asking the model; otherwise the failed request's exception escapes, or a task exactly when the reply parses to `is_task` true |
| Agent.KeywordPlan | module14/agent_framework.py:176-202 | a keyword plan is a single tool step naming a default tool |
| Agent.Normalized | module14/agent_framework.py:237-250 | one step per item of the model's list |
| Agent.ModelPlan | module14/agent_framework.py:206-257 | a list reply gives one step per item; any other reply gives a single step without a tool |
| Agent.PlanTask | module14/agent_framework.py:165-257 | the plan is `PlanOf`; a model list keeps dictionary items as they are and numbers other items as plain description steps |
| Agent.PlanOf | module14/agent_framework.py:165-257 | the keyword plan when the task matches one, else the model's plan normalised item by item (stated by `PlanTask` and `KeywordPlansAreTasks`) |
| Agent.KeywordPlansAreTasks | module14/agent_framework.py:134-138 | every input that gets a keyword plan is classified as a task, whatever the model would answer or raise; the planner is at lines 179-202 |
| Agent.SquarePlanExpression | module14/agent_framework.py:185-195 | "square of" with a digit plans one calculator step for `n * n`, where `n` is the first run of digits |
| Agent.BinaryAt | module14/agent_framework.py:310 | a match starting at a position ends after it, inside the text |
| Agent.BinaryAtShape | module14/agent_framework.py:310 | a match starts and ends with a digit and holds an operator in between |
| Agent.SearchBinary | module14/agent_framework.py:310 | the match found lies in the text, at or after the start |
| Agent.SearchBinaryLeftmost | module14/agent_framework.py:310 | the search finds a match whenever one exists, and none starts earlier than it |
| Agent.FallbackExpression | module14/agent_framework.py:306-320 | the leftmost `digits operator digits` text when there is one; `2 + 2` when neither that nor a square request is there |
| Agent.ToolParameters | module14/agent_framework.py:259-326 | a preset expression or the time tool need no model; an unknown tool otherwise raises not-found |
| Agent.ToolStep | module14/agent_framework.py:338-347 | fails exactly when the parameters cannot be found; a registered tool gives `Tool result: ` and its output |
| Agent.ExecuteStep | module14/agent_framework.py:328-373 | only a tool step naming an unregistered tool raises |
| Agent.ModelStep | module14/agent_framework.py:355-373 | a step without a tool: the model's reply, or the fallback text when the call fails |
| Agent.StepFallback | module14/agent_framework.py:362-373 | the fallback: the current time for a step about time, the square of the first number for a step about a square with a number, else "Completed step: ..." |
| Agent.RunFrom | module14/agent_framework.py:447-455 | all steps run unless one raises, and no results after that one |
| Agent.RunFromSpec | module14/agent_framework.py:447-455 | each result is what its step returned, and a failure is the error of the next step |
| Agent.StepKeyInjective | module14/agent_framework.py:455 | different step numbers give different `step_<n>` keys |
| Agent.CollectedSpec | module14/agent_framework.py:455 | the collected information has exactly the keys `step_1` to `step_<n>`, each holding its step's result |
| Agent.TaskResponse | module14/agent_framework.py:429-471 | the task reply opens with the plan announcement and ends with the summary |
| Agent.Agent.constructor | module14/agent_framework.py:40-53 | model and temperature kept, a well-formed registry holding exactly the calculator, clock and search tools in that order, and an empty state |
| Agent.Agent.ResetState | module14/agent_framework.py:55-64 | the state is empty again; the model and the tools are kept |
| Agent.Agent.AddMessageToConversation | module14/agent_framework.py:66-75 | the message is appended to the conversation |
| Agent.Agent.ProcessUserInput | module14/agent_framework.py:401-480 | the system message opens an empty conversation and the user message is appended; a failed classification request (line 156) escapes with the task state untouched; a question returns the chat reply, or the chat request's exception (line 475), and leaves the task state; a task is handled by `HandleTask` on `PlanOf`; the reply is appended unless an exception escaped |
| Agent.Agent.HandleTask | module14/agent_framework.py:427-471 | the plan is current and the results collected; a step's escaping error leaves the task not completed; otherwise the task is completed, and answers in full unless the summary request (line 397, called at 460) raises, which escapes with no reply appended |
| Agent.Agent.RunPlan | module14/agent_framework.py:447-455 | the results are `RunFrom`'s, collected under their step keys, with the step index at the last step run |
| Agent.ListPlan | module14/agent_framework.py:438-442 | the plan listing, one line per step |
| Agent.ListResults | module14/agent_framework.py:464-469 | the results listing, one block per step |
| Agent.TimeQuestionUsesClock | module14/agent_framework.py:338-345 | a time question is a task, planned as the clock step, whose result is the clock tool's output for the local timezone; the routing is at lines 134-135, 179-182 and 275-276 |
| KycDetect.PanStarts | kycmask/unpop.py:122-125 | the PAN match positions in increasing order, each a ten-character PAN at word boundaries |
| KycDetect.PanStartsComplete | kycmask/unpop.py:122-125 | every PAN occurrence is among the match positions |
| KycDetect.NoPanInside | kycmask/unpop.py:122 | two PAN matches cannot overlap |
| KycDetect.PanStartsGap | kycmask/unpop.py:125 | after a match the scan resumes past its ten characters and loses nothing |
| KycDetect.FindPans | kycmask/unpop.py:122-125 | every reported PAN has the PAN shape |
| KycDetect.FindPansAllStarts | kycmask/unpop.py:125 | the reported PANs are exactly the texts at the match positions, in order |
| KycDetect.PanReportedIff | kycmask/unpop.py:122-125 | a text is reported as a PAN exactly when it occurs in the input at word boundaries |
| KycDetect.SkipSpace | kycmask/unpop.py:123 | the optional separator skips at most one character |
| KycDetect.AadhaarEnd | kycmask/unpop.py:123 | an Aadhaar match spans 12 to 14 characters |
| KycDetect.AadhaarSpans | kycmask/unpop.py:123-126 | the Aadhaar matches are found at their starts and do not overlap, left to right |
| KycDetect.AadhaarCovered | kycmask/unpop.py:126 | every place an Aadhaar number starts lies inside some reported match |
| KycDetect.AadhaarDigits | kycmask/unpop.py:123 | a match holds exactly twelve digits and ends with the last four of them |
| KycDetect.FindAadhaar | kycmask/unpop.py:126 | one reported text per Aadhaar match |
| KycDetect.DetectSensitiveInfo | kycmask/unpop.py:121-128 | PANs have the PAN shape and Aadhaar texts are 12 to 14 characters long |
| KycMask.CollectWords | kycmask/unpop.py:139-146 | the nested walk over pages, blocks, paragraphs and words lists every word in document order |
| KycMask.AppendBlock | kycmask/unpop.py:141-146 | one block's words are appended in order |
| KycMask.AppendParagraph | kycmask/unpop.py:142-146 | one paragraph's words are appended in order |
| KycMask.MinOf | kycmask/unpop.py:156-159 | the minimum is an element and no element is below it |
| KycMask.MaxOf | kycmask/unpop.py:156-159 | the maximum is an element and no element is above it |
| KycMask.ExtremesAt | kycmask/unpop.py:156-159 | each word contributes the extremes of its own corners |
| KycMask.ExtentHolds | kycmask/unpop.py:156-159 | every corner of every word lies between the window's extremes |
| KycMask.WindowBoxCovers | kycmask/unpop.py:156-159 | the painted rectangle contains every corner of the window's words and is not inverted; the same box is at lines 173-176 |
| KycMask.Centered | kycmask/unpop.py:163-165 | the caption is centred in the rectangle, up to the rounding of floor division; the same placement is at lines 181-183 |
| KycMask.PanLabel | kycmask/unpop.py:162 | the PAN caption is nine characters ending in the PAN's last four |
| KycMask.AadhaarLabel | kycmask/unpop.py:180 | the Aadhaar caption is fourteen characters ending in the last four digits |
| KycMask.PanDisplay | kycmask/unpop.py:254 | the listed PAN keeps its first two and last three characters around five X's |
| KycMask.AadhaarDisplayMatchesLabel | kycmask/unpop.py:180 | the listed Aadhaar text and the painted caption show the same last four digits; the label is at line 261 |
| KycMask.AadhaarDisplay | kycmask/unpop.py:261 | an Aadhaar number shown as "XXXX XXXX " and its last four characters (stated by `AadhaarDisplayMatchesLabel` and `ReportMasksAadhaars`) |
| KycMask.DigitForms | kycmask/unpop.py:171 | one digits-only form per Aadhaar number |
| KycMask.DigitFormsAt | kycmask/unpop.py:171 | each form is its number with the spaces removed |
| KycMask.DrawnWindow | kycmask/unpop.py:149-186 | the marks drawn for a window are `WindowMarks` of it |
| KycMask.MaskWords | kycmask/unpop.py:148-186 | the two nested window loops draw `MaskMarks` |
| KycMask.MaskTextInImage | kycmask/unpop.py:131-190 | the marks drawn on an image are `MaskMarks` of its words in document order |
| KycMask.MaskRow | kycmask/unpop.py:150-186 | the inner loop draws the row of windows starting at one word |
| KycMask.MaskWindow | kycmask/unpop.py:151-186 | one window draws its PAN part, then its Aadhaar part |
| KycMask.WindowMarks | kycmask/unpop.py:151-186 | a window of words gets a PAN mark when its cleaned text is a detected PAN, then an Aadhaar mark when its digits are a detected Aadhaar number (stated by `MaskWindow` and `WindowMarksFacts`) |
| KycMask.MaskMarks | kycmask/unpop.py:148-186 | every window of one to four consecutive words, by start word then length (stated by `MaskWords`, `MarksSound` and `MaskedIff`) |
| KycMask.PanPart | kycmask/unpop.py:154-168 | one covering rectangle and PAN caption when the cleaned window text is a detected PAN, nothing otherwise |
| KycMask.AadhaarPart | kycmask/unpop.py:170-186 | one covering rectangle and Aadhaar caption when the cleaned window text is a detected number's digits, nothing otherwise |
| KycMask.WindowMarksFacts | kycmask/unpop.py:151-186 | a window's marks belong to it, are justified by a detected number and come PAN first |
| KycMask.RowOfFrom | kycmask/unpop.py:150 | every mark of a row comes from one of its windows |
| KycMask.AllOfFrom | kycmask/unpop.py:149-150 | every mark comes from a window of at most four words |
| KycMask.RowOfOrdered | kycmask/unpop.py:150 | a row's marks are in window order |
| KycMask.AllOfOrdered | kycmask/unpop.py:149-150 | all marks are in window order |
| KycMask.DrawnKeepsOrder | kycmask/unpop.py:149-186 | each window's marks are ordered and follow the earlier windows' |
| KycMask.MarksSound | kycmask/unpop.py:148-186 | every mark is justified, the marks are in order, and no window is painted twice with the same kind |
| KycMask.MaskedIff | kycmask/unpop.py:149-186 | a window of at most four words gets a PAN mark exactly when its cleaned text is a detected PAN, and an Aadhaar mark exactly when it is a detected number's digits |
| KycShield.SplitLast | kycmask/unpop.py:216 | the last piece of a split is the text after the last separator, or all of it |
| KycShield.Extension | kycmask/unpop.py:216 | the extension has no upper-case letter |
| KycShield.ExtensionSpec | kycmask/unpop.py:216 | the extension is the lower-cased text after the last dot, or the whole name without one |
| KycShield.RouteCases | kycmask/unpop.py:296-304 | images are masked exactly for jpg, jpeg and png; a PDF is masked exactly at two pages or fewer; every other extension is turned away by name; the other routes are at lines 216-218 and 395-396 |
| KycShield.RouteUpload | kycmask/unpop.py:296-304 | images by extension are masked, PDFs of at most two pages are masked and longer ones turned away, any other type is turned away (stated by `RouteCases`) |
| KycShield.ShieldImage | kycmask/unpop.py:218-231 | a Vision error raises "Vision API Error: " and the message (lines 115-116), and nothing is shown; otherwise the detected numbers are those in the image's text, and its marks are `ImageMarks` |
| KycShield.ImageMarks | kycmask/unpop.py:218-231 | the marks drawn on an image: the masking of its OCR words against the numbers found in its text (stated by `ShieldImage`) |
| KycShield.PanLines | kycmask/unpop.py:253-255 | one listed line per PAN |
| KycShield.AadhaarLines | kycmask/unpop.py:260-262 | one listed line per Aadhaar number |
| KycShield.PanLinesAt | kycmask/unpop.py:253-255 | each PAN is listed masked |
| KycShield.AadhaarLinesAt | kycmask/unpop.py:260-262 | each Aadhaar number is listed masked |
| KycShield.ReportLine | kycmask/unpop.py:244-265 | the report lists the PANs, then the Aadhaar numbers, each masked |
| KycShield.ReportLineNotPan | kycmask/unpop.py:244-265 | no report line is itself a PAN |
| KycShield.ReportNothingFound | kycmask/unpop.py:264-265 | the "nothing detected" notice appears exactly when nothing was found; the count is at line 244 |
| KycShield.ReportMasksPans | kycmask/unpop.py:253-255 | each PAN shows its first two and last three characters only |
| KycShield.ReportMasksAadhaars | kycmask/unpop.py:260-262 | each Aadhaar number shows its last four characters only |
| KycShield.ReportShowsNoPan | kycmask/unpop.py:244-265 | no detected PAN appears in the report in full |
| KycShield.Report | kycmask/unpop.py:244-265 | the masked PAN lines then the masked Aadhaar lines, or the "nothing found" message when there are none: never empty, one line per number when any was found (further stated by `ReportLine` and `ReportNothingFound`) |
| KycShield.PdfMarks | kycmask/unpop.py:318-326 | one masked image per page |
| KycShield.PdfMarksAt | kycmask/unpop.py:323-326 | each page is masked as an image on its own |
| KycShield.FoundStep | kycmask/unpop.py:321-322 | each page adds its detected numbers to the collected sets |
| KycShield.ShieldPdf | kycmask/unpop.py:314-328 | the pages are masked one by one and the detected numbers collected across pages; a Vision error on any page raises the first failing page's error, and no page is shown |
| KycShield.FirstFailure | kycmask/unpop.py:318-320 | the first page whose OCR request fails: every earlier page succeeds, and the page itself fails, or the page count when none fails |
| KycShield.PdfPansIff | kycmask/unpop.py:318-322 | a PAN is collected exactly when it occurs on some page |
| KycShield.PdfAadhaarsIff | kycmask/unpop.py:318-322 | an Aadhaar text is collected exactly when some page reports it |
| Notebook.FirstIndex | paper-to-notebook/backend/app.py:352 | the index of the first occurrence of the character, or none when it does not occur |
| Notebook.UnfenceFails | paper-to-notebook/backend/app.py:349-357 | unfencing raises exactly when the stripped reply opens with a fence and has no newline, with the caller's error |
| Notebook.UnfenceTrimmed | paper-to-notebook/backend/app.py:357 | the unfenced text has no whitespace at either end |
| Notebook.UnfenceRoundTrip | paper-to-notebook/backend/app.py:349-357 | a fenced body comes back as the body, and an unfenced body as itself |
| Notebook.Unfence | paper-to-notebook/backend/app.py:347-355 | the reply stripped, an opening fence line and a closing fence removed, then stripped again; an opening fence without a newline raises (stated by `UnfenceFails`, `UnfenceTrimmed`, `UnfenceRoundTrip`) |
| Notebook.RepairPrompt | paper-to-notebook/backend/app.py:361-366 | the repair request holds the first 4000 characters of the text right after its head, then the decoder's error |
| Notebook.RepairTokens | paper-to-notebook/backend/app.py:372 | the repair budget is the larger of 4096 and half the text's length |
| Notebook.ParseLlmJson | paper-to-notebook/backend/app.py:347-381 | a reply that decodes after unfencing is returned without a repair request; any repair request asks for at least 4096 tokens |
| Notebook.ParseLlmJsonSources | paper-to-notebook/backend/app.py:347-381 | a result is the first decode or the decode of the unfenced repair; a repair is asked only after the first decode fails, with the budget, the first 4000 characters and the decode error |
| Notebook.RetryFrom | paper-to-notebook/backend/app.py:324-344 | at most the remaining attempts are made, with no more sleeps than calls |
| Notebook.RetryStep | paper-to-notebook/backend/app.py:335-340 | a transient error sleeps the attempt's delay and moves on to the next attempt |
| Notebook.CallWithRetry | paper-to-notebook/backend/app.py:313-344 | the loop's reply, sleeps and call count are `RetryFrom` from the first attempt |
| Notebook.RetrySleeps | paper-to-notebook/backend/app.py:337-340 | the sleeps are the fixed delays in order, one per retried attempt |
| Notebook.RetryGivesUp | paper-to-notebook/backend/app.py:324-344 | the retry gives up exactly when every remaining attempt fails transiently, after all attempts and delays, naming the last error |
| Notebook.RetryReplies | paper-to-notebook/backend/app.py:324-326 | a reply is returned exactly when some attempt replies after only transient failures |
| Notebook.RetryKeyFirst | paper-to-notebook/backend/app.py:331-332 | an invalid-key error stops at once, without sleeping |
| Notebook.CellsOf | paper-to-notebook/backend/app.py:400-410 | one notebook cell per cell description |
| Notebook.BuildNotebook | paper-to-notebook/backend/app.py:387-412 | the notebook holds the converted cells, or the conversion's error is raised |
| Notebook.CellsOfErrSticks | paper-to-notebook/backend/app.py:410 | once a cell fails, the rest cannot change the outcome |
| Notebook.CellsOfSpec | paper-to-notebook/backend/app.py:400-410 | conversion succeeds exactly when every cell is markdown or code, and each cell keeps its source and kind |
| Notebook.CellsOfFirstError | paper-to-notebook/backend/app.py:409-410 | the error names the first unknown cell type |
| Notebook.FormulaStart | paper-to-notebook/backend/app.py:467 | the cut is at the first `=` or `(` |
| Notebook.CleanMetric | paper-to-notebook/backend/app.py:466-468 | a cleaned metric has no `=` or `(` and no trailing comma |
| Notebook.CleanMetricCutsFormula | paper-to-notebook/backend/app.py:467 | a metric name followed by spaces and a formula cleans to the name |
| Notebook.KeptMetrics | paper-to-notebook/backend/app.py:469 | the kept metrics are no more than given and none is empty |
| Notebook.CleanMetrics | paper-to-notebook/backend/app.py:469 | at most four metrics are kept |
| Notebook.KeptMetricsSound | paper-to-notebook/backend/app.py:469 | every kept metric is the cleaning of a given one |
| Notebook.KeptMetricsComplete | paper-to-notebook/backend/app.py:469 | every metric whose cleaning is not empty is kept |
| Notebook.JobId | paper-to-notebook/backend/app.py:651 | a job id is twelve characters; the draft id is at line 755 |
| Notebook.Unscored | paper-to-notebook/backend/app.py:853 | removing the underscores leaves an alphanumeric text exactly when the id has only letters, digits and underscores |
| Notebook.DownloadIdIff | paper-to-notebook/backend/app.py:853 | an id is accepted exactly when it has only letters, digits and underscores and is not all underscores; the same check is at line 881 |
| Notebook.IssuedIdsPass | paper-to-notebook/backend/app.py:853 | every job id and draft id the server issues passes the download check; the ids are issued at lines 651-652 and 755-756 |
| Notebook.CheckUpload | paper-to-notebook/backend/app.py:741-753 | an accepted upload yields the stripped, non-empty API key |
| Notebook.CheckUploadIff | paper-to-notebook/backend/app.py:741-753 | an upload is accepted exactly with a `.pdf` name in any case, a non-blank key and a size within the limit; a non-PDF name is refused first |
| Notebook.ArxivAt | paper-to-notebook/backend/app.py:622 | a match starts at `arxiv.org/` |
| Notebook.ArxivAtShape | paper-to-notebook/backend/app.py:622 | the paper id is digits, a dot, then digits |
| Notebook.ArxivSearchLeftmost | paper-to-notebook/backend/app.py:622 | the search returns the leftmost match, or none when there is none |
| Notebook.CheckArxivSpec | paper-to-notebook/backend/app.py:608-627 | a request is accepted exactly with a non-blank key and an arXiv URL, and fetches the PDF of the leftmost paper id |
| Notebook.CheckArxiv | paper-to-notebook/backend/app.py:608-627 | a blank API key is a 400, then a link without a paper id is a 400; otherwise the stripped key and the PDF address (stated by `CheckArxivSpec`) |
| Notebook.CheckFetch | paper-to-notebook/backend/app.py:630-648 | the download is used exactly when it succeeded with status 200 and fits the limit; otherwise a 500 or 413 error |
| PromptFormat.FamilyOfFirstRule | edtech/Chatbot_Tutorial/module11/module11.py:507-539 | the family is the first rule whose names occur in the lowered model name |
| PromptFormat.LowerTwice | edtech/Chatbot_Tutorial/module11/module11.py:507 | lower-casing twice is lower-casing once |
| PromptFormat.FamilyIgnoresCase | edtech/Chatbot_Tutorial/module11/module11.py:507 | the family does not depend on the model name's case |
| PromptFormat.RenderSpec | edtech/Chatbot_Tutorial/module11/module11.py:510-539 | the template places the user message at a fixed offset and ends with the assistant opener; the system prompt appears where the family has one and changes nothing where it does not |
| PromptFormat.UserMessageRecovered | edtech/Chatbot_Tutorial/module11/module11.py:495-539 | the user message is recovered exactly from between the template's head and its opener |
| PromptFormat.FamilyOf | edtech/Chatbot_Tutorial/module11/module11.py:507-535 | the family of the lowered model name, the first matching family in the source's order winning (stated by `FamilyOfFirstRule` and `FamilyIgnoresCase`) |
| PromptFormat.Render | edtech/Chatbot_Tutorial/module11/module11.py:510-539 | each family's template around the user message, with the system prompt in the Llama 2, ChatML and default templates (stated by `RenderSpec`) |
| PromptFormat.FormatPromptForModel | edtech/Chatbot_Tutorial/module11/module11.py:495-539 | the prompt holds the user message verbatim where its family puts it and ends with that family's assistant turn; a family with a system slot holds the system prompt right after its head |
| PromptFormat.FormatWithDefault | edtech/Chatbot_Tutorial/module11/module11.py:577 | the benchmark's call without a system prompt: the default one is placed in the families that take one, and the other families do not depend on it |
| Streaming.Payload | module12/module12_streaming.py:136-146 | a line that yields a payload never yields the `[DONE]` marker |
| Streaming.Deltas | module12/module12_streaming.py:135-171 | at most one delta per line |
| Streaming.ChatWithStreaming | module12/module12_streaming.py:121-198 | the loop's reply is `StreamReply`: an aborted request gives the error text with zero time and tokens, and otherwise one token is counted per delta |
| Streaming.ReadLine | module12/module12_streaming.py:136-171 | one line's delta is `LineDelta` |
| Streaming.ChunkStep | module12/module12_streaming.py:159-164 | one more line appends its delta to the text and the count, and sets the first-token time only when none was set |
| Streaming.FirstTokenWhenDelta | module12/module12_streaming.py:159-176 | a first-token time exists exactly when some delta arrived |
| Streaming.FirstTokenIsFirst | module12/module12_streaming.py:159-160 | the first-token time is the arrival of the first line that carried a delta |
| Streaming.NoFirstTokenNoDelta | module12/module12_streaming.py:159-176 | without a first-token time no line carried a delta |
| Streaming.DeltasAppend | module12/module12_streaming.py:135-171 | the deltas of two stretches of the stream are the deltas of each, in order |
| Streaming.FirstTokenAppend | module12/module12_streaming.py:159-160 | a later stretch sets the first-token time only when the earlier one did not |
| Streaming.SkippedChunkIgnored | module12/module12_streaming.py:136-171 | a line without a delta changes nothing in the reply |
| Streaming.SkippedLines | module12/module12_streaming.py:136-146 | empty lines, the `[DONE]` marker with or without its prefix, and text that is not JSON are skipped; only one `data: ` prefix is removed; the loop is at lines 169-171 |
| Streaming.EmptyDeltaCounted | module12/module12_streaming.py:155-164 | an empty delta leaves the text as it is but still counts a token |
| Streaming.PlainTokenCount | module12/module12_streaming.py:62-83 | a reply of words separated by single spaces counts one token per word |
| Streaming.LineDelta | module12/module12_streaming.py:136-164 | the delta of one line: none for an empty line, the end marker, a payload that is not JSON, or an object without `choices[0].delta.content` (stated through `Deltas`, `SkippedLines` and `SkippedChunkIgnored`) |
| Streaming.StreamReply | module12/module12_streaming.py:121-198 | the streaming result: the deltas concatenated, their number and the time of the first one; a failed request gives "Error: ..." and zeros (stated by `ChatWithStreaming` and the `FirstToken` lemmas) |
| Streaming.ChatWithoutStreaming | module12/module12_streaming.py:62-83 | the plain result: the reply with its number of whitespace-separated words, or "Error: ..." with 0 (stated by `PlainTokenCount`) |
| Chatbot.GroqChatbot.constructor | module2.py:13-30 | the key and model are kept, and the conversation holds only the system message |
| Chatbot.GroqChatbot.SendMessage | module2.py:32-71 | the user message joins the conversation before the request, which carries all of it; a reply joins it and is returned; a failed request returns `Error: ` and the message and leaves the user message unanswered |
| Chatbot.GroqChatbot.ClearHistory | module2.py:73-78 | the conversation is the system message alone, with an empty transcript, and the notice is returned |
| Chatbot.GroqChatbot.ChangeModel | module2.py:80-83 | the model is replaced and the conversation kept, with the confirmation text |
| Chatbot.GroqChatbot.DisplayHistory | module2.py:85-92 | the loop builds `Transcript` of the conversation |
| Chatbot.TranscriptAppend | module2.py:85-92 | the transcript of two conversations one after the other is the two transcripts joined |
| Chatbot.TranscriptStep | module2.py:88-91 | one more message adds its own block |
| Chatbot.TranscriptOfExchange | module2.py:88-91 | an answered message shows as a `You` block then an `AI` block |
| Chatbot.TranscriptSkipsSystem | module2.py:89 | a system message anywhere leaves the transcript unchanged |
| Chatbot.StripUnchanged | module2.py:104 | text with no whitespace at either end is its own strip |
| Chatbot.LowerOfLower | module2.py:107-117 | text without capitals is its own lower case |
| Chatbot.ParseSpell | module2.py:103-124 | reading back a spelled command gives the command |
| Chatbot.ParseKeyword | module2.py:107-116 | `exit`, `clear` and `history` read as their commands |
| Chatbot.ModelPrefixAnyCase | module2.py:117-118 | `model:` is recognised in any case, and the name after it keeps its own case |
| Chatbot.ParseCommand | module2.py:103-124 | a line is stripped and read in lower case as exit, clear, history or `model:<name>`, the name stripped with its case kept; any other line is a message. Every result is a command some line spells, so `ParseSpell` reads it back |
| Chatbot.Transcript | module2.py:85-92 | the history display: each user or assistant message in order, as its speaker, a colon, the content and a blank line; system messages show nothing (stated by `TranscriptAppend`, `TranscriptStep`, `TranscriptSkipsSystem`) |
| Transform.MapOfValues | edtech/vyaparbazaar-main/scripts/transform_to_vyaparbazaar.py:42-53 | every city list in the table is one of the listed ones |
| Transform.GenericCities | edtech/vyaparbazaar-main/scripts/transform_to_vyaparbazaar.py:58 | an unlisted state gets three made-up city names |
| Transform.FillCities | edtech/vyaparbazaar-main/scripts/transform_to_vyaparbazaar.py:56-58 | the loop keeps every listed state's cities and gives each other state its three generic cities, adding nothing else |
| Transform.FilledSpec | edtech/vyaparbazaar-main/scripts/transform_to_vyaparbazaar.py:56-58 | the filled table covers the listed and the named states, keeps the listed entries and fills the rest generically |
| Transform.Filled | edtech/vyaparbazaar-main/scripts/transform_to_vyaparbazaar.py:56-58 | the city table with each missing state given its generic towns (stated by `FillCities` and `FilledSpec`) |
| Transform.MajorCities | edtech/vyaparbazaar-main/scripts/transform_to_vyaparbazaar.py:34-58 | the listed cities of the ten listed states, and generic towns for every other state (stated by `MajorCitiesCover` and `ListedFive`) |
| Transform.ListedFive | edtech/vyaparbazaar-main/scripts/transform_to_vyaparbazaar.py:42-53 | each listed state has five cities |
| Transform.MajorCitiesCover | edtech/vyaparbazaar-main/scripts/transform_to_vyaparbazaar.py:34-58 | after filling, every state that can be drawn has at least three cities |
| Transform.TransformCustomers | edtech/vyaparbazaar-main/scripts/transform_to_vyaparbazaar.py:160-183 | one customer per row, keeping both ids, with the drawn postcode, the state at the drawn index of the state list and the city at the drawn index of that state's list |
| Transform.TransformSellers | edtech/vyaparbazaar-main/scripts/transform_to_vyaparbazaar.py:316-338 | one seller per row, keeping the id, with the drawn postcode, the state at the drawn index of the state list and the city at the drawn index of that state's list |
| Transform.WholeDays | edtech/vyaparbazaar-main/scripts/transform_to_vyaparbazaar.py:199-207 | `timedelta.days`: the whole days of a difference in seconds (stated by `WholeDaysFloor`) |
| Transform.WholeDaysFloor | edtech/vyaparbazaar-main/scripts/transform_to_vyaparbazaar.py:199-207 | the whole days are rounded down, also when the difference is negative |
| Transform.TruncDiv | edtech/vyaparbazaar-main/scripts/transform_to_vyaparbazaar.py:209 | `int()` of a quotient (stated by `TruncDivTowardZero`) |
| Transform.TruncDivTowardZero | edtech/vyaparbazaar-main/scripts/transform_to_vyaparbazaar.py:209 | `int()` of a quotient rounds toward zero: the result has the sign of the dividend and times the divisor lies within one divisor of it |
| Transform.MapDate | edtech/vyaparbazaar-main/scripts/transform_to_vyaparbazaar.py:205-222 | with clamping draws in range, the mapped day lies inside the new three-year window; the same mapping is at lines 404-421 |
| Transform.MapDateProportional | edtech/vyaparbazaar-main/scripts/transform_to_vyaparbazaar.py:207-214 | away from the edges, the mapped day is the day's share of the old span scaled to the new one, plus the jitter, and the share never passes the window |
| Transform.DivMonotone | edtech/vyaparbazaar-main/scripts/transform_to_vyaparbazaar.py:208-209 | helper for `MapDateProportional`: a larger numerator never gives a smaller quotient |
| Transform.MulMonotone | edtech/vyaparbazaar-main/scripts/transform_to_vyaparbazaar.py:208-209 | helper for `MapDateProportional`: scaling by a non-negative factor keeps the order |
| Transform.MapColumn | edtech/vyaparbazaar-main/scripts/transform_to_vyaparbazaar.py:233-234 | missing dates stay missing and present ones are each mapped with their own draw, inside the window; the same mapping is at lines 426-427 |
| Transform.Earliest | edtech/vyaparbazaar-main/scripts/transform_to_vyaparbazaar.py:197 | the earliest date is one of the dates and precedes all; the same at line 396 |
| Transform.Latest | edtech/vyaparbazaar-main/scripts/transform_to_vyaparbazaar.py:198 | the latest date is one of the dates and follows all; the same at line 397 |
| Transform.OriginalSpanCovers | edtech/vyaparbazaar-main/scripts/transform_to_vyaparbazaar.py:197-207 | every date's day offset lies between zero and the original span |
| Transform.FixOrder | edtech/vyaparbazaar-main/scripts/transform_to_vyaparbazaar.py:237-264 | the purchase date is kept; approval and estimate are always set; carrier and delivery dates are set exactly when they were; and with draws in range approval, carrier and delivery follow each other in order |
| Transform.FixOrderMayLeaveRange | edtech/vyaparbazaar-main/scripts/transform_to_vyaparbazaar.py:264 | an estimate drawn for a purchase on the last day falls after the window |
| Transform.FixOrders | edtech/vyaparbazaar-main/scripts/transform_to_vyaparbazaar.py:237-264 | every order is fixed in place with its own draw |
| Transform.FixReview | edtech/vyaparbazaar-main/scripts/transform_to_vyaparbazaar.py:430-435 | the creation date is kept; an answer date stays only beside a creation date and then lies within three days after it |
| Transform.FixReviews | edtech/vyaparbazaar-main/scripts/transform_to_vyaparbazaar.py:430-435 | every review is fixed in place with its own draw |
| Transform.MapCategory | edtech/vyaparbazaar-main/scripts/transform_to_vyaparbazaar.py:61-115 | a missing category stays missing, a mapped one is translated, and any other kept as it is; used at lines 296-298 |
| Transform.Installments | edtech/vyaparbazaar-main/scripts/transform_to_vyaparbazaar.py:376-379 | instalments are kept for credit card and EMI payments and become one otherwise |

## Left out

Inputs and effects outside the program:
- The language-model, Groq, Gemini, Vision and arXiv calls are not modelled. Their replies, or the exceptions they raise, are parameters. Where nothing catches such an exception (the agent's classification, summary and chat requests, and the Vision reply in the KYC app), the model lets it escape as an `Err`.
- The clock and every random draw are parameters: `time.time()`, `datetime.now()`, `random.*`, `np.random.*`, Faker postcodes and `uuid4`.
- JSON decoding, Python's `eval` in the calculator and the chat API's reply dictionaries are parameters. The model takes them already decoded, or as a decode function.
- FAISS's nearest-neighbour search is left out. Its `(distance, index)` row is an input, and the vectors are only stored.
- SentenceTransformer embeddings, the Neo4j queries and the markdown/BeautifulSoup parser are inputs.
- Pickle and `faiss.write_index` files are modelled as a snapshot value, not as bytes.
- The OpenCV drawing and JPEG encoding are modelled as a list of marks, each a rectangle and a caption. `cv2.getTextSize` is a parameter (`measure`). The image pixels are not modelled.
- The Streamlit pages, file downloads, progress bars and the password-protected PDFs are left out, because they are user-interface code.
- The PDF-to-image rendering (PyMuPDF) is left out. Each page arrives as its OCR reading.
- nbformat serialisation is left out. The notebook is a value with its kernel metadata and cells.
- The SSE event stream, its queue, the semaphore and the thread executor are left out. They are concurrency around the pipeline, not logic.
- Printing, the interactive `main` loops and the demo functions are left out. Only the command parsing of the chatbot's loop is modelled.
- The adaptive load balancer is left out, because its health checks depend on wall-clock intervals and live API calls.
- Price, weight and payment scaling by random factors, and the random payment-method choice, are left out.
- CSV input/output, `main`, and the festival table of the transform script are left out.

Numbers and text:
- Floating-point values are modelled as exact reals (weights, response times, FAISS distances, TTL times) or as whole days (dates). Rounding is not modelled.
- A FAISS score is the symbolic `InverseDistance(d)` or `RawDistance(d)`. It is not a computed float.
- `Transform.MapDate`: dates are whole days from 2021-01-01, and the time of day is dropped. `int(proportion * new_span)` is modelled as exact truncating division of the day counts. The rounding of the float product is not modelled.
- `Transform.MapColumn`: the earliest and latest purchase or creation dates are parameters of the mapping. `Earliest` and `Latest` state what they are. A column without any date (an empty frame) is not modelled.
- Character classes are ASCII: `str.lower`, `str.isalnum`, `str.isdigit`, the regular-expression classes `\w`, `\d` and `\b`, and the extension lower-casing. `str.isspace`/`\s` and `strip` follow Python's whitespace set. Python's lowering of non-ASCII letters is not modelled.
- Text is a sequence of characters. The UTF-8 decoding of streamed lines and of uploaded files is not modelled.
- `Caches.CacheKey`: the MD5 digest is not computed. The joined key string stands for it, so two keys collide exactly when their strings are equal, as MD5 is taken to be injective.
- `Caches.SimpleCache.Stats`: the formatted hit-rate percentage is not reported. The counts it is computed from are.
- The three cache wrappers always store a non-empty reply dictionary, so their "falsy cached value is a miss" branch cannot occur and is not modelled. Creating a fresh cache when none is passed is the same as passing a new one, so it is not modelled either.
- `LoadBalancing.WeightedLoadBalancer.GetNextEndpoint`: the draw `random.uniform(0, total)` is modelled as `rand * total` with `rand` in [0, 1). The draw exactly equal to the total, which `uniform` may return, is not modelled.
- `Notebook.CheckUpload` and `Notebook.CheckFetch`: the 413 message carries only its fixed prefix. The size printed with one decimal is not modelled.
- `Streaming.ChatWithStreaming`: a request failure is modelled for the whole body, whatever was already read. A decoded line whose JSON is not an object (a `TypeError` in the source) is not modelled.
- `Memory.MemoryManager.SessionInfos`: the session information is a map from session id. The order of the source's list is not modelled.
- The memories' `created_at` and `last_updated` timestamps (module6.py:78-79) are left out, and so are the two timestamp fields of each session report (module6.py:345-346). They are clock readings that no other code consults.
- `Transform.FixOrder`: the purchase date of an order is always present. A missing purchase timestamp (`NaT` in pandas), which would make the approval and estimate dates missing too, is not modelled.
- `Agent.Agent.ProcessUserInput`: plan steps always carry a description. The `KeyError` a model-made step without one would raise is not modelled.
- `Tools.List`: its own contract gives only the length. `Tools.ListMatchesRegistry` states the contents and the order.
- `Transform.Installments`: the payment type is the already-mapped Indian method, since the mapping itself is a random draw.

## Findings

| source | as written | input that shows it | evidently intended | confidence | as-written member | corrected member |
|---|---|---|---|---|---|---|
| aimagine/src/services/data_ingestion.py:179-192 | the last window ends at `len(text)` and the next start is `len(text) - chunk_overlap`, which is the same last window again | the default configuration (overlap 200) and any non-empty text of at most 1000 characters: `_create_basic_chunks` never returns | the loop stops once a window reaches the end of the text, and the windows cover the text | not executed | Chunker.DefaultShortTextLoops, Chunker.FinalWindowRepeats, Chunker.BasicNeverReturns | Chunker.IntendedWindowsCover, Chunker.IntendedWindowsReachAll |
| aimagine/src/services/data_ingestion.py:175-177 | `max()` over the break positions other than -1 raises `ValueError` when a window has no '.', '!', '?' or newline, so the `!= -1` fallback is never reached | the default configuration and a text of 1001 letters | a window without a break keeps its full `chunk_size` | not executed | Chunker.DefaultNoBreakRaises | Chunker.IntendedEnd, Chunker.IntendedEndOfBounds |
| aimagine/src/services/faiss_service.py:22-74 | the index class follows `index_type == "cosine"` (lines 22-27), but the score follows `index_type == "l2"` (line 74) | `index_type = "L2"`: an L2 index whose results are scored by raw distance, so nearer chunks score lower | an L2 index always scores `1 / (1 + distance)` | not executed | VectorIndex.OtherIndexTypeScoresRawDistances | VectorIndex.IntendedScore, VectorIndex.IntendedScoreFollowsIndex |
| module6.py:137-141 | `messages[-(window_size):]` with `window_size = 0` is the whole list | `window_size = 0` and two messages: each trim prepends another copy of the system message | keep the system message and at most `window_size` newest messages | not executed | Memory.WindowZeroDuplicatesSystem | Memory.IntendedTrimWindowBound |
| module12/module12_load_balancing.py:121-136 | the index returned is the one after the healthy endpoint found | a healthy endpoint 0 and an unhealthy endpoint 1, starting at 0: the request goes to endpoint 1 | the request goes to the healthy endpoint found | not executed | LoadBalancing.TargetMayBeUnhealthy | LoadBalancing.IntendedRoundRobinNext, LoadBalancing.IntendedTargetsHealthy |

=== FILE: agent.dfy ===
/** The goal-oriented agent: it decides whether an input is a task, plans
    it in steps (by keyword rules, or from the language model's JSON plan),
    runs each step through a tool or the language model, records every
    step's result in its state, and answers. Every language-model reply,
    every tool call and the clock are oracle arguments collected in an
    `Oracle`; the tool registry is the default one. */
module Agent {
  import opened Wrappers
  import opened PyText
  import opened Tools

  datatype Message = Message(role: string, content: string)

  /** One plan step: the `step`, `description`, `requires_tool`, `tool_name`
      and `expression` keys of a step dictionary. */
  datatype Step = Step(number: Option<int>, description: string, requiresTool: bool,
                       toolName: Option<string>, expression: Option<string>)

  /** An item of the language model's plan list: a dictionary, or anything
      else, shown by its `str`. */
  datatype PlanItem = StepItem(step: Step) | OtherItem(text: string)

  /** The language model's planning reply once decoded. */
  datatype PlanReply = Unparsable | NotAList | Items(items: seq<PlanItem>)

  /** What the outside world answers during one `process_user_input`:
      - `verdict`: the `is_task` field of the classification reply (`None`
        when the reply does not decode or lacks the field), or the
        exception the request raised (`Err`), which nothing catches;
      - `plan`: the planning reply;
      - `params(i)`: the decoded parameter reply for step `i` (`None` when
        it does not decode);
      - `invoke`: what a tool function returns (`Ok`) or raises (`Err`) for
        the given arguments;
      - `stepReply(i)`: the language model's answer for step `i`, or the
        exception it raised;
      - `now`: the formatted clock reading;
      - `summary`, `chat`: the replies to the summary and to the plain chat
        request, or the exception the request raised (`Err`), which nothing
        catches either. */
  datatype Oracle = Oracle(
    verdict: Result<Option<bool>, string>,
    plan: PlanReply,
    params: nat -> Option<map<string, string>>,
    invoke: (ToolFunction, map<string, string>) -> Result<string, string>,
    stepReply: nat -> Result<string, string>,
    now: string,
    summary: Result<string, string>,
    chat: Result<string, string>)

  const SystemPrompt: string :=
    "You are an AI assistant with access to tools. You can perform tasks like calculating math expressions "
    + "and telling the current time. Always use your tools when appropriate instead of making up answers."

  // ------------------------------------------------------------ task detection

  const TimeWords: seq<string> := ["time", "clock", "hour", "date", "day"]
  const TaskMathWords: seq<string> := ["calculate", "compute", "square", "math", "add", "subtract", "multiply", "divide"]
  /** The math words `plan_task` checks: those of `determine_if_task` without "square". */
  const PlanMathWords: seq<string> := ["calculate", "compute", "math", "add", "subtract", "multiply", "divide"]

  /** The keyword test `determine_if_task` makes before asking the model. */
  predicate TaskByKeyword(input: string) {
    ContainsAny(Lower(input), TimeWords) || ContainsAny(Lower(input), TaskMathWords)
  }

  /** `determine_if_task`: a keyword makes the input a task at once, without
      asking the model; otherwise the model's verdict decides, an undecodable
      reply means "not a task", and a failed request raises. */
  function DetermineIfTask(input: string, verdict: Result<Option<bool>, string>): (r: Result<bool, string>)
    ensures TaskByKeyword(input) ==> r == Ok(true)
    ensures !TaskByKeyword(input) ==> (r.Err? <==> verdict.Err?)
    ensures !TaskByKeyword(input) && verdict.Err? ==> r == Err(verdict.error)
    ensures !TaskByKeyword(input) && verdict.Ok? ==> (r == Ok(true) <==> verdict.value == Some(true))
  {
    if TaskByKeyword(input) then Ok(true)
    else match verdict
      case Err(e) => Err(e)
      case Ok(Some(b)) => Ok(b)
      case Ok(None) => Ok(false)
  }

  // ------------------------------------------------------------ planning

  const TimeStep: Step := Step(Some(1), "Get the current time", true, Some("get_current_time"), None)
  const MathStep: Step := Step(Some(1), "Perform the mathematical calculation", true, Some("calculator"), None)

  /** The step for "square of" with the number `num`. */
  function SquareStep(num: string): Step {
    Step(Some(1), "Calculate the square of " + num, true, Some("calculator"), Some(num + " * " + num))
  }

  predicate HasDigit(s: string) {
    exists i :: 0 <= i < |s| && IsDigit(s[i])
  }

  /** The plans `plan_task` makes without the model, first rule first:
      time words, then "square of" with a number, then math words. */
  function KeywordPlan(task: string): (r: Option<seq<Step>>)
    ensures r.Some? ==>
      |r.value| == 1 && r.value[0].requiresTool
      && r.value[0].toolName.Some? && r.value[0].toolName.value in DefaultNames
  {
    var lower := Lower(task);
    if ContainsAny(lower, TimeWords) then Some([TimeStep])
    else if Contains(lower, "square of") && HasDigit(lower) then Some([SquareStep(FirstNumber(lower))])
    else if ContainsAny(lower, PlanMathWords) then Some([MathStep])
    else None
  }

  /** The plan list as `plan_task` normalises it: dictionaries kept, any
      other item made a tool-less step numbered by its position from 1. */
  function Normalized(items: seq<PlanItem>): (r: seq<Step>)
    ensures |r| == |items|
  {
    seq(|items|, i requires 0 <= i < |items| =>
      match items[i]
      case StepItem(s) => s
      case OtherItem(t) => Step(Some(i + 1), t, false, None, None))
  }

  /** The plan taken from the model's reply. */
  function ModelPlan(task: string, reply: PlanReply): (r: seq<Step>)
    ensures reply.Items? ==> |r| == |reply.items|
    ensures !reply.Items? ==> |r| == 1 && !r[0].requiresTool
  {
    match reply
    case Unparsable => [Step(Some(1), "Process the request: " + task, false, None, None)]
    case NotAList => [Step(Some(1), "Process the user's request", false, None, None)]
    case Items(items) => Normalized(items)
  }

  /** The plan `plan_task` returns. */
  function PlanOf(task: string, reply: PlanReply): seq<Step> {
    match KeywordPlan(task)
    case Some(p) => p
    case None => ModelPlan(task, reply)
  }

  /** `plan_task`: the keyword plan, or the model's plan normalised item by item. */
  method PlanTask(task: string, reply: PlanReply) returns (plan: seq<Step>)
    ensures plan == PlanOf(task, reply)
    ensures KeywordPlan(task).None? && reply.Items? ==>
      forall i :: 0 <= i < |plan| ==>
        (reply.items[i].StepItem? ==> plan[i] == reply.items[i].step)
        && (reply.items[i].OtherItem? ==> plan[i].description == reply.items[i].text
                                          && plan[i].number == Some(i + 1) && !plan[i].requiresTool)
  {
    var keyword := KeywordPlan(task);
    if keyword.Some? {
      return keyword.value;
    }
    match reply {
      case Unparsable =>
        plan := [Step(Some(1), "Process the request: " + task, false, None, None)];
      case NotAList =>
        plan := [Step(Some(1), "Process the user's request", false, None, None)];
      case Items(items) =>
        plan := [];
        for i := 0 to |items|
          invariant plan == Normalized(items[..i])
        {
          match items[i] {
            case StepItem(s) =>
              plan := plan + [s];
            case OtherItem(t) =>
              plan := plan + [Step(Some(i + 1), t, false, None, None)];
          }
        }
        assert items[..|items|] == items;
    }
  }

  /** Everything `plan_task` plans by keyword `determine_if_task` already
      calls a task without asking the model, so a keyword plan never follows
      a "not a task" verdict or a failed classification request. */
  lemma KeywordPlansAreTasks(task: string, verdict: Result<Option<bool>, string>)
    requires KeywordPlan(task).Some?
    ensures DetermineIfTask(task, verdict) == Ok(true)
  {
    var lower := Lower(task);
    if !ContainsAny(lower, TimeWords) {
      if Contains(lower, "square of") && HasDigit(lower) {
        var i :| 0 <= i <= |lower| - 9 && OccursAt(lower, "square of", i);
        assert lower[i..i + 9] == "square of";
        assert lower[i..i + 6] == lower[i..i + 9][..6];
        assert lower[i..i + 6] == "square";
        assert OccursAt(lower, TaskMathWords[2], i);
      } else {
        var k :| 0 <= k < |PlanMathWords| && Contains(lower, PlanMathWords[k]);
        var j := if k < 2 then k else k + 1;
        assert TaskMathWords[j] == PlanMathWords[k];
      }
    }
  }

  /** The "square of" plan squares the first number of the task: its
      expression is that number, " * ", and the number again. */
  lemma SquarePlanExpression(task: string)
    requires !ContainsAny(Lower(task), TimeWords)
    requires Contains(Lower(task), "square of") && HasDigit(Lower(task))
    ensures var n := FirstNumber(Lower(task));
      n != [] && (forall i :: 0 <= i < |n| ==> IsDigit(n[i]))
      && PlanOf(task, Unparsable) == [SquareStep(n)]
      && SquareStep(n).expression == Some(n + " * " + n)
  {
  }

  // ------------------------------------------------------------ parameters

  predicate IsOperator(c: char) {
    c == '+' || c == '-' || c == '*' || c == '/' || c == '^'
  }

  /** The end of a match, starting at `i`, of the calculator pattern: digits,
      optional whitespace, one of + - * / ^, optional whitespace, digits.
      Each part is as long as it can be: giving back a digit or a space
      never lets the next part match. */
  function BinaryAt(s: string, i: nat): (r: Option<nat>)
    requires i <= |s|
    ensures r.Some? ==> i < r.value <= |s|
  {
    var a := i + DigitRun(s[i..]);
    if a == i then None
    else
      var p := a + LeadingSpaces(s[a..]);
      if p < |s| && IsOperator(s[p]) then
        var q := p + 1 + LeadingSpaces(s[p + 1..]);
        var b := q + DigitRun(s[q..]);
        if b == q then None else Some(b)
      else None
  }

  /** A match starts and ends with a digit and holds an operator in between. */
  lemma BinaryAtShape(s: string, i: nat)
    requires i <= |s| && BinaryAt(s, i).Some?
    ensures var e := BinaryAt(s, i).value;
      IsDigit(s[i]) && IsDigit(s[e - 1]) && exists k :: i < k < e - 1 && IsOperator(s[k])
  {
    var a := i + DigitRun(s[i..]);
    var p := a + LeadingSpaces(s[a..]);
    var q := p + 1 + LeadingSpaces(s[p + 1..]);
    var b := q + DigitRun(s[q..]);
    assert s[i..][0] == s[i];
    assert s[q..][b - q - 1] == s[b - 1];
    assert i < p < b - 1;
  }

  /** `re.search` for that pattern from position `i`: the leftmost match. */
  function SearchBinary(s: string, i: nat): (r: Option<(nat, nat)>)
    requires i <= |s|
    ensures r.Some? ==> i <= r.value.0 < r.value.1 <= |s| && BinaryAt(s, r.value.0) == Some(r.value.1)
    decreases |s| - i
  {
    if i == |s| then None
    else match BinaryAt(s, i)
      case Some(e) => Some((i, e))
      case None => SearchBinary(s, i + 1)
  }

  /** The search finds the leftmost match, and finds one whenever there is one. */
  lemma {:induction false} SearchBinaryLeftmost(s: string, i: nat, j: nat)
    requires i <= j <= |s| && BinaryAt(s, j).Some?
    ensures SearchBinary(s, i).Some? && SearchBinary(s, i).value.0 <= j
    decreases |s| - i
  {
    if BinaryAt(s, i).None? {
      SearchBinaryLeftmost(s, i + 1, j);
    }
  }

  /** The expression the calculator falls back to when the model's
      parameters do not decode: the first "a op b" in the description, else
      "n * n" for "square of" with a number n, else "2 + 2". */
  function FallbackExpression(description: string): (r: string)
    ensures SearchBinary(description, 0).Some? ==>
      var m := SearchBinary(description, 0).value; r == description[m.0..m.1]
    ensures SearchBinary(description, 0).None? && !(Contains(Lower(description), "square of") && HasDigit(description))
      ==> r == "2 + 2"
  {
    match SearchBinary(description, 0)
    case Some(m) => description[m.0..m.1]
    case None =>
      if Contains(Lower(description), "square of") && HasDigit(description) then
        var n := FirstNumber(description);
        n + " * " + n
      else "2 + 2"
  }

  /** `determine_tool_parameters`: the step's own expression for the
      calculator, the local timezone for the clock, both without asking the
      model; otherwise the tool must exist (`get_tool` raises), and the
      model's parameters are used, or the fallback when they do not decode. */
  function ToolParameters(step: Step, name: string, tools: map<string, Entry>, reply: Option<map<string, string>>)
    : (r: Result<map<string, string>, string>)
    ensures name == "calculator" && step.expression.Some? ==> r == Ok(map["expression" := step.expression.value])
    ensures name == "get_current_time" ==> r == Ok(map["timezone" := "local"])
    ensures r.Err? <==> name != "get_current_time" && !(name == "calculator" && step.expression.Some?) && name !in tools
    ensures r.Err? ==> r.error == NotFound(name)
  {
    if name == "calculator" && step.expression.Some? then Ok(map["expression" := step.expression.value])
    else if name == "get_current_time" then Ok(map["timezone" := "local"])
    else if name !in tools then Err(NotFound(name))
    else match reply
      case Some(ps) => Ok(ps)
      case None =>
        if name == "calculator" then Ok(map["expression" := FallbackExpression(step.description)])
        else Ok(map[])
  }

  // ------------------------------------------------------------ steps

  /** The answer to a step the model could not answer: the time for a time
      step, the square for a "square" step with a number, else a note. */
  function StepFallback(description: string, now: string): string {
    var lower := Lower(description);
    if Contains(lower, "time") then "The current time is " + now
    else if Contains(lower, "square") && HasDigit(description) then
      var num := DigitsValue(FirstNumber(description));
      "The square of " + NatToString(num) + " is " + NatToString(num * num)
    else "Completed step: " + description
  }

  /** A tool step: the parameters are determined (an unknown tool raises
      there, outside any handler), then the tool runs; its value comes back
      as "Tool result: ...", and an unknown tool that got past the parameter
      shortcuts as "Error executing tool: ...". */
  function ToolStep(step: Step, name: string, i: nat, tools: map<string, Entry>, o: Oracle): (r: Result<string, string>)
    ensures r.Err? <==> ToolParameters(step, name, tools, o.params(i)).Err?
    ensures name in tools ==> r.Ok? && StartsWith(r.value, "Tool result: ")
  {
    match ToolParameters(step, name, tools, o.params(i))
    case Err(e) => Err(e)
    case Ok(ps) =>
      var call := if name in tools then o.invoke(tools[name].fn, ps) else Ok("");
      match Execute(tools, name, call)
      case Ok(v) =>
        assert ("Tool result: " + v)[..13] == "Tool result: ";
        Ok("Tool result: " + v)
      case Err(m) => Ok("Error executing tool: " + m)
  }

  /** A step for the model: its answer, or the fallback when the call raises. */
  function ModelStep(step: Step, i: nat, o: Oracle): string {
    match o.stepReply(i)
    case Ok(text) => text
    case Err(_) => StepFallback(step.description, o.now)
  }

  /** `execute_step` for step `i`: a step that requires a named tool runs
      it, any other step goes to the model. `Err` is an exception that
      escapes, which only an unknown tool name can cause. */
  function ExecuteStep(step: Step, i: nat, tools: map<string, Entry>, o: Oracle): (r: Result<string, string>)
    ensures r.Err? ==> step.requiresTool && step.toolName.Some? && step.toolName.value !in tools
  {
    if step.requiresTool && step.toolName.Some? then ToolStep(step, step.toolName.value, i, tools, o)
    else Ok(ModelStep(step, i, o))
  }

  /** Running the steps from `i` on: the results in order, up to the first
      step whose exception escapes, and that exception. */
  function RunFrom(plan: seq<Step>, i: nat, tools: map<string, Entry>, o: Oracle)
    : (r: (seq<string>, Option<string>))
    requires i <= |plan|
    ensures |r.0| <= |plan| - i
    ensures r.1.None? ==> |r.0| == |plan| - i
    ensures r.1.Some? ==> |r.0| < |plan| - i
    decreases |plan| - i
  {
    if i == |plan| then ([], None)
    else match ExecuteStep(plan[i], i, tools, o)
      case Err(e) => ([], Some(e))
      case Ok(v) =>
        var rest := RunFrom(plan, i + 1, tools, o);
        ([v] + rest.0, rest.1)
  }

  /** The run's results are the steps' results in order, and the run stops
      exactly at the first step whose exception escapes. */
  lemma RunFromSpec(plan: seq<Step>, i: nat, tools: map<string, Entry>, o: Oracle)
    requires i <= |plan|
    ensures var r := RunFrom(plan, i, tools, o);
      (forall k :: 0 <= k < |r.0| ==> ExecuteStep(plan[i + k], i + k, tools, o) == Ok(r.0[k]))
      && (r.1.Some? ==> ExecuteStep(plan[i + |r.0|], i + |r.0|, tools, o) == Err(r.1.value))
  {
    RunFromResults(plan, i, tools, o);
    RunFromFailure(plan, i, tools, o);
  }

  /** The steps from `i` on returned the values `vs`, in order. */
  ghost predicate StepsGave(plan: seq<Step>, i: nat, tools: map<string, Entry>, o: Oracle, vs: seq<string>)
    requires i + |vs| <= |plan|
  {
    forall k :: 0 <= k < |vs| ==> ExecuteStep(plan[i + k], i + k, tools, o) == Ok(vs[k])
  }

  lemma StepsGaveCons(plan: seq<Step>, i: nat, tools: map<string, Entry>, o: Oracle, v: string, vs: seq<string>)
    requires i + 1 + |vs| <= |plan|
    requires ExecuteStep(plan[i], i, tools, o) == Ok(v) && StepsGave(plan, i + 1, tools, o, vs)
    ensures StepsGave(plan, i, tools, o, [v] + vs)
  {
    forall k | 0 < k < |vs| + 1
      ensures ExecuteStep(plan[i + k], i + k, tools, o) == Ok(([v] + vs)[k])
    {
      assert ([v] + vs)[k] == vs[k - 1] && i + k == (i + 1) + (k - 1);
    }
  }

  lemma {:induction false} RunFromResults(plan: seq<Step>, i: nat, tools: map<string, Entry>, o: Oracle)
    requires i <= |plan|
    ensures StepsGave(plan, i, tools, o, RunFrom(plan, i, tools, o).0)
    decreases |plan| - i
  {
    if i < |plan| && ExecuteStep(plan[i], i, tools, o).Ok? {
      var v := ExecuteStep(plan[i], i, tools, o).value;
      var rest := RunFrom(plan, i + 1, tools, o);
      RunFromResults(plan, i + 1, tools, o);
      assert RunFrom(plan, i, tools, o).0 == [v] + rest.0;
      StepsGaveCons(plan, i, tools, o, v, rest.0);
    }
  }

  lemma {:induction false} RunFromFailure(plan: seq<Step>, i: nat, tools: map<string, Entry>, o: Oracle)
    requires i <= |plan|
    ensures var r := RunFrom(plan, i, tools, o);
      r.1.Some? ==> ExecuteStep(plan[i + |r.0|], i + |r.0|, tools, o) == Err(r.1.value)
    decreases |plan| - i
  {
    if i < |plan| && ExecuteStep(plan[i], i, tools, o).Ok? {
      var v := ExecuteStep(plan[i], i, tools, o).value;
      var rest := RunFrom(plan, i + 1, tools, o);
      RunFromFailure(plan, i + 1, tools, o);
      assert RunFrom(plan, i, tools, o) == ([v] + rest.0, rest.1);
      assert i + |[v] + rest.0| == i + 1 + |rest.0|;
    }
  }

  /** The key a step's result is stored under: "step_<n>", counting from 1. */
  function StepKey(n: nat): string {
    "step_" + NatToString(n)
  }

  lemma StepKeyInjective(m: nat, n: nat)
    requires StepKey(m) == StepKey(n)
    ensures m == n
  {
    assert StepKey(m)[5..] == NatToString(m);
    assert StepKey(n)[5..] == NatToString(n);
    NatToStringInjective(m, n);
  }

  /** The collected information after storing results in order. */
  function Collected(results: seq<string>): map<string, string> {
    if results == [] then map[]
    else Collected(results[..|results| - 1])[StepKey(|results|) := results[|results| - 1]]
  }

  /** The collected information holds exactly the keys "step_1" to
      "step_N", the k-th holding the k-th result. */
  lemma {:induction false} CollectedSpec(results: seq<string>)
    ensures forall key :: key in Collected(results) <==> exists n :: 1 <= n <= |results| && key == StepKey(n)
    ensures forall n :: 1 <= n <= |results| ==> Collected(results)[StepKey(n)] == results[n - 1]
  {
    if results != [] {
      var init := results[..|results| - 1];
      CollectedSpec(init);
      forall n | 1 <= n <= |results|
        ensures Collected(results)[StepKey(n)] == results[n - 1]
      {
        if n < |results| {
          if StepKey(n) == StepKey(|results|) {
            StepKeyInjective(n, |results|);
          }
          assert init[n - 1] == results[n - 1];
        }
      }
    }
  }

  // ------------------------------------------------------------ the answer

  /** The number a plan line shows: the step's own, or its position from 1. */
  function StepNumber(step: Step, i: nat): string {
    match step.number
    case Some(n) => IntToString(n)
    case None => NatToString(i + 1)
  }

  function PlanLine(step: Step, i: nat): string {
    "- Step " + StepNumber(step, i) + ": " + step.description + "\n"
  }

  /** The plan lines of the first `|steps|` steps. */
  function PlanLines(steps: seq<Step>): string {
    if steps == [] then "" else PlanLines(steps[..|steps| - 1]) + PlanLine(steps[|steps| - 1], |steps| - 1)
  }

  function ResultLine(step: Step, i: nat, result: string): string {
    "\nStep " + NatToString(i + 1) + ": " + step.description + "\n" + "Result: " + result + "\n"
  }

  /** The result lines of the first `|results|` steps. */
  function ResultLines(plan: seq<Step>, results: seq<string>): string
    requires |results| <= |plan|
  {
    if results == [] then ""
    else
      var n := |results| - 1;
      ResultLines(plan, results[..n]) + ResultLine(plan[n], n, results[n])
  }

  const TaskIntro: string := "I'll help you complete this task. Let me break it down into steps.\n\nHere's my plan:\n"
  const TaskMiddle: string := "\nI'll start working on this task. I'll let you know when I'm done."
    + "\n\nHere are the results of each step:\n"
  const TaskOutro: string := "\n\nTask completed! Summary:\n"

  /** The answer to a completed task: the plan, each step's result, and the
      model's summary last. */
  function TaskResponse(plan: seq<Step>, results: seq<string>, summary: string): (r: string)
    requires |results| <= |plan|
    ensures StartsWith(r, TaskIntro)
    ensures EndsWith(r, TaskOutro + summary)
  {
    var head := TaskIntro + PlanLines(plan) + TaskMiddle + ResultLines(plan, results);
    var tail := TaskOutro + summary;
    assert (head + tail)[..|TaskIntro|] == head[..|TaskIntro|] == TaskIntro;
    assert (head + tail)[|head|..] == tail;
    head + tail
  }

  /** The conversation with the system message added when it was empty,
      then the user's message. */
  function Opened(conversation: seq<Message>, input: string): seq<Message> {
    (if conversation == [] then [Message("system", SystemPrompt)] else conversation) + [Message("user", input)]
  }

  // ------------------------------------------------------------ the agent

  class Agent {
    var model: string
    var temperature: real
    const registry: ToolRegistry
    var conversation: seq<Message>
    var currentPlan: Option<seq<Step>>
    var currentStepIndex: nat
    var taskCompleted: bool
    var collectedInformation: map<string, string>
    var workingMemory: map<string, string>

    constructor (model: string, temperature: real)
      ensures this.model == model && this.temperature == temperature
      ensures fresh(registry) && registry.Valid() && registry.order == DefaultNames
      ensures registry.tools == map[DefaultNames[0] := CalculatorEntry, DefaultNames[1] := CurrentTimeEntry,
                                    DefaultNames[2] := SearchEntry]
      ensures conversation == [] && currentPlan == None && currentStepIndex == 0
      ensures !taskCompleted && collectedInformation == map[] && workingMemory == map[]
    {
      this.model := model;
      this.temperature := temperature;
      var r := CreateDefaultToolRegistry();
      registry := r;
      new;
      ResetState();
    }

    /** `reset_state`. */
    method ResetState()
      modifies this
      ensures conversation == [] && currentPlan == None && currentStepIndex == 0
      ensures !taskCompleted && collectedInformation == map[] && workingMemory == map[]
      ensures model == old(model) && temperature == old(temperature)
    {
      conversation := [];
      currentPlan := None;
      currentStepIndex := 0;
      taskCompleted := false;
      collectedInformation := map[];
      workingMemory := map[];
    }

    /** `add_message_to_conversation`. */
    method AddMessageToConversation(role: string, content: string)
      modifies this`conversation
      ensures conversation == old(conversation) + [Message(role, content)]
    {
      conversation := conversation + [Message(role, content)];
    }

    /** `process_user_input`. The conversation gains the system message when
        empty, the user's message, and the answer. A task is planned, its
        steps run in order with each result stored under "step_<n>", and it
        ends completed; a step whose exception escapes stops the run there
        (`Err`), leaving the state as it was at that step and the answer
        unrecorded. Anything else is answered by the chat model. A failed
        classification or chat request raises too (`Err`), after the user's
        message was appended and with the task state untouched. */
    method ProcessUserInput(input: string, o: Oracle) returns (r: Result<string, string>)
      modifies this`currentPlan, this`currentStepIndex, this`taskCompleted, this`collectedInformation,
        this`conversation
      ensures r.Ok? ==> conversation == Opened(old(conversation), input) + [Message("assistant", r.value)]
      ensures r.Err? ==> conversation == Opened(old(conversation), input)
      ensures DetermineIfTask(input, o.verdict) != Ok(true) ==>
        currentPlan == old(currentPlan) && currentStepIndex == old(currentStepIndex)
        && taskCompleted == old(taskCompleted) && collectedInformation == old(collectedInformation)
      ensures DetermineIfTask(input, o.verdict).Err? ==> r == Err(DetermineIfTask(input, o.verdict).error)
      ensures DetermineIfTask(input, o.verdict) == Ok(false) ==> r == o.chat
      ensures DetermineIfTask(input, o.verdict) == Ok(true) ==> TaskHandled(PlanOf(input, o.plan), o, r)
    {
      if conversation == [] {
        conversation := conversation + [Message("system", SystemPrompt)];
      }
      AddMessageToConversation("user", input);
      assert conversation == Opened(old(conversation), input);
      var isTask := DetermineIfTask(input, o.verdict);
      if isTask.Err? {
        return Err(isTask.error);
      }
      if !isTask.value {
        r := o.chat;
        if r.Ok? {
          AddMessageToConversation("assistant", r.value);
        }
        return;
      }
      var plan := PlanTask(input, o.plan);
      r := HandleTask(plan, o);
    }

    /** The state after running `plan`: it is the current plan, the results
        up to the first escaping exception are collected, and the task is
        completed unless a step's exception escaped; a completed task answers
        in full, unless the summary request raises, which escapes after the
        task was marked completed. */
    ghost predicate TaskHandled(plan: seq<Step>, o: Oracle, r: Result<string, string>)
      reads this, registry
    {
      var run := RunFrom(plan, 0, registry.tools, o);
      currentPlan == Some(plan) && collectedInformation == Collected(run.0)
      && (run.1.None? ==>
            taskCompleted && currentStepIndex == (if plan == [] then 0 else |plan| - 1)
            && (o.summary.Ok? ==> r == Ok(TaskResponse(plan, run.0, o.summary.value)))
            && (o.summary.Err? ==> r == Err(o.summary.error)))
      && (run.1.Some? ==> r == Err(run.1.value) && !taskCompleted && currentStepIndex == |run.0|)
    }

    /** The task branch of `process_user_input`, from the plan on. */
    method HandleTask(plan: seq<Step>, o: Oracle) returns (r: Result<string, string>)
      modifies this`currentPlan, this`currentStepIndex, this`taskCompleted, this`collectedInformation,
        this`conversation
      ensures TaskHandled(plan, o, r)
      ensures r.Ok? ==> conversation == old(conversation) + [Message("assistant", r.value)]
      ensures r.Err? ==> conversation == old(conversation)
    {
      currentPlan := Some(plan);
      currentStepIndex := 0;
      taskCompleted := false;
      collectedInformation := map[];
      var listing := ListPlan(plan);
      var response := TaskIntro + listing;
      var results, failure := RunPlan(plan, o);
      if failure.Some? {
        return Err(failure.value);
      }
      taskCompleted := true;
      if o.summary.Err? {
        return Err(o.summary.error);
      }
      var report := ListResults(plan, results);
      response := response + TaskMiddle + report;
      response := response + (TaskOutro + o.summary.value);
      AddMessageToConversation("assistant", response);
      r := Ok(response);
    }

    /** The step loop of `process_user_input`: each step's index is made
        current, the step runs, and its result is stored under "step_<n>";
        an escaping exception ends the loop. */
    method RunPlan(plan: seq<Step>, o: Oracle) returns (results: seq<string>, failure: Option<string>)
      requires collectedInformation == map[] && currentStepIndex == 0
      modifies this`currentStepIndex, this`collectedInformation
      ensures (results, failure) == RunFrom(plan, 0, registry.tools, o)
      ensures collectedInformation == Collected(results)
      ensures failure.None? ==> currentStepIndex == (if plan == [] then 0 else |plan| - 1)
      ensures failure.Some? ==> currentStepIndex == |results|
    {
      ghost var run := RunFrom(plan, 0, registry.tools, o);
      results := [];
      assert results + run.0 == run.0;
      var i := 0;
      while i < |plan|
        invariant i <= |plan| && |results| == i
        invariant run == (results + RunFrom(plan, i, registry.tools, o).0, RunFrom(plan, i, registry.tools, o).1)
        invariant collectedInformation == Collected(results)
        invariant currentStepIndex == (if i == 0 then 0 else i - 1)
      {
        currentStepIndex := i;
        var step := ExecuteStep(plan[i], i, registry.tools, o);
        if step.Err? {
          assert RunFrom(plan, i, registry.tools, o) == ([], Some(step.error));
          assert results + [] == results;
          return results, Some(step.error);
        }
        assert results + RunFrom(plan, i, registry.tools, o).0 == (results + [step.value]) + RunFrom(plan, i + 1, registry.tools, o).0;
        results := results + [step.value];
        assert results[..i] == results[..|results| - 1];
        collectedInformation := collectedInformation[StepKey(i + 1) := step.value];
        i := i + 1;
      }
      assert RunFrom(plan, i, registry.tools, o) == ([], None);
      assert results + [] == results;
      failure := None;
    }
  }

  /** The plan lines `process_user_input` writes, one per step. */
  method ListPlan(plan: seq<Step>) returns (text: string)
    ensures text == PlanLines(plan)
  {
    text := "";
    for i := 0 to |plan|
      invariant text == PlanLines(plan[..i])
    {
      assert plan[..i + 1][..i] == plan[..i];
      text := text + PlanLine(plan[i], i);
    }
    assert plan[..|plan|] == plan;
  }

  /** The result lines `process_user_input` writes, one per result. */
  method ListResults(plan: seq<Step>, results: seq<string>) returns (text: string)
    requires |results| <= |plan|
    ensures text == ResultLines(plan, results)
  {
    text := "";
    for k := 0 to |results|
      invariant text == ResultLines(plan, results[..k])
    {
      assert results[..k + 1][..k] == results[..k];
      text := text + ResultLine(plan[k], k, results[k]);
    }
    assert results[..|results|] == results;
  }

  /** A time question is a task whatever the model says, planned as the
      single clock step, which calls the clock tool with the local timezone
      and answers with its result. */
  lemma TimeQuestionUsesClock(input: string, o: Oracle, tools: map<string, Entry>)
    requires ContainsAny(Lower(input), TimeWords)
    requires "get_current_time" in tools
    ensures DetermineIfTask(input, o.verdict) == Ok(true)
    ensures PlanOf(input, o.plan) == [TimeStep]
    ensures var call := o.invoke(tools["get_current_time"].fn, map["timezone" := "local"]);
      ExecuteStep(TimeStep, 0, tools, o)
      == Ok("Tool result: " + (if call.Ok? then call.value else ExecutionError("get_current_time", call.error)))
  {
  }
}

=== FILE: caches.dfy ===
/** The three response caches of the caching tutorial (plain dictionary,
    least-recently-used with a capacity, time-to-live) and the chat
    wrappers that consult them before calling the chat API. The clock is a
    parameter of every operation that reads it, the API's reply is an
    oracle argument, and the MD5 digest of the key string is taken to be
    injective, so the key string itself stands for its digest. */
module Caches {
  import opened Wrappers

  /** The dictionary a chat call returns. */
  datatype Reply = Reply(content: string, responseTime: real, cacheHit: bool)

  /** What `stats` reports, without the formatted hit-rate percentage. */
  datatype CacheStats = CacheStats(size: nat, hits: nat, misses: nat)

  /** The string whose MD5 digest is the cache key: `f"{prompt}:{model}"`. */
  function CacheKey(prompt: string, model: string): (k: string)
    ensures |k| == |prompt| + 1 + |model|
    ensures k[|prompt|] == ':'
  {
    prompt + ":" + model
  }

  /** A colon inside the prompt or the model makes two different calls share
      one entry: the prompt "a:b" with the model "c" and the prompt "a" with
      the model "b:c" have the same key. */
  lemma KeyAmbiguous(p: string, q: string, m: string)
    ensures CacheKey(p + ":" + q, m) == CacheKey(p, q + ":" + m)
  {
    assert CacheKey(p + ":" + q, m) == p + ":" + q + ":" + m;
    assert CacheKey(p, q + ":" + m) == p + ":" + q + ":" + m;
  }

  /** Without a colon in either prompt, the key determines the call. */
  lemma KeyInjective(p1: string, m1: string, p2: string, m2: string)
    requires ':' !in p1 && ':' !in p2
    requires CacheKey(p1, m1) == CacheKey(p2, m2)
    ensures p1 == p2 && m1 == m2
  {
    var k := CacheKey(p1, m1);
    assert forall i :: 0 <= i < |p1| ==> k[i] == p1[i];
    assert forall i :: 0 <= i < |p2| ==> k[i] == p2[i];
    assert k[|p1|] == ':' && k[|p2|] == ':';
    assert |p1| == |p2|;
    assert p1 == k[..|p1|] == p2;
    assert m1 == k[|p1| + 1..] == m2;
  }

  /** The uncached chat call: the reply text, or "Error: <reason>" when the
      request fails, never marked as a cache hit. */
  function ChatWithoutCache(api: Result<string, string>, elapsed: real): (r: Reply)
    ensures !r.cacheHit && r.responseTime == elapsed
    ensures api.Ok? ==> r.content == api.value
    ensures api.Err? ==>
      |r.content| == 7 + |api.error| && r.content[..7] == "Error: " && r.content[7..] == api.error
  {
    match api
    case Ok(text) => Reply(text, elapsed, false)
    case Err(e) => Reply("Error: " + e, elapsed, false)
  }

  // ------------------------------------------------------------ simple cache

  /** `SimpleCache`: a dictionary from key to reply and two counters. */
  class SimpleCache {
    var store: map<string, Reply>
    var hits: nat
    var misses: nat

    constructor ()
      ensures store == map[] && hits == 0 && misses == 0
    {
      store := map[];
      hits := 0;
      misses := 0;
    }

    /** A hit returns the stored reply and counts a hit; a miss returns
        nothing and counts a miss. Either way one more lookup is counted. */
    method Get(prompt: string, model: string) returns (r: Option<Reply>)
      modifies this`hits, this`misses
      ensures r == (if CacheKey(prompt, model) in store then Some(store[CacheKey(prompt, model)]) else None)
      ensures r.Some? ==> hits == old(hits) + 1 && misses == old(misses)
      ensures r.None? ==> hits == old(hits) && misses == old(misses) + 1
      ensures hits + misses == old(hits + misses) + 1
    {
      var key := CacheKey(prompt, model);
      if key in store {
        hits := hits + 1;
        return Some(store[key]);
      }
      misses := misses + 1;
      return None;
    }

    /** Stores the reply, replacing any earlier one under the same key. */
    method Set(prompt: string, model: string, response: Reply)
      modifies this`store
      ensures store == old(store)[CacheKey(prompt, model) := response]
    {
      store := store[CacheKey(prompt, model) := response];
    }

    method Clear()
      modifies this`store, this`hits, this`misses
      ensures store == map[] && hits == 0 && misses == 0
    {
      store := map[];
      hits := 0;
      misses := 0;
    }

    method Stats() returns (s: CacheStats)
      ensures s == CacheStats(|store|, hits, misses)
    {
      s := CacheStats(|store|, hits, misses);
    }
  }

  // ------------------------------------------------------------ LRU cache

  /** No key occurs twice. */
  predicate Distinct(order: seq<string>) {
    forall i, j :: 0 <= i < j < |order| ==> order[i] != order[j]
  }

  /** The key order with `key` taken out, the rest in their order. */
  function Without(order: seq<string>, key: string): (r: seq<string>)
    ensures |r| <= |order|
    ensures key in order ==> |r| < |order|
    ensures forall k :: k in r <==> k in order && k != key
  {
    if order == [] then []
    else
      var last := order[|order| - 1];
      Without(order[..|order| - 1], key) + (if last == key then [] else [last])
  }

  /** Taking out a key that is not there changes nothing. */
  lemma {:induction false} WithoutAbsent(order: seq<string>, key: string)
    requires key !in order
    ensures Without(order, key) == order
  {
    if order != [] {
      var init := order[..|order| - 1];
      WithoutAbsent(init, key);
      assert init + [order[|order| - 1]] == order;
    }
  }

  /** Appending a key not yet present keeps the keys distinct. */
  lemma DistinctSnoc(order: seq<string>, key: string)
    requires Distinct(order) && key !in order
    ensures Distinct(order + [key])
  {
    var o := order + [key];
    forall i, j | 0 <= i < j < |o| ensures o[i] != o[j] {
      if j == |order| {
        assert o[i] == order[i];
      } else {
        assert o[i] == order[i] && o[j] == order[j];
      }
    }
  }

  /** The oldest key is not repeated later, and the rest stay distinct. */
  lemma DistinctTail(order: seq<string>)
    requires Distinct(order) && order != []
    ensures Distinct(order[1..]) && order[0] !in order[1..]
    ensures forall k :: k in order <==> k == order[0] || k in order[1..]
  {
    assert order == [order[0]] + order[1..];
    assert forall i :: 0 <= i < |order| - 1 ==> order[1..][i] == order[i + 1];
  }

  /** Taking out a key keeps the others distinct. */
  lemma {:induction false} WithoutDistinct(order: seq<string>, key: string)
    requires Distinct(order)
    ensures Distinct(Without(order, key))
  {
    if order != [] {
      var init := order[..|order| - 1];
      var last := order[|order| - 1];
      assert Distinct(init);
      WithoutDistinct(init, key);
      if last != key {
        assert last !in init;
        DistinctSnoc(Without(init, key), last);
      }
    }
  }

  /** In a distinct order, taking out a present key removes exactly one position. */
  lemma {:induction false} WithoutCount(order: seq<string>, key: string)
    requires Distinct(order) && key in order
    ensures |Without(order, key)| == |order| - 1
  {
    var init := order[..|order| - 1];
    var last := order[|order| - 1];
    assert Distinct(init);
    if last == key {
      assert key !in init;
      WithoutAbsent(init, key);
    } else {
      assert key in init;
      WithoutCount(init, key);
    }
  }

  /** Keys oldest first, each once, exactly the keys of the store: an `OrderedDict`. */
  ghost predicate LruValid(order: seq<string>, store: map<string, Reply>) {
    Distinct(order) && forall k :: k in store <==> k in order
  }

  /** The order after a lookup: a hit moves the key to the most-recent end,
      a miss leaves the order alone. */
  function Touch(order: seq<string>, key: string): seq<string> {
    if key in order then Without(order, key) + [key] else order
  }

  /** A lookup keeps the order of every other key. */
  lemma TouchKeepsOthers(order: seq<string>, key: string)
    ensures Without(Touch(order, key), key) == Without(order, key)
  {
    if key in order {
      var w := Without(order, key);
      assert key !in w;
      WithoutAbsent(w, key);
      assert Without(w + [key], key) == Without(w, key) + [];
    }
  }

  /** A lookup keeps the order valid for the same store; after a hit the
      key is the most recent. */
  lemma TouchValid(order: seq<string>, store: map<string, Reply>, key: string)
    requires LruValid(order, store)
    ensures LruValid(Touch(order, key), store)
    ensures key in store ==> Touch(order, key)[|Touch(order, key)| - 1] == key
  {
    WithoutDistinct(order, key);
    if key in order {
      DistinctSnoc(Without(order, key), key);
    }
  }

  /** The state after `set`: the key becomes the most recent with the new
      reply; if the dictionary then holds more than `capacity` entries, the
      oldest one is dropped. */
  function Put(order: seq<string>, store: map<string, Reply>, capacity: int, key: string, v: Reply)
    : (r: (seq<string>, map<string, Reply>))
  {
    var o := if key in order then Without(order, key) + [key] else order + [key];
    var s := store[key := v];
    if |o| > capacity then (o[1..], s - {o[0]}) else (o, s)
  }

  /** The size bound a cache with this capacity keeps (a capacity of zero
      or less keeps nothing). */
  function Bound(capacity: int): nat {
    if capacity < 0 then 0 else capacity
  }

  /** `set` keeps the dictionary well formed and within the capacity. */
  lemma PutValid(order: seq<string>, store: map<string, Reply>, capacity: int, key: string, v: Reply)
    requires LruValid(order, store) && |order| <= Bound(capacity)
    ensures LruValid(Put(order, store, capacity, key, v).0, Put(order, store, capacity, key, v).1)
    ensures |Put(order, store, capacity, key, v).0| <= Bound(capacity)
  {
    WithoutDistinct(order, key);
    var o := if key in order then Without(order, key) + [key] else order + [key];
    if key in order {
      WithoutCount(order, key);
      DistinctSnoc(Without(order, key), key);
    } else {
      DistinctSnoc(order, key);
    }
    if |o| > capacity {
      DistinctTail(o);
    }
  }

  /** Storing under a key already present evicts nothing and moves the key
      to the most-recent end with its new reply. */
  lemma PutPresent(order: seq<string>, store: map<string, Reply>, capacity: int, key: string, v: Reply)
    requires LruValid(order, store) && |order| <= Bound(capacity) && key in store
    ensures Put(order, store, capacity, key, v) == (Without(order, key) + [key], store[key := v])
  {
    WithoutCount(order, key);
  }

  /** Storing a new key into a full cache evicts exactly the least recently
      used entry; into a cache with room, it evicts nothing. */
  lemma PutNew(order: seq<string>, store: map<string, Reply>, capacity: int, key: string, v: Reply)
    requires LruValid(order, store) && |order| <= Bound(capacity) && key !in store
    ensures |order| < capacity ==> Put(order, store, capacity, key, v) == (order + [key], store[key := v])
    ensures |order| == capacity > 0 ==>
      Put(order, store, capacity, key, v) == (order[1..] + [key], store[key := v] - {order[0]})
    ensures capacity <= 0 ==> Put(order, store, capacity, key, v) == ([], store)
  {
    var o := order + [key];
    if |order| == capacity > 0 {
      assert o[0] == order[0] && o[1..] == order[1..] + [key];
    }
    if capacity <= 0 {
      assert order == [] && store == map[];
      assert o[1..] == [];
      assert store[key := v] - {key} == store;
    }
  }

  /** `LRUCache`: an `OrderedDict` (its key order and its entries), a
      capacity and two counters. */
  class LruCache {
    var order: seq<string>
    var store: map<string, Reply>
    var capacity: int
    var hits: nat
    var misses: nat

    ghost predicate Valid()
      reads this
    {
      LruValid(order, store) && |order| <= Bound(capacity)
    }

    constructor (capacity: int)
      ensures Valid() && this.capacity == capacity
      ensures order == [] && store == map[] && hits == 0 && misses == 0
    {
      this.capacity := capacity;
      order := [];
      store := map[];
      hits := 0;
      misses := 0;
    }

    /** Like `SimpleCache.Get`, and a hit also makes the key the most recent. */
    method Get(prompt: string, model: string) returns (r: Option<Reply>)
      requires Valid()
      modifies this`order, this`hits, this`misses
      ensures Valid()
      ensures r == (if CacheKey(prompt, model) in store then Some(store[CacheKey(prompt, model)]) else None)
      ensures order == Touch(old(order), CacheKey(prompt, model))
      ensures r.Some? ==> hits == old(hits) + 1 && misses == old(misses)
      ensures r.None? ==> hits == old(hits) && misses == old(misses) + 1
    {
      var key := CacheKey(prompt, model);
      TouchValid(order, store, key);
      if key in store {
        order := Without(order, key) + [key];
        hits := hits + 1;
        return Some(store[key]);
      }
      misses := misses + 1;
      return None;
    }

    method Set(prompt: string, model: string, response: Reply)
      requires Valid()
      modifies this`order, this`store
      ensures Valid()
      ensures (order, store) == Put(old(order), old(store), capacity, CacheKey(prompt, model), response)
    {
      var key := CacheKey(prompt, model);
      PutValid(order, store, capacity, key, response);
      if key in order {
        order := Without(order, key) + [key];
      } else {
        order := order + [key];
      }
      store := store[key := response];
      if |order| > capacity {
        store := store - {order[0]};
        order := order[1..];
      }
    }

    method Clear()
      modifies this`order, this`store, this`hits, this`misses
      ensures Valid()
      ensures order == [] && store == map[] && hits == 0 && misses == 0
    {
      order := [];
      store := map[];
      hits := 0;
      misses := 0;
    }
  }

  // ------------------------------------------------------------ TTL cache

  /** The entry under `key` if it has not expired at time `now`. */
  function Lookup(store: map<string, Reply>, expiry: map<string, real>, key: string, now: real): Option<Reply> {
    if key in store && key in expiry && now < expiry[key] then Some(store[key]) else None
  }

  /** The keys whose expiry time has been reached at `now`. */
  function Expired(expiry: map<string, real>, now: real): (e: set<string>)
    ensures forall k :: k in e <==> k in expiry && now >= expiry[k]
  {
    set k | k in expiry && now >= expiry[k]
  }

  /** A reply stored at time `t` is served exactly until `t + ttl`. */
  lemma SetThenLookup(store: map<string, Reply>, expiry: map<string, real>, key: string,
                      v: Reply, t: real, ttl: real, now: real)
    ensures Lookup(store[key := v], expiry[key := t + ttl], key, now)
         == (if now < t + ttl then Some(v) else None)
  {
  }

  /** Dropping the expired entries changes no lookup made at the same time,
      and leaves only entries that are still live. */
  lemma CleanupInvisible(store: map<string, Reply>, expiry: map<string, real>, now: real, key: string)
    requires store.Keys == expiry.Keys
    ensures Lookup(store - Expired(expiry, now), expiry - Expired(expiry, now), key, now)
         == Lookup(store, expiry, key, now)
    ensures forall k :: k in expiry - Expired(expiry, now) ==> now < expiry[k]
  {
    var e := Expired(expiry, now);
    if key in store && now < expiry[key] {
      assert key !in e;
      assert (store - e)[key] == store[key];
    }
  }

  /** With a non-positive time-to-live, a reply stored at `t` does not
      survive a cleanup at any time from `t` on. */
  lemma NonPositiveTtlDropsAtOnce(expiry: map<string, real>, key: string, t: real, ttl: real, now: real)
    requires ttl <= 0.0 && t <= now
    ensures key in Expired(expiry[key := t + ttl], now)
  {
  }

  /** `TTLCache`: a dictionary of replies and one of expiry times, with the
      same keys, a time-to-live and two counters. */
  class TtlCache {
    var store: map<string, Reply>
    var expiry: map<string, real>
    var ttlSeconds: real
    var hits: nat
    var misses: nat

    ghost predicate Valid()
      reads this
    {
      store.Keys == expiry.Keys
    }

    constructor (ttlSeconds: real)
      ensures Valid() && this.ttlSeconds == ttlSeconds
      ensures store == map[] && expiry == map[] && hits == 0 && misses == 0
    {
      this.ttlSeconds := ttlSeconds;
      store := map[];
      expiry := map[];
      hits := 0;
      misses := 0;
    }

    /** A hit is a live entry; an entry found expired is removed from both
        dictionaries and counted as a miss. */
    method Get(prompt: string, model: string, now: real) returns (r: Option<Reply>)
      requires Valid()
      modifies this`store, this`expiry, this`hits, this`misses
      ensures Valid()
      ensures r == Lookup(old(store), old(expiry), CacheKey(prompt, model), now)
      ensures r.Some? ==> hits == old(hits) + 1 && misses == old(misses)
      ensures r.Some? ==> store == old(store) && expiry == old(expiry)
      ensures r.None? ==> hits == old(hits) && misses == old(misses) + 1
      ensures r.None? ==>
        store == old(store) - {CacheKey(prompt, model)} && expiry == old(expiry) - {CacheKey(prompt, model)}
    {
      var key := CacheKey(prompt, model);
      if key in store && now < expiry[key] {
        hits := hits + 1;
        return Some(store[key]);
      }
      if key in store && now >= expiry[key] {
        store := store - {key};
        expiry := expiry - {key};
      }
      misses := misses + 1;
      return None;
    }

    /** Stores the reply with the expiry time `now + ttl`. */
    method Set(prompt: string, model: string, response: Reply, now: real)
      requires Valid()
      modifies this`store, this`expiry
      ensures Valid()
      ensures store == old(store)[CacheKey(prompt, model) := response]
      ensures expiry == old(expiry)[CacheKey(prompt, model) := now + ttlSeconds]
    {
      var key := CacheKey(prompt, model);
      store := store[key := response];
      expiry := expiry[key := now + ttlSeconds];
    }

    method Clear()
      modifies this`store, this`expiry, this`hits, this`misses
      ensures Valid()
      ensures store == map[] && expiry == map[] && hits == 0 && misses == 0
    {
      store := map[];
      expiry := map[];
      hits := 0;
      misses := 0;
    }

    /** Deletes every entry whose expiry time has been reached and returns
        how many there were. */
    method Cleanup(now: real) returns (count: nat)
      requires Valid()
      modifies this`store, this`expiry
      ensures Valid()
      ensures count == |Expired(old(expiry), now)|
      ensures store == old(store) - Expired(old(expiry), now)
      ensures expiry == old(expiry) - Expired(old(expiry), now)
    {
      var expiredKeys := Expired(expiry, now);
      var todo := expiredKeys;
      while todo != {}
        invariant todo <= expiredKeys
        invariant store.Keys == expiry.Keys
        invariant store == old(store) - (expiredKeys - todo)
        invariant expiry == old(expiry) - (expiredKeys - todo)
        decreases |todo|
      {
        var k :| k in todo;
        assert k in store;
        store := store - {k};
        expiry := expiry - {k};
        todo := todo - {k};
      }
      count := |expiredKeys|;
    }
  }

  // ------------------------------------------------------------ chat wrappers

  /** `chat_with_simple_cache`: a cached reply is marked as a hit (in the
      cache too, since the stored dictionary itself is updated) and
      returned; otherwise the API's reply, errors included, is stored and
      returned. */
  method ChatWithSimpleCache(cache: SimpleCache, prompt: string, model: string, api: Reply)
    returns (r: Reply)
    modifies cache
    ensures var key := CacheKey(prompt, model);
      if key in old(cache.store) then
        r == old(cache.store)[key].(cacheHit := true) && cache.store == old(cache.store)[key := r]
      else
        r == api && cache.store == old(cache.store)[key := api]
    ensures CacheKey(prompt, model) in old(cache.store) ==>
      cache.hits == old(cache.hits) + 1 && cache.misses == old(cache.misses)
    ensures CacheKey(prompt, model) !in old(cache.store) ==>
      cache.hits == old(cache.hits) && cache.misses == old(cache.misses) + 1
  {
    var cached := cache.Get(prompt, model);
    if cached.Some? {
      r := cached.value.(cacheHit := true);
      cache.store := cache.store[CacheKey(prompt, model) := r];
      return;
    }
    r := api;
    cache.Set(prompt, model, r);
  }

  /** `chat_with_lru_cache`: the same, through the LRU cache. */
  method ChatWithLruCache(cache: LruCache, prompt: string, model: string, api: Reply)
    returns (r: Reply)
    requires cache.Valid()
    modifies cache
    ensures cache.Valid() && cache.capacity == old(cache.capacity)
    ensures var key := CacheKey(prompt, model);
      if key in old(cache.store) then
        r == old(cache.store)[key].(cacheHit := true)
        && cache.store == old(cache.store)[key := r]
        && cache.order == Touch(old(cache.order), key)
      else
        r == api
        && (cache.order, cache.store) == Put(old(cache.order), old(cache.store), cache.capacity, key, api)
    ensures CacheKey(prompt, model) in old(cache.store) ==>
      cache.hits == old(cache.hits) + 1 && cache.misses == old(cache.misses)
    ensures CacheKey(prompt, model) !in old(cache.store) ==>
      cache.hits == old(cache.hits) && cache.misses == old(cache.misses) + 1
  {
    var key := CacheKey(prompt, model);
    var cached := cache.Get(prompt, model);
    if cached.Some? {
      r := cached.value.(cacheHit := true);
      cache.store := cache.store[key := r];
      return;
    }
    r := api;
    cache.Set(prompt, model, r);
  }

  /** `chat_with_ttl_cache`: the same through the TTL cache, read at
      `getTime`, written at `setTime`, and followed by a cleanup at
      `cleanupTime` after every miss. */
  method ChatWithTtlCache(cache: TtlCache, prompt: string, model: string, api: Reply,
                          getTime: real, setTime: real, cleanupTime: real)
    returns (r: Reply)
    requires cache.Valid()
    modifies cache
    ensures cache.Valid() && cache.ttlSeconds == old(cache.ttlSeconds)
    ensures var key := CacheKey(prompt, model);
      match Lookup(old(cache.store), old(cache.expiry), key, getTime)
      case Some(hit) =>
        r == hit.(cacheHit := true) && cache.store == old(cache.store)[key := r]
        && cache.expiry == old(cache.expiry)
      case None =>
        r == api
        && var e := old(cache.expiry)[key := setTime + cache.ttlSeconds];
           cache.expiry == e - Expired(e, cleanupTime)
           && cache.store == (old(cache.store) - {key})[key := api] - Expired(e, cleanupTime)
    ensures Lookup(old(cache.store), old(cache.expiry), CacheKey(prompt, model), getTime).Some? ==>
      cache.hits == old(cache.hits) + 1 && cache.misses == old(cache.misses)
    ensures Lookup(old(cache.store), old(cache.expiry), CacheKey(prompt, model), getTime).None? ==>
      cache.hits == old(cache.hits) && cache.misses == old(cache.misses) + 1
  {
    var key := CacheKey(prompt, model);
    var cached := cache.Get(prompt, model, getTime);
    if cached.Some? {
      r := cached.value.(cacheHit := true);
      cache.store := cache.store[key := r];
      return;
    }
    r := api;
    cache.Set(prompt, model, r, setTime);
    ghost var e := cache.expiry;
    assert e == old(cache.expiry)[key := setTime + cache.ttlSeconds];
    assert cache.store == (old(cache.store) - {key})[key := api];
    var _ := cache.Cleanup(cleanupTime);
  }
}

=== FILE: chatbot.dfy ===
/** The command-line chatbot (module2.py): a `GroqChatbot` keeps the whole
    conversation, system message first, sends it with every new user
    message, and shows it back as a transcript; the command loop reads
    `exit`, `clear`, `history` and `model:<name>` in any case. */
module Chatbot {
  import opened Wrappers
  import opened PyText

  /** Who wrote a message: the `role` field, which the chatbot only ever
      sets to "system", "user" or "assistant". */
  datatype Role = System | User | Assistant

  /** One entry of the conversation sent to the model. */
  datatype Message = Message(role: Role, content: string)

  const SystemMessage: Message := Message(System, "You are a helpful AI assistant.")
  const ClearedNotice: string := "Conversation history cleared."

  /** The text one message adds to the transcript: nothing for a system
      message, otherwise its speaker, a colon, its content and a blank line. */
  function Block(m: Message): string {
    if m.role == System then "" else Speaker(m.role) + ": " + m.content + "\n\n"
  }

  /** How the transcript names a speaker. */
  function Speaker(r: Role): string {
    if r == User then "You" else "AI"
  }

  /** The transcript of a conversation. */
  function Transcript(h: seq<Message>): string {
    if |h| == 0 then "" else Transcript(h[..|h| - 1]) + Block(h[|h| - 1])
  }

  /** A conversation as the chatbot keeps it: the system message, then user
      messages, each answered at most once. */
  predicate WellFormed(h: seq<Message>) {
    && |h| >= 1
    && h[0] == SystemMessage
    && (forall i :: 1 <= i < |h| ==> h[i].role != System)
    && (forall i :: 1 <= i < |h| && h[i].role == Assistant ==> h[i - 1].role == User)
  }

  class GroqChatbot {
    var apiKey: string
    var model: string
    var history: seq<Message>

    predicate Valid()
      reads this
    {
      WellFormed(history)
    }

    /** A new chatbot: the conversation holds only the system message. */
    constructor(apiKey: string, model: string)
      ensures this.apiKey == apiKey && this.model == model
      ensures history == [SystemMessage] && Valid()
    {
      this.apiKey := apiKey;
      this.model := model;
      history := [SystemMessage];
    }

    /** `send_message`: the user message joins the conversation before the
        request, which carries the whole conversation; the reply joins it
        only when the request succeeds, and a failed request leaves the
        user message unanswered. `call` is the chat-completion request. */
    method SendMessage(message: string, call: (string, seq<Message>) -> Result<string, string>)
      returns (r: string)
      requires Valid()
      modifies this
      ensures Valid()
      ensures var sent := old(history) + [Message(User, message)];
        match call(old(model), sent)
        case Ok(reply) => r == reply && history == sent + [Message(Assistant, reply)]
        case Err(e) => r == "Error: " + e && history == sent
      ensures model == old(model) && apiKey == old(apiKey)
    {
      history := history + [Message(User, message)];
      var result := call(model, history);
      match result
      case Ok(reply) =>
        history := history + [Message(Assistant, reply)];
        r := reply;
      case Err(e) =>
        r := "Error: " + e;
    }

    /** `clear_history`: back to the system message alone. */
    method ClearHistory() returns (r: string)
      modifies this
      ensures history == [SystemMessage] && Valid() && Transcript(history) == ""
      ensures r == ClearedNotice
      ensures model == old(model) && apiKey == old(apiKey)
    {
      history := [SystemMessage];
      r := ClearedNotice;
    }

    /** `change_model`: later requests use the new model. */
    method ChangeModel(newModel: string) returns (r: string)
      modifies this
      ensures model == newModel && r == "Model changed to " + newModel + "."
      ensures history == old(history) && apiKey == old(apiKey)
    {
      model := newModel;
      r := "Model changed to " + newModel + ".";
    }

    /** `display_history`: the transcript, built message by message. */
    method DisplayHistory() returns (s: string)
      ensures s == Transcript(history)
    {
      s := "";
      for k := 0 to |history|
        invariant s == Transcript(history[..k])
      {
        TranscriptStep(history, k, k + 1);
        var m := history[k];
        if m.role != System {
          var speaker := if m.role == User then "You" else "AI";
          s := s + (speaker + ": " + m.content + "\n\n");
        }
      }
      assert history[..|history|] == history;
    }
  }

  /** The transcript of two conversations one after the other. */
  lemma {:induction false} TranscriptAppend(a: seq<Message>, b: seq<Message>)
    ensures Transcript(a + b) == Transcript(a) + Transcript(b)
    decreases |b|
  {
    if b != [] {
      assert (a + b)[..|a + b| - 1] == a + b[..|b| - 1];
      TranscriptAppend(a, b[..|b| - 1]);
    } else {
      assert a + b == a;
    }
  }

  /** The transcript of a prefix one message longer. */
  lemma TranscriptStep(h: seq<Message>, k: nat, next: nat)
    requires k < |h| && next == k + 1
    ensures Transcript(h[..next]) == Transcript(h[..k]) + Block(h[k])
  {
    assert h[..next][..k] == h[..k];
  }

  /** An answered message shows as a "You" block then an "AI" block. */
  lemma TranscriptOfExchange(h: seq<Message>, message: string, reply: string)
    ensures Transcript(h + [Message(User, message), Message(Assistant, reply)])
      == Transcript(h) + ("You" + ": " + message + "\n\n") + ("AI" + ": " + reply + "\n\n")
  {
    var u, r := Message(User, message), Message(Assistant, reply);
    var hu := h + [u];
    assert hu[..|hu| - 1] == h;
    assert Transcript(hu) == Transcript(h) + Block(u);
    var hur := hu + [r];
    assert hur[..|hur| - 1] == hu;
    assert Transcript(hur) == Transcript(hu) + Block(r);
    assert h + [u, r] == hur;
  }

  /** A system message anywhere leaves the transcript as it is. */
  lemma TranscriptSkipsSystem(a: seq<Message>, content: string, b: seq<Message>)
    ensures Transcript(a + [Message(System, content)] + b) == Transcript(a + b)
  {
    var m := Message(System, content);
    var am := a + [m];
    assert am[..|am| - 1] == a;
    assert Transcript(am) == Transcript(a) + Block(m);
    assert Transcript(am) == Transcript(a);
    TranscriptAppend(am, b);
    TranscriptAppend(a, b);
  }

  /** What a line typed at the prompt asks for. */
  datatype Command = Exit | Clear | ShowHistory | ChangeModelTo(name: string) | Say(text: string)

  const ModelPrefix: string := "model:"

  /** The command loop's reading of one input line: the line is stripped,
      the keywords and the `model:` prefix are compared in lower case, and
      the model name keeps its case. */
  function ParseCommand(raw: string): (c: Command)
    ensures Parsable(c)
  {
    var input := Strip(raw);
    StripEnds(raw);
    StripUnchanged(input);
    var l := Lower(input);
    if l == "exit" then Exit
    else if l == "clear" then Clear
    else if l == "history" then ShowHistory
    else if StartsWith(l, ModelPrefix) then
      var name := Strip(input[|ModelPrefix|..]);
      StripEnds(input[|ModelPrefix|..]);
      StripUnchanged(name);
      ChangeModelTo(name)
    else Say(input)
  }

  /** The words that spell each command. */
  function Spell(c: Command): string {
    match c
    case Exit => "exit"
    case Clear => "clear"
    case ShowHistory => "history"
    case ChangeModelTo(name) => ModelPrefix + name
    case Say(text) => text
  }

  /** The commands a line can produce: names and messages already stripped,
      and a message that is not itself a command. */
  predicate Parsable(c: Command) {
    match c
    case ChangeModelTo(name) => Strip(name) == name
    case Say(text) =>
      && Strip(text) == text
      && Lower(text) != "exit" && Lower(text) != "clear" && Lower(text) != "history"
      && !StartsWith(Lower(text), ModelPrefix)
    case _ => true
  }

  /** A string with no whitespace at either end is its own strip. */
  lemma StripUnchanged(s: string)
    requires s == [] || (!IsSpace(s[0]) && !IsSpace(s[|s| - 1]))
    ensures Strip(s) == s
  {
    if s != [] {
      assert LeadingSpaces(s) == 0;
      assert s[LeadingSpaces(s)..] == s;
    }
  }

  /** Lower-case text is its own lower case. */
  lemma LowerOfLower(s: string)
    requires forall i :: 0 <= i < |s| ==> !IsUpper(s[i])
    ensures Lower(s) == s
  {
  }

  /** Reading back a spelled command gives the command. */
  lemma ParseSpell(c: Command)
    requires Parsable(c)
    ensures ParseCommand(Spell(c)) == c
  {
    match c
    case ChangeModelTo(name) =>
      LowerOfLower(ModelPrefix);
      ModelPrefixAnyCase(ModelPrefix, name);
    case Say(text) =>
    case _ =>
      ParseKeyword(Spell(c));
  }

  /** The three keywords, in lower case, read as their commands. */
  lemma ParseKeyword(word: string)
    requires word == "exit" || word == "clear" || word == "history"
    ensures ParseCommand(word) == (if word == "exit" then Exit else if word == "clear" then Clear else ShowHistory)
  {
    StripUnchanged(word);
    LowerOfLower(word);
  }

  /** The `model:` prefix is recognised in any case, and the name after it
      keeps its own case. */
  lemma ModelPrefixAnyCase(prefix: string, name: string)
    requires Lower(prefix) == ModelPrefix && Strip(name) == name
    ensures ParseCommand(prefix + name) == ChangeModelTo(name)
  {
    var s := prefix + name;
    StripSpec(name);
    assert s[0] == prefix[0] && LowerChar(prefix[0]) == 'm';
    assert s[|s| - 1] == (if name == [] then prefix[5] else name[|name| - 1]);
    assert LowerChar(prefix[5]) == ':';
    StripUnchanged(s);
    var l := Lower(s);
    assert l[..|ModelPrefix|] == Lower(prefix);
    assert l[0] == 'm';
    assert s[|ModelPrefix|..] == name;
  }
}

=== FILE: chunker.dfy ===
/** The document chunker of the RAG ingestion service: heading-based splitting
    with an ancestor-heading hierarchy, the sliding-window fallback that cuts at
    natural breaks, size normalisation, text cleaning, and the service that
    keeps processed documents and the parser registry. */
module Chunker {
  import opened Wrappers
  import opened PyText

  /** Chunking parameters (`ChunkingConfig`). */
  datatype Config = Config(
    chunkSize: int,
    chunkOverlap: int,
    splitOnHeadings: bool,
    preserveHierarchy: bool,
    minChunkSize: int,
    maxChunkSize: int)

  const DefaultConfig: Config := Config(1000, 200, true, true, 100, 2000)

  /** A heading found by the parser: its text, its level (1 for `h1` …) and its
      character position. */
  datatype Header = Header(text: string, level: int, position: nat)

  /** A chunk's metadata dictionary; `None` is a key that is absent. */
  datatype Meta = Meta(
    chunkType: Option<string>,
    header: Option<string>,
    level: Option<int>,
    hierarchy: Option<seq<string>>)

  datatype Chunk = Chunk(text: string, startIdx: int, endIdx: int, meta: Meta)

  /** The metadata of a sliding-window chunk: `{'type': 'basic_chunk'}`. */
  const BasicMeta: Meta := Meta(Some("basic_chunk"), None, None, None)

  /** `d.update(over)`: every key present in `over` takes its value from `over`. */
  function UpdateMeta(d: Meta, over: Meta): (r: Meta)
    ensures over.chunkType.Some? ==> r.chunkType == over.chunkType
    ensures over.chunkType.None? ==> r.chunkType == d.chunkType
    ensures over.header.Some? ==> r.header == over.header
    ensures over.header.None? ==> r.header == d.header
    ensures over.level.Some? ==> r.level == over.level
    ensures over.level.None? ==> r.level == d.level
    ensures over.hierarchy.Some? ==> r.hierarchy == over.hierarchy
    ensures over.hierarchy.None? ==> r.hierarchy == d.hierarchy
  {
    Meta(
      if over.chunkType.Some? then over.chunkType else d.chunkType,
      if over.header.Some? then over.header else d.header,
      if over.level.Some? then over.level else d.level,
      if over.hierarchy.Some? then over.hierarchy else d.hierarchy)
  }

  /** The chunk a raw span `[start, end)` of `text` gives: the stripped slice
      with the span's bounds, or nothing when the slice is blank. */
  function SliceChunk(text: string, start: int, end: int, meta: Meta): Option<Chunk> {
    var t := Strip(PySlice(text, start, end));
    if t == [] then None else Some(Chunk(t, start, end, meta))
  }

  // ---------------------------------------------------------------------
  // Heading-based chunking (`_split_on_headers`, `_get_chunk_hierarchy`)
  // ---------------------------------------------------------------------

  predicate SortedByPosition(hs: seq<Header>) {
    forall i, j :: 0 <= i < j < |hs| ==> hs[i].position <= hs[j].position
  }

  /** Stable insertion: `h` goes after every heading at or before its position. */
  function InsertByPosition(s: seq<Header>, h: Header): (r: seq<Header>)
    ensures |r| == |s| + 1
    decreases |s|
  {
    if s == [] then [h]
    else if h.position < s[0].position then [h] + s
    else [s[0]] + InsertByPosition(s[1..], h)
  }

  /** Insertion adds exactly `h`. */
  lemma {:induction false} InsertByPositionPerm(s: seq<Header>, h: Header)
    ensures multiset(InsertByPosition(s, h)) == multiset(s) + multiset{h}
    decreases |s|
  {
    if s != [] && h.position >= s[0].position {
      InsertByPositionPerm(s[1..], h);
      assert s == [s[0]] + s[1..];
    }
  }

  /** Every heading of the insertion's result is at or after a bound that all the inputs respect. */
  lemma {:induction false} InsertByPositionAtLeast(s: seq<Header>, h: Header, p: nat)
    requires forall x :: x in s ==> p <= x.position
    requires p <= h.position
    ensures forall x :: x in InsertByPosition(s, h) ==> p <= x.position
    decreases |s|
  {
    if s != [] && h.position >= s[0].position {
      assert forall x :: x in s[1..] ==> x in s;
      InsertByPositionAtLeast(s[1..], h, p);
    }
  }

  /** Insertion keeps a sorted list sorted. */
  lemma {:induction false} InsertByPositionSorted(s: seq<Header>, h: Header)
    requires SortedByPosition(s)
    ensures SortedByPosition(InsertByPosition(s, h))
    decreases |s|
  {
    if s != [] && h.position >= s[0].position {
      var rest := InsertByPosition(s[1..], h);
      InsertByPositionSorted(s[1..], h);
      assert forall x :: x in s[1..] ==> s[0].position <= x.position;
      InsertByPositionAtLeast(s[1..], h, s[0].position);
      var r := [s[0]] + rest;
      assert forall j :: 0 < j < |r| ==> r[j] == rest[j - 1] && r[j] in rest;
    }
  }
  /** `sorted(headers, key=lambda x: x['position'])`, a stable sort. */
  function SortByPosition(hs: seq<Header>): (r: seq<Header>)
    ensures |r| == |hs|
  {
    if hs == [] then [] else InsertByPosition(SortByPosition(hs[..|hs| - 1]), hs[|hs| - 1])
  }

  /** Sorting gives a sorted permutation of the headings. */
  lemma {:induction false} SortByPositionSpec(hs: seq<Header>)
    ensures multiset(SortByPosition(hs)) == multiset(hs)
    ensures SortedByPosition(SortByPosition(hs))
  {
    if hs != [] {
      var init := hs[..|hs| - 1];
      SortByPositionSpec(init);
      InsertByPositionPerm(SortByPosition(init), hs[|hs| - 1]);
      InsertByPositionSorted(SortByPosition(init), hs[|hs| - 1]);
      assert hs == init + [hs[|hs| - 1]];
    }
  }

  /** The headings `_get_chunk_hierarchy` keeps, root first: scanning `hs` from
      its end with a running level, a heading positioned before `pos` and below
      the running level is kept and becomes the running level. */
  function AncestorsFrom(pos: nat, level: int, hs: seq<Header>): seq<Header>
    decreases |hs|
  {
    if hs == [] then []
    else
      var h := hs[|hs| - 1];
      if h.position < pos && h.level < level then AncestorsFrom(pos, h.level, hs[..|hs| - 1]) + [h]
      else AncestorsFrom(pos, level, hs[..|hs| - 1])
  }

  /** A heading that can be an ancestor of one at `pos` with level `level`. */
  predicate Above(h: Header, pos: nat, level: int) { h.position < pos && h.level < level }

  /** Levels strictly increase along the list. */
  predicate LevelsIncrease(a: seq<Header>) { forall i :: 0 < i < |a| ==> a[i - 1].level < a[i].level }

  /** The ancestors are headings of `hs` positioned before `pos`, all below
      `level`, with levels strictly increasing from root to leaf. */
  lemma {:induction false} AncestorsAbove(pos: nat, level: int, hs: seq<Header>)
    ensures forall x :: x in AncestorsFrom(pos, level, hs) ==> x in hs && Above(x, pos, level)
    ensures LevelsIncrease(AncestorsFrom(pos, level, hs))
    decreases |hs|
  {
    if hs != [] {
      var h, init := hs[|hs| - 1], hs[..|hs| - 1];
      if Above(h, pos, level) {
        AncestorsAbove(pos, h.level, init);
        var prev := AncestorsFrom(pos, h.level, init);
        if prev != [] {
          assert prev[|prev| - 1] in prev;
        }
      } else {
        AncestorsAbove(pos, level, init);
      }
    }
  }

  /** There are no ancestors exactly when no heading qualifies, and the
      nearest one is the last heading of `hs` that qualifies. */
  lemma {:induction false} AncestorsNearest(pos: nat, level: int, hs: seq<Header>)
    ensures var a := AncestorsFrom(pos, level, hs);
      (a == [] <==> forall j :: 0 <= j < |hs| ==> !Above(hs[j], pos, level))
      && (a != [] ==> exists j :: 0 <= j < |hs| && a[|a| - 1] == hs[j] && Above(hs[j], pos, level)
                        && forall j' :: j < j' < |hs| ==> !Above(hs[j'], pos, level))
    decreases |hs|
  {
    if hs != [] {
      var h, init := hs[|hs| - 1], hs[..|hs| - 1];
      if !Above(h, pos, level) {
        AncestorsNearest(pos, level, init);
        var a := AncestorsFrom(pos, level, init);
        if a != [] {
          var j :| 0 <= j < |init| && a[|a| - 1] == init[j] && Above(init[j], pos, level)
                   && forall j' :: j < j' < |init| ==> !Above(init[j'], pos, level);
          assert a[|a| - 1] == hs[j];
        }
      }
    }
  }

  /** The texts of a list of headings. */
  function Texts(hs: seq<Header>): (r: seq<string>)
    ensures |r| == |hs|
  {
    seq(|hs|, i requires 0 <= i < |hs| => hs[i].text)
  }

  /** `_get_chunk_hierarchy(current, headers)`: the texts of the ancestors of
      `current`, root first. */
  method ChunkHierarchy(current: Header, hs: seq<Header>) returns (r: seq<string>)
    ensures r == Texts(AncestorsFrom(current.position, current.level, hs))
  {
    var hierarchy: seq<string> := [];
    var level := current.level;
    var i := |hs|;
    assert hs[..i] == hs;
    while i > 0
      invariant 0 <= i <= |hs|
      invariant Texts(AncestorsFrom(current.position, current.level, hs))
        == Texts(AncestorsFrom(current.position, level, hs[..i])) + Reversed(hierarchy)
    {
      var h := hs[i - 1];
      assert hs[..i][..i - 1] == hs[..i - 1];
      if h.position < current.position && h.level < level {
        ReversedSnoc(hierarchy, h.text);
        assert Texts(AncestorsFrom(current.position, h.level, hs[..i - 1]) + [h])
          == Texts(AncestorsFrom(current.position, h.level, hs[..i - 1])) + [h.text];
        hierarchy := hierarchy + [h.text];
        level := h.level;
      }
      i := i - 1;
    }
    r := Reversed(hierarchy);
  }

  /** Where the section of the `i`-th sorted heading ends: at the next heading,
      or at the end of the text for the last one. */
  function SectionEnd(text: string, hs: seq<Header>, i: nat): int
    requires i < |hs|
  {
    if i < |hs| - 1 then hs[i + 1].position else |text|
  }

  /** The metadata of a heading chunk. */
  function HeadingMeta(h: Header, hs: seq<Header>): Meta {
    Meta(None, Some(h.text), Some(h.level), Some(Texts(AncestorsFrom(h.position, h.level, hs))))
  }

  /** The chunk of the `i`-th sorted heading, unless its section is blank. */
  function SectionChunk(text: string, hs: seq<Header>, i: nat): Option<Chunk>
    requires i < |hs|
  {
    SliceChunk(text, hs[i].position, SectionEnd(text, hs, i), HeadingMeta(hs[i], hs))
  }

  /** The chunk of every sorted heading, `None` for a blank section. */
  function Sections(text: string, hs: seq<Header>): (r: seq<Option<Chunk>>)
    ensures |r| == |hs|
  {
    seq(|hs|, i requires 0 <= i < |hs| => SectionChunk(text, hs, i))
  }

  /** What `_split_on_headers(text, headers)` returns. */
  function HeadingChunks(text: string, headers: seq<Header>): (r: seq<Chunk>)
    ensures |r| <= |headers|
  {
    Somes(Sections(text, SortByPosition(headers)))
  }

  /** `_split_on_headers(text, headers)`. */
  method SplitOnHeaders(text: string, headers: seq<Header>) returns (chunks: seq<Chunk>)
    ensures chunks == HeadingChunks(text, headers)
  {
    var hs := SortByPosition(headers);
    ghost var sections := Sections(text, hs);
    chunks := [];
    for i := 0 to |hs|
      invariant chunks == Somes(sections[..i])
    {
      var endPos := if i < |hs| - 1 then hs[i + 1].position else |text|;
      var startPos := hs[i].position;
      var chunkText := Strip(PySlice(text, startPos, endPos));
      SomesPrefixStep(sections, i);
      if chunkText != [] {
        var hierarchy := ChunkHierarchy(hs[i], hs);
        chunks := chunks + [Chunk(chunkText, startPos, endPos,
                                  Meta(None, Some(hs[i].text), Some(hs[i].level), Some(hierarchy)))];
      }
    }
    assert sections[..|hs|] == sections;
  }

  /** A chunk is the non-blank stripped slice of its raw span. */
  predicate SliceOfSpan(text: string, c: Chunk) {
    c.text == Strip(PySlice(text, c.startIdx, c.endIdx)) && c.text != []
  }

  /** The chunk of a non-blank section: the stripped slice of the span from its
      heading to the next, with its heading's text, level and hierarchy. */
  lemma SectionChunkSpec(text: string, hs: seq<Header>, i: nat)
    requires i < |hs|
    ensures SectionChunk(text, hs, i).Some? <==> !IsBlank(PySlice(text, hs[i].position, SectionEnd(text, hs, i)))
    ensures SectionChunk(text, hs, i).Some? ==>
      var c := SectionChunk(text, hs, i).value;
      SliceOfSpan(text, c) && c.startIdx == hs[i].position && c.endIdx == SectionEnd(text, hs, i)
      && c.meta == HeadingMeta(hs[i], hs)
  {
    StripSpec(PySlice(text, hs[i].position, SectionEnd(text, hs, i)));
  }

  /** Chunks kept from entries whose spans are ordered stay ordered. */
  lemma {:induction false} SomesInOrder(xs: seq<Option<Chunk>>)
    requires forall i, j :: 0 <= i < j < |xs| && xs[i].Some? && xs[j].Some? ==>
      xs[i].value.endIdx <= xs[j].value.startIdx
    ensures forall j :: 0 < j < |Somes(xs)| ==> Somes(xs)[j - 1].endIdx <= Somes(xs)[j].startIdx
  {
    if xs != [] {
      var init := xs[..|xs| - 1];
      var out, prev := Somes(xs), Somes(init);
      SomesInOrder(init);
      assert forall j :: 0 <= j < |prev| ==> out[j] == prev[j];
      if xs[|xs| - 1].Some? && prev != [] {
        SomesFrom(init, prev[|prev| - 1]);
      }
    }
  }

  /** The heading chunks come in heading order: each ends no later than the
      next one starts. */
  lemma HeadingChunksInOrder(text: string, headers: seq<Header>)
    ensures var out := HeadingChunks(text, headers);
      |out| <= |headers| && forall j :: 0 < j < |out| ==> out[j - 1].endIdx <= out[j].startIdx
  {
    var hs := SortByPosition(headers);
    var xs := Sections(text, hs);
    SortByPositionSpec(headers);
    forall i, j | 0 <= i < j < |xs| && xs[i].Some? && xs[j].Some?
      ensures xs[i].value.endIdx <= xs[j].value.startIdx
    {
      SectionsOrdered(text, hs, i, j);
    }
    SomesInOrder(xs);
  }

  /** Of two sections of sorted headings, the earlier ends before the later starts. */
  lemma SectionsOrdered(text: string, hs: seq<Header>, i: nat, j: nat)
    requires SortedByPosition(hs) && i < j < |hs|
    requires SectionChunk(text, hs, i).Some? && SectionChunk(text, hs, j).Some?
    ensures SectionChunk(text, hs, i).value.endIdx <= SectionChunk(text, hs, j).value.startIdx
  {
    assert SectionChunk(text, hs, i).value.endIdx == hs[i + 1].position;
    assert SectionChunk(text, hs, j).value.startIdx == hs[j].position;
    if i + 1 < j {
      assert hs[i + 1].position <= hs[j].position;
    }
  }

  /** The heading a chunk names in its metadata and start index. */
  function ChunkHeading(c: Chunk): Header
    requires c.startIdx >= 0 && c.meta.header.Some? && c.meta.level.Some?
  {
    Header(c.meta.header.value, c.meta.level.value, c.startIdx)
  }

  /** A chunk of the section of one of the headings `hs`. */
  predicate IsSectionChunk(text: string, hs: seq<Header>, c: Chunk) {
    SliceOfSpan(text, c) && c.startIdx >= 0 && c.meta.header.Some? && c.meta.level.Some?
    && ChunkHeading(c) in hs && c.meta == HeadingMeta(ChunkHeading(c), hs)
  }

  /** Every heading chunk is the non-blank stripped slice of its raw span,
      starts at one of the headings and carries that heading's text, level and
      hierarchy. */
  lemma HeadingChunksAreSections(text: string, headers: seq<Header>)
    ensures forall c :: c in HeadingChunks(text, headers) ==> IsSectionChunk(text, SortByPosition(headers), c)
  {
    var hs := SortByPosition(headers);
    var xs := Sections(text, hs);
    forall c | c in Somes(xs) ensures IsSectionChunk(text, hs, c) {
      SomesFrom(xs, c);
      var i :| 0 <= i < |xs| && xs[i] == Some(c);
      SectionChunkSpec(text, hs, i);
      assert ChunkHeading(c) == hs[i];
    }
  }

  /** When no section is blank, there is exactly one chunk per heading, spanning
      from its position to the next heading's position (the text's end for the
      last one). */
  lemma HeadingChunksOnePerHeading(text: string, headers: seq<Header>)
    requires var hs := SortByPosition(headers);
      forall i :: 0 <= i < |hs| ==> !IsBlank(PySlice(text, hs[i].position, SectionEnd(text, hs, i)))
    ensures var hs, out := SortByPosition(headers), HeadingChunks(text, headers);
      |out| == |headers|
      && (forall i :: 0 <= i < |hs| ==>
            out[i].startIdx == hs[i].position && out[i].endIdx == SectionEnd(text, hs, i)
            && SliceOfSpan(text, out[i]) && out[i].meta == HeadingMeta(hs[i], hs))
  {
    var hs := SortByPosition(headers);
    var xs := Sections(text, hs);
    forall i | 0 <= i < |xs| ensures xs[i].Some? {
      SectionChunkSpec(text, hs, i);
    }
    SomesAll(xs);
    forall i | 0 <= i < |hs|
      ensures Somes(xs)[i].startIdx == hs[i].position && Somes(xs)[i].endIdx == SectionEnd(text, hs, i)
            && SliceOfSpan(text, Somes(xs)[i]) && Somes(xs)[i].meta == HeadingMeta(hs[i], hs)
    {
      SectionChunkSpec(text, hs, i);
    }
  }

  // ---------------------------------------------------------------------
  // Sliding-window chunking (`_create_basic_chunks`)
  // ---------------------------------------------------------------------

  /** The characters a window may be cut after. */
  predicate IsBreak(c: char) { c == '.' || c == '!' || c == '?' || c == '\n' }

  /** How a window starting at `start` ends: cut at a character index, or the
      `ValueError` that `max()` raises when the window holds no break character. */
  datatype Window = NoBreak | Cut(end: int)

  function Max(a: int, b: int): int { if a < b then b else a }

  /** The end of the window that starts at `start`. Every `rfind` result is at
      least -1, so the maximum over the results that are not -1 is the plain
      maximum of the four, and it is -1 exactly when none was found. */
  function WindowEnd(text: string, chunkSize: int, start: int): (w: Window)
    ensures w.Cut? ==> w.end <= |text| && (|text| > 0 ==> 1 <= w.end)
  {
    var end := start + chunkSize;
    if end < |text| then
      var best := Max(Max(RFind(text, '.', start, end), RFind(text, '!', start, end)),
                      Max(RFind(text, '?', start, end), RFind(text, '\n', start, end)));
      if best == -1 then NoBreak else Cut(best + 1)
    else Cut(|text|)
  }

  /** A window that does not reach the end of the text is cut just after its
      rightmost break character, and raises when it holds none; a window that
      reaches the end ends there. A window never reaches past `start + chunkSize`
      unless Python's negative-index adjustment moves its bounds. */
  lemma WindowEndSpec(text: string, chunkSize: int, start: int)
    ensures start + chunkSize >= |text| ==> WindowEnd(text, chunkSize, start) == Cut(|text|)
    ensures start + chunkSize < |text| ==>
      var w := WindowEnd(text, chunkSize, start);
      var lo, hi := NormIndex(start, |text|), NormIndex(start + chunkSize, |text|);
      (w.NoBreak? <==> forall i :: lo <= i < hi ==> !IsBreak(text[i]))
      && (w.Cut? ==> lo < w.end <= hi && IsBreak(text[w.end - 1])
                     && forall i :: w.end <= i < hi ==> !IsBreak(text[i]))
    ensures 0 <= start + chunkSize && WindowEnd(text, chunkSize, start).Cut? ==>
      WindowEnd(text, chunkSize, start).end <= start + chunkSize
  {
    if start + chunkSize < |text| {
      WindowEndCut(text, chunkSize, start);
    }
  }

  /** A window that does not reach the end of the text: the cut is just after
      its last break character, and there is none when it raises. */
  lemma WindowEndCut(text: string, chunkSize: int, start: int)
    requires start + chunkSize < |text|
    ensures var w := WindowEnd(text, chunkSize, start);
      var lo, hi := NormIndex(start, |text|), NormIndex(start + chunkSize, |text|);
      (w.NoBreak? <==> forall i :: lo <= i < hi ==> !IsBreak(text[i]))
      && (w.Cut? ==> lo < w.end <= hi && IsBreak(text[w.end - 1])
                     && forall i :: w.end <= i < hi ==> !IsBreak(text[i]))
  {
    var lo, hi := NormIndex(start, |text|), NormIndex(start + chunkSize, |text|);
    if lo <= hi {
      WindowRaisesIff(text, chunkSize, start, lo, hi);
      WindowCutLast(text, chunkSize, start, lo, hi);
    }
  }

  /** The window raises exactly when it holds no break character. */
  lemma WindowRaisesIff(text: string, chunkSize: int, start: int, lo: nat, hi: nat)
    requires start + chunkSize < |text|
    requires lo == NormIndex(start, |text|) && hi == NormIndex(start + chunkSize, |text|) && lo <= hi
    ensures WindowEnd(text, chunkSize, start).NoBreak? <==> forall i :: lo <= i < hi ==> !IsBreak(text[i])
  {
    RFindInSpec(text, '.', lo, hi);
    RFindInSpec(text, '!', lo, hi);
    RFindInSpec(text, '?', lo, hi);
    RFindInSpec(text, '\n', lo, hi);
  }

  /** A cut window ends just after its last break character. */
  lemma WindowCutLast(text: string, chunkSize: int, start: int, lo: nat, hi: nat)
    requires start + chunkSize < |text|
    requires lo == NormIndex(start, |text|) && hi == NormIndex(start + chunkSize, |text|) && lo <= hi
    ensures var w := WindowEnd(text, chunkSize, start);
      w.Cut? ==> lo < w.end <= hi && IsBreak(text[w.end - 1])
                 && forall i :: w.end <= i < hi ==> !IsBreak(text[i])
  {
    RFindInSpec(text, '.', lo, hi);
    RFindInSpec(text, '!', lo, hi);
    RFindInSpec(text, '?', lo, hi);
    RFindInSpec(text, '\n', lo, hi);
  }

  /** The state of the `_create_basic_chunks` loop: still at some `start`, left
      the loop with its chunks, or raised. */
  datatype LoopState = Running(start: int, chunks: seq<Chunk>) | Finished(chunks: seq<Chunk>) | Raised

  /** The chunk a window contributes: its stripped slice, unless that is blank. */
  function WindowChunk(text: string, start: int, end: int): Option<Chunk> {
    SliceChunk(text, start, end, BasicMeta)
  }

  /** What one iteration does from a given `start`: leave the loop, raise, or
      cut the window at `end` and move on to the next start. */
  datatype Move = Leave | Fail | Go(next: int, end: int)

  /** One iteration of the `_create_basic_chunks` loop, from `start`. */
  function Advance(text: string, cfg: Config, start: int): Move {
    if start >= |text| then Leave
    else
      var w := WindowEnd(text, cfg.chunkSize, start);
      if w.NoBreak? then Fail
      else Go(w.end - cfg.chunkOverlap, w.end)
  }

  /** A loop whose only state besides its output is `start`: how it moves, and
      what chunk a window `[start, end)` contributes. Held as function values,
      so that facts about the loop's shape are proved without looking inside
      a window. */
  datatype WindowLoop = WindowLoop(move: int -> Move, emit: (int, int) -> Option<Chunk>)

  /** The `_create_basic_chunks` loop over `text`. */
  function BasicLoop(text: string, cfg: Config): WindowLoop {
    WindowLoop(start => Advance(text, cfg, start), (start, end) => WindowChunk(text, start, end))
  }

  /** One iteration. */
  function StepBy(lp: WindowLoop, st: LoopState): LoopState {
    if !st.Running? then st
    else
      match lp.move(st.start)
      case Leave => Finished(st.chunks)
      case Fail => Raised
      case Go(next, end) =>
        var c := lp.emit(st.start, end);
        Running(next, if c.Some? then st.chunks + [c.value] else st.chunks)
  }

  /** The loop state after `k` iterations, starting from `start = 0`. */
  function TraceBy(lp: WindowLoop, k: nat): LoopState {
    if k == 0 then Running(0, []) else StepBy(lp, TraceBy(lp, k - 1))
  }

  /** The state of `_create_basic_chunks(text)` after `k` iterations. */
  function Trace(text: string, cfg: Config, k: nat): LoopState {
    TraceBy(BasicLoop(text, cfg), k)
  }

  /** What a call of a chunking routine does: return, raise `ValueError`
      because a window had no break character, or never return. */
  datatype Run<T> = Returns(value: T) | NoBreakError | Loops

  /** The outcome of a loop, read off its trace. */
  ghost function OutcomeOf(lp: WindowLoop): Run<seq<Chunk>> {
    if exists k: nat :: TraceBy(lp, k).Finished? then
      var k: nat :| TraceBy(lp, k).Finished?;
      Returns(TraceBy(lp, k).chunks)
    else if exists k: nat :: TraceBy(lp, k).Raised? then NoBreakError
    else Loops
  }

  /** The outcome of `_create_basic_chunks(text)`. */
  ghost function BasicSpec(text: string, cfg: Config): Run<seq<Chunk>> {
    OutcomeOf(BasicLoop(text, cfg))
  }

  /** Once the loop has left, its state never changes again. */
  lemma {:induction false} Absorbing(lp: WindowLoop, a: nat, b: nat)
    requires a <= b
    requires !TraceBy(lp, a).Running?
    ensures TraceBy(lp, b) == TraceBy(lp, a)
    decreases b
  {
    if a < b {
      Absorbing(lp, a, b - 1);
    }
  }

  /** The loop leaves at most one way. */
  lemma TerminalUnique(lp: WindowLoop, a: nat, b: nat)
    requires !TraceBy(lp, a).Running? && !TraceBy(lp, b).Running?
    ensures TraceBy(lp, a) == TraceBy(lp, b)
  {
    if a <= b {
      Absorbing(lp, a, b);
    } else {
      Absorbing(lp, b, a);
    }
  }

  /** The outcome is the way the loop leaves, once it has. */
  lemma SpecFromExit(lp: WindowLoop, k: nat)
    requires !TraceBy(lp, k).Running?
    ensures TraceBy(lp, k).Finished? ==> OutcomeOf(lp) == Returns(TraceBy(lp, k).chunks)
    ensures TraceBy(lp, k).Raised? ==> OutcomeOf(lp) == NoBreakError
  {
    forall j: nat | !TraceBy(lp, j).Running? ensures TraceBy(lp, j) == TraceBy(lp, k) {
      TerminalUnique(lp, j, k);
    }
  }

  /** Two states that agree on everything the loop looks at. */
  predicate SameShape(x: LoopState, y: LoopState) {
    (x.Running? && y.Running? && x.start == y.start)
    || (x.Finished? && y.Finished?)
    || (x.Raised? && y.Raised?)
  }

  lemma {:induction false} ShapeFollows(lp: WindowLoop, j: nat, k: nat, m: nat)
    requires SameShape(TraceBy(lp, j), TraceBy(lp, k))
    ensures SameShape(TraceBy(lp, j + m), TraceBy(lp, k + m))
  {
    if m > 0 {
      ShapeFollows(lp, j, k, m - 1);
      assert TraceBy(lp, j + m) == StepBy(lp, TraceBy(lp, j + (m - 1)));
      assert TraceBy(lp, k + m) == StepBy(lp, TraceBy(lp, k + (m - 1)));
    }
  }

  /** An iteration that moves on leaves the loop running from the next start. */
  lemma NextStart(lp: WindowLoop, k: nat)
    requires TraceBy(lp, k).Running? && lp.move(TraceBy(lp, k).start).Go?
    ensures TraceBy(lp, k + 1).Running?
    ensures TraceBy(lp, k + 1).start == lp.move(TraceBy(lp, k).start).next
  {
  }

  /** The loop's only state besides its output is `start`: once a start comes
      back, the loop runs forever. */
  lemma {:induction false} RepeatedStartLoops(lp: WindowLoop, j: nat, k: nat)
    requires j < k
    requires TraceBy(lp, j).Running? && TraceBy(lp, k).Running?
    requires TraceBy(lp, j).start == TraceBy(lp, k).start
    ensures forall n: nat :: TraceBy(lp, n).Running?
  {
    forall n: nat ensures TraceBy(lp, n).Running? {
      RunningAt(lp, j, k, n);
    }
  }

  lemma {:induction false} RunningAt(lp: WindowLoop, j: nat, k: nat, n: nat)
    requires j < k
    requires TraceBy(lp, j).Running? && TraceBy(lp, k).Running?
    requires TraceBy(lp, j).start == TraceBy(lp, k).start
    ensures TraceBy(lp, n).Running?
    decreases n
  {
    if n <= k {
      if !TraceBy(lp, n).Running? {
        Absorbing(lp, n, k);
      }
    } else {
      var m := n - k;
      RunningAt(lp, j, k, j + m);
      ShapeFollows(lp, j, k, m);
      assert k + m == n;
    }
  }

  /** The integers `lo .. hi - 1`. */
  ghost function IntRange(lo: int, hi: int): (r: set<int>)
    ensures forall i :: i in r <==> lo <= i < hi
    decreases hi - lo
  {
    if lo >= hi then {} else {lo} + IntRange(lo + 1, hi)
  }

  /** The `while start < len(text)` loop of `_create_basic_chunks`, for an
      loop `lp` that leaves exactly when `start >= hi` and never moves
      below `lo`. The starts it has run from are remembered: one that comes back
      means the loop never ends, and the model reports that as `Loops`. */
  method RunLoop(lp: WindowLoop, lo: int, hi: int) returns (r: Run<seq<Chunk>>)
    requires lo <= 0
    requires forall s :: (s >= hi ==> lp.move(s).Leave?) && (s < hi ==> !lp.move(s).Leave?)
    requires forall s :: lo <= s < hi && lp.move(s).Go? ==> lo <= lp.move(s).next
    ensures r == OutcomeOf(lp)
  {
    var start := 0;
    var chunks: seq<Chunk> := [];
    var visited: set<int> := {};
    ghost var seenAt: map<int, nat> := map[];
    ghost var k: nat := 0;
    ghost var range := IntRange(lo, hi);
    var mv := lp.move(start);
    while !mv.Leave?
      invariant TraceBy(lp, k) == Running(start, chunks) && mv == lp.move(start)
      invariant lo <= start
      invariant visited == seenAt.Keys && visited <= range
      invariant forall s :: s in seenAt ==>
        seenAt[s] < k && TraceBy(lp, seenAt[s]).Running? && TraceBy(lp, seenAt[s]).start == s
      decreases range - visited
    {
      if start in visited {
        RepeatedStartLoops(lp, seenAt[start], k);
        return Loops;
      }
      visited := visited + {start};
      seenAt := seenAt[start := k];
      if mv.Fail? {
        assert TraceBy(lp, k + 1) == Raised;
        SpecFromExit(lp, k + 1);
        return NoBreakError;
      }
      assert TraceBy(lp, k + 1) == StepBy(lp, Running(start, chunks));
      var c := lp.emit(start, mv.end);
      if c.Some? {
        chunks := chunks + [c.value];
      }
      start := mv.next;
      k := k + 1;
      mv := lp.move(start);
    }
    assert TraceBy(lp, k + 1) == Finished(chunks);
    SpecFromExit(lp, k + 1);
    return Returns(chunks);
  }

  /** On a non-empty text, an iteration leaves exactly when `start >= len(text)`,
      and the next start, `end - chunk_overlap`, is at least `1 - chunk_overlap`
      because every window ends at 1 or later. */
  lemma MovesStayInRange(text: string, cfg: Config, lo: int)
    requires |text| > 0 && lo <= 0 && lo <= 1 - cfg.chunkOverlap
    ensures var lp := BasicLoop(text, cfg);
      (forall s :: (s >= |text| ==> lp.move(s).Leave?) && (s < |text| ==> !lp.move(s).Leave?))
      && (forall s :: lo <= s < |text| && lp.move(s).Go? ==> lo <= lp.move(s).next)
  {
    var lp := BasicLoop(text, cfg);
    forall s ensures (s >= |text| ==> lp.move(s).Leave?) && (s < |text| ==> !lp.move(s).Leave?)
      && (lo <= s < |text| && lp.move(s).Go? ==> lo <= lp.move(s).next)
    {
      assert lp.move(s) == Advance(text, cfg, s);
    }
  }

  /** `_create_basic_chunks(text)`. */
  method BasicChunks(text: string, cfg: Config) returns (r: Run<seq<Chunk>>)
    ensures r == BasicSpec(text, cfg)
  {
    if |text| == 0 {
      assert Trace(text, cfg, 1) == Finished([]);
      SpecFromExit(BasicLoop(text, cfg), 1);
      return Returns([]);
    }
    var lo := if 1 - cfg.chunkOverlap < 0 then 1 - cfg.chunkOverlap else 0;
    MovesStayInRange(text, cfg, lo);
    r := RunLoop(BasicLoop(text, cfg), lo, |text|);
  }

  /** With a positive overlap every start stays below `len(text)`: the next start
      is `end - chunk_overlap` and no window ends past the text. */
  lemma {:induction false} StartsStayBelowEnd(text: string, cfg: Config, k: nat)
    requires cfg.chunkOverlap > 0 && |text| > 0
    ensures (Trace(text, cfg, k).Running? && Trace(text, cfg, k).start < |text|)
            || Trace(text, cfg, k).Raised?
  {
    if k > 0 {
      StartsStayBelowEnd(text, cfg, k - 1);
      var st := Trace(text, cfg, k - 1);
      if st.Running? {
        assert BasicLoop(text, cfg).move(st.start) == Advance(text, cfg, st.start);
      }
    }
  }

  /** With a positive overlap, `_create_basic_chunks` never returns on a
      non-empty text: it raises or loops forever. */
  lemma BasicNeverReturns(text: string, cfg: Config)
    requires cfg.chunkOverlap > 0 && |text| > 0
    ensures BasicSpec(text, cfg).NoBreakError? || BasicSpec(text, cfg).Loops?
  {
    forall k: nat ensures !TraceBy(BasicLoop(text, cfg), k).Finished? {
      StartsStayBelowEnd(text, cfg, k);
    }
  }

  /** Once a window reaches the end of the text, the next start is
      `len(text) - chunk_overlap`; when the overlap is positive and at most the
      chunk size, that window reaches the end again, and the loop repeats it
      forever. */
  lemma FinalWindowRepeats(text: string, cfg: Config, k: nat)
    requires Trace(text, cfg, k).Running?
    requires Trace(text, cfg, k).start < |text| <= Trace(text, cfg, k).start + cfg.chunkSize
    requires 0 < cfg.chunkOverlap <= cfg.chunkSize
    ensures BasicSpec(text, cfg) == Loops
  {
    var lp := BasicLoop(text, cfg);
    var s, s' := TraceBy(lp, k).start, |text| - cfg.chunkOverlap;
    WindowReachingEnd(text, cfg, s);
    WindowReachingEnd(text, cfg, s');
    FixedPointLoops(lp, k, s');
  }

  /** A window that reaches the end of the text moves on to `len(text) - chunk_overlap`. */
  lemma WindowReachingEnd(text: string, cfg: Config, s: int)
    requires s < |text| <= s + cfg.chunkSize
    ensures BasicLoop(text, cfg).move(s) == Go(|text| - cfg.chunkOverlap, |text|)
  {
    assert BasicLoop(text, cfg).move(s) == Advance(text, cfg, s);
  }

  /** A loop that moves to a start which moves to itself never ends. */
  lemma FixedPointLoops(lp: WindowLoop, k: nat, s': int)
    requires TraceBy(lp, k).Running?
    requires lp.move(TraceBy(lp, k).start).Go? && lp.move(TraceBy(lp, k).start).next == s'
    requires lp.move(s').Go? && lp.move(s').next == s'
    ensures OutcomeOf(lp) == Loops
  {
    NextStart(lp, k);
    NextStart(lp, k + 1);
    RepeatedStartLoops(lp, k + 1, k + 2);
  }

  /** With the default configuration, any non-empty text of at most 1000
      characters sends `_create_basic_chunks` into an endless loop. */
  lemma DefaultShortTextLoops(text: string)
    requires 0 < |text| <= 1000
    ensures BasicSpec(text, DefaultConfig) == Loops
  {
    FinalWindowRepeats(text, DefaultConfig, 0);
  }

  /** A window of the default configuration holding no '.', '!', '?' or newline
      raises `ValueError`: 1001 letters, for instance. */
  lemma DefaultNoBreakRaises(text: string)
    requires |text| > 1000
    requires forall i :: 0 <= i < 1000 ==> !IsBreak(text[i])
    ensures BasicSpec(text, DefaultConfig) == NoBreakError
  {
    WindowEndSpec(text, 1000, 0);
    var lp := BasicLoop(text, DefaultConfig);
    assert lp.move(0) == Advance(text, DefaultConfig, 0);
    assert Trace(text, DefaultConfig, 1) == Raised;
    SpecFromExit(lp, 1);
  }

  /** What every chunk of a window loop is: the non-blank stripped slice of its
      raw span `[start_idx, end_idx)`, typed `basic_chunk`, ending inside the
      text, and no longer than `chunk_size` unless Python's negative-index
      adjustment moved the window. */
  predicate WellFormedBasic(text: string, cfg: Config, c: Chunk) {
    c.text == Strip(PySlice(text, c.startIdx, c.endIdx)) && c.text != []
    && c.meta == BasicMeta && c.endIdx <= |text|
    && (0 <= c.startIdx + cfg.chunkSize ==> c.endIdx <= c.startIdx + cfg.chunkSize)
  }

  /** Every chunk a loop emits satisfies `ok`, for any window the loop cuts. */
  ghost predicate EmitsOnly(lp: WindowLoop, ok: Chunk -> bool) {
    forall s :: lp.move(s).Go? && lp.emit(s, lp.move(s).end).Some? ==> ok(lp.emit(s, lp.move(s).end).value)
  }

  /** A loop that emits only chunks satisfying `ok` has only such chunks at every step. */
  lemma {:induction false} TraceKeeps(lp: WindowLoop, ok: Chunk -> bool, k: nat)
    requires EmitsOnly(lp, ok)
    ensures !TraceBy(lp, k).Raised? ==> forall c :: c in TraceBy(lp, k).chunks ==> ok(c)
  {
    if k > 0 {
      TraceKeeps(lp, ok, k - 1);
    }
  }

  /** Every chunk the `_create_basic_chunks` loop has emitted after `k` iterations is well formed. */
  lemma TraceChunksWellFormed(text: string, cfg: Config, k: nat)
    ensures !Trace(text, cfg, k).Raised? ==>
      forall c :: c in Trace(text, cfg, k).chunks ==> WellFormedBasic(text, cfg, c)
  {
    var lp := BasicLoop(text, cfg);
    var ok := c => WellFormedBasic(text, cfg, c);
    forall s | lp.move(s).Go? && lp.emit(s, lp.move(s).end).Some?
      ensures ok(lp.emit(s, lp.move(s).end).value)
    {
      assert lp.move(s) == Advance(text, cfg, s);
      WindowEndSpec(text, cfg.chunkSize, s);
    }
    TraceKeeps(lp, ok, k);
  }

  /** Every chunk `_create_basic_chunks` returns is well formed. */
  lemma BasicChunksWellFormed(text: string, cfg: Config)
    requires BasicSpec(text, cfg).Returns?
    ensures forall c :: c in BasicSpec(text, cfg).value ==> WellFormedBasic(text, cfg, c)
  {
    var lp := BasicLoop(text, cfg);
    var k: nat :| TraceBy(lp, k).Finished?;
    SpecFromExit(lp, k);
    TraceChunksWellFormed(text, cfg, k);
  }

  // ---------------------------------------------------------------------
  // Size normalisation (`_normalize_chunk_sizes`)
  // ---------------------------------------------------------------------

  /** The sub-chunks of an oversized chunk, each with the chunk's metadata
      merged over its own (`sub_chunk['metadata'].update(chunk['metadata'])`). */
  function WithMeta(subs: seq<Chunk>, m: Meta): (r: seq<Chunk>)
    ensures |r| == |subs|
  {
    seq(|subs|, i requires 0 <= i < |subs| => subs[i].(meta := UpdateMeta(subs[i].meta, m)))
  }

  /** How a chunk that is not oversized joins the output: an undersized chunk
      is merged into the previous output chunk as `prev + ' ' + text`, taking
      over its `end_idx`, when there is one and the result is not oversized;
      otherwise it is appended as it is. */
  function AppendOrMerge(cfg: Config, acc: seq<Chunk>, c: Chunk): seq<Chunk> {
    if |c.text| < cfg.minChunkSize && acc != []
       && |acc[|acc| - 1].text + " " + c.text| <= cfg.maxChunkSize
    then
      var prev := acc[|acc| - 1];
      acc[..|acc| - 1] + [prev.(text := prev.text + " " + c.text, endIdx := c.endIdx)]
    else acc + [c]
  }

  /** One iteration of `_normalize_chunk_sizes` on the output so far. */
  ghost function NormalizeStep(cfg: Config, acc: seq<Chunk>, c: Chunk): Run<seq<Chunk>> {
    if |c.text| > cfg.maxChunkSize then
      match BasicSpec(c.text, cfg)
      case Returns(subs) => Returns(acc + WithMeta(subs, c.meta))
      case NoBreakError => NoBreakError
      case Loops => Loops
    else Returns(AppendOrMerge(cfg, acc, c))
  }

  /** What `_normalize_chunk_sizes(chunks)` does: the basic chunking of an
      oversized chunk can raise or loop, and then so does the whole call. */
  ghost function NormalizeSpec(cfg: Config, chunks: seq<Chunk>): Run<seq<Chunk>>
    decreases |chunks|
  {
    if chunks == [] then Returns([])
    else
      match NormalizeSpec(cfg, chunks[..|chunks| - 1])
      case Returns(acc) => NormalizeStep(cfg, acc, chunks[|chunks| - 1])
      case NoBreakError => NoBreakError
      case Loops => Loops
  }

  /** Once a prefix of the chunks raises or loops, the whole call does. */
  lemma {:induction false} NormalizeFailureSticks(cfg: Config, chunks: seq<Chunk>, n: nat)
    requires n <= |chunks| && !NormalizeSpec(cfg, chunks[..n]).Returns?
    ensures NormalizeSpec(cfg, chunks) == NormalizeSpec(cfg, chunks[..n])
    decreases |chunks| - n
  {
    if n < |chunks| {
      var init := chunks[..|chunks| - 1];
      assert init[..n] == chunks[..n];
      NormalizeFailureSticks(cfg, init, n);
    } else {
      assert chunks[..n] == chunks;
    }
  }

  /** `_normalize_chunk_sizes(chunks)`. */
  method NormalizeChunkSizes(cfg: Config, chunks: seq<Chunk>) returns (r: Run<seq<Chunk>>)
    ensures r == NormalizeSpec(cfg, chunks)
  {
    var normalized: seq<Chunk> := [];
    for i := 0 to |chunks|
      invariant NormalizeSpec(cfg, chunks[..i]) == Returns(normalized)
    {
      var chunk := chunks[i];
      assert chunks[..i + 1][..i] == chunks[..i];
      if |chunk.text| > cfg.maxChunkSize {
        var sub := BasicChunks(chunk.text, cfg);
        if !sub.Returns? {
          NormalizeFailureSticks(cfg, chunks, i + 1);
          return sub;
        }
        normalized := normalized + WithMeta(sub.value, chunk.meta);
      } else if |chunk.text| < cfg.minChunkSize && normalized != [] {
        var prev := normalized[|normalized| - 1];
        var combined := prev.text + " " + chunk.text;
        if |combined| <= cfg.maxChunkSize {
          normalized := normalized[..|normalized| - 1] + [prev.(text := combined, endIdx := chunk.endIdx)];
        } else {
          normalized := normalized + [chunk];
        }
      } else {
        normalized := normalized + [chunk];
      }
    }
    assert chunks[..|chunks|] == chunks;
    return Returns(normalized);
  }

  /** A chunk whose length lies within the configured bounds. */
  predicate InRange(cfg: Config, c: Chunk) {
    cfg.minChunkSize <= |c.text| <= cfg.maxChunkSize
  }

  /** Chunks that are all within the bounds come out unchanged. */
  lemma {:induction false} NormalizeInRange(cfg: Config, chunks: seq<Chunk>)
    requires forall i :: 0 <= i < |chunks| ==> InRange(cfg, chunks[i])
    ensures NormalizeSpec(cfg, chunks) == Returns(chunks)
  {
    if chunks != [] {
      var init := chunks[..|chunks| - 1];
      NormalizeInRange(cfg, init);
      assert init + [chunks[|chunks| - 1]] == chunks;
    }
  }

  /** The texts of a list of chunks. */
  function ChunkTexts(cs: seq<Chunk>): (r: seq<string>)
    ensures |r| == |cs|
  {
    seq(|cs|, i requires 0 <= i < |cs| => cs[i].text)
  }

  /** Appending or merging one chunk that is not oversized keeps every output
      chunk within `max_chunk_size`, keeps the first output chunk's start and
      metadata, and extends the space-joined text by `' ' + text`. */
  lemma AppendOrMergeSpec(cfg: Config, acc: seq<Chunk>, c: Chunk)
    requires |c.text| <= cfg.maxChunkSize
    requires forall j :: 0 <= j < |acc| ==> |acc[j].text| <= cfg.maxChunkSize
    ensures var r := AppendOrMerge(cfg, acc, c);
      r != [] && (forall j :: 0 <= j < |r| ==> |r[j].text| <= cfg.maxChunkSize)
      && (acc != [] ==> r[0].startIdx == acc[0].startIdx && r[0].meta == acc[0].meta)
      && (acc == [] ==> r == [c])
      && (acc != [] ==> Join(ChunkTexts(r), " ") == Join(ChunkTexts(acc), " ") + " " + c.text)
  {
    var r := AppendOrMerge(cfg, acc, c);
    if acc != [] {
      var init, prev := acc[..|acc| - 1], acc[|acc| - 1];
      assert acc == init + [prev];
      assert ChunkTexts(acc) == ChunkTexts(init) + [prev.text];
      if r == acc + [c] {
        assert ChunkTexts(r) == ChunkTexts(acc) + [c.text];
        JoinSnoc(ChunkTexts(acc), c.text, " ");
      } else {
        var merged := prev.text + " " + c.text;
        assert ChunkTexts(r) == ChunkTexts(init) + [merged];
        if init == [] {
          assert ChunkTexts(acc) == [prev.text];
          assert ChunkTexts(r) == [merged];
        } else {
          JoinSnoc(ChunkTexts(init), merged, " ");
          JoinSnoc(ChunkTexts(init), prev.text, " ");
        }
      }
    }
  }

  /** When no chunk is oversized, normalisation returns, never produces an
      oversized chunk, keeps the first chunk's start and metadata (it is never
      merged away), and keeps the texts: joined with single spaces, the output
      reads exactly as the input does. */
  lemma {:induction false} NormalizeKeepsText(cfg: Config, chunks: seq<Chunk>)
    requires forall i :: 0 <= i < |chunks| ==> |chunks[i].text| <= cfg.maxChunkSize
    ensures NormalizeSpec(cfg, chunks).Returns?
    ensures var out := NormalizeSpec(cfg, chunks).value;
      |out| <= |chunks| && (out == [] <==> chunks == [])
      && (forall j :: 0 <= j < |out| ==> |out[j].text| <= cfg.maxChunkSize)
      && (chunks != [] ==> out[0].startIdx == chunks[0].startIdx && out[0].meta == chunks[0].meta)
      && Join(ChunkTexts(out), " ") == Join(ChunkTexts(chunks), " ")
  {
    if chunks != [] {
      var init, c := chunks[..|chunks| - 1], chunks[|chunks| - 1];
      NormalizeKeepsText(cfg, init);
      var acc := NormalizeSpec(cfg, init).value;
      AppendOrMergeSpec(cfg, acc, c);
      assert chunks == init + [c];
      assert ChunkTexts(chunks) == ChunkTexts(init) + [c.text];
      if init != [] {
        JoinSnoc(ChunkTexts(init), c.text, " ");
        assert chunks[0] == init[0];
      } else {
        assert ChunkTexts(chunks) == [c.text];
      }
    }
  }

  /** With a positive overlap, a chunk longer than `max_chunk_size` makes
      normalisation raise or loop: the basic chunking of its text never returns. */
  lemma NormalizeOversizedNeverReturns(cfg: Config, chunks: seq<Chunk>, i: nat)
    requires 0 < cfg.chunkOverlap && 0 <= cfg.maxChunkSize
    requires i < |chunks| && |chunks[i].text| > cfg.maxChunkSize
    ensures !NormalizeSpec(cfg, chunks).Returns?
  {
    var pre := chunks[..i + 1];
    assert pre[..i] == chunks[..i];
    BasicNeverReturns(chunks[i].text, cfg);
    NormalizeFailureSticks(cfg, chunks, i + 1);
  }

  // ---------------------------------------------------------------------
  // Structured chunking (`_create_structured_chunks`)
  // ---------------------------------------------------------------------

  /** Headings are used exactly when the configuration asks for them and the
      parser found some. */
  predicate UsesHeadings(cfg: Config, headers: seq<Header>) {
    cfg.splitOnHeadings && headers != []
  }

  /** What `_create_structured_chunks(text, metadata)` does: heading chunks or
      basic chunks, then normalisation in either case. */
  ghost function StructuredSpec(text: string, cfg: Config, headers: seq<Header>): Run<seq<Chunk>> {
    if UsesHeadings(cfg, headers) then NormalizeSpec(cfg, HeadingChunks(text, headers))
    else
      match BasicSpec(text, cfg)
      case Returns(cs) => NormalizeSpec(cfg, cs)
      case NoBreakError => NoBreakError
      case Loops => Loops
  }

  /** `_create_structured_chunks(text, metadata)`; `preserve_hierarchy` is not consulted. */
  method CreateStructuredChunks(text: string, cfg: Config, headers: seq<Header>) returns (r: Run<seq<Chunk>>)
    ensures r == StructuredSpec(text, cfg, headers)
  {
    var chunks: seq<Chunk>;
    if cfg.splitOnHeadings && headers != [] {
      chunks := SplitOnHeaders(text, headers);
    } else {
      var basic := BasicChunks(text, cfg);
      if !basic.Returns? {
        return basic;
      }
      chunks := basic.value;
    }
    r := NormalizeChunkSizes(cfg, chunks);
  }

  /** In heading mode, when every section chunk is within the bounds, the result
      is exactly the heading chunks. */
  lemma StructuredHeadingMode(text: string, cfg: Config, headers: seq<Header>)
    requires UsesHeadings(cfg, headers)
    requires forall c :: c in HeadingChunks(text, headers) ==> InRange(cfg, c)
    ensures StructuredSpec(text, cfg, headers) == Returns(HeadingChunks(text, headers))
  {
    NormalizeInRange(cfg, HeadingChunks(text, headers));
  }

  /** Without heading mode and with a positive overlap, a non-empty document
      never yields chunks: the fallback raises or loops forever. */
  lemma StructuredWithoutHeadingsNeverReturns(text: string, cfg: Config, headers: seq<Header>)
    requires !UsesHeadings(cfg, headers)
    requires 0 < cfg.chunkOverlap && |text| > 0
    ensures !StructuredSpec(text, cfg, headers).Returns?
  {
    BasicNeverReturns(text, cfg);
  }

  // ---------------------------------------------------------------------
  // Text cleaning (`_clean_text`)
  // ---------------------------------------------------------------------

  /** `re.sub(r'\s+', ' ', text)`: every maximal run of whitespace becomes one
      space (a whitespace character is kept, as a space, only where its run ends). */
  function CollapseWhitespace(s: string): (r: string)
    ensures forall c :: c in r && IsSpace(c) ==> c == ' '
    ensures forall c :: c in r && c != ' ' ==> c in s
  {
    if s == [] then []
    else if IsSpace(s[0]) then
      (if |s| > 1 && IsSpace(s[1]) then [] else [' ']) + CollapseWhitespace(s[1..])
    else [s[0]] + CollapseWhitespace(s[1..])
  }

  /** The characters of `s` that are not whitespace. */
  function NonSpace(s: string): string {
    if s == [] then [] else (if IsSpace(s[0]) then [] else [s[0]]) + NonSpace(s[1..])
  }

  /** Collapsing whitespace keeps every other character, in order. */
  lemma {:induction false} CollapseKeepsNonSpace(s: string)
    ensures NonSpace(CollapseWhitespace(s)) == NonSpace(s)
  {
    if s != [] {
      CollapseKeepsNonSpace(s[1..]);
      var head: string := if IsSpace(s[0]) then (if |s| > 1 && IsSpace(s[1]) then [] else [' ']) else [s[0]];
      NonSpaceAppend(head, CollapseWhitespace(s[1..]));
      assert [s[0]] + s[1..] == s;
      NonSpaceAppend([s[0]], s[1..]);
    }
  }

  /** No two spaces stand side by side. */
  predicate NoDoubleSpace(r: string) {
    forall i :: 0 < i < |r| ==> !(r[i - 1] == ' ' && r[i] == ' ')
  }

  /** Collapsing whitespace leaves no two spaces side by side. */
  lemma {:induction false} CollapseNoDoubleSpace(s: string)
    ensures NoDoubleSpace(CollapseWhitespace(s))
  {
    if s != [] {
      var rest := CollapseWhitespace(s[1..]);
      CollapseNoDoubleSpace(s[1..]);
      if IsSpace(s[0]) && !(|s| > 1 && IsSpace(s[1])) {
        var r := [' '] + rest;
        if rest != [] {
          assert CollapseWhitespace(s[1..]) == [s[1]] + CollapseWhitespace(s[2..]);
        }
        forall i | 0 < i < |r| ensures !(r[i - 1] == ' ' && r[i] == ' ') {
          if i > 1 {
            assert r[i - 1] == rest[i - 2] && r[i] == rest[i - 1];
          }
        }
      } else if !IsSpace(s[0]) {
        var r := [s[0]] + rest;
        forall i | 0 < i < |r| ensures !(r[i - 1] == ' ' && r[i] == ' ') {
          if i > 1 {
            assert r[i - 1] == rest[i - 2] && r[i] == rest[i - 1];
          }
        }
      }
    }
  }

  /** Filtering out whitespace distributes over concatenation. */
  lemma {:induction false} NonSpaceAppend(a: string, b: string)
    ensures NonSpace(a + b) == NonSpace(a) + NonSpace(b)
  {
    if a == [] {
      assert a + b == b;
    } else {
      assert (a + b)[1..] == a[1..] + b;
      NonSpaceAppend(a[1..], b);
    }
  }

  /** The number of newlines at the front of `s`. */
  function NewlineRun(s: string): (n: nat)
    ensures n <= |s|
    ensures s != [] && s[0] == '\n' ==> n >= 1
  {
    if s == [] || s[0] != '\n' then 0 else 1 + NewlineRun(s[1..])
  }

  /** `re.sub(r'\n{3,}', '\n\n', text)`: every run of three or more newlines
      becomes two. */
  function SqueezeNewlines(s: string): string
    decreases |s|
  {
    if s == [] then []
    else if s[0] == '\n' then
      var n := NewlineRun(s);
      (if n >= 3 then "\n\n" else s[..n]) + SqueezeNewlines(s[n..])
    else [s[0]] + SqueezeNewlines(s[1..])
  }

  /** Without newlines there is nothing to squeeze. */
  lemma {:induction false} SqueezeNewlinesNoop(s: string)
    requires '\n' !in s
    ensures SqueezeNewlines(s) == s
  {
    if s != [] {
      assert '\n' !in s[1..];
      SqueezeNewlinesNoop(s[1..]);
    }
  }

  /** The characters `_clean_text` keeps: word characters, whitespace and
      `. , ! ? ; : ( ) - – — " '`. */
  predicate Allowed(c: char) {
    IsWordChar(c) || IsSpace(c) || c in ".,!?;:()-\U{2013}\U{2014}\"'"
  }

  /** `re.sub(r'[^\w\s\n.,!?;:()\-–—""\']+', '', text)`. */
  function KeepAllowed(s: string): (r: string)
    ensures forall c :: c in r ==> Allowed(c) && c in s
  {
    if s == [] then [] else (if Allowed(s[0]) then [s[0]] else []) + KeepAllowed(s[1..])
  }

  /** `_clean_text(text)`. */
  function CleanText(text: string): string {
    Strip(KeepAllowed(SqueezeNewlines(CollapseWhitespace(text))))
  }

  /** What cleaning leaves: no newline (every whitespace run is a single space
      before the newline rule runs, so that rule never applies), only allowed
      characters, no whitespace but plain spaces, and none at either end. */
  lemma CleanTextSpec(text: string)
    ensures var r := CleanText(text);
      '\n' !in r
      && (forall c :: c in r ==> Allowed(c) && (IsSpace(c) ==> c == ' '))
      && (r == [] || (!IsSpace(r[0]) && !IsSpace(r[|r| - 1])))
      && SqueezeNewlines(CollapseWhitespace(text)) == CollapseWhitespace(text)
  {
    var collapsed := CollapseWhitespace(text);
    assert IsSpace('\n');
    SqueezeNewlinesNoop(collapsed);
    var kept := KeepAllowed(collapsed);
    StripSpec(kept);
    var r := Strip(kept);
    assert forall c :: c in r ==> c in kept;
  }

  // ---------------------------------------------------------------------
  // The ingestion service (`DataIngestionService`)
  // ---------------------------------------------------------------------

  /** The parsers the registry can hold. */
  datatype Parser = MarkdownParser | CustomParser(name: string)

  /** What a parser returns: the raw text and the headings it found. */
  datatype Parsed = Parsed(rawText: string, headers: seq<Header>)

  /** The file-system facts `_process_content` reads: size and timestamps. */
  datatype FileStat = FileStat(size: int, modified: int, created: int)

  /** A processed document: the path, the lower-cased suffix, the cleaned
      text, the chunks, the parser's headings, the file facts and the chunk count. */
  datatype Document = Document(
    filePath: string,
    fileType: string,
    content: string,
    chunks: seq<Chunk>,
    headers: seq<Header>,
    stat: FileStat,
    numChunks: nat)

  /** The exceptions `process_file` raises. */
  datatype IngestError =
    | FileNotFound(path: string)
    | UnsupportedFileType(extension: string)
    | ProcessingFailed(path: string)

  /** What a call of `process_file` does. */
  datatype Processed = Stored(doc: Document) | Raises(error: IngestError) | NeverReturns

  /** What `process_file` does, given whether the file exists, what its parser
      returns (or the message it raises) and the file's facts. */
  ghost function ProcessSpec(parsers: map<string, Parser>, cfg: Config, path: string, exists_: bool,
                             parsed: Result<Parsed, string>, stat: FileStat): Processed
  {
    var ext := Lower(PathSuffix(path));
    if !exists_ then Raises(FileNotFound(path))
    else if ext !in parsers then Raises(UnsupportedFileType(ext))
    else if parsed.Err? then Raises(ProcessingFailed(path))
    else
      var content := CleanText(parsed.value.rawText);
      match StructuredSpec(content, cfg, parsed.value.headers)
      case Returns(chunks) =>
        Stored(Document(path, ext, content, chunks, parsed.value.headers, stat, |chunks|))
      case NoBreakError => Raises(ProcessingFailed(path))
      case Loops => NeverReturns
  }

  class DataIngestionService {
    var processedDocuments: map<string, Document>
    var parsers: map<string, Parser>
    var config: Config

    /** `DataIngestionService(config)`: no documents, the Markdown parser for
        `.md`, and the default configuration when none is given. */
    constructor (config: Option<Config>)
      ensures processedDocuments == map[]
      ensures parsers == map[".md" := MarkdownParser]
      ensures this.config == if config.Some? then config.value else DefaultConfig
    {
      processedDocuments := map[];
      parsers := map[".md" := MarkdownParser];
      this.config := if config.Some? then config.value else DefaultConfig;
    }

    /** `process_file(path)`: the file-system check, the parser lookup by
        lower-cased suffix, parsing, cleaning and chunking; a processed
        document is stored under its path and nothing else changes. */
    method ProcessFile(path: string, exists_: bool, parsed: Result<Parsed, string>, stat: FileStat)
      returns (r: Processed)
      modifies this`processedDocuments
      ensures r == ProcessSpec(parsers, config, path, exists_, parsed, stat)
      ensures processedDocuments ==
        if r.Stored? then old(processedDocuments)[path := r.doc] else old(processedDocuments)
    {
      if !exists_ {
        return Raises(FileNotFound(path));
      }
      var extension := Lower(PathSuffix(path));
      if extension !in parsers {
        return Raises(UnsupportedFileType(extension));
      }
      if parsed.Err? {
        return Raises(ProcessingFailed(path));
      }
      var content := CleanText(parsed.value.rawText);
      var chunks := CreateStructuredChunks(content, config, parsed.value.headers);
      match chunks
      case NoBreakError =>
        return Raises(ProcessingFailed(path));
      case Loops =>
        return NeverReturns;
      case Returns(cs) =>
        var doc := Document(path, extension, content, cs, parsed.value.headers, stat, |cs|);
        processedDocuments := processedDocuments[path := doc];
        return Stored(doc);
    }

    /** `get_processed_documents()`. */
    method GetProcessedDocuments() returns (r: map<string, Document>)
      ensures r == processedDocuments
    {
      return processedDocuments;
    }

    /** `add_parser(extension, parser)`: registered under the lower-cased
        extension, replacing any parser already there. */
    method AddParser(extension: string, parser: Parser)
      modifies this`parsers
      ensures parsers == old(parsers)[Lower(extension) := parser]
    {
      parsers := parsers[Lower(extension) := parser];
    }
  }

  /** A stored document records its cleaned text, its lower-cased suffix and
      the number of its chunks, and the suffix is one the registry knows. */
  lemma StoredDocumentSpec(parsers: map<string, Parser>, cfg: Config, path: string, exists_: bool,
                           parsed: Result<Parsed, string>, stat: FileStat)
    requires ProcessSpec(parsers, cfg, path, exists_, parsed, stat).Stored?
    ensures var d := ProcessSpec(parsers, cfg, path, exists_, parsed, stat).doc;
      exists_ && parsed.Ok? && d.filePath == path && d.fileType in parsers
      && d.fileType == Lower(PathSuffix(path)) && d.content == CleanText(parsed.value.rawText)
      && d.numChunks == |d.chunks| && '\n' !in d.content
  {
    CleanTextSpec(parsed.value.rawText);
  }

  /** A parser registered under an extension that does not start with a dot is
      never chosen: every suffix does. */
  lemma UndottedExtensionNeverMatches(extension: string, path: string)
    requires extension != [] && extension[0] != '.'
    ensures Lower(PathSuffix(path)) != Lower(extension)
  {
    var suffix := PathSuffix(path);
    if suffix != [] && |suffix| == |extension| {
      assert Lower(suffix)[0] == '.';
      assert Lower(extension)[0] == LowerChar(extension[0]);
    }
  }

  // The window loop as evidently intended: a window without a break character
  // is cut at its full size, the window that reaches the end is the last one,
  // and each start lies after the previous one.

  /** Where the intended loop cuts the window that starts at `start`: after its
      rightmost break character, at its full size when it has none, and at the
      end of the text for the last window. */
  function IntendedEnd(text: string, chunkSize: nat, start: nat): (e: nat)
    requires 0 < chunkSize && start < |text|
    ensures start < e <= start + chunkSize
  {
    WindowEndSpec(text, chunkSize, start);
    match WindowEnd(text, chunkSize, start)
    case NoBreak => start + chunkSize
    case Cut(e) => e
  }

  /** The spans `[start, end)` of a window loop over `size` characters whose
      window from `s` ends at `endOf(s)`; after a window that does not reach
      the end, the next start is `end - overlap` when that lies after the
      current start, and the next character otherwise. */
  function Windows(endOf: nat -> nat, size: nat, overlap: nat, start: nat): seq<(nat, nat)>
    requires start < size
    requires forall s: nat :: s < size ==> s < endOf(s)
    decreases size - start
  {
    var end := endOf(start);
    if end >= size then [(start, size)]
    else
      var next: nat := if end - overlap > start then end - overlap else start + 1;
      [(start, end)] + Windows(endOf, size, overlap, next)
  }

  /** `IntendedEnd` as a function of the start, over the whole text. */
  function IntendedEndOf(text: string, chunkSize: nat): nat -> nat
    requires 0 < chunkSize
  {
    (s: nat) => if s < |text| then IntendedEnd(text, chunkSize, s) else s + 1
  }

  /** Every intended window is non-empty and at most `chunk_size` long. */
  lemma IntendedEndOfBounds(text: string, chunkSize: nat)
    requires 0 < chunkSize
    ensures forall s: nat :: s < |text| ==> s < IntendedEndOf(text, chunkSize)(s) <= s + chunkSize
  {
    forall s: nat | s < |text|
      ensures s < IntendedEndOf(text, chunkSize)(s) <= s + chunkSize
    {
      assert IntendedEndOf(text, chunkSize)(s) == IntendedEnd(text, chunkSize, s);
    }
  }

  /** The spans of the intended window loop over `text`, from `start` on. */
  function IntendedWindows(text: string, chunkSize: nat, overlap: nat, start: nat): seq<(nat, nat)>
    requires 0 < chunkSize && start < |text|
  {
    IntendedEndOfBounds(text, chunkSize);
    Windows(IntendedEndOf(text, chunkSize), |text|, overlap, start)
  }

  /** `w` is a chain of non-empty spans of at most `size` characters that
      starts at `first`, ends at `last`, and in which each span starts after
      the previous start and no later than the previous end. */
  predicate SpanChain(w: seq<(nat, nat)>, first: nat, last: nat, size: nat)
  {
    |w| > 0 && w[0].0 == first && w[|w| - 1].1 == last
    && (forall j :: 0 <= j < |w| ==> w[j].0 < w[j].1 <= w[j].0 + size)
    && (forall j :: 0 < j < |w| ==> w[j - 1].0 < w[j].0 <= w[j - 1].1)
  }

  /** A span that overlaps the head of a chain extends it. */
  lemma ChainCons(a: nat, b: nat, rest: seq<(nat, nat)>, next: nat, last: nat, size: nat)
    requires a < b <= a + size && a < next <= b
    requires SpanChain(rest, next, last, size)
    ensures SpanChain([(a, b)] + rest, a, last, size)
  {
    var w := [(a, b)] + rest;
    assert forall j :: 1 <= j < |w| ==> w[j] == rest[j - 1];
  }

  /** A window loop whose windows are non-empty and at most `size` long ends,
      and its windows form a chain from `start` to the end. */
  lemma {:induction false} WindowsCover(endOf: nat -> nat, size: nat, chunkSize: nat, overlap: nat, start: nat)
    requires start < size
    requires forall s: nat :: s < size ==> s < endOf(s) <= s + chunkSize
    ensures SpanChain(Windows(endOf, size, overlap, start), start, size, chunkSize)
    decreases size - start
  {
    var end := endOf(start);
    if end < size {
      var next: nat := if end - overlap > start then end - overlap else start + 1;
      WindowsCover(endOf, size, chunkSize, overlap, next);
      ChainCons(start, end, Windows(endOf, size, overlap, next), next, size, chunkSize);
    }
  }

  /** The intended loop ends, and its windows cover the text without gaps:
      the first starts at `start`, the last ends at `len(text)`, each is
      non-empty and at most `chunk_size` long, and each next window starts
      after the previous start and no later than the previous end. */
  lemma IntendedWindowsCover(text: string, chunkSize: nat, overlap: nat, start: nat)
    requires 0 < chunkSize && start < |text|
    ensures SpanChain(IntendedWindows(text, chunkSize, overlap, start), start, |text|, chunkSize)
  {
    IntendedEndOfBounds(text, chunkSize);
    WindowsCover(IntendedEndOf(text, chunkSize), |text|, chunkSize, overlap, start);
  }

  /** Position `i` lies in one of the spans of `w`. */
  predicate InSomeSpan(w: seq<(nat, nat)>, i: nat)
  {
    exists j :: 0 <= j < |w| && w[j].0 <= i < w[j].1
  }

  /** Every position between the start and the end of a chain lies in one of its spans. */
  lemma ChainReaches(w: seq<(nat, nat)>, first: nat, last: nat, size: nat, i: nat)
    requires SpanChain(w, first, last, size) && first <= i < last
    ensures InSomeSpan(w, i)
  {
    var j := 0;
    while j + 1 < |w| && w[j + 1].0 <= i
      invariant 0 <= j < |w| && w[j].0 <= i
      decreases |w| - j
    {
      j := j + 1;
    }
    if j + 1 < |w| {
      assert w[j].0 < w[j + 1].0 <= w[j].1;
    }
    assert w[j].0 <= i < w[j].1;
  }

  /** Every character from `start` on lies in some intended window. */
  lemma IntendedWindowsReachAll(text: string, chunkSize: nat, overlap: nat, start: nat, i: nat)
    requires 0 < chunkSize && start <= i < |text|
    ensures InSomeSpan(IntendedWindows(text, chunkSize, overlap, start), i)
  {
    IntendedWindowsCover(text, chunkSize, overlap, start);
    ChainReaches(IntendedWindows(text, chunkSize, overlap, start), start, |text|, chunkSize, i);
  }
}

=== FILE: kb_chunker.dfy ===
/** The knowledge-base service's text pipeline: a regular-expression sentence
    splitter, the split of a knowledge-base file into `#` sections and
    numbered subsections, overlapping sentence windows, the text that is
    embedded for each chunk, and the checks of `process_knowledge_base` and
    `SearchQuery`. */
module KnowledgeBase {
  import opened Wrappers
  import opened PyText

  // ---------------------------------------------------------------------------
  // Sentences: re.split(r'\.(?:\s+|\n+)', text)
  // ---------------------------------------------------------------------------

  /** A sentence break starts at `i`: a '.' followed by whitespace. */
  predicate BreakAt(s: string, i: int) {
    0 <= i && i + 1 < |s| && s[i] == '.' && IsSpace(s[i + 1])
  }

  /** Where the separator of a break ends: the greedy `\s+` takes the whole
      whitespace run after the dot (the `\n+` alternative is never reached). */
  function BreakEnd(s: string, i: nat): (k: nat)
    requires BreakAt(s, i)
    ensures i + 2 <= k <= |s|
  {
    i + 1 + LeadingSpaces(s[i + 1..])
  }

  /** The pieces of `s[start..]` when scanning for breaks from `i`. */
  function PiecesFrom(s: string, start: nat, i: nat): (r: seq<string>)
    requires start <= i <= |s|
    ensures |r| >= 1
    decreases |s| - i
  {
    if i == |s| then [s[start..]]
    else if BreakAt(s, i) then [s[start..i]] + PiecesFrom(s, BreakEnd(s, i), BreakEnd(s, i))
    else PiecesFrom(s, start, i + 1)
  }

  /** The separators `re.split` removes between the pieces, in order. */
  function SeparatorsFrom(s: string, start: nat, i: nat): (r: seq<string>)
    requires start <= i <= |s|
    ensures |r| == |PiecesFrom(s, start, i)| - 1
    decreases |s| - i
  {
    if i == |s| then []
    else if BreakAt(s, i) then [s[i..BreakEnd(s, i)]] + SeparatorsFrom(s, BreakEnd(s, i), BreakEnd(s, i))
    else SeparatorsFrom(s, start, i + 1)
  }

  /** `re.split(r'\.(?:\s+|\n+)', s)`. */
  function SentencePieces(s: string): (r: seq<string>)
    ensures |r| >= 1
  {
    PiecesFrom(s, 0, 0)
  }

  /** Pieces and separators taken alternately. */
  function Interleave(ps: seq<string>, seps: seq<string>): string
    requires |ps| == |seps| + 1
    decreases |seps|
  {
    if seps == [] then ps[0] else ps[0] + seps[0] + Interleave(ps[1..], seps[1..])
  }

  /** A separator: a dot and at least one whitespace character. */
  predicate IsSeparator(sep: string) {
    |sep| >= 2 && sep[0] == '.' && forall j :: 1 <= j < |sep| ==> IsSpace(sep[j])
  }

  lemma PiecesFromRebuild(s: string, start: nat, i: nat)
    requires start <= i <= |s|
    ensures Interleave(PiecesFrom(s, start, i), SeparatorsFrom(s, start, i)) == s[start..]
    ensures forall sep :: sep in SeparatorsFrom(s, start, i) ==> IsSeparator(sep)
  {
    PiecesFromInterleave(s, start, i);
    SeparatorsFromShape(s, start, i);
  }

  /** The pieces and separators from `i`, interleaved, give `s[start..]`. */
  lemma {:induction false} PiecesFromInterleave(s: string, start: nat, i: nat)
    requires start <= i <= |s|
    ensures Interleave(PiecesFrom(s, start, i), SeparatorsFrom(s, start, i)) == s[start..]
    decreases |s| - i
  {
    if i < |s| {
      if BreakAt(s, i) {
        var k := BreakEnd(s, i);
        PiecesFromInterleave(s, k, k);
        var ps, seps := PiecesFrom(s, k, k), SeparatorsFrom(s, k, k);
        assert PiecesFrom(s, start, i) == [s[start..i]] + ps;
        assert SeparatorsFrom(s, start, i) == [s[i..k]] + seps;
        InterleaveCons(s[start..i], s[i..k], ps, seps);
        SliceInThree(s, start, i, k);
      } else {
        PiecesFromInterleave(s, start, i + 1);
      }
    }
  }

  /** Every separator from `i` on is a dot followed by whitespace. */
  lemma {:induction false} SeparatorsFromShape(s: string, start: nat, i: nat)
    requires start <= i <= |s|
    ensures forall sep :: sep in SeparatorsFrom(s, start, i) ==> IsSeparator(sep)
    decreases |s| - i
  {
    if i < |s| {
      if BreakAt(s, i) {
        var k := BreakEnd(s, i);
        SeparatorsFromShape(s, k, k);
        assert SeparatorsFrom(s, start, i) == [s[i..k]] + SeparatorsFrom(s, k, k);
        BreakIsSeparator(s, i);
      } else {
        SeparatorsFromShape(s, start, i + 1);
      }
    }
  }

  /** A suffix cut at two points. */
  lemma SliceInThree(s: string, a: nat, b: nat, c: nat)
    requires a <= b <= c <= |s|
    ensures s[a..] == s[a..b] + s[b..c] + s[c..]
  {
  }

  /** What a break removes is a separator. */
  lemma BreakIsSeparator(s: string, i: nat)
    requires BreakAt(s, i)
    ensures IsSeparator(s[i..BreakEnd(s, i)])
  {
    LeadingSpacesSpec(s[i + 1..]);
  }

  /** Interleaving after one more piece and separator. */
  lemma InterleaveCons(p: string, sep: string, ps: seq<string>, seps: seq<string>)
    requires |ps| == |seps| + 1
    ensures Interleave([p] + ps, [sep] + seps) == p + sep + Interleave(ps, seps)
  {
    assert ([p] + ps)[1..] == ps && ([sep] + seps)[1..] == seps;
  }

  /** The split loses nothing: the pieces with the removed separators put back
      in between give the text again, and each separator is a dot followed by
      whitespace. */
  lemma SentencePiecesRebuild(s: string)
    ensures Interleave(SentencePieces(s), SeparatorsFrom(s, 0, 0)) == s
    ensures forall sep :: sep in SeparatorsFrom(s, 0, 0) ==> IsSeparator(sep)
  {
    PiecesFromRebuild(s, 0, 0);
  }

  lemma {:induction false} PiecesFromNoBreak(s: string, start: nat, i: nat)
    requires start <= i <= |s|
    requires forall j :: start <= j < i ==> !BreakAt(s, j)
    ensures forall p :: p in PiecesFrom(s, start, i) ==> forall j :: !BreakAt(p, j)
    decreases |s| - i
  {
    if i == |s| {
      forall j | BreakAt(s[start..], j) ensures false {
        assert BreakAt(s, start + j);
      }
    } else if BreakAt(s, i) {
      var k := BreakEnd(s, i);
      PiecesFromNoBreak(s, k, k);
      forall j | BreakAt(s[start..i], j) ensures false {
        assert BreakAt(s, start + j);
      }
    } else {
      PiecesFromNoBreak(s, start, i + 1);
    }
  }

  lemma {:induction false} PiecesFromNoLeadingSpace(s: string, start: nat, i: nat)
    requires start <= i <= |s|
    requires start > 0 && start < |s| ==> !IsSpace(s[start])
    ensures var ps := PiecesFrom(s, start, i);
      (start > 0 ==> ps[0] == [] || !IsSpace(ps[0][0]))
      && forall p :: p in ps[1..] ==> p == [] || !IsSpace(p[0])
    decreases |s| - i
  {
    var ps := PiecesFrom(s, start, i);
    if i < |s| {
      if BreakAt(s, i) {
        var k := BreakEnd(s, i);
        LeadingSpacesSpec(s[i + 1..]);
        assert k < |s| ==> s[k] == s[i + 1..][k - i - 1];
        PiecesFromNoLeadingSpace(s, k, k);
        var rest := PiecesFrom(s, k, k);
        assert ps[1..] == rest;
        assert forall p :: p in rest ==> p == rest[0] || p in rest[1..];
      } else {
        PiecesFromNoLeadingSpace(s, start, i + 1);
      }
    }
  }

  /** The pieces are exactly the stretches between breaks: no piece contains
      a break, and no piece after the first starts with whitespace (the
      separator took all of it). */
  lemma SentencePiecesMaximal(s: string)
    ensures forall p :: p in SentencePieces(s) ==> forall j :: !BreakAt(p, j)
    ensures var ps := SentencePieces(s);
      forall k :: 0 < k < |ps| && ps[k] != [] ==> !IsSpace(ps[k][0])
  {
    PiecesFromNoBreak(s, 0, 0);
    PiecesFromNoLeadingSpace(s, 0, 0);
    var ps := SentencePieces(s);
    forall k | 0 < k < |ps| && ps[k] != [] ensures !IsSpace(ps[k][0]) {
      assert ps[k] in ps[1..];
    }
  }

  /** The kept pieces, stripped, each with a '.' appended. */
  function Sentences(ps: seq<string>): (r: seq<string>)
    ensures |r| <= |ps|
  {
    if ps == [] then []
    else
      var n := |ps| - 1;
      Sentences(ps[..n]) + (if Strip(ps[n]) != [] then [Strip(ps[n]) + "."] else [])
  }

  /** `simple_sentence_tokenize(text)`. */
  function Tokenize(text: string): (r: seq<string>)
  {
    Sentences(SentencePieces(text))
  }

  /** A tokenized sentence: text that neither starts nor ends with whitespace,
      followed by the appended '.'. */
  predicate WellFormedSentence(x: string) {
    |x| >= 2 && x[|x| - 1] == '.' && !IsSpace(x[0]) && !IsSpace(x[|x| - 2])
  }

  lemma SentencesWellFormed(ps: seq<string>)
    ensures forall x :: x in Sentences(ps) ==> WellFormedSentence(x) && Strip(x[..|x| - 1]) == x[..|x| - 1]
    ensures (forall p :: p in ps ==> !IsBlank(p)) ==> |Sentences(ps)| == |ps|
  {
    SentencesShape(ps);
    SentencesCount(ps);
  }

  /** A sentence as the tokenizer makes it: well formed, and stripped text before its '.'. */
  predicate StrippedSentence(x: string) {
    WellFormedSentence(x) && Strip(x[..|x| - 1]) == x[..|x| - 1]
  }

  /** The sentence a non-blank piece gives: its strip and a '.'. */
  lemma SentenceOfPiece(p: string)
    requires Strip(p) != []
    ensures StrippedSentence(Strip(p) + ".")
  {
    var t := Strip(p);
    StripSpec(p);
    var x := t + ".";
    assert x[..|x| - 1] == t;
    StripSpec(t);
    assert LeadingSpaces(t) == 0;
    assert TrailingSpaces(t) == 0;
  }

  /** Every sentence is well formed. */
  lemma {:induction false} SentencesShape(ps: seq<string>)
    ensures forall x :: x in Sentences(ps) ==> StrippedSentence(x)
  {
    if ps != [] {
      var n := |ps| - 1;
      SentencesShape(ps[..n]);
      var prev := Sentences(ps[..n]);
      var last := if Strip(ps[n]) != [] then [Strip(ps[n]) + "."] else [];
      assert Sentences(ps) == prev + last;
      if Strip(ps[n]) != [] {
        SentenceOfPiece(ps[n]);
      }
      assert forall x :: x in last ==> StrippedSentence(x);
    }
  }

  /** Non-blank pieces give one sentence each. */
  lemma {:induction false} SentencesCount(ps: seq<string>)
    ensures (forall p :: p in ps ==> !IsBlank(p)) ==> |Sentences(ps)| == |ps|
  {
    if ps != [] && forall p :: p in ps ==> !IsBlank(p) {
      var n := |ps| - 1;
      assert forall p :: p in ps[..n] ==> p in ps;
      SentencesCount(ps[..n]);
      assert ps[n] in ps;
      StripSpec(ps[n]);
    }
  }

  /** Every sentence ends with the appended '.' and is stripped text before
      it; a text whose pieces are all non-blank keeps one sentence per piece. */
  lemma TokenizeWellFormed(text: string)
    ensures forall x :: x in Tokenize(text) ==> WellFormedSentence(x)
    ensures |Tokenize(text)| <= |SentencePieces(text)|
  {
    SentencesWellFormed(SentencePieces(text));
  }

  /** A final '.' with nothing after it is not a break, so it stays in the
      last piece and the appended '.' doubles it. */
  lemma FinalPeriodDoubled()
    ensures Tokenize("A. B.") == ["A.", "B.."]
  {
    var s := "A. B.";
    assert !BreakAt(s, 0) && BreakAt(s, 1) && !BreakAt(s, 3) && !BreakAt(s, 4);
    assert LeadingSpaces(s[2..]) == 1 by {
      assert s[2..][1..] == "B.";
    }
    assert PiecesFrom(s, 3, 5) == ["B."];
    assert PiecesFrom(s, 3, 4) == ["B."];
    assert PiecesFrom(s, 3, 3) == ["B."];
    assert BreakEnd(s, 1) == 3;
    assert s[0..1] == "A";
    assert PiecesFrom(s, 0, 1) == ["A"] + PiecesFrom(s, 3, 3);
    assert PiecesFrom(s, 0, 1) == ["A", "B."];
    assert SentencePieces(s) == ["A", "B."];
    assert Strip("A") == "A" by {
      assert LeadingSpaces("A") == 0;
      assert TrailingSpaces("A") == 0;
    }
    assert Strip("B.") == "B." by {
      assert LeadingSpaces("B.") == 0;
      assert TrailingSpaces("B.") == 0;
    }
    assert Sentences(["A"]) == ["A."] by {
      assert ["A"][..0] == [];
      assert "A" + "." == "A.";
      assert Sentences(["A"]) == Sentences([]) + [Strip("A") + "."];
    }
    assert ["A", "B."][..1] == ["A"];
    assert "B." + "." == "B..";
    assert Sentences(["A", "B."]) == Sentences(["A"]) + ["B.."];
    assert ["A."] + ["B.."] == ["A.", "B.."];
  }

  // ---------------------------------------------------------------------------
  // Sentence windows
  // ---------------------------------------------------------------------------

  function Min(a: int, b: int): int { if a <= b then a else b }

  /** The windows `xs[i:i + size]` for `i` in `range(from, len(xs), step)`,
      skipping empty ones; a positive size only clamps the end of the slice
      (`SliceFrom`). */
  function WindowsFrom<T>(xs: seq<T>, size: int, step: int, from: nat): seq<seq<T>>
    requires step > 0
    decreases |xs| - from
  {
    if from >= |xs| then []
    else
      var w := if size > 0 then xs[from..Min(from + size, |xs|)] else PySlice(xs, from, from + size);
      (if w != [] then [w] else []) + WindowsFrom(xs, size, step, from + step)
  }

  /** A slice that starts inside the list and does not end before it starts
      only clamps its end. */
  lemma SliceFrom<T>(xs: seq<T>, i: nat, j: int)
    requires i <= |xs| && i <= j
    ensures PySlice(xs, i, j) == xs[i..Min(j, |xs|)]
  {
  }

  /** The start of window `k` when the first window starts at `from`. */
  function StartOf(from: nat, step: nat, k: nat): nat
    decreases k
  {
    if k == 0 then from else StartOf(from + step, step, k - 1)
  }

  lemma {:induction false} StartOfProduct(from: nat, step: nat, k: nat)
    ensures StartOf(from, step, k) == from + k * step
    decreases k
  {
    if k > 0 {
      StartOfProduct(from + step, step, k - 1);
    }
  }

  /** A window list that is not empty starts with the window at `from`. */
  lemma WindowsFromFirst<T>(xs: seq<T>, size: int, step: int, from: nat)
    requires 0 < step && 0 < size && from < |xs|
    ensures WindowsFrom(xs, size, step, from)
         == [xs[from..Min(from + size, |xs|)]] + WindowsFrom(xs, size, step, from + step)
  {
  }

  lemma {:induction false} WindowAt<T>(xs: seq<T>, size: int, step: int, from: nat, k: nat)
    requires 0 < step && 0 < size
    requires k < |WindowsFrom(xs, size, step, from)|
    ensures StartOf(from, step, k) < |xs|
    ensures WindowsFrom(xs, size, step, from)[k] == xs[StartOf(from, step, k)..Min(StartOf(from, step, k) + size, |xs|)]
    decreases k
  {
    assert from < |xs|;
    WindowsFromFirst(xs, size, step, from);
    if k > 0 {
      WindowAt(xs, size, step, from + step, k - 1);
    }
  }

  lemma {:induction false} WindowExists<T>(xs: seq<T>, size: int, step: int, from: nat, k: nat)
    requires 0 < step && 0 < size
    requires StartOf(from, step, k) < |xs|
    ensures k < |WindowsFrom(xs, size, step, from)|
    decreases k
  {
    if k > 0 {
      WindowExists(xs, size, step, from + step, k - 1);
    }
    if from < |xs| {
      WindowsFromFirst(xs, size, step, from);
    }
  }

  /** With a positive window size and step, window k is
      `xs[k*step : min(k*step + size, len(xs))]`, and there is one window for
      every multiple of the step below `len(xs)`. */
  lemma WindowsShape<T>(xs: seq<T>, size: int, step: int)
    requires 0 < step && 0 < size
    ensures var ws := WindowsFrom(xs, size, step, 0);
      forall k: nat :: k < |ws| <==> k * step < |xs|
    ensures var ws := WindowsFrom(xs, size, step, 0);
      forall k :: 0 <= k < |ws| ==> ws[k] == xs[k * step..Min(k * step + size, |xs|)]
  {
    var ws := WindowsFrom(xs, size, step, 0);
    forall k: nat | k < |ws| ensures k * step < |xs| && ws[k] == xs[k * step..Min(k * step + size, |xs|)] {
      WindowAt(xs, size, step, 0, k);
      StartOfProduct(0, step, k);
    }
    forall k: nat | k * step < |xs| ensures k < |ws| {
      StartOfProduct(0, step, k);
      WindowExists(xs, size, step, 0, k);
    }
  }

  lemma {:induction false} StartOfNext(from: nat, step: nat, k: nat)
    ensures StartOf(from, step, k + 1) == StartOf(from, step, k) + step
    decreases k
  {
    if k > 0 {
      StartOfNext(from + step, step, k - 1);
    }
  }

  /** Consecutive windows overlap by `size - step` items: what follows the
      first `step` items of a window begins the next window. */
  lemma WindowsOverlap<T>(xs: seq<T>, size: int, step: int, k: nat)
    requires 0 < step < size
    requires k + 1 < |WindowsFrom(xs, size, step, 0)|
    ensures var ws := WindowsFrom(xs, size, step, 0);
      step < |ws[k]| && ws[k][step..] <= ws[k + 1]
  {
    var ws := WindowsFrom(xs, size, step, 0);
    WindowAt(xs, size, step, 0, k);
    WindowAt(xs, size, step, 0, k + 1);
    StartOfNext(0, step, k);
    var a := StartOf(0, step, k);
    var b := a + step;
    var e1 := Min(a + size, |xs|);
    var e2 := Min(b + size, |xs|);
    assert ws[k] == xs[a..e1] && ws[k + 1] == xs[b..e2];
    SliceShiftPrefix(xs, a, step, e1, e2);
  }

  /** Dropping the first `step` items of a slice leaves a prefix of any slice
      that starts `step` later and ends no earlier. */
  lemma SliceShiftPrefix<T>(xs: seq<T>, a: nat, step: nat, e1: nat, e2: nat)
    requires a + step <= e1 <= e2 <= |xs|
    ensures xs[a..e1][step..] <= xs[a + step..e2]
  {
    assert xs[a..e1][step..] == xs[a + step..e1];
    assert xs[a + step..e2][..e1 - a - step] == xs[a + step..e1];
  }

  lemma {:induction false} WindowsCoverFrom<T>(xs: seq<T>, size: int, step: int, from: nat, j: nat) returns (k: nat)
    requires 0 < step <= size && from <= j < |xs|
    ensures k < |WindowsFrom(xs, size, step, from)|
    ensures StartOf(from, step, k) <= j < StartOf(from, step, k) + size
    decreases |xs| - from
  {
    WindowsFromFirst(xs, size, step, from);
    if j < from + step {
      k := 0;
    } else {
      var k' := WindowsCoverFrom(xs, size, step, from + step, j);
      k := k' + 1;
    }
  }

  /** When the step does not exceed the window size (an overlap of zero or
      more), every item lies in some window. */
  lemma WindowsCover<T>(xs: seq<T>, size: int, step: int, j: nat)
    requires 0 < step <= size && j < |xs|
    ensures var ws := WindowsFrom(xs, size, step, 0);
      exists k :: 0 <= k < |ws| && k * step <= j < k * step + size
  {
    var k := WindowsCoverFrom(xs, size, step, 0, j);
    StartOfProduct(0, step, k);
  }

  // ---------------------------------------------------------------------------
  // Sections and subsections
  // ---------------------------------------------------------------------------

  /** `s` starts with a numbered label `\d+\.(?:\d+\.)*\s`, such as "1. " or "2.3.\n". */
  predicate Label(s: string)
    decreases |s|
  {
    var d := DigitRun(s);
    0 < d && d + 1 < |s| && s[d] == '.' && (IsSpace(s[d + 1]) || Label(s[d + 1..]))
  }

  /** A subsection cut at `i`: a newline followed by a numbered label. */
  predicate CutAt(s: string, i: int) {
    0 <= i < |s| && s[i] == '\n' && Label(s[i + 1..])
  }

  /** The subsections of `s[start..]` when scanning for cuts from `i`. */
  function SubsectionsFrom(s: string, start: nat, i: nat): (r: seq<string>)
    requires start <= i <= |s|
    ensures |r| >= 1
    decreases |s| - i
  {
    if i == |s| then [s[start..]]
    else if CutAt(s, i) then [s[start..i]] + SubsectionsFrom(s, i + 1, i + 1)
    else SubsectionsFrom(s, start, i + 1)
  }

  /** `re.split(r'\n(?=\d+\.(?:\d+\.)*\s)', section)`. */
  function Subsections(section: string): (r: seq<string>)
    ensures |r| >= 1
  {
    SubsectionsFrom(section, 0, 0)
  }

  lemma {:induction false} SubsectionsFromRebuild(s: string, start: nat, i: nat)
    requires start <= i <= |s|
    ensures Join(SubsectionsFrom(s, start, i), "\n") == s[start..]
    decreases |s| - i
  {
    if i < |s| {
      if CutAt(s, i) {
        SubsectionsFromRebuild(s, i + 1, i + 1);
        var rest := SubsectionsFrom(s, i + 1, i + 1);
        assert SubsectionsFrom(s, start, i) == [s[start..i]] + rest;
        JoinFirst(s[start..i], rest, "\n");
        CutSplits(s, start, i);
      } else {
        SubsectionsFromRebuild(s, start, i + 1);
      }
    }
  }

  /** A cut is a line break between the text before it and the text after it. */
  lemma CutSplits(s: string, start: nat, i: nat)
    requires start <= i && CutAt(s, i)
    ensures s[start..] == s[start..i] + "\n" + s[i + 1..]
  {
    SliceInThree(s, start, i, i + 1);
    assert s[i..i + 1] == "\n";
  }

  lemma {:induction false} SubsectionsFromDigit(s: string, start: nat, i: nat)
    requires start <= i <= |s|
    requires start > 0 ==> CutAt(s, start - 1)
    ensures var r := SubsectionsFrom(s, start, i);
      (start > 0 ==> r[0] != [] && IsDigit(r[0][0]))
      && forall p :: p in r[1..] ==> p != [] && IsDigit(p[0])
    decreases |s| - i
  {
    var r := SubsectionsFrom(s, start, i);
    if start > 0 {
      assert s[start - 1 + 1..] == s[start..];
      assert IsDigit(s[start]) && DigitRun(s[start..]) > 0;
    }
    if i < |s| {
      if CutAt(s, i) {
        SubsectionsFromDigit(s, i + 1, i + 1);
        var rest := SubsectionsFrom(s, i + 1, i + 1);
        assert r[1..] == rest;
        assert forall p :: p in rest ==> p == rest[0] || p in rest[1..];
        assert start > 0 ==> i > start;
      } else {
        SubsectionsFromDigit(s, start, i + 1);
        assert r == SubsectionsFrom(s, start, i + 1);
      }
    }
  }

  /** The subsection split loses nothing: joining the subsections with
      newlines gives the section back, and every subsection after the first
      starts with the digit of its numbered label. */
  lemma SubsectionsRebuild(section: string)
    ensures Join(Subsections(section), "\n") == section
    ensures forall k :: 0 < k < |Subsections(section)| ==> Subsections(section)[k] != [] && IsDigit(Subsections(section)[k][0])
  {
    SubsectionsFromRebuild(section, 0, 0);
    SubsectionsFromDigit(section, 0, 0);
    var r := Subsections(section);
    forall k | 0 < k < |r| ensures r[k] != [] && IsDigit(r[k][0]) {
      assert r[k] in r[1..];
    }
  }

  /** `text.split('#')[1:]`. */
  function SectionsOf(text: string): seq<string> {
    Split(text, '#')[1..]
  }

  /** Text before the first '#' does not change the sections. */
  lemma {:induction false} SectionsIgnorePreamble(preamble: string, rest: string)
    requires '#' !in preamble
    ensures SectionsOf(preamble + "#" + rest) == SectionsOf("#" + rest)
    decreases |preamble|
  {
    if preamble != [] {
      var s := preamble + "#" + rest;
      assert s[1..] == preamble[1..] + "#" + rest;
      SectionsIgnorePreamble(preamble[1..], rest);
      SplitTailKept(preamble[1..] + "#" + rest, '#', preamble[0]);
      assert s == [preamble[0]] + s[1..];
    }
  }

  /** Prepending a non-separator character only changes the first piece. */
  lemma SplitTailKept(s: string, c: char, x: char)
    requires x != c
    ensures Split([x] + s, c)[1..] == Split(s, c)[1..]
  {
    assert ([x] + s)[1..] == s;
  }

  // ---------------------------------------------------------------------------
  // Chunks
  // ---------------------------------------------------------------------------

  /** A knowledge-base chunk: the subsection's first line and a window of its
      sentences joined by single spaces. */
  datatype KbChunk = KbChunk(context: string, text: string)

  /** `range(0, n, 0)` raises before any window is made. */
  datatype ChunkError = StepZero

  /** The context (stripped first line) and content (stripped remaining lines)
      of a subsection, or None when it is blank or has no content. */
  function SubsectionParts(sub: string): (r: Option<(string, string)>)
    ensures r.Some? ==> r.value.1 != [] && Strip(r.value.1) == r.value.1
  {
    var stripped := Strip(sub);
    if stripped == [] then None
    else
      var lines := Split(stripped, '\n');
      var context := Strip(lines[0]);
      var content := Strip(Join(lines[1..], "\n"));
      if content == [] then None
      else
        StripSpec(Join(lines[1..], "\n"));
        StripSpec(content);
        assert LeadingSpaces(content) == 0 && TrailingSpaces(content) == 0;
        Some((context, content))
  }

  /** Each window of sentences as a chunk with the given context. */
  function Labelled(context: string, ws: seq<seq<string>>): (r: seq<KbChunk>)
    ensures |r| == |ws|
  {
    if ws == [] then [] else [KbChunk(context, Join(ws[0], " "))] + Labelled(context, ws[1..])
  }

  /** Chunk `k` carries the context and window `k` joined by single spaces. */
  lemma {:induction false} LabelledAt(context: string, ws: seq<seq<string>>, k: nat)
    requires k < |ws|
    ensures Labelled(context, ws)[k] == KbChunk(context, Join(ws[k], " "))
    decreases k
  {
    if k > 0 {
      LabelledAt(context, ws[1..], k - 1);
    }
  }

  /** The chunks of one subsection. */
  function SubsectionChunks(sub: string, maxSentences: int, overlap: int): Result<seq<KbChunk>, ChunkError> {
    match SubsectionParts(sub)
    case None => Ok([])
    case Some(parts) =>
      var step := maxSentences - overlap;
      if step == 0 then Err(StepZero)
      else if step < 0 then Ok([])
      else Ok(Labelled(parts.0, WindowsFrom(Tokenize(parts.1), maxSentences, step, 0)))
  }

  /** The chunk lists concatenated, or the first error. */
  function ConcatAll<T, E>(rs: seq<Result<seq<T>, E>>): Result<seq<T>, E> {
    if rs == [] then Ok([])
    else
      match ConcatAll(rs[..|rs| - 1])
      case Err(e) => Err(e)
      case Ok(a) =>
        match rs[|rs| - 1]
        case Err(e) => Err(e)
        case Ok(b) => Ok(a + b)
  }

  function SectionResults(sections: seq<string>, maxSentences: int, overlap: int): (r: seq<Result<seq<KbChunk>, ChunkError>>)
    ensures |r| == |sections|
  {
    seq(|sections|, k requires 0 <= k < |sections| => SectionChunks(sections[k], maxSentences, overlap))
  }

  function SubsectionResults(subs: seq<string>, maxSentences: int, overlap: int): (r: seq<Result<seq<KbChunk>, ChunkError>>)
    ensures |r| == |subs|
  {
    seq(|subs|, k requires 0 <= k < |subs| => SubsectionChunks(subs[k], maxSentences, overlap))
  }

  /** The chunks of one `#` section. */
  function SectionChunks(section: string, maxSentences: int, overlap: int): Result<seq<KbChunk>, ChunkError> {
    ConcatAll(SubsectionResults(Subsections(section), maxSentences, overlap))
  }

  /** What `chunk_text(text, max_sentences, overlap)` returns or raises. */
  function ChunkTextSpec(text: string, maxSentences: int, overlap: int): Result<seq<KbChunk>, ChunkError> {
    ConcatAll(SectionResults(SectionsOf(text), maxSentences, overlap))
  }

  lemma ConcatAllSnoc<T, E>(rs: seq<Result<seq<T>, E>>, i: nat, a: seq<T>)
    requires i < |rs| && ConcatAll(rs[..i]) == Ok(a)
    ensures ConcatAll(rs[..i + 1]) == if rs[i].Ok? then Ok(a + rs[i].value) else Err(rs[i].error)
  {
    assert rs[..i + 1][..i] == rs[..i];
  }

  lemma ConcatAllStops<T, E>(rs: seq<Result<seq<T>, E>>, i: nat)
    requires i < |rs| && ConcatAll(rs[..i]).Ok? && rs[i].Err?
    ensures ConcatAll(rs) == Err(rs[i].error)
  {
    ConcatAllSnoc(rs, i, ConcatAll(rs[..i]).value);
    ConcatAllErrSticks(rs, i + 1);
  }

  lemma {:induction false} ConcatAllErrSticks<T, E>(rs: seq<Result<seq<T>, E>>, i: nat)
    requires i <= |rs| && ConcatAll(rs[..i]).Err?
    ensures ConcatAll(rs) == ConcatAll(rs[..i])
    decreases |rs| - i
  {
    if i < |rs| {
      assert rs[..i + 1][..i] == rs[..i];
      ConcatAllErrSticks(rs, i + 1);
    } else {
      assert rs[..i] == rs;
    }
  }

  /** One turn of the `range` loop: the window at `i`, if not empty, then
      the windows after it. */
  lemma WindowsStep<T>(xs: seq<T>, size: int, step: int, i: nat)
    requires step > 0 && i < |xs|
    ensures var w := PySlice(xs, i, i + size);
      WindowsFrom(xs, size, step, i) == (if w != [] then [w] else []) + WindowsFrom(xs, size, step, i + step)
  {
    if size > 0 {
      SliceFrom(xs, i, i + size);
    }
  }

  lemma {:induction false} LabelledAppend(context: string, a: seq<seq<string>>, b: seq<seq<string>>)
    ensures Labelled(context, a + b) == Labelled(context, a) + Labelled(context, b)
    decreases |a|
  {
    if a == [] {
      assert a + b == b;
    } else {
      assert (a + b)[1..] == a[1..] + b;
      LabelledAppend(context, a[1..], b);
    }
  }

  lemma AppendAssoc<T>(a: seq<T>, b: seq<T>, c: seq<T>)
    ensures (a + b) + c == a + (b + c)
  {
  }

  /** One turn of the inner loop keeps "chunks so far, then the chunks of the
      windows still to come" unchanged. */
  lemma WindowLoopStep(sentences: seq<string>, context: string, maxSentences: int, step: int, i: nat,
                       out: seq<KbChunk>, next: seq<KbChunk>)
    requires step > 0 && i < |sentences|
    requires var w := PySlice(sentences, i, i + maxSentences);
      next == if w != [] then out + [KbChunk(context, Join(w, " "))] else out
    ensures next + Labelled(context, WindowsFrom(sentences, maxSentences, step, i + step))
        == out + Labelled(context, WindowsFrom(sentences, maxSentences, step, i))
  {
    var w := PySlice(sentences, i, i + maxSentences);
    var rest := WindowsFrom(sentences, maxSentences, step, i + step);
    WindowsStep(sentences, maxSentences, step, i);
    var here := if w != [] then [w] else [];
    LabelledAppend(context, here, rest);
    AppendAssoc(out, Labelled(context, here), Labelled(context, rest));
  }

  /** The windows of a subsection's sentences as chunks: the inner loop of
      `chunk_text`. */
  method WindowLoop(sentences: seq<string>, context: string, maxSentences: int, step: int) returns (out: seq<KbChunk>)
    requires step > 0
    ensures out == Labelled(context, WindowsFrom(sentences, maxSentences, step, 0))
  {
    out := [];
    var i: nat := 0;
    while i < |sentences|
      invariant out + Labelled(context, WindowsFrom(sentences, maxSentences, step, i))
                == Labelled(context, WindowsFrom(sentences, maxSentences, step, 0))
      decreases |sentences| - i
    {
      ghost var before := out;
      var chunkSentences := PySlice(sentences, i, i + maxSentences);
      if chunkSentences != [] {
        out := out + [KbChunk(context, Join(chunkSentences, " "))];
      }
      WindowLoopStep(sentences, context, maxSentences, step, i, before, out);
      i := i + step;
    }
    assert WindowsFrom(sentences, maxSentences, step, i) == [];
    assert out + [] == out;
  }

  /** The body of `chunk_text`'s loop over one `#` section: every numbered
      subsection with content, every window of its sentences, in order. */
  method ChunkSection(section: string, maxSentences: int, overlap: int) returns (r: Result<seq<KbChunk>, ChunkError>)
    ensures r == SectionChunks(section, maxSentences, overlap)
  {
    var subsections := Subsections(section);
    ghost var inner := SubsectionResults(subsections, maxSentences, overlap);
    var chunks := [];
    for t := 0 to |subsections|
      invariant ConcatAll(inner[..t]) == Ok(chunks)
    {
      ConcatAllSnoc(inner, t, chunks);
      assert inner[t] == SubsectionChunks(subsections[t], maxSentences, overlap);
      var parts := SubsectionParts(subsections[t]);
      if parts.None? {
        assert chunks + [] == chunks;
        continue;
      }
      var (context, content) := parts.value;
      var sentences := Tokenize(content);
      var step := maxSentences - overlap;
      if step == 0 {
        ConcatAllStops(inner, t);
        return Err(StepZero);
      }
      if step > 0 {
        var windowChunks := WindowLoop(sentences, context, maxSentences, step);
        chunks := chunks + windowChunks;
      } else {
        assert chunks + [] == chunks;
      }
    }
    assert inner[..|inner|] == inner;
    r := Ok(chunks);
  }

  /** `chunk_text(text, max_sentences, overlap)`: the sections after the
      first '#', in order; the `ValueError` of a zero step ends it. */
  method ChunkText(text: string, maxSentences: int, overlap: int) returns (r: Result<seq<KbChunk>, ChunkError>)
    ensures r == ChunkTextSpec(text, maxSentences, overlap)
  {
    var sections := SectionsOf(text);
    ghost var outer := SectionResults(sections, maxSentences, overlap);
    var chunks := [];
    for s := 0 to |sections|
      invariant ConcatAll(outer[..s]) == Ok(chunks)
    {
      ConcatAllSnoc(outer, s, chunks);
      var sectionChunks := ChunkSection(sections[s], maxSentences, overlap);
      if sectionChunks.Err? {
        ConcatAllStops(outer, s);
        return Err(sectionChunks.error);
      }
      chunks := chunks + sectionChunks.value;
    }
    assert outer[..|outer|] == outer;
    r := Ok(chunks);
  }

  /** The text embedded for a chunk: `f"{context}: {text}"`. */
  function EmbeddingText(c: KbChunk): (r: string)
    ensures StartsWith(r, c.context + ": ") && EndsWith(r, c.text)
    ensures |r| == |c.context| + 2 + |c.text|
  {
    c.context + ": " + c.text
  }

  /** Chunks with the same context are embedded under the same prefix, and
      two chunks with the same context embed the same text only when their
      texts agree. */
  lemma EmbeddingTextInjective(a: KbChunk, b: KbChunk)
    requires a.context == b.context
    ensures EmbeddingText(a) == EmbeddingText(b) <==> a.text == b.text
  {
    if EmbeddingText(a) == EmbeddingText(b) {
      var n := |a.context| + 2;
      assert a.text == EmbeddingText(a)[n..];
      assert b.text == EmbeddingText(b)[n..];
    }
  }

  // ---------------------------------------------------------------------------
  // process_knowledge_base and SearchQuery
  // ---------------------------------------------------------------------------

  datatype KbError =
    | NoConnection
    | FileUnreadable
    | ChunkingFailed(cause: ChunkError)
    | NoChunks
    | StorageMismatch(expected: nat, found: int)

  /** `process_knowledge_base(file_path)` with the connection check, the file
      contents and the count Neo4j reports after storing as inputs; chunking
      uses the defaults (3, 1). */
  function ProcessKnowledgeBase(connected: bool, content: Option<string>, storedCount: int): (r: Result<nat, KbError>)
    ensures r.Ok? ==> r.value == storedCount > 0
  {
    if !connected then Err(NoConnection)
    else if content.None? then Err(FileUnreadable)
    else
      match ChunkTextSpec(content.value, 3, 1)
      case Err(e) => Err(ChunkingFailed(e))
      case Ok(chunks) =>
        if chunks == [] then Err(NoChunks)
        else if storedCount != |chunks| then Err(StorageMismatch(|chunks|, storedCount))
        else Ok(storedCount)
  }

  /** The default window never fails, and a processed file reports exactly the
      number of chunks it produced, which is at least one; every other outcome
      is an error naming the failed check. */
  lemma ProcessKnowledgeBaseSpec(connected: bool, content: Option<string>, storedCount: int)
    ensures var r := ProcessKnowledgeBase(connected, content, storedCount);
      (r.Err? ==> r.error != ChunkingFailed(StepZero))
      && (r.Ok? <==> connected && content.Some? && ChunkTextSpec(content.value, 3, 1).Ok?
                      && 0 < |ChunkTextSpec(content.value, 3, 1).value| == storedCount)
      && (r.Ok? ==> r.value == |ChunkTextSpec(content.value, 3, 1).value|)
  {
    if connected && content.Some? {
      DefaultNeverFails(content.value);
    }
  }

  /** `chunk_text` with the defaults (3, 1) never raises. */
  lemma DefaultNeverFails(text: string)
    ensures ChunkTextSpec(text, 3, 1).Ok?
  {
    var outer := SectionResults(SectionsOf(text), 3, 1);
    forall k | 0 <= k < |outer| ensures outer[k].Ok? {
      var inner := SubsectionResults(Subsections(SectionsOf(text)[k]), 3, 1);
      ConcatAllOk(inner);
    }
    ConcatAllOk(outer);
  }

  lemma {:induction false} ConcatAllOk<T, E>(rs: seq<Result<seq<T>, E>>)
    requires forall k :: 0 <= k < |rs| ==> rs[k].Ok?
    ensures ConcatAll(rs).Ok?
  {
    if rs != [] {
      ConcatAllOk(rs[..|rs| - 1]);
    }
  }

  /** A validated search request. */
  datatype SearchQuery = SearchQuery(text: string, numResults: int, minScore: real)

  datatype QueryError = NumResultsOutOfRange(numResults: int) | MinScoreOutOfRange(minScore: real)

  /** The field checks of `SearchQuery`: `num_results` in 1..10, `min_score`
      in 0..1. */
  function ValidateQuery(text: string, numResults: int, minScore: real): (r: Result<SearchQuery, QueryError>)
    ensures r.Ok? <==> 1 <= numResults <= 10 && 0.0 <= minScore <= 1.0
    ensures r.Ok? ==> r.value == SearchQuery(text, numResults, minScore)
  {
    if !(1 <= numResults <= 10) then Err(NumResultsOutOfRange(numResults))
    else if !(0.0 <= minScore <= 1.0) then Err(MinScoreOutOfRange(minScore))
    else Ok(SearchQuery(text, numResults, minScore))
  }
}

=== FILE: kyc_detect.dfy ===
/** Detection of Indian KYC identifiers in OCR text (kycmask/unpop.py,
    `detect_sensitive_info`): PAN numbers and Aadhaar numbers, found the
    way `re.findall` scans, left to right, resuming after each match. */
module KycDetect {
  import opened Wrappers
  import opened PyText

  /** The shape `[A-Z]{5}[0-9]{4}[A-Z]` of a PAN number. */
  predicate PanShape(t: string) {
    |t| == 10
    && (forall k :: 0 <= k < 5 ==> IsUpper(t[k]))
    && (forall k :: 5 <= k < 9 ==> IsDigit(t[k]))
    && IsUpper(t[9])
  }

  /** The regular-expression assertion `\b` at position `p` of `s`: exactly
      one of the characters around `p` is a word character. */
  predicate WordBoundary(s: string, p: nat)
    requires p <= |s|
  {
    (p > 0 && IsWordChar(s[p - 1])) != (p < |s| && IsWordChar(s[p]))
  }

  /** The pattern `\b[A-Z]{5}[0-9]{4}[A-Z]\b` matches at position `i`. */
  predicate PanAt(s: string, i: nat) {
    i + 10 <= |s| && PanShape(s[i..i + 10]) && WordBoundary(s, i) && WordBoundary(s, i + 10)
  }

  /** `re.findall` of the PAN pattern from position `i`: try a match at `i`;
      on success report it and resume after it, otherwise move one character on. */
  function FindPans(s: string, i: nat): (r: seq<string>)
    requires i <= |s|
    ensures forall k :: 0 <= k < |r| ==> PanShape(r[k])
    decreases |s| - i
  {
    if i == |s| then []
    else if PanAt(s, i) then [s[i..i + 10]] + FindPans(s, i + 10)
    else FindPans(s, i + 1)
  }

  /** Reference definition: every position from `i` on where the PAN pattern
      matches, in increasing order, without the scan's skipping. */
  function PanStarts(s: string, i: nat): (r: seq<nat>)
    requires i <= |s|
    ensures forall k :: 0 <= k < |r| ==> i <= r[k] && PanAt(s, r[k])
    ensures forall k, l :: 0 <= k < l < |r| ==> r[k] < r[l]
    decreases |s| - i
  {
    if i == |s| then []
    else (if PanAt(s, i) then [i] else []) + PanStarts(s, i + 1)
  }

  /** `PanStarts` misses no position where the pattern matches. */
  lemma {:induction false} PanStartsComplete(s: string, i: nat, j: nat)
    requires i <= j < |s| && PanAt(s, j)
    ensures j in PanStarts(s, i)
    decreases |s| - i
  {
    if i < j {
      PanStartsComplete(s, i + 1, j);
    }
  }

  /** A PAN match cannot start inside another one: inside a match both
      neighbours of every position are word characters. */
  lemma NoPanInside(s: string, i: nat, j: nat)
    requires PanAt(s, i) && i < j < i + 10
    ensures !PanAt(s, j)
  {
    var t := s[i..i + 10];
    assert s[j - 1] == t[j - 1 - i] && s[j] == t[j - i];
    assert IsWordChar(t[j - 1 - i]) && IsWordChar(t[j - i]);
  }

  /** Between a match and its end there is no match start. */
  lemma {:induction false} PanStartsGap(s: string, i: nat, j: nat)
    requires PanAt(s, i) && i < j <= i + 10
    ensures PanStarts(s, j) == PanStarts(s, i + 10)
    decreases i + 10 - j
  {
    if j < i + 10 {
      NoPanInside(s, i, j);
      PanStartsGap(s, i, j + 1);
    }
  }

  /** Skipping past each match loses nothing: the scan reports the text at
      every position where the pattern matches, in order, and nothing else. */
  lemma {:induction false} FindPansAllStarts(s: string, i: nat)
    requires i <= |s|
    ensures var r := FindPans(s, i);
      var p := PanStarts(s, i);
      |r| == |p| && forall k :: 0 <= k < |r| ==> r[k] == s[p[k]..p[k] + 10]
    decreases |s| - i
  {
    if i < |s| {
      if PanAt(s, i) {
        PanStartsGap(s, i, i + 1);
        FindPansAllStarts(s, i + 10);
      } else {
        FindPansAllStarts(s, i + 1);
      }
    }
  }

  /** A string is reported as a PAN exactly when the pattern matches it somewhere in the text. */
  lemma PanReportedIff(s: string, t: string)
    ensures t in FindPans(s, 0) <==> exists j: nat :: PanAt(s, j) && t == s[j..j + 10]
  {
    FindPansAllStarts(s, 0);
    var r := FindPans(s, 0);
    var p := PanStarts(s, 0);
    if t in r {
      var k :| 0 <= k < |r| && r[k] == t;
      assert PanAt(s, p[k]);
    }
    if exists j: nat :: PanAt(s, j) && t == s[j..j + 10] {
      var j: nat :| PanAt(s, j) && t == s[j..j + 10];
      PanStartsComplete(s, 0, j);
      var k :| 0 <= k < |p| && p[k] == j;
      assert r[k] == t;
    }
  }

  /** Four ASCII digits start at position `p`. */
  predicate FourDigitsAt(s: string, p: nat) {
    p + 4 <= |s| && IsDigit(s[p]) && IsDigit(s[p + 1]) && IsDigit(s[p + 2]) && IsDigit(s[p + 3])
  }

  /** Position after an optional whitespace character (`\s?`, greedy). */
  function SkipSpace(s: string, p: nat): (q: nat)
    requires p <= |s|
    ensures p <= q <= p + 1 && q <= |s|
  {
    if p < |s| && IsSpace(s[p]) then p + 1 else p
  }

  /** Where the pattern `\b[0-9]{4}\s?[0-9]{4}\s?[0-9]{4}\b` ends when it
      matches at `i`. Each `\s?` takes a whitespace character when one is
      there; giving it back cannot help, since a digit would then have to
      stand where the whitespace is, so the match is unique. */
  function AadhaarEnd(s: string, i: nat): (r: Option<nat>)
    requires i <= |s|
    ensures r.Some? ==> i + 12 <= r.value <= i + 14 && r.value <= |s|
  {
    if !WordBoundary(s, i) || !FourDigitsAt(s, i) then None
    else
      var p := SkipSpace(s, i + 4);
      if !FourDigitsAt(s, p) then None
      else
        var q := SkipSpace(s, p + 4);
        if !FourDigitsAt(s, q) || !WordBoundary(s, q + 4) then None
        else Some(q + 4)
  }

  /** The spans `re.findall` reports for the Aadhaar pattern from position `i`:
      ordered, pairwise disjoint, each one a match. */
  function AadhaarSpans(s: string, i: nat): (r: seq<(nat, nat)>)
    requires i <= |s|
    ensures forall k :: 0 <= k < |r| ==> i <= r[k].0 <= |s| && AadhaarEnd(s, r[k].0) == Some(r[k].1)
    ensures forall k :: 0 <= k < |r| - 1 ==> r[k].1 <= r[k + 1].0
    decreases |s| - i
  {
    if i == |s| then []
    else match AadhaarEnd(s, i)
      case Some(e) => [(i, e)] + AadhaarSpans(s, e)
      case None => AadhaarSpans(s, i + 1)
  }

  /** Position `j` lies inside one of the spans. */
  predicate Covered(spans: seq<(nat, nat)>, j: nat) {
    exists k :: 0 <= k < |spans| && spans[k].0 <= j < spans[k].1
  }

  /** A position inside the span at index `k` is covered. */
  lemma CoveredAt(spans: seq<(nat, nat)>, k: nat, j: nat)
    requires k < |spans| && spans[k].0 <= j < spans[k].1
    ensures Covered(spans, j)
  {
  }

  /** A span put in front keeps every covered position covered. */
  lemma CoveredCons(x: (nat, nat), spans: seq<(nat, nat)>, j: nat)
    requires Covered(spans, j)
    ensures Covered([x] + spans, j)
  {
    var k :| 0 <= k < |spans| && spans[k].0 <= j < spans[k].1;
    assert ([x] + spans)[k + 1] == spans[k];
    CoveredAt([x] + spans, k + 1, j);
  }

  /** No match is missed: every position where the Aadhaar pattern matches
      lies inside a reported span. */
  lemma {:induction false} AadhaarCovered(s: string, i: nat, j: nat)
    requires i <= j <= |s| && AadhaarEnd(s, j).Some?
    ensures Covered(AadhaarSpans(s, i), j)
    decreases |s| - i
  {
    assert i < |s|;
    var m := AadhaarEnd(s, i);
    if m.None? {
      assert j != i;
      AadhaarCovered(s, i + 1, j);
      CoveredAfterSkip(s, i, j);
    } else if j < m.value {
      CoveredByMatch(s, i, m.value, j);
    } else {
      AadhaarCovered(s, m.value, j);
      CoveredAfterMatch(s, i, m.value, j);
    }
  }

  /** A position inside the match found at `i` is covered by the first span. */
  lemma CoveredByMatch(s: string, i: nat, e: nat, j: nat)
    requires i < |s| && AadhaarEnd(s, i) == Some(e) && i <= j < e
    ensures Covered(AadhaarSpans(s, i), j)
  {
    var r := AadhaarSpans(s, i);
    assert r == [(i, e)] + AadhaarSpans(s, e);
    CoveredAt(r, 0, j);
  }

  /** A position covered by the spans after the match at `i` is covered from `i`. */
  lemma CoveredAfterMatch(s: string, i: nat, e: nat, j: nat)
    requires i < |s| && AadhaarEnd(s, i) == Some(e) && e <= |s| && Covered(AadhaarSpans(s, e), j)
    ensures Covered(AadhaarSpans(s, i), j)
  {
    assert AadhaarSpans(s, i) == [(i, e)] + AadhaarSpans(s, e);
    CoveredCons((i, e), AadhaarSpans(s, e), j);
  }

  /** A position covered from `i + 1` is covered from `i` when nothing matches at `i`. */
  lemma CoveredAfterSkip(s: string, i: nat, j: nat)
    requires i < |s| && AadhaarEnd(s, i).None? && Covered(AadhaarSpans(s, i + 1), j)
    ensures Covered(AadhaarSpans(s, i), j)
  {
    assert AadhaarSpans(s, i) == AadhaarSpans(s, i + 1);
  }

  /** `re.findall` of the Aadhaar pattern: the text of each reported span. */
  function FindAadhaar(s: string): (r: seq<string>)
    ensures |r| == |AadhaarSpans(s, 0)|
  {
    var sp := AadhaarSpans(s, 0);
    seq(|sp|, k requires 0 <= k < |sp| => s[sp[k].0..sp[k].1])
  }

  /** Removing the non-digits of an Aadhaar match leaves its three groups of
      four digits, so the match's last four characters are its last four digits. */
  lemma AadhaarDigits(s: string, i: nat)
    requires i <= |s| && AadhaarEnd(s, i).Some?
    ensures var e := AadhaarEnd(s, i).value;
      var d := FilterDigits(s[i..e]);
      |d| == 12 && s[e - 4..e] == d[8..]
  {
    var e := AadhaarEnd(s, i).value;
    var p := SkipSpace(s, i + 4);
    var q := SkipSpace(s, p + 4);
    GroupThenSpace(s, i);
    GroupThenSpace(s, p);
    GroupDigits(s, q);
    FilterDigitsSplit(s, i, p, q);
    FilterDigitsSplit(s, i, q, e);
  }

  /** A group of four digits followed by an optional whitespace character
      keeps just its digits. */
  lemma GroupThenSpace(s: string, p: nat)
    requires FourDigitsAt(s, p)
    ensures FilterDigits(s[p..SkipSpace(s, p + 4)]) == s[p..p + 4]
  {
    var q := SkipSpace(s, p + 4);
    GroupDigits(s, p);
    FilterDigitsSplit(s, p, p + 4, q);
    if q == p + 4 {
      assert s[p + 4..q] == [];
    } else {
      assert s[p + 4..q] == [s[p + 4]];
    }
  }

  /** Four digits are kept whole. */
  lemma GroupDigits(s: string, p: nat)
    requires FourDigitsAt(s, p)
    ensures FilterDigits(s[p..p + 4]) == s[p..p + 4]
  {
    var g := s[p..p + 4];
    assert forall k :: 0 <= k < 4 ==> g[k] == s[p + k];
  }

  /** Filtering a slice is filtering its two parts. */
  lemma FilterDigitsSplit(s: string, a: nat, b: nat, c: nat)
    requires a <= b <= c <= |s|
    ensures FilterDigits(s[a..c]) == FilterDigits(s[a..b]) + FilterDigits(s[b..c])
  {
    assert s[a..c] == s[a..b] + s[b..c];
    FilterDigitsAppend(s[a..b], s[b..c]);
  }

  /** Filtering distributes over concatenation. */
  lemma {:induction false} FilterDigitsAppend(a: string, b: string)
    ensures FilterDigits(a + b) == FilterDigits(a) + FilterDigits(b)
  {
    if a == [] {
      assert a + b == b;
    } else {
      assert (a + b)[0] == a[0];
      assert (a + b)[1..] == a[1..] + b;
      FilterDigitsAppend(a[1..], b);
    }
  }

  /** `detect_sensitive_info`: the PAN numbers and Aadhaar numbers found in the text. */
  function DetectSensitiveInfo(text: string): (r: (seq<string>, seq<string>))
    ensures forall k :: 0 <= k < |r.0| ==> PanShape(r.0[k])
    ensures forall k :: 0 <= k < |r.1| ==> 12 <= |r.1[k]| <= 14
  {
    (FindPans(text, 0), FindAadhaar(text))
  }
}

=== FILE: kyc_mask.dfy ===
/** Masking of KYC identifiers in a scanned document (kycmask/unpop.py,
    `mask_text_in_image` and the upload handling around it). The OCR
    response is the page/block/paragraph/word tree of the vision service;
    the image itself is represented by the marks drawn on it, in drawing
    order: each mark is a white box over a run of words with a caption
    printed in its middle. */
module KycMask {
  import opened Wrappers
  import opened PyText
  import opened KycDetect

  /** One OCR word: the texts of its symbols and the corners of its bounding box. */
  datatype OcrWord = OcrWord(symbols: seq<string>, vertices: seq<(int, int)>)
  datatype Paragraph = Paragraph(words: seq<OcrWord>)
  datatype Block = Block(paragraphs: seq<Paragraph>)
  datatype Page = Page(blocks: seq<Block>)

  /** A word as the masking loop sees it: its joined text and its corners. */
  datatype WordBox = WordBox(text: string, vertices: seq<(int, int)>)

  /** An axis-aligned rectangle, corners included. */
  datatype Box = Box(xMin: int, yMin: int, xMax: int, yMax: int)

  datatype MaskKind = PanMask | AadhaarMask

  /** A filled box drawn over the words `first` up to `last` (exclusive),
      with `caption` printed at `origin`. */
  datatype Mark = Mark(kind: MaskKind, first: nat, last: nat, box: Box, caption: string, origin: (int, int))

  // ---------------------------------------------------------------- words

  function BoxOf(w: OcrWord): WordBox {
    WordBox(Join(w.symbols, ""), w.vertices)
  }

  /** The words of a paragraph, in order. */
  function ParagraphWords(ws: seq<OcrWord>): (r: seq<WordBox>)
    ensures |r| == |ws|
  {
    if ws == [] then [] else ParagraphWords(ws[..|ws| - 1]) + [BoxOf(ws[|ws| - 1])]
  }

  /** The words of a sequence of paragraphs. */
  function BlockWords(ps: seq<Paragraph>): seq<WordBox> {
    if ps == [] then [] else BlockWords(ps[..|ps| - 1]) + ParagraphWords(ps[|ps| - 1].words)
  }

  /** The words of a sequence of blocks. */
  function PageWords(bs: seq<Block>): seq<WordBox> {
    if bs == [] then [] else PageWords(bs[..|bs| - 1]) + BlockWords(bs[|bs| - 1].paragraphs)
  }

  /** The words of a whole response, page by page, block by block. */
  function DocumentWords(pages: seq<Page>): seq<WordBox> {
    if pages == [] then [] else DocumentWords(pages[..|pages| - 1]) + PageWords(pages[|pages| - 1].blocks)
  }

  /** The nested loops that flatten the OCR response into `words_with_boxes`;
      the two inner loops are in `AppendBlock`. */
  method CollectWords(pages: seq<Page>) returns (words: seq<WordBox>)
    ensures words == DocumentWords(pages)
  {
    words := [];
    for a := 0 to |pages|
      invariant words == DocumentWords(pages[..a])
    {
      ghost var w0 := words;
      var blocks := pages[a].blocks;
      for b := 0 to |blocks|
        invariant words == w0 + PageWords(blocks[..b])
      {
        words := AppendBlock(words, blocks[b]);
        assert blocks[..b + 1][..b] == blocks[..b];
      }
      assert blocks[..|blocks|] == blocks;
      assert pages[..a + 1][..a] == pages[..a];
    }
    assert pages[..|pages|] == pages;
  }

  /** The loop over the paragraphs of one block. */
  method AppendBlock(acc: seq<WordBox>, block: Block) returns (words: seq<WordBox>)
    ensures words == acc + BlockWords(block.paragraphs)
  {
    words := acc;
    var paragraphs := block.paragraphs;
    for c := 0 to |paragraphs|
      invariant words == acc + BlockWords(paragraphs[..c])
    {
      words := AppendParagraph(words, paragraphs[c]);
      BlockWordsSnoc(paragraphs, c);
    }
    assert paragraphs[..|paragraphs|] == paragraphs;
  }

  /** The loop over the words of one paragraph, joining each word's symbols. */
  method AppendParagraph(acc: seq<WordBox>, paragraph: Paragraph) returns (words: seq<WordBox>)
    ensures words == acc + ParagraphWords(paragraph.words)
  {
    words := acc;
    var ws := paragraph.words;
    for d := 0 to |ws|
      invariant words == acc + ParagraphWords(ws[..d])
    {
      words := words + [BoxOf(ws[d])];
      ParagraphWordsSnoc(ws, d);
    }
    assert ws[..|ws|] == ws;
  }

  lemma ParagraphWordsSnoc(ws: seq<OcrWord>, d: nat)
    requires d < |ws|
    ensures ParagraphWords(ws[..d + 1]) == ParagraphWords(ws[..d]) + [BoxOf(ws[d])]
  {
    assert ws[..d + 1][..d] == ws[..d];
  }

  lemma BlockWordsSnoc(ps: seq<Paragraph>, c: nat)
    requires c < |ps|
    ensures BlockWords(ps[..c + 1]) == BlockWords(ps[..c]) + ParagraphWords(ps[c].words)
  {
    assert ps[..c + 1][..c] == ps[..c];
    assert ps[c].words[..|ps[c].words|] == ps[c].words;
  }

  // ---------------------------------------------------------------- boxes

  /** Python's `min` over a non-empty list: a member no larger than any other. */
  function MinOf(xs: seq<int>): (m: int)
    requires xs != []
    ensures m in xs && forall k :: 0 <= k < |xs| ==> m <= xs[k]
  {
    if |xs| == 1 then xs[0]
    else
      var t := MinOf(xs[1..]);
      assert forall k :: 1 <= k < |xs| ==> xs[k] == xs[1..][k - 1];
      if xs[0] <= t then xs[0] else t
  }

  /** Python's `max` over a non-empty list: a member no smaller than any other. */
  function MaxOf(xs: seq<int>): (m: int)
    requires xs != []
    ensures m in xs && forall k :: 0 <= k < |xs| ==> xs[k] <= m
  {
    if |xs| == 1 then xs[0]
    else
      var t := MaxOf(xs[1..]);
      assert forall k :: 1 <= k < |xs| ==> xs[k] == xs[1..][k - 1];
      if xs[0] >= t then xs[0] else t
  }

  /** One coordinate of each corner. */
  function Coords(vs: seq<(int, int)>, axis: ((int, int)) -> int): (r: seq<int>)
    ensures |r| == |vs|
  {
    if vs == [] then [] else Coords(vs[..|vs| - 1], axis) + [axis(vs[|vs| - 1])]
  }

  lemma {:induction false} CoordsAt(vs: seq<(int, int)>, axis: ((int, int)) -> int, l: nat)
    requires l < |vs|
    ensures Coords(vs, axis)[l] == axis(vs[l])
  {
    if l < |vs| - 1 {
      CoordsAt(vs[..|vs| - 1], axis, l);
    }
  }

  /** Every word has at least one corner (the vision service gives four). */
  predicate HasCorners(ws: seq<WordBox>) {
    forall k :: 0 <= k < |ws| ==> ws[k].vertices != []
  }

  predicate Inside(v: (int, int), b: Box) {
    b.xMin <= v.0 <= b.xMax && b.yMin <= v.1 <= b.yMax
  }

  function X(v: (int, int)): int { v.0 }
  function Y(v: (int, int)): int { v.1 }

  /** Each word's smallest coordinate along `axis`. */
  function Lows(ws: seq<WordBox>, axis: ((int, int)) -> int): (r: seq<int>)
    requires HasCorners(ws)
    ensures |r| == |ws|
  {
    if ws == [] then [] else Lows(ws[..|ws| - 1], axis) + [MinOf(Coords(ws[|ws| - 1].vertices, axis))]
  }

  /** Each word's largest coordinate along `axis`. */
  function Highs(ws: seq<WordBox>, axis: ((int, int)) -> int): (r: seq<int>)
    requires HasCorners(ws)
    ensures |r| == |ws|
  {
    if ws == [] then [] else Highs(ws[..|ws| - 1], axis) + [MaxOf(Coords(ws[|ws| - 1].vertices, axis))]
  }

  lemma {:induction false} ExtremesAt(ws: seq<WordBox>, axis: ((int, int)) -> int, k: nat)
    requires HasCorners(ws) && k < |ws|
    ensures Lows(ws, axis)[k] == MinOf(Coords(ws[k].vertices, axis))
    ensures Highs(ws, axis)[k] == MaxOf(Coords(ws[k].vertices, axis))
  {
    if k < |ws| - 1 {
      ExtremesAt(ws[..|ws| - 1], axis, k);
    }
  }

  /** The box drawn over a run of words: minimum and maximum, over the words,
      of each word's minimum and maximum corner coordinate. */
  function WindowBox(ws: seq<WordBox>): Box
    requires ws != [] && HasCorners(ws)
  {
    Box(MinOf(Lows(ws, X)), MinOf(Lows(ws, Y)), MaxOf(Highs(ws, X)), MaxOf(Highs(ws, Y)))
  }

  /** Along one axis, the window's extent holds every corner of every word. */
  lemma ExtentHolds(ws: seq<WordBox>, axis: ((int, int)) -> int, k: nat, l: nat)
    requires ws != [] && HasCorners(ws) && k < |ws| && l < |ws[k].vertices|
    ensures MinOf(Lows(ws, axis)) <= axis(ws[k].vertices[l]) <= MaxOf(Highs(ws, axis))
  {
    CoordsAt(ws[k].vertices, axis, l);
    ExtremesAt(ws, axis, k);
  }

  /** The box covers every corner of every word in the run, so it is not
      empty (`x_min <= x_max`, `y_min <= y_max`). */
  lemma WindowBoxCovers(ws: seq<WordBox>)
    requires ws != [] && HasCorners(ws)
    ensures var b := WindowBox(ws);
      (forall k, l :: 0 <= k < |ws| && 0 <= l < |ws[k].vertices| ==> Inside(ws[k].vertices[l], b))
      && b.xMin <= b.xMax && b.yMin <= b.yMax
  {
    forall k, l | 0 <= k < |ws| && 0 <= l < |ws[k].vertices|
      ensures Inside(ws[k].vertices[l], WindowBox(ws))
    {
      ExtentHolds(ws, X, k, l);
      ExtentHolds(ws, Y, k, l);
    }
    assert Inside(ws[0].vertices[0], WindowBox(ws));
  }

  /** Where `cv2.putText` starts a caption of the given rendered size so that
      it sits in the middle of the box; `//` rounds down as Dafny's `/` does
      for a positive divisor. */
  function Centered(b: Box, size: (int, int)): (o: (int, int))
    ensures 0 <= (b.xMin + b.xMax) - (2 * o.0 + size.0) <= 1
    ensures 0 <= (b.yMin + b.yMax) - (2 * o.1 - size.1) <= 1
  {
    (b.xMin + (b.xMax - b.xMin - size.0) / 2, b.yMin + (b.yMax - b.yMin + size.1) / 2)
  }

  // ---------------------------------------------------------------- labels

  /** The caption printed over a PAN: five `X` and its last four characters. */
  function PanLabel(pan: string): (r: string)
    ensures PanShape(pan) ==> |r| == 9 && r[5..] == pan[6..]
  {
    "XXXXX" + PySlice(pan, -4, |pan|)
  }

  /** The caption printed over an Aadhaar number: its last four digits after
      two masked groups. */
  function AadhaarLabel(digits: string): (r: string)
    ensures |digits| >= 4 ==> |r| == 14 && r[10..] == digits[|digits| - 4..]
  {
    "XXXX XXXX " + PySlice(digits, -4, |digits|)
  }

  /** How a PAN is listed on screen: its first two and last three characters. */
  function PanDisplay(pan: string): (r: string)
    ensures PanShape(pan) ==> r == pan[..2] + "XXXXX" + pan[7..]
  {
    PySlice(pan, 0, 2) + "XXXXX" + PySlice(pan, -3, |pan|)
  }

  /** How an Aadhaar number is listed on screen: its last four raw characters. */
  function AadhaarDisplay(aadhaar: string): string {
    "XXXX XXXX " + PySlice(aadhaar, -4, |aadhaar|)
  }

  /** For a detected Aadhaar number the screen listing and the image caption
      agree: the last four raw characters are the last four digits. */
  lemma AadhaarDisplayMatchesLabel(s: string, i: nat)
    requires i <= |s| && AadhaarEnd(s, i).Some?
    ensures var a := s[i..AadhaarEnd(s, i).value];
      AadhaarDisplay(a) == AadhaarLabel(FilterDigits(a))
  {
    var e := AadhaarEnd(s, i).value;
    var a := s[i..e];
    AadhaarDigits(s, i);
    assert a[|a| - 4..] == s[e - 4..e];
  }

  // ---------------------------------------------------------------- windows

  /** The texts of the words, in order. */
  function Texts(ws: seq<WordBox>): seq<string> {
    if ws == [] then [] else Texts(ws[..|ws| - 1]) + [ws[|ws| - 1].text]
  }

  /** The words `i` up to `j` joined and reduced to their letters and digits. */
  function WindowClean(words: seq<WordBox>, i: nat, j: nat): string
    requires i <= j <= |words|
  {
    FilterAlnum(Join(Texts(words[i..j]), ""))
  }

  /** The digits of each detected Aadhaar number. */
  function DigitForms(aadhaars: seq<string>): (r: seq<string>)
    ensures |r| == |aadhaars|
  {
    if aadhaars == [] then [] else DigitForms(aadhaars[..|aadhaars| - 1]) + [FilterDigits(aadhaars[|aadhaars| - 1])]
  }

  lemma {:induction false} DigitFormsAt(aadhaars: seq<string>, k: nat)
    requires k < |aadhaars|
    ensures DigitForms(aadhaars)[k] == FilterDigits(aadhaars[k])
  {
    if k < |aadhaars| - 1 {
      DigitFormsAt(aadhaars[..|aadhaars| - 1], k);
    }
  }

  function Placed(kind: MaskKind, i: nat, j: nat, b: Box, caption: string, measure: string -> (int, int)): Mark {
    Mark(kind, i, j, b, caption, Centered(b, measure(caption)))
  }

  /** What is drawn for the window of words `i` up to `j`: a PAN mark when the
      cleaned text is one of the PANs, then an Aadhaar mark when it is the
      digits of one of the Aadhaar numbers. */
  function WindowMarks(words: seq<WordBox>, i: nat, j: nat, pans: seq<string>, aadhaars: seq<string>,
                       measure: string -> (int, int)): seq<Mark>
    requires HasCorners(words) && i < j <= |words|
  {
    var clean := WindowClean(words, i, j);
    var b := WindowBox(words[i..j]);
    (if clean in pans then [Placed(PanMask, i, j, b, PanLabel(clean), measure)] else [])
    + (if clean in DigitForms(aadhaars) then [Placed(AadhaarMask, i, j, b, AadhaarLabel(clean), measure)] else [])
  }

  /** `min(i + 5, n + 1)`: the windows from word `i` end before this. */
  function RowEnd(n: nat, i: nat): nat {
    if i + 5 < n + 1 then i + 5 else n + 1
  }

  /** What `f` draws for the windows starting at word `i` and ending before
      `j`, shortest window first. */
  function RowOf(f: (nat, nat) -> seq<Mark>, n: nat, i: nat, j: nat): seq<Mark>
    requires i < j <= RowEnd(n, i)
    decreases j
  {
    if j == i + 1 then [] else RowOf(f, n, i, j - 1) + f(i, j - 1)
  }

  /** What `f` draws for the windows starting before word `i`, row by row. */
  function AllOf(f: (nat, nat) -> seq<Mark>, n: nat, i: nat): seq<Mark>
    requires i <= n
  {
    if i == 0 then [] else AllOf(f, n, i - 1) + RowOf(f, n, i - 1, RowEnd(n, i - 1))
  }

  /** What is drawn for each window of the recognised words. */
  function Drawn(words: seq<WordBox>, pans: seq<string>, aadhaars: seq<string>,
                 measure: string -> (int, int)): (nat, nat) -> seq<Mark>
  {
    (a: nat, b: nat) => Window(words, pans, aadhaars, measure, a, b)
  }

  /** What is drawn for the window of words `a` up to `b`, nothing when there is no such window. */
  function Window(words: seq<WordBox>, pans: seq<string>, aadhaars: seq<string>,
                  measure: string -> (int, int), a: nat, b: nat): seq<Mark>
  {
    if HasCorners(words) && a < b <= |words| then WindowMarks(words, a, b, pans, aadhaars, measure) else []
  }

  /** One more row: its marks come last. */
  lemma AllOfStep(f: (nat, nat) -> seq<Mark>, n: nat, i: nat, k: nat)
    requires i < n && k == i + 1
    ensures AllOf(f, n, k) == AllOf(f, n, i) + RowOf(f, n, i, RowEnd(n, i))
  {
  }

  /** One more window of a row: its marks come last. */
  lemma RowOfStep(f: (nat, nat) -> seq<Mark>, n: nat, i: nat, j: nat, k: nat)
    requires i < j < RowEnd(n, i) && k == j + 1
    ensures RowOf(f, n, i, k) == RowOf(f, n, i, j) + f(i, j)
  {
  }

  /** Inside the words, `Drawn` is `WindowMarks`. */
  lemma DrawnWindow(words: seq<WordBox>, i: nat, j: nat, pans: seq<string>, aadhaars: seq<string>,
                    measure: string -> (int, int))
    requires HasCorners(words) && i < j <= |words|
    ensures Drawn(words, pans, aadhaars, measure)(i, j) == WindowMarks(words, i, j, pans, aadhaars, measure)
  {
  }

  /** Everything `mask_text_in_image` draws on the image, in drawing order. */
  function MaskMarks(words: seq<WordBox>, pans: seq<string>, aadhaars: seq<string>,
                     measure: string -> (int, int)): seq<Mark>
  {
    AllOf(Drawn(words, pans, aadhaars, measure), |words|, |words|)
  }

  /** `mask_text_in_image` after the words are collected: every run of one to
      four consecutive words is compared with the detected numbers; a match
      is covered by a white box and captioned. `measure` is the rendered size
      of a caption in the fixed font. The inner loop is `MaskRow`, its body `MaskWindow`. */
  method MaskWords(words: seq<WordBox>, pans: seq<string>, aadhaars: seq<string>, measure: string -> (int, int))
    returns (marks: seq<Mark>)
    requires HasCorners(words)
    ensures marks == MaskMarks(words, pans, aadhaars, measure)
  {
    marks := [];
    var n := |words|;
    ghost var f := Drawn(words, pans, aadhaars, measure);
    var i: nat := 0;
    while i < n
      invariant i <= n && marks == AllOf(f, n, i)
    {
      var row := MaskRow(words, i, pans, aadhaars, measure);
      marks := marks + row;
      ghost var before := i;
      i := i + 1;
      AllOfStep(f, n, before, i);
    }
  }

  /** `mask_text_in_image` on the OCR response of one image: the words are
      collected, then every window of one to four of them is checked. */
  method MaskTextInImage(pages: seq<Page>, pans: seq<string>, aadhaars: seq<string>, measure: string -> (int, int))
    returns (marks: seq<Mark>)
    requires HasCorners(DocumentWords(pages))
    ensures marks == MaskMarks(DocumentWords(pages), pans, aadhaars, measure)
  {
    var words := CollectWords(pages);
    marks := MaskWords(words, pans, aadhaars, measure);
  }

  /** The inner loop of `MaskWords`: the windows of one to four words starting at word `i`. */
  method MaskRow(words: seq<WordBox>, i: nat, pans: seq<string>, aadhaars: seq<string>, measure: string -> (int, int))
    returns (row: seq<Mark>)
    requires HasCorners(words) && i < |words|
    ensures row == RowOf(Drawn(words, pans, aadhaars, measure), |words|, i, RowEnd(|words|, i))
  {
    row := [];
    var n := |words|;
    var end := RowEnd(n, i);
    ghost var f := Drawn(words, pans, aadhaars, measure);
    var j: nat := i + 1;
    while j < end
      invariant i < j <= end
      invariant row == RowOf(f, n, i, j)
    {
      var drawn := MaskWindow(words, i, j, pans, aadhaars, measure);
      DrawnWindow(words, i, j, pans, aadhaars, measure);
      var next: nat := j + 1;
      RowOfStep(f, n, i, j, next);
      row := row + drawn;
      j := next;
    }
    assert j == end;
  }

  /** One window: the first PAN equal to the cleaned text is masked, then the
      first Aadhaar number whose digits equal it; each search stops at its
      first hit. */
  method MaskWindow(words: seq<WordBox>, i: nat, j: nat, pans: seq<string>, aadhaars: seq<string>,
                    measure: string -> (int, int)) returns (drawn: seq<Mark>)
    requires HasCorners(words) && i < j <= |words|
    ensures drawn == WindowMarks(words, i, j, pans, aadhaars, measure)
  {
    var clean := FilterAlnum(Join(Texts(words[i..j]), ""));
    drawn := PanPart(words, i, j, clean, pans, measure);
    var more := AadhaarPart(words, i, j, clean, aadhaars, measure);
    drawn := drawn + more;
  }

  /** The loop over the PANs: the first one equal to the window's text is masked. */
  method PanPart(words: seq<WordBox>, i: nat, j: nat, clean: string, pans: seq<string>,
                 measure: string -> (int, int)) returns (drawn: seq<Mark>)
    requires HasCorners(words) && i < j <= |words|
    ensures drawn == if clean in pans then [Placed(PanMask, i, j, WindowBox(words[i..j]), PanLabel(clean), measure)] else []
  {
    drawn := [];
    var k := 0;
    while k < |pans|
      invariant k <= |pans| && clean !in pans[..k]
    {
      if pans[k] == clean {
        var b := WindowBox(words[i..j]);
        var caption := "XXXXX" + PySlice(pans[k], -4, |pans[k]|);
        drawn := [Mark(PanMask, i, j, b, caption, Centered(b, measure(caption)))];
        return;
      }
      assert pans[..k + 1] == pans[..k] + [pans[k]];
      k := k + 1;
    }
    assert pans[..|pans|] == pans;
  }

  /** The loop over the Aadhaar numbers: the first one whose digits equal the
      window's text is masked. */
  method AadhaarPart(words: seq<WordBox>, i: nat, j: nat, clean: string, aadhaars: seq<string>,
                     measure: string -> (int, int)) returns (drawn: seq<Mark>)
    requires HasCorners(words) && i < j <= |words|
    ensures drawn == if clean in DigitForms(aadhaars)
                     then [Placed(AadhaarMask, i, j, WindowBox(words[i..j]), AadhaarLabel(clean), measure)]
                     else []
  {
    drawn := [];
    ghost var forms := DigitForms(aadhaars);
    var k := 0;
    while k < |aadhaars|
      invariant k <= |aadhaars| && clean !in forms[..k]
    {
      var aadhaarClean := FilterDigits(aadhaars[k]);
      DigitFormsAt(aadhaars, k);
      if aadhaarClean == clean {
        var b := WindowBox(words[i..j]);
        var caption := "XXXX XXXX " + PySlice(aadhaarClean, -4, |aadhaarClean|);
        drawn := [Mark(AadhaarMask, i, j, b, caption, Centered(b, measure(caption)))];
        return;
      }
      assert forms[..k + 1] == forms[..k] + [aadhaarClean];
      k := k + 1;
    }
    assert forms[..|aadhaars|] == forms;
  }

  // ---------------------------------------------------------------- what is drawn

  /** A mark covers a window of one to four words whose cleaned text is one of
      the detected numbers, with that window's box and the caption for it,
      placed in the middle of the box. */
  predicate Justified(words: seq<WordBox>, pans: seq<string>, aadhaars: seq<string>,
                      measure: string -> (int, int), m: Mark)
    requires HasCorners(words)
  {
    m.first < m.last <= |words| && m.last - m.first <= 4
    && m.box == WindowBox(words[m.first..m.last])
    && m.origin == Centered(m.box, measure(m.caption))
    && var clean := WindowClean(words, m.first, m.last);
       match m.kind
       case PanMask => clean in pans && m.caption == PanLabel(clean)
       case AadhaarMask => clean in DigitForms(aadhaars) && m.caption == AadhaarLabel(clean)
  }

  /** Drawing order: by first word, then by last word, a PAN mark before an
      Aadhaar mark of the same window. */
  predicate Precedes(a: Mark, b: Mark) {
    a.first < b.first
    || (a.first == b.first && (a.last < b.last || (a.last == b.last && a.kind == PanMask && b.kind == AadhaarMask)))
  }

  predicate InOrder(ms: seq<Mark>) {
    forall k, l :: 0 <= k < l < |ms| ==> Precedes(ms[k], ms[l])
  }

  /** The marks of one window lie in that window, are justified and come in
      drawing order. */
  lemma WindowMarksFacts(words: seq<WordBox>, i: nat, j: nat, pans: seq<string>, aadhaars: seq<string>,
                         measure: string -> (int, int))
    requires HasCorners(words) && i < j <= |words| && j - i <= 4
    ensures var w := WindowMarks(words, i, j, pans, aadhaars, measure);
      (forall m :: m in w ==> m.first == i && m.last == j && Justified(words, pans, aadhaars, measure, m))
      && InOrder(w)
  {
    var clean := WindowClean(words, i, j);
    var b := WindowBox(words[i..j]);
    var pm: seq<Mark> := if clean in pans then [Placed(PanMask, i, j, b, PanLabel(clean), measure)] else [];
    var am: seq<Mark> := if clean in DigitForms(aadhaars) then [Placed(AadhaarMask, i, j, b, AadhaarLabel(clean), measure)] else [];
    assert WindowMarks(words, i, j, pans, aadhaars, measure) == pm + am;
    forall m: Mark | m in pm + am
      ensures m.first == i && m.last == j && Justified(words, pans, aadhaars, measure, m)
    {
      assert m in pm || m in am;
    }
    forall k, l | 0 <= k < l < |pm + am|
      ensures Precedes((pm + am)[k], (pm + am)[l])
    {
      assert |pm| == 1 && |am| == 1 && k == 0 && l == 1;
      assert (pm + am)[0] == pm[0] && (pm + am)[1] == am[0];
    }
  }

  /** Every window's marks lie in that window and come in drawing order. */
  predicate WindowsKeepOrder(f: (nat, nat) -> seq<Mark>, n: nat) {
    forall a: nat, b: nat :: a < b <= n && b - a <= 4 ==>
      InOrder(f(a, b)) && forall m :: m in f(a, b) ==> m.first == a && m.last == b
  }

  lemma InLeft(a: seq<Mark>, b: seq<Mark>, m: Mark)
    requires m in a
    ensures m in a + b
  {
  }

  lemma InRight(a: seq<Mark>, b: seq<Mark>, m: Mark)
    requires m in b
    ensures m in a + b
  {
  }

  /** Each mark of a window is drawn in that window's row. */
  lemma {:induction false} RowOfHas(f: (nat, nat) -> seq<Mark>, n: nat, i: nat, j: nat, e: nat, m: Mark)
    requires i < j < e <= RowEnd(n, i) && m in f(i, j)
    ensures m in RowOf(f, n, i, e)
    decreases e
  {
    var d: nat := e - 1;
    RowOfStep(f, n, i, d, e);
    if j < d {
      RowOfHas(f, n, i, j, d, m);
      InLeft(RowOf(f, n, i, d), f(i, d), m);
    } else {
      InRight(RowOf(f, n, i, d), f(i, d), m);
    }
  }

  /** Each mark of a row is drawn once the later rows are. */
  lemma {:induction false} AllOfHas(f: (nat, nat) -> seq<Mark>, n: nat, i: nat, e: nat, m: Mark)
    requires i < e <= n && m in RowOf(f, n, i, RowEnd(n, i))
    ensures m in AllOf(f, n, e)
    decreases e
  {
    var d: nat := e - 1;
    AllOfStep(f, n, d, e);
    if i < d {
      AllOfHas(f, n, i, d, m);
      InLeft(AllOf(f, n, d), RowOf(f, n, d, RowEnd(n, d)), m);
    } else {
      InRight(AllOf(f, n, d), RowOf(f, n, d, RowEnd(n, d)), m);
    }
  }

  /** Each mark of a row comes from one of its windows. */
  lemma {:induction false} RowOfFrom(f: (nat, nat) -> seq<Mark>, n: nat, i: nat, j: nat, m: Mark)
    requires i < j <= RowEnd(n, i) && m in RowOf(f, n, i, j)
    ensures exists b: nat :: i < b < j && m in f(i, b)
    decreases j
  {
    var d: nat := j - 1;
    if d == i {
      assert false;
    } else {
      RowOfStep(f, n, i, d, j);
      if m !in f(i, d) {
        RowOfFrom(f, n, i, d, m);
      }
    }
  }

  /** Each mark drawn comes from a window of one to four words. */
  lemma {:induction false} AllOfFrom(f: (nat, nat) -> seq<Mark>, n: nat, i: nat, m: Mark)
    requires i <= n && m in AllOf(f, n, i)
    ensures exists a: nat, b: nat :: a < i && a < b <= n && b - a <= 4 && m in f(a, b)
  {
    var d: nat := i - 1;
    AllOfStep(f, n, d, i);
    var r := RowOf(f, n, d, RowEnd(n, d));
    if m in r {
      RowOfFrom(f, n, d, RowEnd(n, d), m);
    } else {
      AllOfFrom(f, n, d, m);
    }
  }

  /** A row's marks start at its word, end before `j`, and come in drawing order. */
  lemma {:induction false} RowOfOrdered(f: (nat, nat) -> seq<Mark>, n: nat, i: nat, j: nat)
    requires WindowsKeepOrder(f, n) && i < j <= RowEnd(n, i)
    ensures var r := RowOf(f, n, i, j);
      (forall m :: m in r ==> m.first == i && m.last < j) && InOrder(r)
    decreases j
  {
    if j > i + 1 {
      var r := RowOf(f, n, i, j - 1);
      RowOfOrdered(f, n, i, j - 1);
      OrderedJoin(r, f(i, j - 1));
    }
  }

  /** The marks drawn before row `i` start before it and come in drawing order. */
  lemma {:induction false} AllOfOrdered(f: (nat, nat) -> seq<Mark>, n: nat, i: nat)
    requires WindowsKeepOrder(f, n) && i <= n
    ensures var r := AllOf(f, n, i);
      (forall m :: m in r ==> m.first < i) && InOrder(r)
  {
    if i > 0 {
      AllOfOrdered(f, n, i - 1);
      RowOfOrdered(f, n, i - 1, RowEnd(n, i - 1));
      OrderedJoin(AllOf(f, n, i - 1), RowOf(f, n, i - 1, RowEnd(n, i - 1)));
    }
  }

  /** Two runs of marks in drawing order, the first wholly before the second,
      make one run in drawing order. */
  lemma OrderedJoin(a: seq<Mark>, b: seq<Mark>)
    requires InOrder(a) && InOrder(b)
    requires forall x, y :: x in a && y in b ==> Precedes(x, y)
    ensures InOrder(a + b)
  {
    forall k, l | 0 <= k < l < |a + b|
      ensures Precedes((a + b)[k], (a + b)[l])
    {
      if l < |a| {
        assert (a + b)[k] == a[k] && (a + b)[l] == a[l];
      } else if k >= |a| {
        assert (a + b)[k] == b[k - |a|] && (a + b)[l] == b[l - |a|];
      } else {
        assert (a + b)[k] == a[k] && (a + b)[l] == b[l - |a|];
      }
    }
  }

  /** The windows of the recognised words keep their marks in order. */
  lemma DrawnKeepsOrder(words: seq<WordBox>, pans: seq<string>, aadhaars: seq<string>, measure: string -> (int, int))
    requires HasCorners(words)
    ensures WindowsKeepOrder(Drawn(words, pans, aadhaars, measure), |words|)
  {
    var f := Drawn(words, pans, aadhaars, measure);
    forall a: nat, b: nat | a < b <= |words| && b - a <= 4
      ensures InOrder(f(a, b)) && forall m :: m in f(a, b) ==> m.first == a && m.last == b
    {
      WindowMarksFacts(words, a, b, pans, aadhaars, measure);
    }
  }

  /** Everything `mask_text_in_image` draws is justified, the marks come in
      drawing order, and no window gets two marks of the same kind. */
  lemma MarksSound(words: seq<WordBox>, pans: seq<string>, aadhaars: seq<string>, measure: string -> (int, int))
    requires HasCorners(words)
    ensures var ms := MaskMarks(words, pans, aadhaars, measure);
      (forall m :: m in ms ==> Justified(words, pans, aadhaars, measure, m))
      && InOrder(ms)
      && (forall k, l :: 0 <= k < l < |ms| ==> ms[k].first != ms[l].first || ms[k].last != ms[l].last || ms[k].kind != ms[l].kind)
  {
    var n := |words|;
    var f := Drawn(words, pans, aadhaars, measure);
    var ms := AllOf(f, n, n);
    DrawnKeepsOrder(words, pans, aadhaars, measure);
    AllOfOrdered(f, n, n);
    forall m | m in ms
      ensures Justified(words, pans, aadhaars, measure, m)
    {
      AllOfFrom(f, n, n, m);
      var a: nat, b: nat :| a < b <= n && b - a <= 4 && m in f(a, b);
      WindowMarksFacts(words, a, b, pans, aadhaars, measure);
    }
  }

  /** A window gets a PAN mark exactly when its cleaned text is a detected PAN,
      and an Aadhaar mark exactly when it is the digits of a detected Aadhaar number. */
  lemma MaskedIff(words: seq<WordBox>, i: nat, j: nat, pans: seq<string>, aadhaars: seq<string>,
                  measure: string -> (int, int))
    requires HasCorners(words) && i < j <= |words| && j - i <= 4
    ensures var ms := MaskMarks(words, pans, aadhaars, measure);
      var clean := WindowClean(words, i, j);
      && ((exists m :: m in ms && m.kind == PanMask && m.first == i && m.last == j) <==> clean in pans)
      && ((exists m :: m in ms && m.kind == AadhaarMask && m.first == i && m.last == j) <==> clean in DigitForms(aadhaars))
  {
    MaskedIffPan(words, i, j, pans, aadhaars, measure);
    MaskedIffAadhaar(words, i, j, pans, aadhaars, measure);
  }

  /** The PAN half of `MaskedIff`. */
  lemma MaskedIffPan(words: seq<WordBox>, i: nat, j: nat, pans: seq<string>, aadhaars: seq<string>,
                     measure: string -> (int, int))
    requires HasCorners(words) && i < j <= |words| && j - i <= 4
    ensures var ms := MaskMarks(words, pans, aadhaars, measure);
      (exists m :: m in ms && m.kind == PanMask && m.first == i && m.last == j) <==> WindowClean(words, i, j) in pans
  {
    var n := |words|;
    var f := Drawn(words, pans, aadhaars, measure);
    MarksSound(words, pans, aadhaars, measure);
    if WindowClean(words, i, j) in pans {
      var w := WindowMarks(words, i, j, pans, aadhaars, measure);
      assert f(i, j) == w;
      var m := w[0];
      assert m.kind == PanMask && m.first == i && m.last == j;
      RowOfHas(f, n, i, j, RowEnd(n, i), m);
      AllOfHas(f, n, i, n, m);
    }
  }

  /** The Aadhaar half of `MaskedIff`. */
  lemma MaskedIffAadhaar(words: seq<WordBox>, i: nat, j: nat, pans: seq<string>, aadhaars: seq<string>,
                         measure: string -> (int, int))
    requires HasCorners(words) && i < j <= |words| && j - i <= 4
    ensures var ms := MaskMarks(words, pans, aadhaars, measure);
      (exists m :: m in ms && m.kind == AadhaarMask && m.first == i && m.last == j)
      <==> WindowClean(words, i, j) in DigitForms(aadhaars)
  {
    var n := |words|;
    var f := Drawn(words, pans, aadhaars, measure);
    MarksSound(words, pans, aadhaars, measure);
    if WindowClean(words, i, j) in DigitForms(aadhaars) {
      var w := WindowMarks(words, i, j, pans, aadhaars, measure);
      assert f(i, j) == w;
      var m := w[|w| - 1];
      assert m.kind == AadhaarMask && m.first == i && m.last == j;
      RowOfHas(f, n, i, j, RowEnd(n, i), m);
      AllOfHas(f, n, i, n, m);
    }
  }
}

=== FILE: kyc_shield.dfy ===
/** The upload handling of the KYC masking app (kycmask/unpop.py): each
    uploaded file is routed by its extension; an image is read by the OCR
    service, scanned for PAN and Aadhaar numbers and masked; a PDF of at most
    two pages is handled page by page. The OCR service is represented by its
    answer for each image, an `OcrReply`; an error it reports raises, and
    nothing catches it. */
module KycShield {
  import opened Wrappers
  import opened PyText
  import opened KycDetect
  import opened KycMask

  // ---------------------------------------------------------------- routing

  /** The last piece of `s.split(c)` is the longest suffix of `s` without `c`:
      the whole of `s` when there is no `c`, otherwise what follows the last `c`. */
  lemma {:induction false} SplitLast(s: string, c: char)
    ensures var r := Split(s, c);
      var p := r[|r| - 1];
      |p| <= |s| && p == s[|s| - |p|..] && c !in p
      && (|r| == 1 ==> p == s)
      && (|r| > 1 ==> |p| < |s| && s[|s| - |p| - 1] == c)
  {
    if s != [] {
      SplitLast(s[1..], c);
      var rest := Split(s[1..], c);
      if s[0] != c && |rest| == 1 {
        assert Split(s, c) == [[s[0]] + rest[0]];
        assert [s[0]] + s[1..] == s;
      }
    }
  }

  /** `filename.split('.')[-1].lower()`. */
  function Extension(filename: string): (ext: string)
    ensures forall k :: 0 <= k < |ext| ==> !IsUpper(ext[k])
  {
    var parts := Split(filename, '.');
    Lower(parts[|parts| - 1])
  }

  /** The extension is what follows the last dot, lowered; a name without a
      dot is its own extension. */
  lemma ExtensionSpec(filename: string)
    ensures |Extension(filename)| <= |filename|
    ensures var ext := Extension(filename);
      var tail := filename[|filename| - |ext|..];
      ext == Lower(tail) && '.' !in tail
      && (|ext| == |filename| || filename[|filename| - |ext| - 1] == '.')
  {
    SplitLast(filename, '.');
  }

  /** How an uploaded file is handled: masked as an image, masked page by
      page as a PDF, or turned away with an error message. */
  datatype Route = MaskImage | MaskPdf | TooManyPages | Unsupported(ext: string)

  /** The error shown for a file that is turned away. */
  function Message(r: Route): string {
    match r
    case TooManyPages => "PAN and Aadhaar not detected. Please recheck your document."
    case Unsupported(ext) => "Unsupported file type: " + ext
    case _ => ""
  }

  const ImageExtensions: seq<string> := ["jpg", "jpeg", "png"]

  /** The branch taken for an uploaded file; `pageCount` is the length of the
      document when the file is opened as a PDF. */
  function RouteUpload(filename: string, pageCount: nat): Route {
    var ext := Extension(filename);
    if ext in ImageExtensions then MaskImage
    else if ext == "pdf" then (if pageCount > 2 then TooManyPages else MaskPdf)
    else Unsupported(ext)
  }

  /** An image is masked exactly when its extension is jpg, jpeg or png in any
      case; a PDF is masked exactly when it has at most two pages and turned
      away otherwise; every other file is turned away naming its extension. */
  lemma RouteCases(filename: string, pageCount: nat)
    ensures var ext := Extension(filename);
      var r := RouteUpload(filename, pageCount);
      && (r == MaskImage <==> ext == "jpg" || ext == "jpeg" || ext == "png")
      && (r == MaskPdf <==> ext == "pdf" && pageCount <= 2)
      && (r == TooManyPages <==> ext == "pdf" && pageCount > 2)
      && (r.Unsupported? <==> ext !in ImageExtensions && ext != "pdf")
      && (r.Unsupported? ==> r.ext == ext)
  {
  }

  // ---------------------------------------------------------------- one image

  /** What the OCR service returns for one image: the full text and the word tree. */
  datatype Scan = Scan(text: string, pages: seq<Page>)

  /** Every word the service returned has corners. */
  predicate Readable(scan: Scan) {
    HasCorners(DocumentWords(scan.pages))
  }

  /** The marks drawn on one image: the numbers found in its own text, masked
      where its words spell them. */
  function ImageMarks(scan: Scan, measure: string -> (int, int)): seq<Mark> {
    MaskMarks(DocumentWords(scan.pages), FindPans(scan.text, 0), FindAadhaar(scan.text), measure)
  }

  /** What the OCR service answers for one image: the error message of its
      response (empty when there is none) and what it read. */
  datatype OcrReply = OcrReply(errorMessage: string, scan: Scan)

  /** The text of the exception `extract_text` raises on a service error. */
  const VisionErrorPrefix: string := "Vision API Error: "

  /** The result for one image: the marks drawn and the numbers found. */
  datatype Shielded = Shielded(marks: seq<Mark>, pans: seq<string>, aadhaars: seq<string>)

  /** The image branch: read the image, detect the numbers in the OCR text,
      then mask the image. A service error raises before anything is shown. */
  method ShieldImage(reply: OcrReply, measure: string -> (int, int)) returns (out: Result<Shielded, string>)
    requires reply.errorMessage == [] ==> Readable(reply.scan)
    ensures out.Err? <==> reply.errorMessage != []
    ensures out.Err? ==> out.error == VisionErrorPrefix + reply.errorMessage
    ensures out.Ok? ==> out.value.pans == FindPans(reply.scan.text, 0)
                        && out.value.aadhaars == FindAadhaar(reply.scan.text)
                        && out.value.marks == ImageMarks(reply.scan, measure)
  {
    if reply.errorMessage != [] {
      return Err(VisionErrorPrefix + reply.errorMessage);
    }
    var found := DetectSensitiveInfo(reply.scan.text);
    var marks := MaskTextInImage(reply.scan.pages, found.0, found.1, measure);
    out := Ok(Shielded(marks, found.0, found.1));
  }

  const NothingFound: string := "No PAN or Aadhaar numbers detected."

  /** The PAN lines of the listing, one per number, in order. */
  function PanLines(pans: seq<string>): (r: seq<string>)
    ensures |r| == |pans|
  {
    if pans == [] then [] else PanLines(pans[..|pans| - 1]) + [PanDisplay(pans[|pans| - 1])]
  }

  /** The Aadhaar lines of the listing, one per number, in order. */
  function AadhaarLines(aadhaars: seq<string>): (r: seq<string>)
    ensures |r| == |aadhaars|
  {
    if aadhaars == [] then [] else AadhaarLines(aadhaars[..|aadhaars| - 1]) + [AadhaarDisplay(aadhaars[|aadhaars| - 1])]
  }

  lemma {:induction false} PanLinesAt(pans: seq<string>, k: nat)
    requires k < |pans|
    ensures PanLines(pans)[k] == PanDisplay(pans[k])
  {
    if k < |pans| - 1 {
      PanLinesAt(pans[..|pans| - 1], k);
    }
  }

  lemma {:induction false} AadhaarLinesAt(aadhaars: seq<string>, k: nat)
    requires k < |aadhaars|
    ensures AadhaarLines(aadhaars)[k] == AadhaarDisplay(aadhaars[k])
  {
    if k < |aadhaars| - 1 {
      AadhaarLinesAt(aadhaars[..|aadhaars| - 1], k);
    }
  }

  /** The listing shown under a masked image. */
  function Report(pans: seq<string>, aadhaars: seq<string>): (r: seq<string>)
    ensures |r| >= 1
    ensures pans != [] || aadhaars != [] ==> |r| == |pans| + |aadhaars|
  {
    if pans == [] && aadhaars == [] then [NothingFound] else PanLines(pans) + AadhaarLines(aadhaars)
  }

  /** Line `k` of a listing that is not the "nothing found" message. */
  lemma ReportLine(pans: seq<string>, aadhaars: seq<string>, k: nat)
    requires k < |pans| + |aadhaars|
    ensures Report(pans, aadhaars)[k]
            == if k < |pans| then PanDisplay(pans[k]) else AadhaarDisplay(aadhaars[k - |pans|])
  {
    if k < |pans| {
      PanLinesAt(pans, k);
    } else {
      AadhaarLinesAt(aadhaars, k - |pans|);
    }
  }

  /** No line of a listing of PAN-shaped numbers is itself PAN-shaped: a PAN
      line has a masked character where a PAN has a digit, and the other
      lines have a space where a PAN has a letter. */
  lemma ReportLineNotPan(pans: seq<string>, aadhaars: seq<string>, k: nat, p: string)
    requires forall l :: 0 <= l < |pans| ==> PanShape(pans[l])
    requires k < |Report(pans, aadhaars)| && PanShape(p)
    ensures Report(pans, aadhaars)[k] != p
  {
    var r := Report(pans, aadhaars);
    if pans == [] && aadhaars == [] {
      assert r[k][2] == ' ';
    } else {
      ReportLine(pans, aadhaars, k);
      if k < |pans| {
        assert r[k][5] == 'X';
      } else {
        assert r[k][4] == ' ';
      }
    }
  }

  /** The "nothing found" message is the listing exactly when nothing was
      detected; otherwise there is one line per number. */
  lemma ReportNothingFound(pans: seq<string>, aadhaars: seq<string>)
    requires forall k :: 0 <= k < |pans| ==> PanShape(pans[k])
    ensures pans == [] && aadhaars == [] <==> Report(pans, aadhaars) == [NothingFound]
    ensures pans != [] || aadhaars != [] ==> |Report(pans, aadhaars)| == |pans| + |aadhaars|
  {
    var r := Report(pans, aadhaars);
    if pans != [] || aadhaars != [] {
      ReportLine(pans, aadhaars, 0);
      assert r[0] != NothingFound by {
        assert r[0][2] == 'X';
      }
    }
  }

  /** Each PAN line keeps the first two and the last three characters of the
      number and hides the five in between. */
  lemma ReportMasksPans(pans: seq<string>, aadhaars: seq<string>)
    requires forall k :: 0 <= k < |pans| ==> PanShape(pans[k])
    ensures forall k :: 0 <= k < |pans| ==>
              |pans[k]| == 10 && Report(pans, aadhaars)[k] == pans[k][..2] + "XXXXX" + pans[k][7..]
  {
    forall k | 0 <= k < |pans|
      ensures Report(pans, aadhaars)[k] == pans[k][..2] + "XXXXX" + pans[k][7..]
    {
      ReportLine(pans, aadhaars, k);
    }
  }

  /** Each Aadhaar line shows only the last four characters of the number. */
  lemma ReportMasksAadhaars(pans: seq<string>, aadhaars: seq<string>)
    requires forall k :: 0 <= k < |aadhaars| ==> 12 <= |aadhaars[k]|
    ensures forall k :: 0 <= k < |aadhaars| ==>
              Report(pans, aadhaars)[|pans| + k] == "XXXX XXXX " + aadhaars[k][|aadhaars[k]| - 4..]
  {
    forall k | 0 <= k < |aadhaars|
      ensures Report(pans, aadhaars)[|pans| + k] == "XXXX XXXX " + aadhaars[k][|aadhaars[k]| - 4..]
    {
      ReportLine(pans, aadhaars, |pans| + k);
      DisplayShowsLastFour(aadhaars[k]);
    }
  }

  /** An Aadhaar line shows the last four characters of a number at least four long. */
  lemma DisplayShowsLastFour(a: string)
    requires |a| >= 4
    ensures AadhaarDisplay(a) == "XXXX XXXX " + a[|a| - 4..]
  {
    assert PySlice(a, -4, |a|) == a[|a| - 4..];
  }

  /** The listing never shows a whole PAN number. */
  lemma ReportShowsNoPan(pans: seq<string>, aadhaars: seq<string>, p: string)
    requires forall k :: 0 <= k < |pans| ==> PanShape(pans[k])
    requires PanShape(p)
    ensures p !in Report(pans, aadhaars)
  {
    var r := Report(pans, aadhaars);
    forall k | 0 <= k < |r|
      ensures r[k] != p
    {
      ReportLineNotPan(pans, aadhaars, k, p);
    }
  }

  // ---------------------------------------------------------------- a PDF

  /** The members of a list, as Python's `set.update` adds them. */
  function Elements(xs: seq<string>): set<string> {
    set x | x in xs
  }

  /** The PAN numbers found on the pages, collected in a set. */
  function PansOf(scans: seq<Scan>): set<string> {
    if scans == [] then {} else PansOf(scans[..|scans| - 1]) + Elements(FindPans(scans[|scans| - 1].text, 0))
  }

  /** The Aadhaar numbers found on the pages, collected in a set. */
  function AadhaarsOf(scans: seq<Scan>): set<string> {
    if scans == [] then {} else AadhaarsOf(scans[..|scans| - 1]) + Elements(FindAadhaar(scans[|scans| - 1].text))
  }

  /** The marks drawn on each page, in page order. */
  function PdfMarks(scans: seq<Scan>, measure: string -> (int, int)): (r: seq<seq<Mark>>)
    ensures |r| == |scans|
  {
    if scans == [] then [] else PdfMarks(scans[..|scans| - 1], measure) + [ImageMarks(scans[|scans| - 1], measure)]
  }

  /** Each page is masked on its own: page `k` carries the marks of its own scan. */
  lemma {:induction false} PdfMarksAt(scans: seq<Scan>, measure: string -> (int, int), k: nat)
    requires k < |scans|
    ensures PdfMarks(scans, measure)[k] == ImageMarks(scans[k], measure)
  {
    if k < |scans| - 1 {
      PdfMarksAt(scans[..|scans| - 1], measure, k);
    }
  }

  /** One more page adds its marks to the list. */
  lemma MarksStep(scans: seq<Scan>, measure: string -> (int, int), k: nat, next: nat)
    requires k < |scans| && next == k + 1
    ensures PdfMarks(scans[..next], measure) == PdfMarks(scans[..k], measure) + [ImageMarks(scans[k], measure)]
  {
    assert scans[..next][..k] == scans[..k];
  }

  /** One more page adds its numbers to the sets. */
  lemma FoundStep(scans: seq<Scan>, k: nat, next: nat)
    requires k < |scans| && next == k + 1
    ensures PansOf(scans[..next]) == PansOf(scans[..k]) + Elements(FindPans(scans[k].text, 0))
    ensures AadhaarsOf(scans[..next]) == AadhaarsOf(scans[..k]) + Elements(FindAadhaar(scans[k].text))
  {
    assert scans[..next][..k] == scans[..k];
  }

  /** The page whose OCR request fails first, or the page count when none fails. */
  function FirstFailure(replies: seq<OcrReply>): (k: nat)
    ensures k <= |replies|
    ensures forall j :: 0 <= j < k ==> replies[j].errorMessage == []
    ensures k < |replies| ==> replies[k].errorMessage != []
  {
    if replies == [] then 0
    else if replies[0].errorMessage != [] then 0
    else 1 + FirstFailure(replies[1..])
  }

  /** What the service read on each page. */
  function ScansOf(replies: seq<OcrReply>): seq<Scan> {
    seq(|replies|, i requires 0 <= i < |replies| => replies[i].scan)
  }

  /** The result for a PDF: the masked pages and the numbers of all pages. */
  datatype PdfShielded = PdfShielded(masked: seq<seq<Mark>>, allPans: set<string>, allAadhaars: set<string>)

  /** The PDF branch: each page image in turn is read, scanned and masked;
      the numbers of all pages are collected in two sets. A service error on
      any page raises, and no page is shown. */
  method ShieldPdf(replies: seq<OcrReply>, measure: string -> (int, int)) returns (r: Result<PdfShielded, string>)
    requires forall k :: 0 <= k < |replies| && replies[k].errorMessage == [] ==> Readable(replies[k].scan)
    ensures var f := FirstFailure(replies);
      (f < |replies| ==> r == Err(VisionErrorPrefix + replies[f].errorMessage))
      && (f == |replies| ==> r == Ok(PdfShielded(PdfMarks(ScansOf(replies), measure),
                                                 PansOf(ScansOf(replies)), AadhaarsOf(ScansOf(replies)))))
  {
    var scans := ScansOf(replies);
    var masked := [];
    var allPans := {};
    var allAadhaars := {};
    for k := 0 to |replies|
      invariant k <= FirstFailure(replies)
      invariant masked == PdfMarks(scans[..k], measure)
      invariant allPans == PansOf(scans[..k]) && allAadhaars == AadhaarsOf(scans[..k])
    {
      var out := ShieldImage(replies[k], measure);
      if out.Err? {
        return Err(out.error);
      }
      assert scans[k] == replies[k].scan;
      MarksStep(scans, measure, k, k + 1);
      FoundStep(scans, k, k + 1);
      allPans := allPans + Elements(out.value.pans);
      allAadhaars := allAadhaars + Elements(out.value.aadhaars);
      masked := masked + [out.value.marks];
    }
    assert scans[..|scans|] == scans;
    r := Ok(PdfShielded(masked, allPans, allAadhaars));
  }

  /** A string is in the PDF's PAN set exactly when the PAN pattern matches
      it somewhere in the text of one of the pages. */
  lemma {:induction false} PdfPansIff(scans: seq<Scan>, t: string)
    ensures t in PansOf(scans)
            <==> exists k, j: nat :: 0 <= k < |scans| && PanAt(scans[k].text, j) && t == scans[k].text[j..j + 10]
  {
    if scans != [] {
      var last := scans[|scans| - 1];
      PdfPansIff(scans[..|scans| - 1], t);
      PanReportedIff(last.text, t);
      if exists k, j: nat :: 0 <= k < |scans| && PanAt(scans[k].text, j) && t == scans[k].text[j..j + 10] {
        var k, j: nat :| 0 <= k < |scans| && PanAt(scans[k].text, j) && t == scans[k].text[j..j + 10];
        if k < |scans| - 1 {
          assert scans[..|scans| - 1][k] == scans[k];
        }
      }
      if t in PansOf(scans[..|scans| - 1]) {
        var k, j: nat :| 0 <= k < |scans| - 1 && PanAt(scans[..|scans| - 1][k].text, j)
                         && t == scans[..|scans| - 1][k].text[j..j + 10];
        assert scans[..|scans| - 1][k] == scans[k];
      }
    }
  }

  /** A string is in the PDF's Aadhaar set exactly when one of the pages reports it. */
  lemma {:induction false} PdfAadhaarsIff(scans: seq<Scan>, t: string)
    ensures t in AadhaarsOf(scans) <==> exists k :: 0 <= k < |scans| && t in FindAadhaar(scans[k].text)
  {
    if scans != [] {
      PdfAadhaarsIff(scans[..|scans| - 1], t);
      if t in AadhaarsOf(scans[..|scans| - 1]) {
        var k :| 0 <= k < |scans| - 1 && t in FindAadhaar(scans[..|scans| - 1][k].text);
        assert scans[..|scans| - 1][k] == scans[k];
      }
      if exists k :: 0 <= k < |scans| && t in FindAadhaar(scans[k].text) {
        var k :| 0 <= k < |scans| && t in FindAadhaar(scans[k].text);
        if k < |scans| - 1 {
          assert scans[..|scans| - 1][k] == scans[k];
        }
      }
    }
  }
}

=== FILE: llm_text.dfy ===
/** The text the LLM service builds around its completion calls: the
    numbered context block, the two chat prompts, the wrapped error of a
    failed answer and the follow-up questions parsed out of a reply. The
    completion API itself is an oracle: its reply (or its failure) is a
    parameter. */
module LlmText {
  import opened Wrappers
  import opened PyText

  const DefaultModel: string := "llama-3.2-90b-text-preview"
  const DefaultMaxTokens: int := 500
  const DefaultTemperature: real := 0.7

  const DefaultSystemPrompt: string :=
    "You are an airline customer service assistant. \n"
    + "            Use the provided context to answer questions accurately and professionally. \n"
    + "            If you're unsure or the context doesn't contain the relevant information, \n"
    + "            say so clearly. Always maintain a helpful and courteous tone."

  const FollowupSystemPrompt: string := "You are a helpful airline assistant."
  const FollowupMaxTokens: int := 200
  const FollowupTemperature: real := 0.7

  const ResponseErrorPrefix: string := "Error generating LLM response: "
  const MissingKeyMessage: string :=
    "GROQ_API_KEY not found in environment variables. Please add it to your .env file"

  /** The settings a constructed service keeps. */
  datatype ServiceConfig = ServiceConfig(model: string, maxTokens: int, temperature: real)

  /** One chat message of a completion request. */
  datatype Message = Message(role: string, content: string)

  /** A completion request as sent to the API. */
  datatype Request = Request(model: string, messages: seq<Message>, maxTokens: int, temperature: real)

  /** The constructor: the environment's API key (absent or empty raises
      `ValueError`), the model name, and the token limit and temperature
      already converted from their environment strings. */
  function NewService(apiKey: Option<string>, modelName: Option<string>,
                      maxTokens: Option<int>, temperature: Option<real>): (r: Result<ServiceConfig, string>)
    ensures r.Ok? <==> apiKey.Some? && apiKey.value != []
    ensures r.Err? ==> r.error == MissingKeyMessage
    ensures r.Ok? && modelName.None? ==> r.value.model == DefaultModel
    ensures r.Ok? && maxTokens.None? ==> r.value.maxTokens == DefaultMaxTokens
    ensures r.Ok? && temperature.None? ==> r.value.temperature == DefaultTemperature
  {
    if apiKey.None? || apiKey.value == [] then Err(MissingKeyMessage)
    else
      Ok(ServiceConfig(
        if modelName.Some? then modelName.value else DefaultModel,
        if maxTokens.Some? then maxTokens.value else DefaultMaxTokens,
        if temperature.Some? then temperature.value else DefaultTemperature))
  }

  // ---------------------------------------------------------------- context

  /** The block for the retrieved chunk at position `i` (numbered from 1). */
  function ContextBlock(i: nat, text: string): string {
    "Context " + NatToString(i + 1) + ":\n" + text
  }

  /** The blocks of all retrieved chunks, in retrieval order. */
  function ContextBlocks(texts: seq<string>): (r: seq<string>)
    ensures |r| == |texts|
  {
    if texts == [] then []
    else ContextBlocks(texts[..|texts| - 1]) + [ContextBlock(|texts| - 1, texts[|texts| - 1])]
  }

  /** The context string: the blocks joined by a blank line. */
  function ContextString(texts: seq<string>): string {
    Join(ContextBlocks(texts), "\n\n")
  }

  /** Block `i` holds chunk `i` under the number `i + 1`. */
  lemma {:induction false} ContextBlocksAt(texts: seq<string>)
    ensures forall i :: 0 <= i < |texts| ==> ContextBlocks(texts)[i] == ContextBlock(i, texts[i])
  {
    if texts != [] {
      var init := texts[..|texts| - 1];
      ContextBlocksAt(init);
      assert forall i :: 0 <= i < |init| ==> ContextBlocks(texts)[i] == ContextBlocks(init)[i];
    }
  }

  /** One more retrieved chunk adds a blank line and its block, numbered
      after all earlier ones, at the end of the context string. */
  lemma ContextStringSnoc(texts: seq<string>, t: string)
    requires texts != []
    ensures ContextString(texts + [t]) == ContextString(texts) + "\n\n" + ContextBlock(|texts|, t)
  {
    var all := texts + [t];
    assert all[..|all| - 1] == texts;
    JoinSnoc(ContextBlocks(texts), ContextBlock(|texts|, t), "\n\n");
  }

  lemma ContextStringSingle(t: string)
    ensures ContextString([t]) == "Context 1:\n" + t
  {
    assert [t][..0] == [];
  }

  /** A block determines the position and the text it was built from: the
      numeral ends at the first ':' since every other header character is a digit. */
  lemma ContextBlockInjective(i: nat, a: string, j: nat, b: string)
    requires ContextBlock(i, a) == ContextBlock(j, b)
    ensures i == j && a == b
  {
    ContextBlockParts(i, a);
    ContextBlockParts(j, b);
    NatToStringInjective(i + 1, j + 1);
  }

  /** Where the parts of a block sit: the numeral from 8 on, a ':' right
      after it, the text after the line break. */
  lemma ContextBlockParts(i: nat, a: string)
    ensures var d, x := NatToString(i + 1), ContextBlock(i, a);
      && |x| == 10 + |d| + |a|
      && x[8..8 + |d|] == d && x[8 + |d|] == ':' && x[10 + |d|..] == a
      && forall k :: 8 <= k < 8 + |d| ==> IsDigit(x[k])
  {
    var d, x := NatToString(i + 1), ContextBlock(i, a);
    assert x == "Context " + d + ":\n" + a;
    assert forall k :: 8 <= k < 8 + |d| ==> x[k] == d[k - 8];
  }

  // ---------------------------------------------------------------- answers

  /** A template with two holes, `x` and `y`, filled in. */
  function Fill(a: string, x: string, b: string, y: string, c: string): string {
    a + x + b + y + c
  }

  /** Each hole's value can be found in the filled template right after the
      text that precedes it. */
  lemma FillSpec(a: string, x: string, b: string, y: string, c: string)
    ensures OccursAt(Fill(a, x, b, y, c), x, |a|)
    ensures OccursAt(Fill(a, x, b, y, c), y, |a| + |x| + |b|)
  {
    var f := Fill(a, x, b, y, c);
    assert f[|a|..|a| + |x|] == x;
    assert f[|a| + |x| + |b|..|a| + |x| + |b| + |y|] == y;
  }

  const AnswerHead: string := "Based on the following context, please answer this question: "
  const AnswerMid: string := "\n\n            "
  const AnswerTail: string :=
    "\n\n            Please provide a clear and concise answer based on the context provided."

  /** The user prompt of an answer request. */
  function AnswerPrompt(query: string, context: string): string {
    Fill(AnswerHead, query, AnswerMid, context, AnswerTail)
  }

  /** The request `generate_response` sends: the given system prompt or the
      built-in one, then the user prompt holding the query and the context string. */
  function AnswerRequest(config: ServiceConfig, query: string, texts: seq<string>,
                         systemPrompt: Option<string>): (r: Request)
    ensures |r.messages| == 2
    ensures r.messages[0].role == "system" && r.messages[1].role == "user"
    ensures systemPrompt.None? ==> r.messages[0].content == DefaultSystemPrompt
    ensures systemPrompt.Some? ==> r.messages[0].content == systemPrompt.value
    ensures OccursAt(r.messages[1].content, query, |AnswerHead|)
    ensures OccursAt(r.messages[1].content, ContextString(texts), |AnswerHead| + |query| + |AnswerMid|)
    ensures r.model == config.model && r.maxTokens == config.maxTokens
         && r.temperature == config.temperature
  {
    var system := if systemPrompt.Some? then systemPrompt.value else DefaultSystemPrompt;
    FillSpec(AnswerHead, query, AnswerMid, ContextString(texts), AnswerTail);
    Request(config.model, [Message("system", system), Message("user", AnswerPrompt(query, ContextString(texts)))],
            config.maxTokens, config.temperature)
  }

  /** The answer: the API's reply text, or its failure re-raised with a prefix. */
  function AnswerOf(reply: Result<string, string>): (r: Result<string, string>)
    ensures r.Ok? <==> reply.Ok?
    ensures r.Ok? ==> r.value == reply.value
    ensures r.Err? ==>
      StartsWith(r.error, ResponseErrorPrefix) && r.error[|ResponseErrorPrefix|..] == reply.error
  {
    match reply
    case Ok(text) => Ok(text)
    case Err(e) => Err(ResponseErrorPrefix + e)
  }

  // ---------------------------------------------------------------- follow-ups

  const FollowupHead: string := "Based on this conversation:\n        User: "
  const FollowupMid: string := "\n        Assistant: "

  function FollowupTail(maxQuestions: int): string {
    "\n\n        Generate " + IntToString(maxQuestions)
    + " relevant follow-up questions that the user might want to ask next.\n"
    + "        Return only the questions, one per line."
  }

  /** The user prompt of a follow-up request. */
  function FollowupPrompt(query: string, response: string, maxQuestions: int): string {
    Fill(FollowupHead, query, FollowupMid, response, FollowupTail(maxQuestions))
  }

  /** The request `generate_followup_questions` sends, with its own fixed
      system prompt, token limit and temperature. */
  function FollowupRequest(config: ServiceConfig, query: string, response: string,
                           maxQuestions: int): (r: Request)
    ensures |r.messages| == 2
    ensures r.messages[0] == Message("system", FollowupSystemPrompt)
    ensures r.messages[1].role == "user"
    ensures OccursAt(r.messages[1].content, query, |FollowupHead|)
    ensures OccursAt(r.messages[1].content, response, |FollowupHead| + |query| + |FollowupMid|)
    ensures r.model == config.model
    ensures r.maxTokens == FollowupMaxTokens && r.temperature == FollowupTemperature
  {
    FillSpec(FollowupHead, query, FollowupMid, response, FollowupTail(maxQuestions));
    Request(config.model,
            [Message("system", FollowupSystemPrompt), Message("user", FollowupPrompt(query, response, maxQuestions))],
            FollowupMaxTokens, FollowupTemperature)
  }

  /** The stripped non-blank lines of a reply, in order. */
  function QuestionsOf(lines: seq<string>): (r: seq<string>)
    ensures |r| <= |lines|
  {
    if lines == [] then []
    else
      var q := Strip(lines[|lines| - 1]);
      QuestionsOf(lines[..|lines| - 1]) + (if q != [] then [q] else [])
  }

  /** The candidate questions in a reply text. */
  function Questions(content: string): seq<string> {
    QuestionsOf(Split(content, '\n'))
  }

  /** The follow-up questions returned for a reply: none when the call
      failed, otherwise `questions[:maxQuestions]`, where a negative bound
      drops that many questions from the end. */
  function FollowupQuestions(reply: Option<string>, maxQuestions: int): (r: seq<string>)
    ensures reply.None? ==> r == []
    ensures reply.Some? ==> r <= Questions(reply.value)
    ensures reply.Some? && 0 <= maxQuestions ==>
      |r| == (if maxQuestions <= |Questions(reply.value)| then maxQuestions else |Questions(reply.value)|)
    ensures reply.Some? && maxQuestions < 0 ==>
      |r| == (if |Questions(reply.value)| + maxQuestions < 0 then 0 else |Questions(reply.value)| + maxQuestions)
  {
    match reply
    case None => []
    case Some(content) => PySlice(Questions(content), 0, maxQuestions)
  }

  /** Every question is a stripped, non-blank line of the reply. */
  lemma {:induction false} QuestionsOfSound(lines: seq<string>, q: string)
    requires q in QuestionsOf(lines)
    ensures q != [] && !IsSpace(q[0]) && !IsSpace(q[|q| - 1])
    ensures exists i :: 0 <= i < |lines| && q == Strip(lines[i])
  {
    var init := lines[..|lines| - 1];
    var last := lines[|lines| - 1];
    if q in QuestionsOf(init) {
      QuestionsOfSound(init, q);
      var i :| 0 <= i < |init| && q == Strip(init[i]);
      assert lines[i] == init[i];
    } else {
      assert q == Strip(last);
      StripSpec(last);
    }
  }

  /** Every line that is not blank yields its stripped text as a question. */
  lemma {:induction false} QuestionsOfComplete(lines: seq<string>, i: nat)
    requires i < |lines| && !IsBlank(lines[i])
    ensures Strip(lines[i]) in QuestionsOf(lines)
  {
    var init := lines[..|lines| - 1];
    StripSpec(lines[i]);
    if i < |init| {
      assert init[i] == lines[i];
      QuestionsOfComplete(init, i);
    }
  }

  /** Lines are kept in reply order: two non-blank lines give questions in
      the same order. */
  lemma {:induction false} QuestionsOfOrdered(lines: seq<string>, i: nat, j: nat)
    requires i < j < |lines| && !IsBlank(lines[i]) && !IsBlank(lines[j])
    ensures exists a, b :: 0 <= a < b < |QuestionsOf(lines)|
              && QuestionsOf(lines)[a] == Strip(lines[i]) && QuestionsOf(lines)[b] == Strip(lines[j])
  {
    var init := lines[..|lines| - 1];
    var r := QuestionsOf(lines);
    assert r[..|QuestionsOf(init)|] == QuestionsOf(init);
    if j < |init| {
      assert init[i] == lines[i] && init[j] == lines[j];
      QuestionsOfOrdered(init, i, j);
      var a, b :| 0 <= a < b < |QuestionsOf(init)|
        && QuestionsOf(init)[a] == Strip(init[i]) && QuestionsOf(init)[b] == Strip(init[j]);
      assert r[a] == QuestionsOf(init)[a] && r[b] == QuestionsOf(init)[b];
    } else {
      assert init[i] == lines[i];
      QuestionsOfComplete(init, i);
      var a :| 0 <= a < |QuestionsOf(init)| && QuestionsOf(init)[a] == Strip(lines[i]);
      StripSpec(lines[j]);
      assert r[|QuestionsOf(init)|] == Strip(lines[j]);
      assert r[a] == Strip(lines[i]);
    }
  }

  /** No question spans two lines of the reply. */
  lemma QuestionsSingleLine(content: string, q: string)
    requires q in Questions(content)
    ensures '\n' !in q
  {
    var lines := Split(content, '\n');
    QuestionsOfSound(lines, q);
    var i :| 0 <= i < |lines| && q == Strip(lines[i]);
    StripSpec(lines[i]);
    var lead := LeadingSpaces(lines[i]);
    assert q == lines[i][lead..lead + |q|];
    NotInSlice(lines[i], '\n', lead, lead + |q|);
  }

  /** The pieces of a blank string are blank. */
  lemma {:induction false} SplitBlank(s: string, c: char)
    requires IsBlank(s)
    ensures forall k :: 0 <= k < |Split(s, c)| ==> IsBlank(Split(s, c)[k])
  {
    if s != [] {
      SplitBlank(s[1..], c);
    }
  }

  /** A reply with no non-blank line gives no questions. */
  lemma FollowupBlankReply(content: string, maxQuestions: int)
    requires IsBlank(content)
    ensures FollowupQuestions(Some(content), maxQuestions) == []
  {
    var qs := Questions(content);
    if qs != [] {
      var lines := Split(content, '\n');
      QuestionsOfSound(lines, qs[0]);
      var i :| 0 <= i < |lines| && qs[0] == Strip(lines[i]);
      SplitBlank(content, '\n');
      StripSpec(lines[i]);
      assert false;
    }
  }
}

=== FILE: load_balancer.dfy ===
/** Load balancing over chat endpoints: the endpoint table, the per-request
    bookkeeping of health and response times, the round-robin selector with
    its health reset, and the weighted selector. The endpoint table is one
    list of records shared by the balancers and updated in place; the
    request outcome, its duration and the random draw are parameters. */
module LoadBalancing {
  import opened Wrappers

  datatype Health = Healthy | Unhealthy

  /** One endpoint record. */
  datatype Endpoint = Endpoint(name: string, model: string, weight: real, status: Health, responseTimes: seq<real>)

  /** At most this many response times are kept per endpoint. */
  const MaxSamples: nat := 10

  /** The three endpoints the module starts with. */
  const InitialEndpoints: seq<Endpoint> := [
    Endpoint("endpoint-1", "llama3-8b-8192", 1.0, Healthy, []),
    Endpoint("endpoint-2", "gemma-7b-it", 1.0, Healthy, []),
    Endpoint("endpoint-3", "mixtral-8x7b-32768", 1.0, Healthy, [])
  ]

  /** What a request through an endpoint returns. */
  datatype EndpointReply = EndpointReply(content: string, responseTime: real, endpoint: string, model: string, success: bool)

  // ------------------------------------------------------------ bookkeeping

  /** Appending to a deque bounded by `MaxSamples`: the oldest samples fall out. */
  function PushSample(ts: seq<real>, t: real): (r: seq<real>)
    ensures |ts| <= MaxSamples ==> |r| <= MaxSamples
    ensures 1 <= |r| <= |ts| + 1 && r[|r| - 1] == t
    ensures r == (ts + [t])[|ts| + 1 - |r|..]
    ensures |ts| < MaxSamples ==> r == ts + [t]
  {
    if |ts| + 1 > MaxSamples then (ts + [t])[|ts| + 1 - MaxSamples..] else ts + [t]
  }

  /** Python's index into the table: negative indices count from the end. */
  function TableIndex(i: int, n: nat): (k: nat)
    requires -(n as int) <= i < n
    ensures k < n
    ensures 0 <= i ==> k == i
    ensures i < 0 ==> k == i + n
  {
    if i < 0 then i + n else i
  }

  /** `chat_with_endpoint`: a successful request records its duration at the
      endpoint and returns the content; a failed one marks the endpoint
      unhealthy and returns "Error: <reason>". No other endpoint changes. */
  method ChatWithEndpoint(endpoints: array<Endpoint>, index: int, outcome: Result<string, string>, elapsed: real)
    returns (reply: EndpointReply)
    requires -endpoints.Length <= index < endpoints.Length
    modifies endpoints
    ensures var k := TableIndex(index, endpoints.Length);
      var e := old(endpoints[k]);
      reply.endpoint == e.name && reply.model == e.model && reply.responseTime == elapsed
      && reply.success == outcome.Ok? && endpoints[k].name == e.name
      && (outcome.Ok? ==>
            reply.content == outcome.value
            && endpoints[..] == old(endpoints[..])[k := e.(responseTimes := PushSample(e.responseTimes, elapsed))])
      && (outcome.Err? ==>
            reply.content == "Error: " + outcome.error
            && endpoints[..] == old(endpoints[..])[k := e.(status := Unhealthy)])
  {
    var k := TableIndex(index, endpoints.Length);
    var e := endpoints[k];
    match outcome
    case Ok(text) =>
      endpoints[k] := e.(responseTimes := PushSample(e.responseTimes, elapsed));
      reply := EndpointReply(text, elapsed, e.name, e.model, true);
    case Err(reason) =>
      endpoints[k] := e.(status := Unhealthy);
      reply := EndpointReply("Error: " + reason, elapsed, e.name, e.model, false);
  }

  // ------------------------------------------------------------ round robin

  /** `(i + 1) % n`: the index after `i`, wrapping to 0. */
  function Advance(i: nat, n: nat): (k: nat)
    requires n > 0
  {
    (i + 1) % n
  }

  lemma AdvanceSpec(i: nat, n: nat)
    requires i < n
    ensures Advance(i, n) == if i + 1 == n then 0 else i + 1
  {
  }

  /** The position `k` steps after `start`, going round the table. */
  function Pos(start: nat, k: nat, n: nat): (p: nat)
    requires start < n && k <= n
    ensures k < n ==> p < n
  {
    if start + k < n then start + k else start + k - n
  }

  /** How many endpoints, from `start` on and counting from step `j`, are
      passed over before a healthy one; `n` when none is healthy. */
  function Scan(eps: seq<Endpoint>, start: nat, j: nat): (r: nat)
    requires start < |eps| && j <= |eps|
    ensures j <= r <= |eps|
    decreases |eps| - j
  {
    if j == |eps| then |eps|
    else if eps[Pos(start, j, |eps|)].status == Healthy then j
    else Scan(eps, start, j + 1)
  }

  /** The scan stops at the first healthy endpoint, having passed only
      unhealthy ones. */
  lemma {:induction false} ScanSpec(eps: seq<Endpoint>, start: nat, j: nat)
    requires start < |eps| && j <= |eps|
    ensures var r := Scan(eps, start, j);
      (r < |eps| ==> eps[Pos(start, r, |eps|)].status == Healthy)
      && forall i :: j <= i < r ==> eps[Pos(start, i, |eps|)].status == Unhealthy
    decreases |eps| - j
  {
    if j < |eps| && eps[Pos(start, j, |eps|)].status != Healthy {
      ScanSpec(eps, start, j + 1);
    }
  }

  /** The index `get_next_endpoint` returns from `start`: the one after the
      first healthy endpoint, or `start` itself when none is healthy. */
  function RoundRobinNext(eps: seq<Endpoint>, start: nat): (idx: nat)
    requires start < |eps|
    ensures idx < |eps|
  {
    var r := Scan(eps, start, 0);
    if r < |eps| then Advance(Pos(start, r, |eps|), |eps|) else start
  }

  /** When some endpoint is healthy, the returned index is the one after the
      first healthy endpoint at or after `start`, not that endpoint itself. */
  lemma RoundRobinAfterHealthy(eps: seq<Endpoint>, start: nat, p: nat)
    requires start < |eps| && p < |eps| && eps[p].status == Healthy
    ensures var r := Scan(eps, start, 0);
      r < |eps| && eps[Pos(start, r, |eps|)].status == Healthy
      && RoundRobinNext(eps, start) == Advance(Pos(start, r, |eps|), |eps|)
  {
    ScanSpec(eps, start, 0);
    var n := |eps|;
    var k := if p >= start then p - start else p + n - start;
    assert Pos(start, k, n) == p;
  }

  /** The endpoint a request is sent to can be unhealthy while a healthy one
      exists: from index 0 over a healthy and an unhealthy endpoint, the
      request goes to the unhealthy one. */
  lemma TargetMayBeUnhealthy()
    ensures var eps := [Endpoint("a", "m", 1.0, Healthy, []), Endpoint("b", "m", 1.0, Unhealthy, [])];
      RoundRobinNext(eps, 0) == 1 && eps[RoundRobinNext(eps, 0)].status == Unhealthy
  {
    var eps := [Endpoint("a", "m", 1.0, Healthy, []), Endpoint("b", "m", 1.0, Unhealthy, [])];
    assert Scan(eps, 0, 0) == 0;
    AdvanceSpec(0, 2);
  }

  /** The selection as evidently intended: the first healthy endpoint itself. */
  function IntendedRoundRobinNext(eps: seq<Endpoint>, start: nat): (idx: nat)
    requires start < |eps|
    ensures idx < |eps|
  {
    var r := Scan(eps, start, 0);
    if r < |eps| then Pos(start, r, |eps|) else start
  }

  /** The intended selection targets a healthy endpoint whenever there is one,
      and passes over no healthy endpoint on the way. */
  lemma IntendedTargetsHealthy(eps: seq<Endpoint>, start: nat, p: nat)
    requires start < |eps| && p < |eps| && eps[p].status == Healthy
    ensures eps[IntendedRoundRobinNext(eps, start)].status == Healthy
  {
    RoundRobinAfterHealthy(eps, start, p);
  }

  /** All endpoints marked healthy, nothing else changed. */
  function AllHealthy(eps: seq<Endpoint>): (r: seq<Endpoint>)
    ensures |r| == |eps|
    ensures forall i :: 0 <= i < |eps| ==> r[i] == eps[i].(status := Healthy)
  {
    seq(|eps|, i requires 0 <= i < |eps| => eps[i].(status := Healthy))
  }

  /** `RoundRobinLoadBalancer`: the shared endpoint table and the index where
      the next scan starts. */
  class RoundRobinLoadBalancer {
    const endpoints: array<Endpoint>
    var currentIndex: nat

    ghost predicate Valid()
      reads this
    {
      endpoints.Length == 0 || currentIndex < endpoints.Length
    }

    constructor (endpoints: array<Endpoint>)
      ensures Valid() && this.endpoints == endpoints && currentIndex == 0
    {
      this.endpoints := endpoints;
      currentIndex := 0;
    }

    /** Scans from `currentIndex`, advancing it at every step. At the first
        healthy endpoint it returns the advanced index; after a full round
        with no healthy endpoint it marks all healthy and returns the start.
        An empty table raises (`None`). */
    method GetNextEndpoint() returns (idx: Option<nat>)
      requires Valid()
      modifies this`currentIndex, endpoints
      ensures Valid()
      ensures endpoints.Length == 0 ==> idx == None && currentIndex == old(currentIndex)
      ensures endpoints.Length > 0 ==>
        idx == Some(RoundRobinNext(old(endpoints[..]), old(currentIndex)))
        && currentIndex == idx.value
      ensures endpoints.Length > 0 ==>
        endpoints[..] == if Scan(old(endpoints[..]), old(currentIndex), 0) < endpoints.Length
                         then old(endpoints[..]) else AllHealthy(old(endpoints[..]))
    {
      var n := endpoints.Length;
      if n == 0 {
        return None;
      }
      ghost var eps := endpoints[..];
      var start := currentIndex;
      var j := 0;
      while true
        invariant j < n
        invariant currentIndex == Pos(start, j, n)
        invariant endpoints[..] == eps
        invariant Scan(eps, start, 0) == Scan(eps, start, j)
        decreases n - j
      {
        var ep := endpoints[currentIndex];
        AdvanceSpec(currentIndex, n);
        currentIndex := Advance(currentIndex, n);
        if ep.status == Healthy {
          return Some(currentIndex);
        }
        if currentIndex == start {
          assert j + 1 == n;
          for i := 0 to n
            invariant forall t :: 0 <= t < i ==> endpoints[t] == eps[t].(status := Healthy)
            invariant forall t :: i <= t < n ==> endpoints[t] == eps[t]
            invariant currentIndex == start
          {
            endpoints[i] := endpoints[i].(status := Healthy);
          }
          assert endpoints[..] == AllHealthy(eps);
          return Some(currentIndex);
        }
        j := j + 1;
      }
    }

    /** `send_request`: the request goes to the index `GetNextEndpoint`
        returns, which is the position after the healthy endpoint found (in
        the table reset to all healthy when none was); that endpoint answers,
        and records the sample or is marked unhealthy. An empty table raises
        (`None`) and changes nothing. */
    method SendRequest(outcome: Result<string, string>, elapsed: real) returns (reply: Option<EndpointReply>)
      requires Valid()
      modifies this`currentIndex, endpoints
      ensures Valid()
      ensures endpoints.Length == 0 <==> reply.None?
      ensures endpoints.Length == 0 ==> currentIndex == old(currentIndex)
      ensures endpoints.Length > 0 ==>
        var before := old(endpoints[..]);
        var k := RoundRobinNext(before, old(currentIndex));
        var table := if Scan(before, old(currentIndex), 0) < |before| then before else AllHealthy(before);
        && currentIndex == k
        && reply == Some(ReplyFrom(table[k], outcome, elapsed))
        && endpoints[..] == table[k := Served(table[k], outcome, elapsed)]
    {
      ghost var before := endpoints[..];
      ghost var start := currentIndex;
      var idx := GetNextEndpoint();
      if idx.None? {
        return None;
      }
      ghost var table := endpoints[..];
      ghost var e := endpoints[idx.value];
      assert e == table[idx.value];
      assert currentIndex == idx.value < endpoints.Length;
      var r := ChatWithEndpoint(endpoints, idx.value, outcome, elapsed);
      assert r == ReplyFrom(e, outcome, elapsed);
      assert endpoints[..] == table[idx.value := Served(e, outcome, elapsed)];
      reply := Some(r);
    }
  }

  /** The reply `chat_with_endpoint` returns from endpoint `e`. */
  function ReplyFrom(e: Endpoint, outcome: Result<string, string>, elapsed: real): (r: EndpointReply)
    ensures r.endpoint == e.name && r.model == e.model && r.responseTime == elapsed
    ensures r.success <==> outcome.Ok?
  {
    match outcome
    case Ok(text) => EndpointReply(text, elapsed, e.name, e.model, true)
    case Err(reason) => EndpointReply("Error: " + reason, elapsed, e.name, e.model, false)
  }

  /** Endpoint `e` after answering: the sample recorded on success, marked
      unhealthy on failure. */
  function Served(e: Endpoint, outcome: Result<string, string>, elapsed: real): (s: Endpoint)
    ensures s.name == e.name && s.model == e.model && s.weight == e.weight
    ensures s.status == (if outcome.Ok? then e.status else Unhealthy)
    ensures outcome.Ok? ==> s.responseTimes == PushSample(e.responseTimes, elapsed)
    ensures outcome.Err? ==> s.responseTimes == e.responseTimes
  {
    match outcome
    case Ok(_) => e.(responseTimes := PushSample(e.responseTimes, elapsed))
    case Err(_) => e.(status := Unhealthy)
  }

  // ------------------------------------------------------------ weighted

  function Sum(xs: seq<real>): real {
    if xs == [] then 0.0 else Sum(xs[..|xs| - 1]) + xs[|xs| - 1]
  }

  /** The mean of a non-empty sample. */
  function Mean(xs: seq<real>): real
    requires xs != []
  {
    Sum(xs) / (|xs| as real)
  }

  /** `update_weights` for one endpoint: the inverse of its mean response
      time (1.0 without samples or with a non-positive mean), and 0 when it
      is not healthy. */
  function WeightFor(e: Endpoint): (w: real)
    ensures w >= 0.0
    ensures e.status == Healthy <==> w > 0.0
    ensures e.status == Healthy && e.responseTimes == [] ==> w == 1.0
  {
    if e.status != Healthy then 0.0
    else if e.responseTimes == [] then 1.0
    else
      var avg := Mean(e.responseTimes);
      if avg > 0.0 then 1.0 / avg else 1.0
  }

  /** The weights of the table, in order. */
  function Weights(eps: seq<Endpoint>): (ws: seq<real>)
    ensures |ws| == |eps|
    ensures forall i :: 0 <= i < |eps| ==> ws[i] == eps[i].weight
  {
    seq(|eps|, i requires 0 <= i < |eps| => eps[i].weight)
  }

  /** Once `update_weights` has run, the weights are never negative, and
      they are positive exactly on the healthy endpoints. */
  lemma WeightsPositiveIffHealthy(eps: seq<Endpoint>, i: nat)
    requires forall j :: 0 <= j < |eps| ==> eps[j].weight == WeightFor(eps[j])
    requires i < |eps|
    ensures Weights(eps)[i] >= 0.0
    ensures Weights(eps)[i] > 0.0 <==> eps[i].status == Healthy
  {
    assert Weights(eps)[i] == WeightFor(eps[i]);
  }

  /** The weighted choice: the first endpoint whose running weight total,
      from `upto` at position `i`, reaches `r`; 0 if none does. */
  function Pick(ws: seq<real>, r: real, i: nat, upto: real): (k: nat)
    requires i <= |ws|
    ensures k == 0 || i <= k < |ws|
    decreases |ws| - i
  {
    if i == |ws| then 0
    else if upto + ws[i] >= r then i
    else Pick(ws, r, i + 1, upto + ws[i])
  }

  lemma SumSnoc(xs: seq<real>, i: nat)
    requires i < |xs|
    ensures Sum(xs[..i + 1]) == Sum(xs[..i]) + xs[i]
  {
    assert xs[..i + 1][..i] == xs[..i];
  }

  /** With non-negative weights and `0 < r <= ` the total, the choice is an
      endpoint of positive weight, and every earlier running total stays
      below `r`. */
  lemma {:induction false} PickPositive(ws: seq<real>, r: real, i: nat, upto: real)
    requires i <= |ws| && upto == Sum(ws[..i]) && upto < r && r <= Sum(ws)
    requires forall j :: 0 <= j < |ws| ==> ws[j] >= 0.0
    ensures i <= Pick(ws, r, i, upto) < |ws|
    ensures ws[Pick(ws, r, i, upto)] > 0.0
    decreases |ws| - i
  {
    assert ws[..|ws|] == ws;
    SumSnoc(ws, i);
    if upto + ws[i] < r {
      PickPositive(ws, r, i + 1, upto + ws[i]);
    }
  }

  /** A draw of exactly 0 picks the first endpoint, whatever its weight. */
  lemma PickZeroDraw(ws: seq<real>)
    requires ws != [] && forall j :: 0 <= j < |ws| ==> ws[j] >= 0.0
    ensures Pick(ws, 0.0, 0, 0.0) == 0
  {
  }

  /** Every weight is positive once all endpoints are healthy, so the total
      is positive for a non-empty table. */
  lemma HealthyTotalPositive(eps: seq<Endpoint>)
    requires eps != [] && forall i :: 0 <= i < |eps| ==> eps[i].weight == WeightFor(eps[i])
    requires forall i :: 0 <= i < |eps| ==> eps[i].status == Healthy
    ensures Sum(Weights(eps)) > 0.0
  {
    var ws := Weights(eps);
    NonNegativeSum(ws, |ws| - 1);
    SumSnoc(ws, |ws| - 1);
    assert ws[..|ws|] == ws;
  }

  lemma {:induction false} NonNegativeSum(ws: seq<real>, i: nat)
    requires i <= |ws| && forall j :: 0 <= j < |ws| ==> ws[j] >= 0.0
    ensures Sum(ws[..i]) >= 0.0
  {
    if i > 0 {
      NonNegativeSum(ws, i - 1);
      SumSnoc(ws, i - 1);
    }
  }

  /** `WeightedLoadBalancer`: weights recomputed from health and response times. */
  class WeightedLoadBalancer {
    const endpoints: array<Endpoint>

    constructor (endpoints: array<Endpoint>)
      modifies endpoints
      ensures this.endpoints == endpoints
      ensures forall i :: 0 <= i < endpoints.Length ==>
        endpoints[i] == old(endpoints[i]).(weight := WeightFor(old(endpoints[i])))
    {
      this.endpoints := endpoints;
      new;
      UpdateWeights();
    }

    method UpdateWeights()
      modifies endpoints
      ensures forall i :: 0 <= i < endpoints.Length ==>
        endpoints[i] == old(endpoints[i]).(weight := WeightFor(old(endpoints[i])))
    {
      for i := 0 to endpoints.Length
        invariant forall t :: 0 <= t < i ==> endpoints[t] == old(endpoints[t]).(weight := WeightFor(old(endpoints[t])))
        invariant forall t :: i <= t < endpoints.Length ==> endpoints[t] == old(endpoints[t])
      {
        endpoints[i] := endpoints[i].(weight := WeightFor(endpoints[i]));
      }
    }

    /** The first half of `get_next_endpoint`: recompute the weights and,
        when no endpoint is healthy, mark all healthy and recompute again.
        Afterwards every weight matches its endpoint and a non-empty table
        has a healthy endpoint; nothing but health and weight changes. */
    method Refresh()
      modifies endpoints
      ensures forall i :: 0 <= i < endpoints.Length ==>
        endpoints[i].weight == WeightFor(endpoints[i])
        && endpoints[i].(weight := 0.0, status := Healthy) == old(endpoints[i]).(weight := 0.0, status := Healthy)
      ensures (forall i :: 0 <= i < endpoints.Length ==> old(endpoints[i]).status == Unhealthy) ==>
        forall i :: 0 <= i < endpoints.Length ==> endpoints[i].status == Healthy
      ensures (exists i :: 0 <= i < endpoints.Length && old(endpoints[i]).status == Healthy) ==>
        forall i :: 0 <= i < endpoints.Length ==> endpoints[i].status == old(endpoints[i]).status
      ensures endpoints.Length > 0 ==> exists i :: 0 <= i < endpoints.Length && endpoints[i].status == Healthy
    {
      UpdateWeights();
      var allUnhealthy := forall i :: 0 <= i < endpoints.Length ==> endpoints[i].status != Healthy;
      if allUnhealthy {
        MarkAllHealthy();
        UpdateWeights();
        if endpoints.Length > 0 {
          assert endpoints[0].status == Healthy;
        }
      }
    }

    /** `get_next_endpoint`: refresh the weights, then walk the running weight
        total up to the draw `rand` in [0, 1) scaled to the total. An empty
        table raises (`None`). The result is `Pick` of the refreshed weights,
        so a positive draw always lands on an endpoint of positive weight, a
        healthy one. */
    method GetNextEndpoint(rand: real) returns (idx: Option<nat>)
      requires 0.0 <= rand < 1.0
      modifies endpoints
      ensures endpoints.Length == 0 <==> idx == None
      ensures forall i :: 0 <= i < endpoints.Length ==>
        endpoints[i].weight == WeightFor(endpoints[i])
        && endpoints[i].(weight := 0.0, status := Healthy) == old(endpoints[i]).(weight := 0.0, status := Healthy)
      ensures (forall i :: 0 <= i < endpoints.Length ==> old(endpoints[i]).status == Unhealthy) ==>
        forall i :: 0 <= i < endpoints.Length ==> endpoints[i].status == Healthy
      ensures (exists i :: 0 <= i < endpoints.Length && old(endpoints[i]).status == Healthy) ==>
        forall i :: 0 <= i < endpoints.Length ==> endpoints[i].status == old(endpoints[i]).status
      ensures idx.Some? ==>
        var ws := Weights(endpoints[..]);
        idx.value < endpoints.Length && idx.value == Pick(ws, Draw(rand, ws), 0, 0.0)
      ensures idx.Some? && rand > 0.0 ==> endpoints[idx.value].status == Healthy
    {
      Refresh();
      if endpoints.Length == 0 {
        // the total weight is 0 and `randint(0, -1)` raises
        return None;
      }
      ghost var h :| 0 <= h < endpoints.Length && endpoints[h].status == Healthy;
      var ws := Weights(endpoints[..]);
      SomeHealthyTotalPositive(endpoints[..], h);
      var r := Draw(rand, ws);
      DrawBelowTotal(rand, ws);
      var k := Choose(ws, r);
      return Some(k);
    }

    /** The reset when no endpoint is healthy: every status becomes healthy. */
    method MarkAllHealthy()
      modifies endpoints
      ensures endpoints[..] == AllHealthy(old(endpoints[..]))
    {
      for i := 0 to endpoints.Length
        invariant forall t :: 0 <= t < i ==> endpoints[t] == old(endpoints[t]).(status := Healthy)
        invariant forall t :: i <= t < endpoints.Length ==> endpoints[t] == old(endpoints[t])
      {
        endpoints[i] := endpoints[i].(status := Healthy);
      }
    }
  }

  /** The walk of `get_next_endpoint` over the running weight total: the
      first endpoint at which the total reaches the draw `r`. With the draw
      below the total the walk always stops inside the table, and a positive
      draw stops at an endpoint of positive weight. */
  method Choose(ws: seq<real>, r: real) returns (k: nat)
    requires forall j :: 0 <= j < |ws| ==> ws[j] >= 0.0
    requires 0.0 <= r < Sum(ws)
    ensures k < |ws| && k == Pick(ws, r, 0, 0.0)
    ensures r > 0.0 ==> ws[k] > 0.0
  {
    var i := 0;
    var upto := 0.0;
    assert ws[..|ws|] == ws;
    while i < |ws|
      invariant i <= |ws| && upto == Sum(ws[..i])
      invariant i > 0 ==> upto < r
      invariant Pick(ws, r, i, upto) == Pick(ws, r, 0, 0.0)
    {
      SumSnoc(ws, i);
      if upto + ws[i] >= r {
        if r > 0.0 {
          PickPositive(ws, r, 0, 0.0);
        }
        return i;
      }
      upto := upto + ws[i];
      i := i + 1;
    }
    assert false;
  }

  /** The draw in [0, 1) scaled to the total weight. */
  function Draw(rand: real, ws: seq<real>): real {
    rand * Sum(ws)
  }

  /** A draw scaled into a positive total stays below it. */
  lemma DrawBelowTotal(rand: real, ws: seq<real>)
    requires 0.0 <= rand < 1.0 && Sum(ws) > 0.0
    ensures 0.0 <= Draw(rand, ws) < Sum(ws)
    ensures rand > 0.0 ==> Draw(rand, ws) > 0.0
  {
    var t := Sum(ws);
    MulPositive(1.0 - rand, t);
    assert Sum(ws) - Draw(rand, ws) == (1.0 - rand) * t;
    if rand > 0.0 {
      MulPositive(rand, t);
    }
  }

  lemma MulPositive(x: real, y: real)
    requires x > 0.0 && y > 0.0
    ensures x * y > 0.0
  {
  }

  /** One healthy endpoint with its weight recomputed makes the total positive. */
  lemma SomeHealthyTotalPositive(eps: seq<Endpoint>, h: nat)
    requires h < |eps| && eps[h].status == Healthy
    requires forall i :: 0 <= i < |eps| ==> eps[i].weight == WeightFor(eps[i])
    ensures Sum(Weights(eps)) > 0.0
  {
    var ws := Weights(eps);
    PositiveSum(ws, h, |ws|);
    assert ws[..|ws|] == ws;
  }

  lemma {:induction false} PositiveSum(ws: seq<real>, h: nat, i: nat)
    requires h < i <= |ws| && ws[h] > 0.0 && forall j :: 0 <= j < |ws| ==> ws[j] >= 0.0
    ensures Sum(ws[..i]) > 0.0
  {
    SumSnoc(ws, i - 1);
    if h < i - 1 {
      PositiveSum(ws, h, i - 1);
    } else {
      NonNegativeSum(ws, i - 1);
    }
  }
}

=== FILE: memory.dfy ===
/** Conversation memories of the chat server: a token estimate, a plain
    message list, a sliding window of messages, a memory that replaces old
    messages by a summary, a memory trimmed to a token budget, and the
    per-session manager. The summarising API call is an oracle: its reply
    (absent when the request failed) is a parameter. */
module Memory {
  import opened Wrappers
  import opened PyText

  datatype Message = Message(role: string, content: string)

  const DefaultSystemMessage: string := "You are a helpful AI assistant."
  const SummaryPrefix: string := "Previous conversation summary: "

  function SystemMessage(text: string): Message {
    Message("system", text)
  }

  // ------------------------------------------------------------ token counter

  /** About four characters per token, rounded down. */
  function EstimateTokens(text: string): (n: nat)
    ensures 4 * n <= |text| < 4 * n + 4
  {
    |text| / 4
  }

  /** The role costs two tokens, the content its estimate. */
  function MessageTokens(m: Message): (n: nat)
    ensures n >= 2 && n == 2 + EstimateTokens(m.content)
  {
    2 + EstimateTokens(m.content)
  }

  /** The estimate of a whole conversation: the sum over its messages. */
  function ConversationTokens(ms: seq<Message>): (n: nat)
    ensures n >= 2 * |ms|
  {
    if ms == [] then 0 else ConversationTokens(ms[..|ms| - 1]) + MessageTokens(ms[|ms| - 1])
  }

  /** The estimate of two conversations put together is the sum of their estimates. */
  lemma {:induction false} ConversationTokensAppend(a: seq<Message>, b: seq<Message>)
    ensures ConversationTokens(a + b) == ConversationTokens(a) + ConversationTokens(b)
    decreases |b|
  {
    if b != [] {
      var init := b[..|b| - 1];
      assert (a + b)[..|a + b| - 1] == a + init;
      assert (a + b)[|a + b| - 1] == b[|b| - 1];
      ConversationTokensAppend(a, init);
    } else {
      assert a + b == a;
    }
  }

  /** Dropping the second message lowers the estimate by exactly its cost. */
  lemma DropSecondTokens(ms: seq<Message>)
    requires |ms| > 2
    ensures ConversationTokens([ms[0]] + ms[2..]) == ConversationTokens(ms) - MessageTokens(ms[1])
  {
    assert ms == [ms[0]] + [ms[1]] + ms[2..];
    ConversationTokensAppend([ms[0]] + [ms[1]], ms[2..]);
    ConversationTokensAppend([ms[0]], ms[2..]);
    ConversationTokensAppend([ms[0]], [ms[1]]);
  }

  // ------------------------------------------------------------ trimming rules

  /** The token trim: while the estimate is over the budget and more than
      the system message and one other remain, drop the oldest message
      after the system message. */
  function TrimTokens(ms: seq<Message>, maxTokens: int): (r: seq<Message>)
    ensures |ms| >= 1 ==> |r| >= 1
    decreases |ms|
  {
    if ConversationTokens(ms) > maxTokens && |ms| > 2 then TrimTokens([ms[0]] + ms[2..], maxTokens)
    else ms
  }

  /** The token trim keeps the first message and a suffix of the rest, so
      the newest message survives and the order is kept; it ends within the
      budget unless only two messages are left, and it drops nothing from a
      conversation already within the budget. */
  lemma {:induction false} TrimTokensSpec(ms: seq<Message>, maxTokens: int)
    requires |ms| >= 1
    ensures var r := TrimTokens(ms, maxTokens);
      1 <= |r| <= |ms| && r[0] == ms[0] && r[1..] == ms[|ms| - |r| + 1..]
      && (|ms| >= 2 ==> |r| >= 2)
      && (ConversationTokens(r) <= maxTokens || |r| <= 2)
      && (ConversationTokens(ms) <= maxTokens ==> r == ms)
    decreases |ms|
  {
    if ConversationTokens(ms) > maxTokens && |ms| > 2 {
      var next := [ms[0]] + ms[2..];
      TrimTokensSpec(next, maxTokens);
      var r := TrimTokens(ms, maxTokens);
      assert r == TrimTokens(next, maxTokens);
      assert next[|next| - |r| + 1..] == ms[|ms| - |r| + 1..];
    }
  }

  /** The window trim: when more than `windowSize + 1` messages are held,
      keep the first and `messages[-windowSize:]`. */
  function TrimWindow(ms: seq<Message>, windowSize: int): (r: seq<Message>)
    requires |ms| >= 1
    ensures |r| >= 1 && r[0] == ms[0]
  {
    if |ms| > windowSize + 1 then [ms[0]] + PySlice(ms, -windowSize, |ms|) else ms
  }

  /** For a positive window the trim keeps the first message and the newest
      `windowSize` ones. */
  lemma TrimWindowKeepsNewest(ms: seq<Message>, windowSize: int)
    requires |ms| >= 1 && windowSize >= 1
    ensures var r := TrimWindow(ms, windowSize);
      |r| <= windowSize + 1 && r[0] == ms[0] && r[1..] == ms[|ms| - |r| + 1..]
  {
    var r := TrimWindow(ms, windowSize);
    if |ms| > windowSize + 1 {
      assert PySlice(ms, -windowSize, |ms|) == ms[|ms| - windowSize..];
      assert r[1..] == ms[|ms| - windowSize..];
    }
  }

  /** A window of size zero does not trim: `messages[-0:]` is the whole
      list, so every added message puts another copy of the system message
      in front. */
  lemma WindowZeroDuplicatesSystem(ms: seq<Message>)
    requires |ms| >= 2
    ensures TrimWindow(ms, 0) == [ms[0]] + ms
    ensures |TrimWindow(ms, 0)| == |ms| + 1
  {
    assert PySlice(ms, 0, |ms|) == ms;
  }

  /** The window trim as evidently intended: the first message and at most
      `windowSize` newest ones, for every window size. */
  function IntendedTrimWindow(ms: seq<Message>, windowSize: int): seq<Message>
    requires |ms| >= 1
  {
    if |ms| <= windowSize + 1 then ms
    else if windowSize <= 0 then [ms[0]]
    else [ms[0]] + ms[|ms| - windowSize..]
  }

  lemma IntendedTrimWindowBound(ms: seq<Message>, windowSize: int)
    requires |ms| >= 1
    ensures var r := IntendedTrimWindow(ms, windowSize);
      1 <= |r| <= (if windowSize < 0 then 0 else windowSize) + 1
         || (r == ms && |ms| <= windowSize + 1)
    ensures var r := IntendedTrimWindow(ms, windowSize);
      r[0] == ms[0] && r[1..] == ms[|ms| - |r| + 1..]
  {
  }

  /** The messages a summary replaces: `messages[1:-activeWindow]`, when more
      than `activeWindow + 1` messages are held. */
  function ToSummarize(ms: seq<Message>, activeWindow: int): seq<Message> {
    if |ms| > activeWindow + 1 then PySlice(ms, 1, -activeWindow) else []
  }

  /** The messages after a successful summary: the first, the summary as a
      system message, then `messages[-activeWindow:]`. */
  function Summarized(ms: seq<Message>, activeWindow: int, summary: string): seq<Message>
    requires |ms| >= 1
  {
    [ms[0], SystemMessage(SummaryPrefix + summary)] + PySlice(ms, -activeWindow, |ms|)
  }

  /** For a positive active window, the summarised messages and the kept
      ones are exactly the messages after the first, in order, and the
      result holds `activeWindow + 2` messages. */
  lemma SummaryPartition(ms: seq<Message>, activeWindow: int, summary: string)
    requires activeWindow >= 1 && |ms| > activeWindow + 1
    ensures ToSummarize(ms, activeWindow) + PySlice(ms, -activeWindow, |ms|) == ms[1..]
    ensures ToSummarize(ms, activeWindow) != []
    ensures |Summarized(ms, activeWindow, summary)| == activeWindow + 2
    ensures Summarized(ms, activeWindow, summary)[2..] == ms[|ms| - activeWindow..]
  {
    assert ToSummarize(ms, activeWindow) == ms[1..|ms| - activeWindow];
    assert PySlice(ms, -activeWindow, |ms|) == ms[|ms| - activeWindow..];
    assert ms[1..] == ms[1..|ms| - activeWindow] + ms[|ms| - activeWindow..];
  }

  /** An active window of zero never summarises: `messages[1:-0]` is empty. */
  lemma ActiveWindowZeroNeverSummarizes(ms: seq<Message>)
    requires |ms| >= 2
    ensures ToSummarize(ms, 0) == []
  {
    assert PySlice(ms, 1, 0) == [];
  }

  /** The text sent to the summariser: one "role: content" line per message. */
  function ConversationLines(ms: seq<Message>): (r: seq<string>)
    ensures |r| == |ms|
    ensures forall i :: 0 <= i < |ms| ==> r[i] == ms[i].role + ": " + ms[i].content
  {
    seq(|ms|, i requires 0 <= i < |ms| => ms[i].role + ": " + ms[i].content)
  }

  function ConversationText(ms: seq<Message>): string {
    Join(ConversationLines(ms), "\n")
  }

  /** A single message is sent as its own line. */
  lemma ConversationTextSingle(m: Message)
    ensures ConversationText([m]) == m.role + ": " + m.content
  {
    assert ConversationLines([m]) == [m.role + ": " + m.content];
  }

  /** Each further message adds a line break and its "role: content" line
      at the end, so the summariser sees the messages in order. */
  lemma ConversationTextSnoc(ms: seq<Message>, m: Message)
    requires ms != []
    ensures ConversationText(ms + [m]) == ConversationText(ms) + "\n" + (m.role + ": " + m.content)
  {
    assert ConversationLines(ms + [m]) == ConversationLines(ms) + [m.role + ": " + m.content];
    JoinSnoc(ConversationLines(ms), m.role + ": " + m.content, "\n");
  }

  // ------------------------------------------------------------ memories

  /** `ConversationMemory`: the system message and the message list. */
  class ConversationMemory {
    var systemMessage: string
    var messages: seq<Message>

    ghost predicate Valid()
      reads this
    {
      |messages| >= 1 && messages[0] == SystemMessage(systemMessage)
    }

    constructor (systemMessage: string)
      ensures Valid() && this.systemMessage == systemMessage
      ensures messages == [SystemMessage(systemMessage)]
    {
      this.systemMessage := systemMessage;
      messages := [SystemMessage(systemMessage)];
    }

    method AddMessage(role: string, content: string)
      requires Valid()
      modifies this`messages
      ensures Valid()
      ensures messages == old(messages) + [Message(role, content)]
    {
      messages := messages + [Message(role, content)];
    }

    method Clear()
      modifies this`messages
      ensures Valid()
      ensures messages == [SystemMessage(systemMessage)]
    {
      messages := [SystemMessage(systemMessage)];
    }

    method TokenCount() returns (n: nat)
      ensures n == ConversationTokens(messages)
    {
      n := ConversationTokens(messages);
    }
  }

  /** Drops the oldest messages after the first until the estimate fits the
      budget or two messages remain: the loop both trimming memories run. */
  method TrimToTokens(messages: seq<Message>, maxTokens: int) returns (r: seq<Message>)
    requires |messages| >= 1
    ensures r == TrimTokens(messages, maxTokens)
  {
    r := messages;
    var current := ConversationTokens(r);
    while current > maxTokens && |r| > 2
      invariant |r| >= 1
      invariant current == ConversationTokens(r)
      invariant TrimTokens(r, maxTokens) == TrimTokens(messages, maxTokens)
      decreases |r|
    {
      r := [r[0]] + r[2..];
      current := ConversationTokens(r);
    }
  }

  /** `WindowMemory`: a message window of `windowSize` after the system
      message, a token budget, and the full history of added messages. */
  class WindowMemory {
    var systemMessage: string
    var messages: seq<Message>
    var windowSize: int
    var maxTokens: int
    var fullHistory: seq<Message>

    ghost predicate Valid()
      reads this
    {
      |messages| >= 1 && messages[0] == SystemMessage(systemMessage)
    }

    constructor (systemMessage: string, windowSize: int, maxTokens: int)
      ensures Valid() && this.systemMessage == systemMessage
      ensures this.windowSize == windowSize && this.maxTokens == maxTokens
      ensures messages == [SystemMessage(systemMessage)] && fullHistory == []
    {
      this.systemMessage := systemMessage;
      messages := [SystemMessage(systemMessage)];
      this.windowSize := windowSize;
      this.maxTokens := maxTokens;
      fullHistory := [];
    }

    /** Records the message in the full history and the window, then trims
        the window by count and by tokens. */
    method AddMessage(role: string, content: string)
      requires Valid()
      modifies this`messages, this`fullHistory
      ensures Valid()
      ensures fullHistory == old(fullHistory) + [Message(role, content)]
      ensures messages == TrimTokens(TrimWindow(old(messages) + [Message(role, content)], windowSize), maxTokens)
    {
      var m := Message(role, content);
      fullHistory := fullHistory + [m];
      messages := messages + [m];
      ghost var added := messages;
      if |messages| > windowSize + 1 {
        messages := [messages[0]] + PySlice(messages, -windowSize, |messages|);
      }
      assert messages == TrimWindow(added, windowSize);
      messages := TrimToTokens(messages, maxTokens);
      TrimTokensSpec(TrimWindow(added, windowSize), maxTokens);
    }

    /** The system message and every message ever added, trims notwithstanding. */
    method GetFullHistory() returns (h: seq<Message>)
      ensures h == [SystemMessage(systemMessage)] + fullHistory
    {
      h := [SystemMessage(systemMessage)] + fullHistory;
    }

    /** Resets the window; the full history is kept. */
    method Clear()
      modifies this`messages
      ensures Valid()
      ensures messages == [SystemMessage(systemMessage)]
    {
      messages := [SystemMessage(systemMessage)];
    }
  }

  /** With a positive window, adding a message keeps the system message
      first, keeps the new message last and holds at most `windowSize + 1`
      messages. */
  lemma WindowAddKeepsNewest(ms: seq<Message>, m: Message, windowSize: int, maxTokens: int)
    requires |ms| >= 1 && windowSize >= 1
    ensures var r := TrimTokens(TrimWindow(ms + [m], windowSize), maxTokens);
      r[0] == ms[0] && r[|r| - 1] == m && |r| <= windowSize + 1
  {
    var w := TrimWindow(ms + [m], windowSize);
    TrimWindowKeepsNewest(ms + [m], windowSize);
    assert w[|w| - 1] == m;
    TrimTokensSpec(w, maxTokens);
  }

  /** `SummaryMemory`: messages, an active window kept verbatim, a token
      budget, the last summary and how many messages it covered. */
  class SummaryMemory {
    var systemMessage: string
    var messages: seq<Message>
    var activeWindow: int
    var maxTokens: int
    var summary: Option<string>
    var summarizedCount: nat

    ghost predicate Valid()
      reads this
    {
      |messages| >= 1 && messages[0] == SystemMessage(systemMessage)
    }

    constructor (systemMessage: string, activeWindow: int, maxTokens: int)
      ensures Valid() && this.systemMessage == systemMessage
      ensures this.activeWindow == activeWindow && this.maxTokens == maxTokens
      ensures messages == [SystemMessage(systemMessage)] && summary == None && summarizedCount == 0
    {
      this.systemMessage := systemMessage;
      messages := [SystemMessage(systemMessage)];
      this.activeWindow := activeWindow;
      this.maxTokens := maxTokens;
      summary := None;
      summarizedCount := 0;
    }

    /** Replaces the older messages by a summary. `reply` is the
        summariser's answer (absent when the request failed); `sent` is the
        conversation text the request carried, absent when nothing needed
        summarising. The count is recorded even when the reply is unusable. */
    method CreateSummary(reply: Option<string>) returns (sent: Option<string>)
      requires Valid()
      modifies this`messages, this`summary, this`summarizedCount
      ensures Valid()
      ensures var todo := ToSummarize(old(messages), activeWindow);
        sent == (if todo == [] then None else Some(ConversationText(todo)))
        && (todo == [] ==> messages == old(messages) && summary == old(summary)
                           && summarizedCount == old(summarizedCount))
        && (todo != [] ==> summarizedCount == |todo|)
        && (todo != [] && reply.Some? && reply.value != [] ==>
              summary == reply && messages == Summarized(old(messages), activeWindow, reply.value))
        && (todo != [] && (reply.None? || reply.value == []) ==>
              summary == old(summary) && messages == old(messages))
    {
      var todo := ToSummarize(messages, activeWindow);
      if todo == [] {
        return None;
      }
      sent := Some(ConversationText(todo));
      summarizedCount := |todo|;
      if reply.Some? && reply.value != [] {
        summary := reply;
        messages := [messages[0], SystemMessage(SummaryPrefix + reply.value)]
                    + PySlice(messages, -activeWindow, |messages|);
      }
    }

    /** Appends the message and summarises when the estimate exceeds the budget. */
    method AddMessage(role: string, content: string, reply: Option<string>) returns (sent: Option<string>)
      requires Valid()
      modifies this`messages, this`summary, this`summarizedCount
      ensures Valid()
      ensures var added := old(messages) + [Message(role, content)];
        (ConversationTokens(added) <= maxTokens ==>
          messages == added && summary == old(summary) && summarizedCount == old(summarizedCount)
          && sent == None)
        && (ConversationTokens(added) > maxTokens && ToSummarize(added, activeWindow) == [] ==>
          messages == added && summary == old(summary) && summarizedCount == old(summarizedCount)
          && sent == None)
        && (ConversationTokens(added) > maxTokens && ToSummarize(added, activeWindow) != [] ==>
          summarizedCount == |ToSummarize(added, activeWindow)|
          && summary == (if reply.Some? && reply.value != [] then reply else old(summary))
          && sent == Some(ConversationText(ToSummarize(added, activeWindow)))
          && messages == (if reply.Some? && reply.value != []
                          then Summarized(added, activeWindow, reply.value) else added))
    {
      messages := messages + [Message(role, content)];
      sent := None;
      if ConversationTokens(messages) > maxTokens {
        sent := CreateSummary(reply);
      }
    }

    method Clear()
      modifies this`messages, this`summary, this`summarizedCount
      ensures Valid()
      ensures messages == [SystemMessage(systemMessage)] && summary == None && summarizedCount == 0
    {
      messages := [SystemMessage(systemMessage)];
      summary := None;
      summarizedCount := 0;
    }
  }

  /** `TokenWindowMemory`: messages trimmed to a token budget after every addition. */
  class TokenWindowMemory {
    var systemMessage: string
    var messages: seq<Message>
    var maxTokens: int
    var systemTokens: nat
    var availableTokens: int

    ghost predicate Valid()
      reads this
    {
      |messages| >= 1 && messages[0] == SystemMessage(systemMessage)
    }

    constructor (systemMessage: string, maxTokens: int)
      ensures Valid() && this.systemMessage == systemMessage && this.maxTokens == maxTokens
      ensures messages == [SystemMessage(systemMessage)]
      ensures systemTokens == MessageTokens(SystemMessage(systemMessage))
      ensures availableTokens == maxTokens - systemTokens
    {
      this.systemMessage := systemMessage;
      messages := [SystemMessage(systemMessage)];
      this.maxTokens := maxTokens;
      systemTokens := MessageTokens(SystemMessage(systemMessage));
      availableTokens := maxTokens - MessageTokens(SystemMessage(systemMessage));
    }

    method AddMessage(role: string, content: string)
      requires Valid()
      modifies this`messages
      ensures Valid()
      ensures messages == TrimTokens(old(messages) + [Message(role, content)], maxTokens)
    {
      messages := messages + [Message(role, content)];
      TrimTokensSpec(messages, maxTokens);
      messages := TrimToTokens(messages, maxTokens);
    }

    method Clear()
      modifies this`messages
      ensures Valid()
      ensures messages == [SystemMessage(systemMessage)]
    {
      messages := [SystemMessage(systemMessage)];
    }
  }

  // ------------------------------------------------------------ sessions

  /** A session's memory, of one of the three kinds the manager creates. */
  datatype Session =
    | WindowSession(window: WindowMemory)
    | SummarySession(summarizing: SummaryMemory)
    | TokenSession(tokens: TokenWindowMemory)

  function SessionObject(s: Session): object {
    match s
    case WindowSession(w) => w
    case SummarySession(m) => m
    case TokenSession(t) => t
  }

  /** What `get_session_info` reports for a session, without its timestamps. */
  datatype SessionInfo = SessionInfo(memoryType: string, messageCount: int, tokenCount: nat)

  /** The message list a session's memory holds. */
  function MessagesOf(s: Session): seq<Message>
    reads SessionObject(s)
  {
    match s
    case WindowSession(w) => w.messages
    case SummarySession(m) => m.messages
    case TokenSession(t) => t.messages
  }

  /** The class name `memory.__class__.__name__` gives for a kind. */
  function ClassName(kind: nat): string {
    if kind == 1 then "SummaryMemory" else if kind == 2 then "TokenWindowMemory" else "WindowMemory"
  }

  /** The report of one session: its class name, the messages after the
      system message, and the token estimate of all its messages. */
  function InfoOf(s: Session): (i: SessionInfo)
    reads SessionObject(s)
    ensures i.memoryType == ClassName(KindOf(s))
    ensures i.messageCount == |MessagesOf(s)| - 1
    ensures i.tokenCount == ConversationTokens(MessagesOf(s)) >= 2 * |MessagesOf(s)|
  {
    match s
    case WindowSession(w) => SessionInfo("WindowMemory", |w.messages| - 1, ConversationTokens(w.messages))
    case SummarySession(m) => SessionInfo("SummaryMemory", |m.messages| - 1, ConversationTokens(m.messages))
    case TokenSession(t) => SessionInfo("TokenWindowMemory", |t.messages| - 1, ConversationTokens(t.messages))
  }

  /** A session holding only its system message reports no messages and
      that message's estimate. */
  lemma FreshSessionInfo(s: Session, systemMessage: string)
    requires MessagesOf(s) == [SystemMessage(systemMessage)]
    ensures InfoOf(s).messageCount == 0
    ensures InfoOf(s).tokenCount == MessageTokens(SystemMessage(systemMessage))
  {
    var ms := MessagesOf(s);
    assert ms[..0] == [];
    assert ConversationTokens(ms) == ConversationTokens(ms[..0]) + MessageTokens(ms[0]);
  }

  /** One more message raises the reported count by one and the token
      count by that message's estimate. */
  lemma InfoAfterAdd(before: seq<Message>, m: Message, s: Session)
    requires MessagesOf(s) == before + [m]
    ensures InfoOf(s).messageCount == |before|
    ensures InfoOf(s).tokenCount == ConversationTokens(before) + MessageTokens(m)
  {
    assert (before + [m])[..|before|] == before;
  }

  /** The kind of memory `get_memory` creates for a requested type: unknown
      types get a window memory. */
  function KindFor(memoryType: string): (k: nat)
    ensures k == 1 <==> memoryType == "summary"
    ensures k == 2 <==> memoryType == "token"
    ensures k == 0 <==> memoryType != "summary" && memoryType != "token"
  {
    if memoryType == "summary" then 1 else if memoryType == "token" then 2 else 0
  }

  function KindOf(s: Session): nat {
    match s
    case WindowSession(_) => 0
    case SummarySession(_) => 1
    case TokenSession(_) => 2
  }

  /** `MemoryManager`: the memory of every session, by session id. */
  class MemoryManager {
    var sessions: map<string, Session>
    var apiKey: string

    constructor (apiKey: string)
      ensures sessions == map[] && this.apiKey == apiKey
    {
      sessions := map[];
      this.apiKey := apiKey;
    }

    /** The memory of an existing session, untouched whatever type or system
        message is asked for; otherwise a fresh memory of the requested kind
        with the default settings, registered under the id. */
    method GetMemory(sessionId: string, memoryType: string, systemMessage: string) returns (s: Session)
      modifies this`sessions
      ensures sessionId in old(sessions) ==> s == old(sessions)[sessionId] && sessions == old(sessions)
      ensures sessionId !in old(sessions) ==>
        sessions == old(sessions)[sessionId := s] && fresh(SessionObject(s))
        && KindOf(s) == KindFor(memoryType)
      ensures sessionId !in old(sessions) ==>
        match s
        case WindowSession(w) =>
          w.messages == [SystemMessage(systemMessage)] && w.fullHistory == []
          && w.windowSize == 10 && w.maxTokens == 4000 && w.Valid()
        case SummarySession(m) =>
          m.messages == [SystemMessage(systemMessage)] && m.summary == None
          && m.activeWindow == 6 && m.maxTokens == 4000 && m.Valid()
        case TokenSession(t) =>
          t.messages == [SystemMessage(systemMessage)] && t.maxTokens == 6000 && t.Valid()
    {
      if sessionId in sessions {
        return sessions[sessionId];
      }
      if memoryType == "summary" {
        var m := new SummaryMemory(systemMessage, 6, 4000);
        s := SummarySession(m);
      } else if memoryType == "token" {
        var t := new TokenWindowMemory(systemMessage, 6000);
        s := TokenSession(t);
      } else {
        var w := new WindowMemory(systemMessage, 10, 4000);
        s := WindowSession(w);
      }
      sessions := sessions[sessionId := s];
    }

    /** Clears a known session's memory the way its kind clears; an unknown
        id is ignored. Only the cleared fields change: the settings stay. */
    method ClearMemory(sessionId: string)
      modifies if sessionId in sessions then {SessionObject(sessions[sessionId])} else {}
      ensures sessionId in sessions ==>
        match sessions[sessionId]
        case WindowSession(w) =>
          w.Valid() && w.messages == [SystemMessage(w.systemMessage)] && w.fullHistory == old(w.fullHistory)
          && w.systemMessage == old(w.systemMessage) && w.windowSize == old(w.windowSize)
          && w.maxTokens == old(w.maxTokens)
        case SummarySession(m) =>
          m.Valid() && m.messages == [SystemMessage(m.systemMessage)] && m.summary == None && m.summarizedCount == 0
          && m.systemMessage == old(m.systemMessage) && m.activeWindow == old(m.activeWindow)
          && m.maxTokens == old(m.maxTokens)
        case TokenSession(t) =>
          t.Valid() && t.messages == [SystemMessage(t.systemMessage)]
          && t.systemMessage == old(t.systemMessage) && t.maxTokens == old(t.maxTokens)
          && t.systemTokens == old(t.systemTokens) && t.availableTokens == old(t.availableTokens)
    {
      if sessionId in sessions {
        match sessions[sessionId]
        case WindowSession(w) => w.Clear();
        case SummarySession(m) => m.Clear();
        case TokenSession(t) => t.Clear();
      }
    }

    /** Forgets a session; an unknown id is ignored. */
    method DeleteSession(sessionId: string)
      modifies this`sessions
      ensures sessions == old(sessions) - {sessionId}
    {
      if sessionId in sessions {
        sessions := sessions - {sessionId};
      }
    }

    /** One report per session: its kind, its messages after the system
        message, and its token estimate. */
    function SessionInfos(): (r: map<string, SessionInfo>)
      reads this, set id | id in sessions :: SessionObject(sessions[id])
      ensures r.Keys == sessions.Keys
      ensures forall id :: id in sessions ==>
        && r[id].memoryType == ClassName(KindOf(sessions[id]))
        && r[id].messageCount == |MessagesOf(sessions[id])| - 1
        && r[id].tokenCount == ConversationTokens(MessagesOf(sessions[id]))
    {
      map id | id in sessions :: InfoOf(sessions[id])
    }
  }
}

=== FILE: notebook.dfy ===
/** The text handling of the paper-to-notebook backend
    (paper-to-notebook/backend/app.py): cleaning the model's JSON replies,
    the retry policy around model calls, turning a cell list into a notebook,
    tidying the reported metrics, and the checks on uploads, arXiv links and
    job ids. Model calls, JSON decoding and random ids are parameters. */
module Notebook {
  import opened Wrappers
  import opened PyText
  import LlmText

  // ---------------------------------------------------------------- fences

  /** `s.index(c)`: the first position of `c`, or `None` where Python raises. */
  function FirstIndex(s: string, c: char): (r: Option<nat>)
    ensures r.Some? ==> r.value < |s| && s[r.value] == c && c !in s[..r.value]
    ensures r.None? ==> c !in s
  {
    if s == [] then None
    else if s[0] == c then Some(0)
    else match FirstIndex(s[1..], c)
      case None => None
      case Some(k) =>
        assert s[..k + 1] == [s[0]] + s[1..][..k];
        Some(k + 1)
  }

  /** The marker of a Markdown code fence. */
  const Fence: string := "```"

  /** A leading fence loses everything up to and including the first newline;
      with no newline Python raises, with the message `missing`. */
  function DropOpenFence(text: string, missing: string): Result<string, string> {
    if !StartsWith(text, Fence) then Ok(text)
    else match FirstIndex(text, '\n')
      case None => Err(missing)
      case Some(n) => Ok(text[n + 1..])
  }

  /** A trailing fence loses its three characters. */
  function DropCloseFence(text: string): string {
    if EndsWith(text, Fence) then text[..|text| - 3] else text
  }

  /** The clean-up of a model reply before it is decoded: trim, drop a
      leading fence line and a trailing fence, trim again. */
  function Unfence(raw: string, missing: string): Result<string, string> {
    match DropOpenFence(Strip(raw), missing)
    case Err(e) => Err(e)
    case Ok(t) => Ok(Strip(DropCloseFence(t)))
  }

  /** Clean-up fails exactly when the trimmed reply opens a fence that has no newline. */
  lemma UnfenceFails(raw: string, missing: string)
    ensures Unfence(raw, missing).Err? <==> StartsWith(Strip(raw), Fence) && '\n' !in Strip(raw)
    ensures Unfence(raw, missing).Err? ==> Unfence(raw, missing).error == missing
  {
  }

  /** What the clean-up keeps neither starts nor ends with whitespace. */
  lemma UnfenceTrimmed(raw: string, missing: string)
    requires Unfence(raw, missing).Ok?
    ensures var t := Unfence(raw, missing).value;
      t == [] || (!IsSpace(t[0]) && !IsSpace(t[|t| - 1]))
  {
    var t := DropOpenFence(Strip(raw), missing).value;
    StripSpec(DropCloseFence(t));
  }

  /** A string without whitespace at either end is its own `strip()`. */
  lemma StripKeeps(s: string)
    requires s == [] || (!IsSpace(s[0]) && !IsSpace(s[|s| - 1]))
    ensures Strip(s) == s
  {
    if s != [] {
      assert LeadingSpaces(s) == 0;
      assert TrailingSpaces(s) == 0;
    }
  }

  /** A trimmed string with a newline after it trims back to itself. */
  lemma StripNewline(b: string)
    requires Strip(b) == b
    ensures Strip(b + "\n") == b
  {
    StripSpec(b);
    var s := b + "\n";
    if b == [] {
      assert LeadingSpaces(s) == 1 + LeadingSpaces(s[1..]);
      assert s[1..] == [];
    } else {
      assert LeadingSpaces(s) == 0;
      assert s[..|s| - 1] == b;
      assert TrailingSpaces(s) == 1 + TrailingSpaces(b);
      assert TrailingSpaces(b) == 0;
    }
  }

  /** Clean-up undoes fencing: a trimmed body put between a fence line with
      any tag and a closing fence comes back unchanged, and a trimmed body
      that neither opens nor closes a fence is kept as it is. */
  lemma UnfenceRoundTrip(tag: string, body: string, missing: string)
    requires '\n' !in tag && Strip(body) == body
    ensures Unfence(Fence + tag + "\n" + body + "\n" + Fence, missing) == Ok(body)
    ensures !StartsWith(body, Fence) && !EndsWith(body, Fence) ==> Unfence(body, missing) == Ok(body)
  {
    UnfenceFenced(tag, body, missing);
  }

  /** The fenced case of the round trip. */
  lemma UnfenceFenced(tag: string, body: string, missing: string)
    requires '\n' !in tag && Strip(body) == body
    ensures Unfence(Fence + tag + "\n" + body + "\n" + Fence, missing) == Ok(body)
  {
    var rest := body + "\n" + Fence;
    var raw := Fence + tag + "\n" + body + "\n" + Fence;
    assert raw == Fence + tag + "\n" + rest;
    StripKeeps(raw);
    OpenFenceDropped(tag, rest, missing);
    assert DropCloseFence(rest) == body + "\n";
    StripNewline(body);
  }

  /** A leading fence line, whatever its tag, is dropped up to its newline. */
  lemma OpenFenceDropped(tag: string, rest: string, missing: string)
    requires '\n' !in tag
    ensures DropOpenFence(Fence + tag + "\n" + rest, missing) == Ok(rest)
  {
    var raw := Fence + tag + "\n" + rest;
    var n := 3 + |tag|;
    assert raw[..3] == Fence;
    assert raw[n] == '\n';
    assert raw[..n] == Fence + tag;
    assert FirstIndex(raw, '\n') == Some(n);
    assert raw[n + 1..] == rest;
  }

  // ---------------------------------------------------------------- JSON replies

  /** What the repair call is asked: its user prompt and token budget. */
  datatype RepairRequest = RepairRequest(prompt: string, maxTokens: nat)

  /** `max(len(text) // 2, 4096)`. */
  function RepairTokens(text: string): (n: nat)
    ensures n >= 4096 && n >= |text| / 2 && (n == 4096 || n == |text| / 2)
  {
    if |text| / 2 >= 4096 then |text| / 2 else 4096
  }

  const RepairHead: string := "The following text was supposed to be valid JSON but has a syntax error:\n\n"
  const RepairMid: string := "\n\nError: "
  const RepairTail: string := "\n\nReturn ONLY the corrected valid JSON, nothing else."

  /** The repair prompt: the first 4000 characters of the text and the decoder's error. */
  function RepairPrompt(text: string, error: string): (r: string)
    ensures var shown := if |text| <= 4000 then text else text[..4000];
      && OccursAt(r, shown, |RepairHead|)
      && OccursAt(r, error, |RepairHead| + |shown| + |RepairMid|)
  {
    LlmText.FillSpec(RepairHead, PySlice(text, 0, 4000), RepairMid, error, RepairTail);
    LlmText.Fill(RepairHead, PySlice(text, 0, 4000), RepairMid, error, RepairTail)
  }

  /** The outcome of `parse_llm_json`: the decoded value or the error raised,
      and the repair request when one was made. */
  datatype Parsed<T> = Parsed(result: Result<T, string>, asked: Option<RepairRequest>)

  const NoNewline: string := "substring not found"
  const NoSecondPiece: string := "list index out of range"

  /** `parse_llm_json`: clean up and decode the reply; when decoding fails,
      ask the repair call once and decode its cleaned-up answer. `decode` is
      `json.loads`, `repair` the model call made with the repair request. */
  function ParseLlmJson<T>(raw: string, decode: string -> Result<T, string>,
                           repair: RepairRequest -> Result<string, string>): (r: Parsed<T>)
    ensures Unfence(raw, NoNewline).Ok? && decode(Unfence(raw, NoNewline).value).Ok?
            ==> r == Parsed(decode(Unfence(raw, NoNewline).value), None)
    ensures r.asked.Some? ==> r.asked.value.maxTokens >= 4096
  {
    match Unfence(raw, NoNewline)
    case Err(e) => Parsed(Err(e), None)
    case Ok(text) =>
      match decode(text)
      case Ok(v) => Parsed(Ok(v), None)
      case Err(e) =>
        var request := RepairRequest(RepairPrompt(text, e), RepairTokens(text));
        match repair(request)
        case Err(f) => Parsed(Err(f), Some(request))
        case Ok(repaired) =>
          match Unfence(repaired, NoSecondPiece)
          case Err(g) => Parsed(Err(g), Some(request))
          case Ok(fixed) => Parsed(decode(fixed), Some(request))
  }

  /** A value comes back only from decoding the cleaned reply, or, after that
      failed, the cleaned answer of the one repair call; the repair request
      quotes the start of the cleaned reply and the decoder's error. */
  lemma ParseLlmJsonSources<T>(raw: string, decode: string -> Result<T, string>,
                               repair: RepairRequest -> Result<string, string>)
    ensures var r := ParseLlmJson(raw, decode, repair);
      var first := Unfence(raw, NoNewline);
      && (r.result.Ok? ==>
            && first.Ok?
            && (|| r.result == decode(first.value)
                || (&& r.asked.Some? && repair(r.asked.value).Ok?
                    && r.result == decode(Unfence(repair(r.asked.value).value, NoSecondPiece).value))))
      && (r.asked.Some? ==>
            && first.Ok? && decode(first.value).Err?
            && r.asked.value.maxTokens == RepairTokens(first.value)
            && OccursAt(r.asked.value.prompt, PySlice(first.value, 0, 4000), |RepairHead|)
            && OccursAt(r.asked.value.prompt, decode(first.value).error,
                        |RepairHead| + |PySlice(first.value, 0, 4000)| + |RepairMid|))
  {
    var first := Unfence(raw, NoNewline);
    if first.Ok? && decode(first.value).Err? {
      var text := first.value;
      LlmText.FillSpec(RepairHead, PySlice(text, 0, 4000), RepairMid, decode(text).error, RepairTail);
    }
  }

  // ---------------------------------------------------------------- retries

  const MaxRetries: nat := 3
  const RetryDelays: seq<nat> := [5, 15, 30]

  const KeyErrors: seq<string> := ["api key not valid", "api_key_invalid", "invalid_argument"]
  const TransientErrors: seq<string> := ["429", "rate", "500", "503", "overloaded", "unavailable"]

  /** How a failed call is treated, from its lowered message; the key test comes first. */
  datatype ErrorKind = KeyError | Transient | OtherError

  function KindOf(message: string): ErrorKind {
    var m := Lower(message);
    if ContainsAny(m, KeyErrors) then KeyError
    else if ContainsAny(m, TransientErrors) then Transient
    else OtherError
  }

  /** Why the calls stopped without a reply. */
  datatype Failure = InvalidKey | Raised(message: string) | GaveUp(last: Option<string>)

  /** The course of `call_gemini_with_retry`: the outcome, the pauses taken
      and the number of calls made. */
  datatype Retried = Retried(result: Result<string, Failure>, sleeps: seq<nat>, calls: nat)

  /** The pause after a transient failure of attempt `attempt`: `RETRY_DELAYS[min(attempt, 2)]`. */
  function Delay(attempt: nat): nat {
    RetryDelays[if attempt < 2 then attempt else 2]
  }

  /** A course of calls preceded by `calls` earlier calls and the pauses `sleeps`. */
  function After(sleeps: seq<nat>, calls: nat, r: Retried): Retried {
    Retried(r.result, sleeps + r.sleeps, calls + r.calls)
  }

  /** The retry loop from attempt `attempt` on; `call(k)` is what the k-th
      call returns or raises, `last` the last transient error so far. */
  function RetryFrom(call: nat -> Result<string, string>, attempt: nat, last: Option<string>): (r: Retried)
    requires attempt <= MaxRetries
    ensures r.calls <= MaxRetries - attempt && |r.sleeps| <= r.calls
    decreases MaxRetries - attempt
  {
    if attempt == MaxRetries then Retried(Err(GaveUp(last)), [], 0)
    else match call(attempt)
      case Ok(text) => Retried(Ok(text), [], 1)
      case Err(e) =>
        match KindOf(e)
        case KeyError => Retried(Err(InvalidKey), [], 1)
        case OtherError => Retried(Err(Raised(e)), [], 1)
        case Transient => After([Delay(attempt)], 1, RetryFrom(call, attempt + 1, Some(e)))
  }

  /** One transient failure: a pause, then the loop from the next attempt. */
  lemma RetryStep(call: nat -> Result<string, string>, attempt: nat, next: nat, last: Option<string>,
                  sleeps: seq<nat>, calls: nat, e: string)
    requires attempt < MaxRetries && next == attempt + 1
    requires call(attempt) == Err(e) && KindOf(e) == Transient
    ensures After(sleeps, calls, RetryFrom(call, attempt, last))
            == After(sleeps + [Delay(attempt)], calls + 1, RetryFrom(call, next, Some(e)))
  {
    var rest := RetryFrom(call, next, Some(e));
    assert sleeps + ([Delay(attempt)] + rest.sleeps) == sleeps + [Delay(attempt)] + rest.sleeps;
  }

  /** `call_gemini_with_retry`: at most three calls; an invalid key stops at
      once, a transient error pauses and tries again, anything else is
      raised; after three transient errors it gives up. */
  method CallWithRetry(call: nat -> Result<string, string>)
    returns (result: Result<string, Failure>, sleeps: seq<nat>, calls: nat)
    ensures Retried(result, sleeps, calls) == RetryFrom(call, 0, None)
  {
    var last: Option<string> := None;
    sleeps := [];
    calls := 0;
    var attempt: nat := 0;
    assert After(sleeps, calls, RetryFrom(call, 0, None)) == RetryFrom(call, 0, None);
    while attempt < MaxRetries
      invariant attempt <= MaxRetries
      invariant After(sleeps, calls, RetryFrom(call, attempt, last)) == RetryFrom(call, 0, None)
    {
      match call(attempt)
      case Ok(text) =>
        result := Ok(text);
        calls := calls + 1;
        return;
      case Err(e) =>
        match KindOf(e)
        case KeyError =>
          result := Err(InvalidKey);
          calls := calls + 1;
          return;
        case OtherError =>
          result := Err(Raised(e));
          calls := calls + 1;
          return;
        case Transient =>
          var next: nat := attempt + 1;
          RetryStep(call, attempt, next, last, sleeps, calls, e);
          sleeps := sleeps + [Delay(attempt)];
          calls := calls + 1;
          last := Some(e);
          attempt := next;
    }
    assert attempt == MaxRetries;
    result := Err(GaveUp(last));
  }

  /** The calls up to attempt `k` (excluded) all failed with transient errors. */
  predicate TransientUpTo(call: nat -> Result<string, string>, k: nat) {
    forall j :: 0 <= j < k ==> call(j).Err? && KindOf(call(j).error) == Transient
  }

  /** The pauses are 5, 15 and 30 seconds in that order, one per transient
      failure, the last one included. */
  lemma {:induction false} RetrySleeps(call: nat -> Result<string, string>, attempt: nat, last: Option<string>)
    requires attempt <= MaxRetries
    ensures var r := RetryFrom(call, attempt, last);
      attempt + |r.sleeps| <= MaxRetries && r.sleeps == RetryDelays[attempt..attempt + |r.sleeps|]
    decreases MaxRetries - attempt
  {
    if attempt < MaxRetries && call(attempt).Err? && KindOf(call(attempt).error) == Transient {
      RetrySleeps(call, attempt + 1, Some(call(attempt).error));
    }
  }

  /** The loop gives up exactly when all three calls fail with transient
      errors; it then has made three calls, paused 5, 15 and 30 seconds, and
      reports the third error. */
  lemma {:induction false} RetryGivesUp(call: nat -> Result<string, string>, attempt: nat, last: Option<string>)
    requires attempt <= MaxRetries
    ensures var r := RetryFrom(call, attempt, last);
      r.result.Err? && r.result.error.GaveUp?
      <==> forall j :: attempt <= j < MaxRetries ==> call(j).Err? && KindOf(call(j).error) == Transient
    ensures var r := RetryFrom(call, attempt, last);
      r.result.Err? && r.result.error.GaveUp? ==>
        && r.calls == MaxRetries - attempt && r.sleeps == RetryDelays[attempt..]
        && r.result.error.last == (if attempt < MaxRetries then Some(call(2).error) else last)
  {
    RetryGivesUpIff(call, attempt, last);
    RetryGivesUpTrace(call, attempt, last);
  }

  lemma {:induction false} RetryGivesUpIff(call: nat -> Result<string, string>, attempt: nat, last: Option<string>)
    requires attempt <= MaxRetries
    ensures var r := RetryFrom(call, attempt, last);
      r.result.Err? && r.result.error.GaveUp? <==> TransientUntil(call, attempt, MaxRetries)
    decreases MaxRetries - attempt
  {
    if attempt < MaxRetries {
      if call(attempt).Err? && KindOf(call(attempt).error) == Transient {
        RetryGivesUpIff(call, attempt + 1, Some(call(attempt).error));
        assert TransientUntil(call, attempt, MaxRetries) <==> TransientUntil(call, attempt + 1, MaxRetries);
      } else {
        assert !TransientUntil(call, attempt, MaxRetries);
      }
    }
  }

  lemma {:induction false} RetryGivesUpTrace(call: nat -> Result<string, string>, attempt: nat, last: Option<string>)
    requires attempt <= MaxRetries
    ensures var r := RetryFrom(call, attempt, last);
      r.result.Err? && r.result.error.GaveUp? ==>
        && r.calls == MaxRetries - attempt && r.sleeps == RetryDelays[attempt..]
        && r.result.error.last == (if attempt < MaxRetries then Some(call(2).error) else last)
    decreases MaxRetries - attempt
  {
    if attempt < MaxRetries && call(attempt).Err? && KindOf(call(attempt).error) == Transient {
      RetryGivesUpTrace(call, attempt + 1, Some(call(attempt).error));
      assert [Delay(attempt)] + RetryDelays[attempt + 1..] == RetryDelays[attempt..];
    }
  }

  /** A reply comes back exactly when some call succeeds after only transient failures. */
  lemma RetryReplies(call: nat -> Result<string, string>, attempt: nat, last: Option<string>, text: string)
    requires attempt <= MaxRetries
    ensures RetryFrom(call, attempt, last).result == Ok(text)
            <==> exists k :: attempt <= k < MaxRetries && call(k) == Ok(text)
                   && forall j :: attempt <= j < k ==> call(j).Err? && KindOf(call(j).error) == Transient
  {
    RetryRepliesFrom(call, attempt, last, text);
  }

  /** Every call from `attempt` up to `k` failed with a transient error. */
  predicate TransientUntil(call: nat -> Result<string, string>, attempt: nat, k: nat) {
    forall j :: attempt <= j < k ==> call(j).Err? && KindOf(call(j).error) == Transient
  }

  /** Some call from `attempt` on returned `text` after only transient failures. */
  predicate RepliedFrom(call: nat -> Result<string, string>, attempt: nat, text: string) {
    exists k :: attempt <= k < MaxRetries && call(k) == Ok(text) && TransientUntil(call, attempt, k)
  }

  lemma {:induction false} RetryRepliesFrom(call: nat -> Result<string, string>, attempt: nat, last: Option<string>, text: string)
    requires attempt <= MaxRetries
    ensures RetryFrom(call, attempt, last).result == Ok(text) <==> RepliedFrom(call, attempt, text)
    decreases MaxRetries - attempt
  {
    if attempt == MaxRetries {
      NotRepliedAfterStop(call, attempt, text);
    } else if call(attempt).Err? && KindOf(call(attempt).error) == Transient {
      var e := call(attempt).error;
      RetryRepliesFrom(call, attempt + 1, Some(e), text);
      RepliedSkip(call, attempt, text);
    } else if call(attempt).Ok? {
      RepliedHere(call, attempt, text);
    } else {
      NotRepliedAfterStop(call, attempt, text);
    }
  }

  /** With no call left, or a call that fails for good, nothing is returned from `attempt` on. */
  lemma NotRepliedAfterStop(call: nat -> Result<string, string>, attempt: nat, text: string)
    requires attempt == MaxRetries || (call(attempt).Err? && KindOf(call(attempt).error) != Transient)
    ensures !RepliedFrom(call, attempt, text)
  {
  }

  /** A call that returns is the reply, whatever comes after it. */
  lemma RepliedHere(call: nat -> Result<string, string>, attempt: nat, text: string)
    requires attempt < MaxRetries && call(attempt).Ok?
    ensures RepliedFrom(call, attempt, text) <==> call(attempt) == Ok(text)
  {
    if call(attempt) == Ok(text) {
      assert TransientUntil(call, attempt, attempt);
    }
    if RepliedFrom(call, attempt, text) {
      var k: nat :| attempt <= k < MaxRetries && call(k) == Ok(text) && TransientUntil(call, attempt, k);
      assert k == attempt;
    }
  }

  /** After a transient failure, the reply is the one from the next attempt on. */
  lemma RepliedSkip(call: nat -> Result<string, string>, attempt: nat, text: string)
    requires attempt < MaxRetries && call(attempt).Err? && KindOf(call(attempt).error) == Transient
    ensures RepliedFrom(call, attempt, text) <==> RepliedFrom(call, attempt + 1, text)
  {
    if RepliedFrom(call, attempt + 1, text) {
      var k: nat :| attempt + 1 <= k < MaxRetries && call(k) == Ok(text) && TransientUntil(call, attempt + 1, k);
      assert TransientUntil(call, attempt, k);
    }
    if RepliedFrom(call, attempt, text) {
      var k: nat :| attempt <= k < MaxRetries && call(k) == Ok(text) && TransientUntil(call, attempt, k);
      assert k != attempt;
      assert TransientUntil(call, attempt + 1, k);
    }
  }

  /** A key error ends the loop at once, even when its message also names a
      transient condition. */
  lemma RetryKeyFirst(call: nat -> Result<string, string>)
    requires call(0).Err? && ContainsAny(Lower(call(0).error), KeyErrors)
    ensures RetryFrom(call, 0, None) == Retried(Err(InvalidKey), [], 1)
  {
  }

  // ---------------------------------------------------------------- notebooks

  /** One entry of the generated cell list. */
  datatype CellSpec = CellSpec(cellType: string, source: string)

  /** A notebook cell. */
  datatype Cell = Markdown(source: string) | Code(source: string)

  /** The notebook: its kernel and language metadata and its cells. */
  datatype Document = Document(kernelName: string, kernelDisplay: string, kernelLanguage: string,
                               language: string, languageVersion: string, cells: seq<Cell>)

  /** The cell an entry becomes, or the error for an unknown type. */
  function CellOf(spec: CellSpec): Result<Cell, string> {
    if spec.cellType == "markdown" then Ok(Markdown(spec.source))
    else if spec.cellType == "code" then Ok(Code(spec.source))
    else Err("Unknown cell type: " + spec.cellType)
  }

  /** The cells of a list of entries, in order, stopping at the first unknown type. */
  function CellsOf(specs: seq<CellSpec>): (r: Result<seq<Cell>, string>)
    ensures r.Ok? ==> |r.value| == |specs|
  {
    if specs == [] then Ok([])
    else match CellsOf(specs[..|specs| - 1])
      case Err(e) => Err(e)
      case Ok(cells) =>
        match CellOf(specs[|specs| - 1])
        case Err(e) => Err(e)
        case Ok(c) => Ok(cells + [c])
  }

  /** A notebook with the Python 3 kernel and the given cells. */
  function NotebookWith(cells: seq<Cell>): Document {
    Document("python3", "Python 3", "python", "python", "3.9", cells)
  }

  /** `build_notebook`: one cell per entry, in order. */
  method BuildNotebook(specs: seq<CellSpec>) returns (r: Result<Document, string>)
    ensures CellsOf(specs).Ok? ==> r == Ok(NotebookWith(CellsOf(specs).value))
    ensures CellsOf(specs).Err? ==> r == Err(CellsOf(specs).error)
  {
    var cells: seq<Cell> := [];
    for k := 0 to |specs|
      invariant CellsOf(specs[..k]) == Ok(cells)
    {
      assert specs[..k + 1][..k] == specs[..k];
      match CellOf(specs[k])
      case Err(e) =>
        assert CellsOf(specs[..k + 1]) == Err(e);
        CellsOfErrSticks(specs, k + 1);
        return Err(e);
      case Ok(c) =>
        cells := cells + [c];
    }
    assert specs[..|specs|] == specs;
    r := Ok(NotebookWith(cells));
  }

  /** An error in a prefix is the error of the whole list. */
  lemma {:induction false} CellsOfErrSticks(specs: seq<CellSpec>, k: nat)
    requires k <= |specs| && CellsOf(specs[..k]).Err?
    ensures CellsOf(specs) == CellsOf(specs[..k])
    decreases |specs| - k
  {
    if k < |specs| {
      assert specs[..k + 1][..k] == specs[..k];
      CellsOfErrSticks(specs, k + 1);
    } else {
      assert specs[..k] == specs;
    }
  }

  /** The entry types are all known exactly when the list converts; then
      each cell keeps its entry's source, as markdown or code by its type. */
  lemma {:induction false} CellsOfSpec(specs: seq<CellSpec>)
    ensures CellsOf(specs).Ok? <==> forall k :: 0 <= k < |specs| ==> specs[k].cellType in ["markdown", "code"]
    ensures CellsOf(specs).Ok? ==> forall k :: 0 <= k < |specs| ==>
              CellsOf(specs).value[k].source == specs[k].source
              && (CellsOf(specs).value[k].Markdown? <==> specs[k].cellType == "markdown")
  {
    if specs != [] {
      var init := specs[..|specs| - 1];
      CellsOfSpec(init);
      assert forall k :: 0 <= k < |init| ==> init[k] == specs[k];
    }
  }

  /** An unknown type is reported for the first entry that has one. */
  lemma {:induction false} CellsOfFirstError(specs: seq<CellSpec>, k: nat)
    requires k < |specs| && specs[k].cellType !in ["markdown", "code"]
    requires forall j :: 0 <= j < k ==> specs[j].cellType in ["markdown", "code"]
    ensures CellsOf(specs) == Err("Unknown cell type: " + specs[k].cellType)
  {
    var pre := specs[..k];
    CellsOfSpec(pre);
    assert specs[..k + 1][..k] == pre;
    assert CellsOf(specs[..k + 1]) == Err("Unknown cell type: " + specs[k].cellType);
    CellsOfErrSticks(specs, k + 1);
  }

  // ---------------------------------------------------------------- metrics

  /** The first '=' or '(' of a metric, or its length when there is none. */
  function FormulaStart(m: string): (p: nat)
    ensures p <= |m| && (p < |m| ==> m[p] == '=' || m[p] == '(')
    ensures forall i :: 0 <= i < p ==> m[i] != '=' && m[i] != '('
  {
    if m == [] || m[0] == '=' || m[0] == '(' then 0 else 1 + FormulaStart(m[1..])
  }

  /** `re.split(r'\s*[=(]', m)[0]`: the text before the first '=' or '(' and
      the whitespace right before it; the whole metric when there is neither. */
  function MetricName(m: string): string {
    var p := FormulaStart(m);
    if p == |m| then m else m[..p - TrailingSpaces(m[..p])]
  }

  /** `_clean_metric`: the name, trimmed, without trailing commas. */
  function CleanMetric(m: string): (r: string)
    ensures '=' !in r && '(' !in r
    ensures r == [] || r[|r| - 1] != ','
  {
    var n := MetricName(m);
    MetricNameAvoids(m);
    StripAvoids(n, '=');
    StripAvoids(n, '(');
    RStripCharAvoids(Strip(n), ',', '=');
    RStripCharAvoids(Strip(n), ',', '(');
    RStripChar(Strip(n), ',')
  }

  /** The name part of a metric holds no '=' and no '('. */
  lemma MetricNameAvoids(m: string)
    ensures '=' !in MetricName(m) && '(' !in MetricName(m)
  {
    var p := FormulaStart(m);
    var n := MetricName(m);
    assert n == m[..|n|] && |n| <= p;
    forall i | 0 <= i < |n|
      ensures n[i] != '=' && n[i] != '('
    {
      assert n[i] == m[i];
    }
  }

  /** A clean name followed by a formula is cut back to the name; a clean
      name on its own is kept. */
  lemma CleanMetricCutsFormula(name: string, gap: string, formula: string)
    requires name == [] || (!IsSpace(name[0]) && !IsSpace(name[|name| - 1]) && name[|name| - 1] != ',')
    requires '=' !in name && '(' !in name
    requires forall i :: 0 <= i < |gap| ==> IsSpace(gap[i])
    requires formula == [] || formula[0] == '=' || formula[0] == '('
    ensures CleanMetric(name + gap + formula) == name
  {
    var m := name + gap + formula;
    FormulaStartAfter(name, gap, formula);
    StripKeeps(name);
    if formula == [] {
      assert m == name + gap;
      assert MetricName(m) == m;
      StripSpaceTail(name, gap);
    } else {
      var p := |name| + |gap|;
      assert m[..p] == name + gap;
      TrailingSpacesOf(name, gap);
      assert MetricName(m) == name;
    }
  }

  /** The first '=' or '(' of `name + gap + formula` starts the formula. */
  lemma FormulaStartAfter(name: string, gap: string, formula: string)
    requires '=' !in name && '(' !in name
    requires forall i :: 0 <= i < |gap| ==> IsSpace(gap[i])
    requires formula == [] || formula[0] == '=' || formula[0] == '('
    ensures FormulaStart(name + gap + formula) == |name| + |gap|
  {
    var m := name + gap + formula;
    var q := |name| + |gap|;
    assert forall i :: 0 <= i < q ==> m[i] != '=' && m[i] != '(' by {
      forall i | 0 <= i < q
        ensures m[i] != '=' && m[i] != '('
      {
        if i < |name| {
          assert m[i] == name[i];
        } else {
          assert m[i] == gap[i - |name|];
        }
      }
    }
    assert q < |m| ==> m[q] == formula[0];
  }

  /** Trailing whitespace after a name that does not end in whitespace is exactly the gap. */
  lemma {:induction false} TrailingSpacesOf(name: string, gap: string)
    requires name == [] || !IsSpace(name[|name| - 1])
    requires forall i :: 0 <= i < |gap| ==> IsSpace(gap[i])
    ensures TrailingSpaces(name + gap) == |gap|
    decreases |gap|
  {
    if gap == [] {
      assert name + gap == name;
    } else {
      var g := gap[..|gap| - 1];
      assert (name + gap)[..|name + gap| - 1] == name + g;
      TrailingSpacesOf(name, g);
    }
  }

  /** Stripping a trimmed name followed by whitespace gives the name. */
  lemma StripSpaceTail(name: string, gap: string)
    requires name == [] || (!IsSpace(name[0]) && !IsSpace(name[|name| - 1]))
    requires forall i :: 0 <= i < |gap| ==> IsSpace(gap[i])
    ensures Strip(name + gap) == name
  {
    var s := name + gap;
    TrailingSpacesOf(name, gap);
    if name == [] {
      assert s == gap;
      LeadingSpacesSpec(s);
    } else {
      assert LeadingSpaces(s) == 0;
      assert s[..|name|] == name;
    }
  }

  /** The metrics shown: the clean forms of the first four that are not empty, in order. */
  function KeptMetrics(ms: seq<string>): (r: seq<string>)
    ensures |r| <= |ms|
    ensures forall k :: 0 <= k < |r| ==> r[k] != []
  {
    if ms == [] then []
    else
      var m := ms[|ms| - 1];
      KeptMetrics(ms[..|ms| - 1]) + (if m != [] && CleanMetric(m) != [] then [CleanMetric(m)] else [])
  }

  function CleanMetrics(raw: seq<string>): (r: seq<string>)
    ensures |r| <= 4
  {
    KeptMetrics(PySlice(raw, 0, 4))
  }

  /** Every metric shown is the clean form of one of the given ones. */
  lemma {:induction false} KeptMetricsSound(ms: seq<string>, t: string)
    requires t in KeptMetrics(ms)
    ensures exists k :: 0 <= k < |ms| && t == CleanMetric(ms[k])
  {
    var init := ms[..|ms| - 1];
    if t in KeptMetrics(init) {
      KeptMetricsSound(init, t);
      var k :| 0 <= k < |init| && t == CleanMetric(init[k]);
      assert init[k] == ms[k];
    }
  }

  /** Every given metric whose clean form is not empty is shown. */
  lemma {:induction false} KeptMetricsComplete(ms: seq<string>, k: nat)
    requires k < |ms| && CleanMetric(ms[k]) != []
    ensures CleanMetric(ms[k]) in KeptMetrics(ms)
  {
    var init := ms[..|ms| - 1];
    if k < |ms| - 1 {
      assert init[k] == ms[k];
      KeptMetricsComplete(init, k);
    } else {
      assert ms[k] != [];
    }
  }

  // ---------------------------------------------------------------- ids

  predicate IsHexDigit(c: char) { '0' <= c <= '9' || 'a' <= c <= 'f' }

  /** `uuid4().hex[:12]`: a job id, from the 32 hex digits of a random uuid. */
  function JobId(hex: string): (id: string)
    requires |hex| == 32
    ensures |id| == 12
  {
    hex[..12]
  }

  /** The id of a job's draft notebook. */
  function DraftId(jobId: string): string {
    jobId + "_draft"
  }

  /** Letters and digits only. */
  predicate AllAlnum(t: string) {
    forall i :: 0 <= i < |t| ==> IsAlnum(t[i])
  }

  /** Letters, digits and underscores only. */
  predicate IdChars(s: string) {
    forall i :: 0 <= i < |s| ==> IsAlnum(s[i]) || s[i] == '_'
  }

  /** The download check: with the underscores removed the id is a non-empty
      run of letters and digits. */
  predicate DownloadIdOk(id: string) {
    var t := ReplaceChar(id, '_', "");
    t != [] && AllAlnum(t)
  }

  /** A concatenation is letters and digits exactly when both parts are. */
  lemma AllAlnumAppend(a: string, b: string)
    ensures AllAlnum(a + b) <==> AllAlnum(a) && AllAlnum(b)
  {
    if AllAlnum(a + b) {
      forall i | 0 <= i < |b|
        ensures IsAlnum(b[i])
      {
        assert (a + b)[i + |a|] == b[i];
      }
      forall i | 0 <= i < |a|
        ensures IsAlnum(a[i])
      {
        assert (a + b)[i] == a[i];
      }
    }
    if AllAlnum(a) && AllAlnum(b) {
      forall i | 0 <= i < |a + b|
        ensures IsAlnum((a + b)[i])
      {
        if i >= |a| {
          assert (a + b)[i] == b[i - |a|];
        }
      }
    }
  }

  /** The id characters of a non-empty string: its first one and those of its tail. */
  lemma IdCharsCons(s: string)
    requires s != []
    ensures IdChars(s) <==> (IsAlnum(s[0]) || s[0] == '_') && IdChars(s[1..])
  {
    assert forall i :: 1 <= i < |s| ==> s[i] == s[1..][i - 1];
  }

  /** Nothing but underscores. */
  predicate AllUnderscores(s: string) {
    forall i :: 0 <= i < |s| ==> s[i] == '_'
  }

  lemma UnderscoresCons(s: string)
    requires s != []
    ensures AllUnderscores(s) <==> s[0] == '_' && AllUnderscores(s[1..])
  {
    assert forall i :: 1 <= i < |s| ==> s[i] == s[1..][i - 1];
  }

  /** Removing the underscores leaves letters and digits only exactly when
      there was nothing else, and nothing exactly when there were only
      underscores. */
  lemma Unscored(s: string)
    ensures AllAlnum(ReplaceChar(s, '_', "")) <==> IdChars(s)
    ensures ReplaceChar(s, '_', "") == [] <==> forall i :: 0 <= i < |s| ==> s[i] == '_'
  {
    UnscoredAlnum(s);
    UnscoredEmpty(s);
  }

  lemma {:induction false} UnscoredAlnum(s: string)
    ensures AllAlnum(ReplaceChar(s, '_', "")) <==> IdChars(s)
  {
    if s != [] {
      var tail := s[1..];
      UnscoredAlnum(tail);
      var head: string := if s[0] == '_' then "" else [s[0]];
      var u := ReplaceChar(tail, '_', "");
      assert ReplaceChar(s, '_', "") == head + u;
      AllAlnumAppend(head, u);
      IdCharsCons(s);
    }
  }

  lemma {:induction false} UnscoredEmpty(s: string)
    ensures ReplaceChar(s, '_', "") == [] <==> AllUnderscores(s)
  {
    if s != [] {
      var tail := s[1..];
      UnscoredEmpty(tail);
      var head: string := if s[0] == '_' then "" else [s[0]];
      assert ReplaceChar(s, '_', "") == head + ReplaceChar(tail, '_', "");
      UnderscoresCons(s);
    }
  }

  /** An id passes the download check exactly when it is made of letters,
      digits and underscores and is not underscores only; so it names no
      directory and no other file type. */
  lemma DownloadIdIff(id: string)
    ensures DownloadIdOk(id) <==> IdChars(id) && exists i :: 0 <= i < |id| && id[i] != '_'
  {
    Unscored(id);
  }

  /** Every id the service issues, job or draft, passes the download check. */
  lemma IssuedIdsPass(hex: string)
    requires |hex| == 32 && forall i :: 0 <= i < 32 ==> IsHexDigit(hex[i])
    ensures DownloadIdOk(JobId(hex)) && DownloadIdOk(DraftId(JobId(hex)))
  {
    var id := JobId(hex);
    var draft := DraftId(id);
    DownloadIdIff(id);
    DownloadIdIff(draft);
    assert id[0] == hex[0];
    assert draft[0] == hex[0];
    assert forall i :: 0 <= i < |draft| ==> IsAlnum(draft[i]) || draft[i] == '_' by {
      forall i | 0 <= i < |draft|
        ensures IsAlnum(draft[i]) || draft[i] == '_'
      {
        if i < 12 {
          assert draft[i] == hex[i];
        } else {
          assert draft[i] == "_draft"[i - 12];
        }
      }
    }
  }

  // ---------------------------------------------------------------- requests

  /** An HTTP error answer: its status and detail. */
  datatype HttpError = HttpError(status: nat, detail: string)

  const NotPdf: string := "File must be a PDF"
  const KeyRequired: string := "Gemini API key is required"
  const TooLarge: string := "PDF too large"
  const BadArxiv: string := "Invalid arXiv URL. Expected format: https://arxiv.org/abs/XXXX.XXXXX"
  const ArxivFailed: string := "Failed to download PDF from arXiv: "

  /** Bytes in a megabyte. */
  const Megabyte: nat := 1048576

  /** A size over the limit: `size / 2**20 > limit` holds exactly when
      `size > limit * 2**20`, the division by a power of two being exact. */
  predicate TooBig(size: nat, maxUploadMb: int) {
    size > maxUploadMb * Megabyte
  }

  /** The checks of an upload, in order: a PDF file name, an API key that is
      not blank, a size within the limit. The result is the trimmed key. */
  function CheckUpload(filename: Option<string>, apiKey: string, size: nat, maxUploadMb: int): (r: Result<string, HttpError>)
    ensures r.Ok? ==> r.value != [] && !IsSpace(r.value[0]) && !IsSpace(r.value[|r.value| - 1])
  {
    StripSpec(apiKey);
    if filename.None? || filename.value == [] || !EndsWith(Lower(filename.value), ".pdf") then Err(HttpError(400, NotPdf))
    else if Strip(apiKey) == [] then Err(HttpError(400, KeyRequired))
    else if TooBig(size, maxUploadMb) then Err(HttpError(413, TooLarge))
    else Ok(Strip(apiKey))
  }

  /** An upload is accepted exactly when its name ends in ".pdf" in any case,
      the key is not blank and the size is at most the limit; the name is
      checked first and the size last. */
  lemma CheckUploadIff(filename: Option<string>, apiKey: string, size: nat, maxUploadMb: int)
    ensures var r := CheckUpload(filename, apiKey, size, maxUploadMb);
      && (r.Ok? <==> filename.Some? && EndsWith(Lower(filename.value), ".pdf")
                     && !IsBlank(apiKey) && size <= maxUploadMb * Megabyte)
      && (r.Err? && r.error.status == 413 ==> EndsWith(Lower(filename.value), ".pdf") && !IsBlank(apiKey))
      && (filename.Some? && !EndsWith(Lower(filename.value), ".pdf") ==> r == Err(HttpError(400, NotPdf)))
  {
    StripSpec(apiKey);
  }

  /** The paper id captured when `arxiv\.org/(?:abs|pdf)/([0-9]+\.[0-9]+)`
      matches at position `i`: both digit runs are taken whole. */
  function ArxivAt(url: string, i: nat): (r: Option<string>)
    ensures r.Some? ==> OccursAt(url, "arxiv.org/", i)
  {
    if !OccursAt(url, "arxiv.org/", i) then None
    else
      var j := i + 10;
      if !(OccursAt(url, "abs/", j) || OccursAt(url, "pdf/", j)) then None
      else
        var rest := url[j + 4..];
        var a := DigitRun(rest);
        if a == 0 || a == |rest| || rest[a] != '.' then None
        else
          var b := DigitRun(rest[a + 1..]);
          if b == 0 then None else Some(rest[..a + 1 + b])
  }

  /** A paper id is a run of digits, a dot and a run of digits. */
  predicate PaperIdShape(id: string) {
    exists a :: 0 < a < |id| - 1 && id[a] == '.'
      && (forall k :: 0 <= k < |id| && k != a ==> IsDigit(id[k]))
  }

  lemma ArxivAtShape(url: string, i: nat)
    requires ArxivAt(url, i).Some?
    ensures PaperIdShape(ArxivAt(url, i).value)
  {
    var j := i + 10;
    var rest := url[j + 4..];
    var a := DigitRun(rest);
    var b := DigitRun(rest[a + 1..]);
    var id := rest[..a + 1 + b];
    assert id[a] == '.';
    forall k | 0 <= k < |id| && k != a
      ensures IsDigit(id[k])
    {
      if k > a {
        assert id[k] == rest[a + 1..][k - a - 1];
      }
    }
  }

  /** `re.search`: the capture of the leftmost match at or after position `i`. */
  function ArxivSearch(url: string, i: nat): (r: Option<string>)
    requires i <= |url|
    decreases |url| - i
  {
    if ArxivAt(url, i).Some? then ArxivAt(url, i)
    else if i == |url| then None
    else ArxivSearch(url, i + 1)
  }

  /** `r` is the capture of the leftmost match at or after `i`, or there is none. */
  ghost predicate IsLeftmost(url: string, i: nat, r: Option<string>) {
    && (r.Some? ==> exists p :: i <= p <= |url| && ArxivAt(url, p) == r
                      && forall q :: i <= q < p ==> ArxivAt(url, q).None?)
    && (r.None? ==> forall q :: i <= q ==> ArxivAt(url, q).None?)
  }

  /** The search finds the leftmost match, and finds none only when there is none. */
  lemma {:induction false} ArxivSearchLeftmost(url: string, i: nat)
    requires i <= |url|
    ensures IsLeftmost(url, i, ArxivSearch(url, i))
    decreases |url| - i
  {
    var m := ArxivAt(url, i);
    if m.Some? {
      assert ArxivSearch(url, i) == m;
      LeftmostHere(url, i);
    } else if i < |url| {
      ArxivSearchLeftmost(url, i + 1);
      assert ArxivSearch(url, i) == ArxivSearch(url, i + 1);
      LeftmostSkip(url, i, ArxivSearch(url, i + 1));
    } else {
      assert ArxivSearch(url, i) == None;
      NothingPastEnd(url, i);
    }
  }

  /** A match at `i` is the leftmost one from `i`. */
  lemma LeftmostHere(url: string, i: nat)
    requires i <= |url| && ArxivAt(url, i).Some?
    ensures IsLeftmost(url, i, ArxivAt(url, i))
  {
  }

  /** With no match at `i`, the leftmost match from `i + 1` is the leftmost from `i`. */
  lemma LeftmostSkip(url: string, i: nat, r: Option<string>)
    requires i < |url| && ArxivAt(url, i).None? && IsLeftmost(url, i + 1, r)
    ensures IsLeftmost(url, i, r)
  {
    if r.Some? {
      var p :| i + 1 <= p <= |url| && ArxivAt(url, p) == r
               && forall q :: i + 1 <= q < p ==> ArxivAt(url, q).None?;
      assert forall q :: i <= q < p ==> ArxivAt(url, q).None?;
    }
  }

  /** Nothing matches at the end of the address or past it. */
  lemma NothingPastEnd(url: string, i: nat)
    requires i >= |url|
    ensures IsLeftmost(url, i, None)
  {
    forall q | i <= q
      ensures ArxivAt(url, q).None?
    {
      assert !OccursAt(url, "arxiv.org/", q);
    }
  }

  /** The PDF address a paper id is fetched from. */
  function PdfUrl(id: string): string {
    "https://arxiv.org/pdf/" + id + ".pdf"
  }

  /** The checks of an arXiv request, in order: an API key that is not blank,
      then a link that names a paper. The result is the trimmed key and the
      PDF address. */
  function CheckArxiv(url: string, apiKey: string): (r: Result<(string, string), HttpError>)
  {
    if Strip(apiKey) == [] then Err(HttpError(400, KeyRequired))
    else match ArxivSearch(url, 0)
      case None => Err(HttpError(400, BadArxiv))
      case Some(id) => Ok((Strip(apiKey), PdfUrl(id)))
  }

  /** A request is accepted exactly when the key is not blank and the link
      names a paper; the address fetched is the PDF of the leftmost paper id. */
  lemma CheckArxivSpec(url: string, apiKey: string)
    ensures var r := CheckArxiv(url, apiKey);
      && (r.Ok? <==> !IsBlank(apiKey) && exists p :: 0 <= p <= |url| && ArxivAt(url, p).Some?)
      && (r.Ok? ==> exists p, id :: 0 <= p <= |url| && ArxivAt(url, p) == Some(id) && PaperIdShape(id)
                      && r.value.1 == PdfUrl(id)
                      && forall q :: 0 <= q < p ==> ArxivAt(url, q).None?)
  {
    StripSpec(apiKey);
    ArxivSearchLeftmost(url, 0);
    if ArxivSearch(url, 0).Some? {
      var p :| 0 <= p <= |url| && ArxivAt(url, p) == ArxivSearch(url, 0)
               && forall q :: 0 <= q < p ==> ArxivAt(url, q).None?;
      ArxivAtShape(url, p);
    }
  }

  /** What fetching the PDF gave: a status and a size, or a transport error. */
  datatype Fetch = Fetched(status: int, size: nat) | FetchFailed(message: string)

  /** The checks on the fetched PDF: status 200, then the size limit. The result is the size. */
  function CheckFetch(fetch: Fetch, maxUploadMb: int): (r: Result<nat, HttpError>)
    ensures r.Ok? <==> fetch.Fetched? && fetch.status == 200 && !TooBig(fetch.size, maxUploadMb)
    ensures r.Err? ==> r.error.status == 500 || r.error.status == 413
  {
    match fetch
    case FetchFailed(message) => Err(HttpError(500, ArxivFailed + message))
    case Fetched(status, size) =>
      if status != 200 then Err(HttpError(500, ArxivFailed + IntToString(status)))
      else if TooBig(size, maxUploadMb) then Err(HttpError(413, TooLarge))
      else Ok(size)
  }
}

=== FILE: prompt_format.dfy ===
/** The chat templates of the model benchmark
    (edtech/Chatbot_Tutorial/module11/module11.py, `format_prompt_for_model`):
    the model name picks a template family by substring, the first family
    in a fixed order winning, and the template wraps the user message and,
    for some families, the system prompt. */
module PromptFormat {
  import opened PyText
  import LlmText

  /** The template families, in the order they are tried, and the default. */
  datatype Family = Llama2 | Mistral | ChatMl | Vicuna | Alpaca | TinyLlama | Gemma | Plain

  const DefaultSystemPrompt: string := "You are a helpful AI assistant."

  /** The family of a model name, tried in order on the lowered name. */
  function FamilyOf(modelName: string): Family {
    var m := Lower(modelName);
    if Contains(m, "llama-2") || Contains(m, "llama2") then Llama2
    else if Contains(m, "mistral") then Mistral
    else if Contains(m, "claude") || Contains(m, "gpt") then ChatMl
    else if Contains(m, "vicuna") || Contains(m, "fastchat") then Vicuna
    else if Contains(m, "alpaca") then Alpaca
    else if Contains(m, "tinyllama") then TinyLlama
    else if Contains(m, "gemma") then Gemma
    else Plain
  }

  /** The same order written as a table: the names that select each family. */
  const Rules: seq<(seq<string>, Family)> := [
    (["llama-2", "llama2"], Llama2), (["mistral"], Mistral), (["claude", "gpt"], ChatMl),
    (["vicuna", "fastchat"], Vicuna), (["alpaca"], Alpaca), (["tinyllama"], TinyLlama),
    (["gemma"], Gemma)]

  /** The family of the first rule from `k` on whose names occur in `m`; the default when none does. */
  function FirstRule(m: string, k: nat): Family
    requires k <= |Rules|
    decreases |Rules| - k
  {
    if k == |Rules| then Plain
    else if ContainsAny(m, Rules[k].0) then Rules[k].1
    else FirstRule(m, k + 1)
  }

  /** The first matching rule wins: the family is the one of the first rule
      whose names occur in the lowered model name. */
  lemma FamilyOfFirstRule(modelName: string)
    ensures FamilyOf(modelName) == FirstRule(Lower(modelName), 0)
  {
    var m := Lower(modelName);
    assert ContainsAny(m, ["llama-2", "llama2"]) <==> Contains(m, "llama-2") || Contains(m, "llama2") by {
      if ContainsAny(m, ["llama-2", "llama2"]) {
        var k :| 0 <= k < 2 && Contains(m, ["llama-2", "llama2"][k]);
      }
      if Contains(m, "llama-2") {
        assert Contains(m, ["llama-2", "llama2"][0]);
      }
      if Contains(m, "llama2") {
        assert Contains(m, ["llama-2", "llama2"][1]);
      }
    }
    assert ContainsAny(m, ["mistral"]) <==> Contains(m, "mistral") by {
      if Contains(m, "mistral") {
        assert Contains(m, ["mistral"][0]);
      }
    }
    assert ContainsAny(m, ["claude", "gpt"]) <==> Contains(m, "claude") || Contains(m, "gpt") by {
      if ContainsAny(m, ["claude", "gpt"]) {
        var k :| 0 <= k < 2 && Contains(m, ["claude", "gpt"][k]);
      }
      if Contains(m, "claude") {
        assert Contains(m, ["claude", "gpt"][0]);
      }
      if Contains(m, "gpt") {
        assert Contains(m, ["claude", "gpt"][1]);
      }
    }
    assert ContainsAny(m, ["vicuna", "fastchat"]) <==> Contains(m, "vicuna") || Contains(m, "fastchat") by {
      if ContainsAny(m, ["vicuna", "fastchat"]) {
        var k :| 0 <= k < 2 && Contains(m, ["vicuna", "fastchat"][k]);
      }
      if Contains(m, "vicuna") {
        assert Contains(m, ["vicuna", "fastchat"][0]);
      }
      if Contains(m, "fastchat") {
        assert Contains(m, ["vicuna", "fastchat"][1]);
      }
    }
    assert ContainsAny(m, ["alpaca"]) <==> Contains(m, "alpaca") by {
      if Contains(m, "alpaca") {
        assert Contains(m, ["alpaca"][0]);
      }
    }
    assert ContainsAny(m, ["tinyllama"]) <==> Contains(m, "tinyllama") by {
      if Contains(m, "tinyllama") {
        assert Contains(m, ["tinyllama"][0]);
      }
    }
    assert ContainsAny(m, ["gemma"]) <==> Contains(m, "gemma") by {
      if Contains(m, "gemma") {
        assert Contains(m, ["gemma"][0]);
      }
    }
  }

  /** Lowering twice is lowering once. */
  lemma LowerTwice(s: string)
    ensures Lower(Lower(s)) == Lower(s)
  {
    assert forall i :: 0 <= i < |s| ==> LowerChar(LowerChar(s[i])) == LowerChar(s[i]);
  }

  /** The family does not depend on the case of the model name. */
  lemma FamilyIgnoresCase(modelName: string)
    ensures FamilyOf(Lower(modelName)) == FamilyOf(modelName)
  {
    LowerTwice(modelName);
  }

  /** Whether a family's template carries the system prompt. */
  predicate HasSystem(f: Family) {
    f == Llama2 || f == ChatMl || f == Plain
  }

  /** The text before the system prompt, for a family that carries one. */
  function SystemHead(f: Family): string {
    match f
    case Llama2 => "<s>[INST] <<SYS>>\n"
    case ChatMl => "<|im_start|>system\n"
    case _ => ""
  }

  /** The text between the system prompt and the user message, or before the
      user message for a family without a system prompt. */
  function UserHead(f: Family): string {
    match f
    case Llama2 => "\n<</SYS>>\n\n"
    case Mistral => "<s>[INST] "
    case ChatMl => "<|im_end|>\n<|im_start|>user\n"
    case Vicuna => "USER: "
    case Alpaca => "### Instruction:\n"
    case TinyLlama => "<|user|>\n"
    case Gemma => "<start_of_turn>user\n"
    case Plain => "\n\nUser: "
  }

  /** The text after the user message, which ends in the assistant's turn. */
  function Opener(f: Family): string {
    match f
    case Llama2 => " [/INST] "
    case Mistral => " [/INST] "
    case ChatMl => "<|im_end|>\n<|im_start|>assistant\n"
    case Vicuna => "\nASSISTANT: "
    case Alpaca => "\n\n### Response:\n"
    case TinyLlama => "\n<|assistant|>\n"
    case Gemma => "<end_of_turn>\n<start_of_turn>model\n"
    case Plain => "\nAssistant: "
  }

  /** A family's template filled in. */
  function Render(f: Family, userMessage: string, systemPrompt: string): string {
    if HasSystem(f) then LlmText.Fill(SystemHead(f), systemPrompt, UserHead(f), userMessage, Opener(f))
    else UserHead(f) + userMessage + Opener(f)
  }


  /** Where the user message starts in a filled template. */
  function UserAt(f: Family, systemPrompt: string): nat {
    if HasSystem(f) then |SystemHead(f)| + |systemPrompt| + |UserHead(f)| else |UserHead(f)|
  }

  /** Every prompt holds the user message verbatim, ends with its family's
      assistant-turn opener and holds the system prompt when the family has
      one; a family without one ignores it. */
  lemma RenderSpec(f: Family, userMessage: string, systemPrompt: string)
    ensures var r := Render(f, userMessage, systemPrompt);
      && OccursAt(r, userMessage, UserAt(f, systemPrompt))
      && |r| == UserAt(f, systemPrompt) + |userMessage| + |Opener(f)|
      && EndsWith(r, Opener(f))
      && (HasSystem(f) ==> OccursAt(r, systemPrompt, |SystemHead(f)|))
      && (!HasSystem(f) ==> forall other :: Render(f, userMessage, other) == r)
  {
    var r := Render(f, userMessage, systemPrompt);
    if HasSystem(f) {
      LlmText.FillSpec(SystemHead(f), systemPrompt, UserHead(f), userMessage, Opener(f));
    } else {
      assert r[|UserHead(f)|..|UserHead(f)| + |userMessage|] == userMessage;
    }
    assert r[|r| - |Opener(f)|..] == Opener(f);
  }

  /** The user message can be read back from the prompt. */
  lemma UserMessageRecovered(modelName: string, userMessage: string, systemPrompt: string)
    ensures var f := FamilyOf(modelName);
      var r := FormatPromptForModel(modelName, userMessage, systemPrompt);
      r[UserAt(f, systemPrompt)..|r| - |Opener(f)|] == userMessage
  {
    RenderSpec(FamilyOf(modelName), userMessage, systemPrompt);
  }

  /** `format_prompt_for_model`: the prompt of the model's family. It holds
      the user message verbatim where its family puts it, then ends with the
      family's assistant-turn opener; a family with a system slot holds the
      system prompt right after its head. */
  function FormatPromptForModel(modelName: string, userMessage: string, systemPrompt: string): (r: string)
    ensures var f := FamilyOf(modelName);
      && OccursAt(r, userMessage, UserAt(f, systemPrompt))
      && EndsWith(r, Opener(f))
      && (HasSystem(f) ==> OccursAt(r, systemPrompt, |SystemHead(f)|))
  {
    RenderSpec(FamilyOf(modelName), userMessage, systemPrompt);
    Render(FamilyOf(modelName), userMessage, systemPrompt)
  }

  /** The benchmark's call, which leaves the system prompt at its default:
      the prompt differs from one with another system prompt only for the
      families that carry one. */
  function FormatWithDefault(modelName: string, userMessage: string): (r: string)
    ensures HasSystem(FamilyOf(modelName)) ==> OccursAt(r, DefaultSystemPrompt, |SystemHead(FamilyOf(modelName))|)
    ensures !HasSystem(FamilyOf(modelName)) ==>
      forall other :: FormatPromptForModel(modelName, userMessage, other) == r
  {
    RenderSpec(FamilyOf(modelName), userMessage, DefaultSystemPrompt);
    FormatPromptForModel(modelName, userMessage, DefaultSystemPrompt)
  }
}

=== FILE: py_text.dfy ===
/** Python string semantics that the modelled code relies on: whitespace,
    stripping, ASCII case, slicing with negative indices, splitting and
    joining, searching and filtering. Python's Unicode tables for letters,
    digits and case are narrowed to ASCII; its whitespace table is given in full. */
module PyText {

  /** Python's `str.isspace()` for one character. */
  predicate IsSpace(c: char) {
    c == ' ' || ('\t' <= c <= '\r') || ('\U{1c}' <= c <= '\U{1f}')
    || c == '\U{85}' || c == '\U{a0}' || c == '\U{1680}'
    || ('\U{2000}' <= c <= '\U{200a}') || c == '\U{2028}' || c == '\U{2029}'
    || c == '\U{202f}' || c == '\U{205f}' || c == '\U{3000}'
  }

  predicate IsDigit(c: char) { '0' <= c <= '9' }

  predicate IsUpper(c: char) { 'A' <= c <= 'Z' }

  predicate IsLetter(c: char) { 'A' <= c <= 'Z' || 'a' <= c <= 'z' }

  /** `str.isalnum()` for one character. */
  predicate IsAlnum(c: char) { IsLetter(c) || IsDigit(c) }

  /** Membership in the regular-expression class `\w`. */
  predicate IsWordChar(c: char) { IsAlnum(c) || c == '_' }

  /** A string made of whitespace only (the empty string included): Python's falsy `s.strip()`. */
  predicate IsBlank(s: string) {
    forall i :: 0 <= i < |s| ==> IsSpace(s[i])
  }

  function LowerChar(c: char): char {
    if 'A' <= c <= 'Z' then (c as int + 32) as char else c
  }

  /** `str.lower()`. */
  function Lower(s: string): (r: string)
    ensures |r| == |s|
    ensures forall i :: 0 <= i < |s| ==> r[i] == LowerChar(s[i])
  {
    seq(|s|, i requires 0 <= i < |s| => LowerChar(s[i]))
  }

  /** Number of whitespace characters at the front of `s`. */
  function LeadingSpaces(s: string): (n: nat)
    ensures n <= |s|
  {
    if s == [] || !IsSpace(s[0]) then 0 else 1 + LeadingSpaces(s[1..])
  }

  lemma {:induction false} LeadingSpacesSpec(s: string)
    ensures var n := LeadingSpaces(s);
      (forall i :: 0 <= i < n ==> IsSpace(s[i])) && (n < |s| ==> !IsSpace(s[n]))
  {
    if s != [] && IsSpace(s[0]) {
      LeadingSpacesSpec(s[1..]);
    }
  }

  /** Number of whitespace characters at the end of `s`. */
  function TrailingSpaces(s: string): (n: nat)
    ensures n <= |s|
  {
    if s == [] || !IsSpace(s[|s| - 1]) then 0 else 1 + TrailingSpaces(s[..|s| - 1])
  }

  lemma {:induction false} TrailingSpacesSpec(s: string)
    ensures var n := TrailingSpaces(s);
      (forall i :: |s| - n <= i < |s| ==> IsSpace(s[i])) && (n < |s| ==> !IsSpace(s[|s| - 1 - n]))
  {
    if s != [] && IsSpace(s[|s| - 1]) {
      TrailingSpacesSpec(s[..|s| - 1]);
    }
  }

  /** `str.strip()`: `s` without its leading and trailing whitespace. */
  function Strip(s: string): (r: string)
    ensures |r| <= |s|
  {
    var t := s[LeadingSpaces(s)..];
    t[..|t| - TrailingSpaces(t)]
  }

  /** What `Strip` keeps: a slice of `s` that neither starts nor ends with
      whitespace, empty exactly when `s` is blank. */
  lemma StripSpec(s: string)
    ensures var r := Strip(s);
      LeadingSpaces(s) + |r| <= |s| && r == s[LeadingSpaces(s)..LeadingSpaces(s) + |r|]
      && (r == [] || (!IsSpace(r[0]) && !IsSpace(r[|r| - 1])))
      && (r == [] <==> IsBlank(s))
  {
    StripSlice(s);
    StripEnds(s);
    StripEmptyIff(s);
  }

  lemma StripSlice(s: string)
    ensures var r := Strip(s);
      LeadingSpaces(s) + |r| <= |s| && r == s[LeadingSpaces(s)..LeadingSpaces(s) + |r|]
  {
    var n := LeadingSpaces(s);
    var t := s[n..];
    assert Strip(s) == t[..|t| - TrailingSpaces(t)];
  }

  lemma StripEnds(s: string)
    ensures var r := Strip(s); r == [] || (!IsSpace(r[0]) && !IsSpace(r[|r| - 1]))
  {
    var n := LeadingSpaces(s);
    var t := s[n..];
    var r := Strip(s);
    LeadingSpacesSpec(s);
    TrailingSpacesSpec(t);
    assert r == t[..|t| - TrailingSpaces(t)];
    if r != [] {
      assert r[0] == s[n] && r[|r| - 1] == t[|t| - 1 - TrailingSpaces(t)];
    }
  }

  lemma StripEmptyIff(s: string)
    ensures Strip(s) == [] <==> IsBlank(s)
  {
    var n := LeadingSpaces(s);
    var t := s[n..];
    LeadingSpacesSpec(s);
    TrailingSpacesSpec(t);
    assert Strip(s) == t[..|t| - TrailingSpaces(t)];
    if n < |s| {
      assert !IsSpace(t[0]);
    }
  }

  /** `str.rstrip(c)` for one character. */
  function RStripChar(s: string, c: char): (r: string)
    ensures |r| <= |s| && r == s[..|r|]
    ensures r == [] || r[|r| - 1] != c
    ensures forall i :: |r| <= i < |s| ==> s[i] == c
  {
    if s != [] && s[|s| - 1] == c then RStripChar(s[..|s| - 1], c) else s
  }

  /** A character missing from a string is missing from every slice of it. */
  lemma NotInSlice(s: string, c: char, a: nat, b: nat)
    requires a <= b <= |s| && c !in s
    ensures c !in s[a..b]
  {
    forall k | 0 <= k < b - a
      ensures s[a..b][k] != c
    {
      assert s[a..b][k] == s[a + k];
    }
  }

  /** Stripping whitespace adds no character. */
  lemma StripAvoids(s: string, c: char)
    requires c !in s
    ensures c !in Strip(s)
  {
    StripSpec(s);
    NotInSlice(s, c, LeadingSpaces(s), LeadingSpaces(s) + |Strip(s)|);
  }

  /** Stripping a trailing character adds no character. */
  lemma RStripCharAvoids(s: string, d: char, c: char)
    requires c !in s
    ensures c !in RStripChar(s, d)
  {
    NotInSlice(s, c, 0, |RStripChar(s, d)|);
  }

  predicate StartsWith(s: string, p: string) {
    |p| <= |s| && s[..|p|] == p
  }

  predicate EndsWith(s: string, p: string) {
    |p| <= |s| && s[|s| - |p|..] == p
  }

  /** `sub` occurs in `s` starting at index `i`. */
  predicate OccursAt(s: string, sub: string, i: int) {
    0 <= i <= |s| - |sub| && s[i..i + |sub|] == sub
  }

  /** Python's `sub in s`. */
  predicate Contains(s: string, sub: string) {
    exists i :: 0 <= i <= |s| - |sub| && OccursAt(s, sub, i)
  }

  /** `any(p in s for p in ps)`. */
  predicate ContainsAny(s: string, ps: seq<string>) {
    exists k :: 0 <= k < |ps| && Contains(s, ps[k])
  }

  /** A slice bound as Python adjusts it: negative bounds count from the end, then clamp. */
  function NormIndex(i: int, n: nat): (k: nat)
    ensures k <= n
    ensures 0 <= i <= n ==> k == i
    ensures i < 0 && 0 <= i + n ==> k == i + n
  {
    if i < 0 then (if i + n < 0 then 0 else i + n) else if i > n then n else i
  }

  /** Python's `s[i:j]` for any integers `i`, `j`. */
  function PySlice<T>(s: seq<T>, i: int, j: int): (r: seq<T>)
    ensures |r| <= |s|
    ensures 0 <= i <= j <= |s| ==> r == s[i..j]
  {
    var a := NormIndex(i, |s|);
    var b := NormIndex(j, |s|);
    if a <= b then s[a..b] else []
  }

  /** `str.split(c)` with a one-character separator. */
  function Split(s: string, c: char): (r: seq<string>)
    ensures |r| >= 1
    ensures forall k :: 0 <= k < |r| ==> c !in r[k]
  {
    if s == [] then [[]]
    else
      var rest := Split(s[1..], c);
      if s[0] == c then [[]] + rest else [[s[0]] + rest[0]] + rest[1..]
  }

  /** `sep.join(parts)`. */
  function Join(parts: seq<string>, sep: string): string {
    if parts == [] then []
    else if |parts| == 1 then parts[0]
    else parts[0] + sep + Join(parts[1..], sep)
  }

  /** Joining a first part onto at least one more. */
  lemma JoinFirst(p: string, rest: seq<string>, sep: string)
    requires rest != []
    ensures Join([p] + rest, sep) == p + sep + Join(rest, sep)
  {
    assert ([p] + rest)[1..] == rest;
  }

  /** Joining one more part appends the separator and the part. */
  lemma {:induction false} JoinSnoc(parts: seq<string>, x: string, sep: string)
    requires parts != []
    ensures Join(parts + [x], sep) == Join(parts, sep) + sep + x
    decreases |parts|
  {
    if |parts| == 1 {
      assert parts + [x] == [parts[0], x];
      assert Join([x], sep) == x;
    } else {
      assert (parts + [x])[1..] == parts[1..] + [x];
      JoinSnoc(parts[1..], x, sep);
    }
  }

  /** `list(reversed(s))`. */
  function Reversed<T>(s: seq<T>): (r: seq<T>)
    ensures |r| == |s|
  {
    if s == [] then [] else Reversed(s[1..]) + [s[0]]
  }

  /** Reversing a list with one more element at its end puts that element first. */
  lemma {:induction false} ReversedSnoc<T>(s: seq<T>, x: T)
    ensures Reversed(s + [x]) == [x] + Reversed(s)
    decreases |s|
  {
    if s == [] {
      assert Reversed([x]) == Reversed([x][1..]) + [x];
    } else {
      assert (s + [x])[1..] == s[1..] + [x];
      ReversedSnoc(s[1..], x);
    }
  }

  /** Joining the pieces of a split with the separator gives back the string. */
  lemma {:induction false} JoinSplit(s: string, c: char)
    ensures Join(Split(s, c), [c]) == s
  {
    if s != [] {
      var rest := Split(s[1..], c);
      JoinSplit(s[1..], c);
      if s[0] != c {
        if |rest| == 1 {
          assert Split(s, c) == [[s[0]] + rest[0]];
        } else {
          assert Split(s, c)[1..] == rest[1..];
          assert [s[0]] + rest[0] + [c] + Join(rest[1..], [c]) == [s[0]] + (rest[0] + [c] + Join(rest[1..], [c]));
        }
      }
    }
  }

  /** Every occurrence of character `c` in `s` replaced by `rep` (`str.replace`). */
  function ReplaceChar(s: string, c: char, rep: string): (r: string)
    ensures c !in rep ==> c !in r
    ensures c !in s ==> r == s
  {
    if s == [] then []
    else (if s[0] == c then rep else [s[0]]) + ReplaceChar(s[1..], c, rep)
  }

  /** Replacing distributes over concatenation. */
  lemma {:induction false} ReplaceCharAppend(a: string, b: string, c: char, rep: string)
    ensures ReplaceChar(a + b, c, rep) == ReplaceChar(a, c, rep) + ReplaceChar(b, c, rep)
  {
    if a == [] {
      assert a + b == b;
    } else {
      assert (a + b)[0] == a[0];
      assert (a + b)[1..] == a[1..] + b;
      ReplaceCharAppend(a[1..], b, c, rep);
    }
  }

  /** `''.join(filter(str.isalnum, s))`. */
  function FilterAlnum(s: string): (r: string)
    ensures |r| <= |s|
    ensures forall i :: 0 <= i < |r| ==> IsAlnum(r[i])
    ensures (forall i :: 0 <= i < |s| ==> IsAlnum(s[i])) ==> r == s
  {
    if s == [] then []
    else (if IsAlnum(s[0]) then [s[0]] else []) + FilterAlnum(s[1..])
  }

  /** `''.join(filter(str.isdigit, s))`. */
  function FilterDigits(s: string): (r: string)
    ensures |r| <= |s|
    ensures forall i :: 0 <= i < |r| ==> IsDigit(r[i])
    ensures (forall i :: 0 <= i < |s| ==> IsDigit(s[i])) ==> r == s
  {
    if s == [] then []
    else (if IsDigit(s[0]) then [s[0]] else []) + FilterDigits(s[1..])
  }

  /** The largest index `i` with `lo <= i < hi` and `s[i] == c`, or -1: `str.rfind` after
      the bounds have been adjusted. */
  function RFindIn(s: string, c: char, lo: nat, hi: nat): (r: int)
    requires lo <= hi <= |s|
    ensures r == -1 || (lo <= r < hi && s[r] == c)
    decreases hi - lo
  {
    if lo == hi then -1
    else if s[hi - 1] == c then hi - 1
    else RFindIn(s, c, lo, hi - 1)
  }

  /** `RFindIn` finds the last occurrence: none lies after it. */
  lemma {:induction false} RFindInSpec(s: string, c: char, lo: nat, hi: nat)
    requires lo <= hi <= |s|
    ensures var r := RFindIn(s, c, lo, hi);
      forall i :: (if r == -1 then lo else r + 1) <= i < hi ==> s[i] != c
    decreases hi - lo
  {
    if lo < hi && s[hi - 1] != c {
      RFindInSpec(s, c, lo, hi - 1);
    }
  }

  /** `s.rfind(c, start, end)` with Python's adjustment of the bounds. */
  function RFind(s: string, c: char, start: int, end: int): (r: int)
    ensures r == -1 || (NormIndex(start, |s|) <= r < NormIndex(end, |s|) && s[r] == c)
  {
    var a := NormIndex(start, |s|);
    var b := NormIndex(end, |s|);
    if a <= b then RFindIn(s, c, a, b) else -1
  }

  /** The final component of a `/`-separated path (`PurePath.name`). */
  function PathName(path: string): (r: string)
    ensures EndsWith(path, r) && '/' !in r
  {
    var k := RFind(path, '/', 0, |path|);
    RFindInSpec(path, '/', 0, |path|);
    path[k + 1..]
  }

  /** `PurePath.suffix`: the name's last `.`-part, dot included, unless the
      dot is the name's first or last character; otherwise empty. */
  function PathSuffix(path: string): (r: string)
    ensures r == [] || (|r| >= 2 && r[0] == '.' && EndsWith(path, r) && '/' !in r)
  {
    var name := PathName(path);
    var i := RFind(name, '.', 0, |name|);
    if 0 < i < |name| - 1 then
      assert name[i..] == name[|name| - |name[i..]|..];
      assert path[|path| - |name[i..]|..] == name[i..] by {
        assert path[|path| - |name|..] == name;
      }
      name[i..]
    else []
  }

  /** The length of the run of ASCII digits at the front of `s`. */
  function DigitRun(s: string): (n: nat)
    ensures n <= |s|
    ensures forall i :: 0 <= i < n ==> IsDigit(s[i])
    ensures n < |s| ==> !IsDigit(s[n])
  {
    if s == [] || !IsDigit(s[0]) then 0 else 1 + DigitRun(s[1..])
  }

  /** The first match of `\d+` in `s`, as `re.findall(r'\d+', s)[0]` gives it. */
  function FirstNumber(s: string): (r: string)
    ensures (exists i :: 0 <= i < |s| && IsDigit(s[i])) ==> r != [] && Contains(s, r)
    ensures forall i :: 0 <= i < |r| ==> IsDigit(r[i])
  {
    if s == [] then []
    else if IsDigit(s[0]) then
      var n := DigitRun(s);
      assert OccursAt(s, s[..n], 0);
      s[..n]
    else
      var r := FirstNumber(s[1..]);
      ContainsInTail(s, r);
      assert (exists i :: 0 <= i < |s| && IsDigit(s[i])) ==> exists i :: 0 <= i < |s[1..]| && IsDigit(s[1..][i]) by {
        if exists i :: 0 <= i < |s| && IsDigit(s[i]) {
          var i :| 0 <= i < |s| && IsDigit(s[i]);
          assert s[1..][i - 1] == s[i];
        }
      }
      r
  }

  /** What occurs in the tail of a string occurs in the string. */
  lemma ContainsInTail(s: string, r: string)
    requires s != []
    ensures Contains(s[1..], r) ==> Contains(s, r)
  {
    if Contains(s[1..], r) {
      var t := s[1..];
      var i :| 0 <= i <= |t| - |r| && OccursAt(t, r, i);
      assert t[i..i + |r|] == s[i + 1..i + 1 + |r|];
      assert OccursAt(s, r, i + 1);
    }
  }

  /** The decimal digits of a natural number (`str(n)`). */
  function NatToString(n: nat): (r: string)
    ensures r != []
    ensures forall i :: 0 <= i < |r| ==> IsDigit(r[i])
  {
    if n < 10 then [('0' as int + n) as char]
    else NatToString(n / 10) + [('0' as int + n % 10) as char]
  }

  /** A decimal numeral of ten or more has at least two digits. */
  lemma NatToStringLong(n: nat)
    requires n >= 10
    ensures |NatToString(n)| >= 2
  {
    assert NatToString(n) == NatToString(n / 10) + [('0' as int + n % 10) as char];
  }

  /** Different numbers have different numerals. */
  lemma {:induction false} NatToStringInjective(m: nat, n: nat)
    requires NatToString(m) == NatToString(n)
    ensures m == n
    decreases m
  {
    if m < 10 && n >= 10 {
      NatToStringLong(n);
    } else if m >= 10 && n < 10 {
      NatToStringLong(m);
    } else if m >= 10 && n >= 10 {
      var a := NatToString(m);
      var b := NatToString(n);
      assert a == NatToString(m / 10) + [('0' as int + m % 10) as char];
      assert b == NatToString(n / 10) + [('0' as int + n % 10) as char];
      assert a[|a| - 1] == b[|b| - 1];
      assert m % 10 == n % 10;
      assert a[..|a| - 1] == NatToString(m / 10);
      assert b[..|b| - 1] == NatToString(n / 10);
      NatToStringInjective(m / 10, n / 10);
    }
  }

  /** Python's `str(n)` for any integer. */
  function IntToString(n: int): (r: string)
    ensures r != []
  {
    if n < 0 then "-" + NatToString(-n) else NatToString(n)
  }

  /** `int(s)` for a string of ASCII digits (leading zeros allowed). */
  function DigitsValue(s: string): nat
    requires forall i :: 0 <= i < |s| ==> IsDigit(s[i])
  {
    if s == [] then 0
    else
      assert IsDigit(s[|s| - 1]);
      DigitsValue(s[..|s| - 1]) * 10 + (s[|s| - 1] as int - '0' as int)
  }

  /** Reading back a numeral gives the number: `int(str(n)) == n`. */
  lemma {:induction false} DigitsValueOfNatToString(n: nat)
    ensures DigitsValue(NatToString(n)) == n
  {
    var s := NatToString(n);
    if n >= 10 {
      assert s[..|s| - 1] == NatToString(n / 10);
      DigitsValueOfNatToString(n / 10);
    } else {
      assert s[..|s| - 1] == [];
    }
  }

  /** A non-empty run of non-whitespace characters. */
  predicate IsWord(w: string) {
    w != [] && forall i :: 0 <= i < |w| ==> !IsSpace(w[i])
  }

  /** Length of the word at the front of `s`. */
  function WordLength(s: string): (n: nat)
    ensures n <= |s|
    ensures forall i :: 0 <= i < n ==> !IsSpace(s[i])
    ensures n < |s| ==> IsSpace(s[n])
  {
    if s == [] || IsSpace(s[0]) then 0 else 1 + WordLength(s[1..])
  }

  /** `s.split()`: the maximal runs of non-whitespace characters, in order. */
  function Words(s: string): (r: seq<string>)
    ensures forall k :: 0 <= k < |r| ==> IsWord(r[k])
    decreases |s|
  {
    if s == [] then []
    else if IsSpace(s[0]) then Words(s[1..])
    else
      var n := WordLength(s);
      [s[..n]] + Words(s[n..])
  }

  /** A word followed by whitespace or the end is read as that word. */
  lemma WordThen(w: string, rest: string)
    requires IsWord(w) && (rest == [] || IsSpace(rest[0]))
    ensures Words(w + rest) == [w] + Words(rest)
  {
    var s := w + rest;
    assert s[..|w|] == w && s[|w|..] == rest;
  }

  /** Splitting words joined by single spaces gives the words back. */
  lemma {:induction false} WordsOfJoin(ws: seq<string>)
    requires forall k :: 0 <= k < |ws| ==> IsWord(ws[k])
    ensures Words(Join(ws, " ")) == ws
    decreases |ws|
  {
    if |ws| == 1 {
      WordThen(ws[0], []);
      assert ws[0] + [] == ws[0];
    } else if |ws| > 1 {
      var tail := Join(ws[1..], " ");
      WordsOfJoin(ws[1..]);
      assert Join(ws, " ") == ws[0] + (" " + tail);
      WordThen(ws[0], " " + tail);
      SpaceThen(tail);
      assert ws == [ws[0]] + ws[1..];
    }
  }

  /** A leading space is skipped. */
  lemma SpaceThen(s: string)
    ensures Words(" " + s) == Words(s)
  {
    assert (" " + s)[1..] == s;
  }
}

=== FILE: streaming.dfy ===
/** The chat client of the streaming lesson (module12/module12_streaming.py):
    the streaming call reads a server-sent event body line by line, keeps the
    `data: ` payloads that carry a content delta, and reports the text, the
    number of deltas and when the first one arrived; the plain call counts
    the words of the whole reply. */
module Streaming {
  import opened Wrappers
  import opened PyText

  /** One line of the response body, decoded, with the time it was read. */
  datatype Chunk = Chunk(line: string, at: int)

  /** The response body: the lines read, and the error raised by the request
      or by the read that followed them, if any. */
  datatype Body = Body(chunks: seq<Chunk>, failure: Option<string>)

  /** What `json.loads` makes of a payload: not JSON, or an object that holds
      `choices[0].delta.content` (`Some`) or does not (`None`). */
  datatype Event = NotJson | Json(delta: Option<string>)

  /** What the streaming call returns. Times are clock ticks. */
  datatype Reply = Reply(content: string, timeToFirstToken: int, totalTokens: nat)

  const DataPrefix: string := "data: "
  const DoneMarker: string := "[DONE]"

  /** The payload of a line: none for an empty line or the end marker; the
      line with one leading `data: ` removed otherwise. */
  function Payload(line: string): (r: Option<string>)
    ensures r.Some? ==> r.value != DoneMarker
  {
    if line == [] then None
    else
      var p := if StartsWith(line, DataPrefix) then line[|DataPrefix|..] else line;
      if p == DoneMarker then None else Some(p)
  }

  /** The content delta a line contributes, if any. */
  function LineDelta(line: string, decode: string -> Event): Option<string> {
    match Payload(line)
    case None => None
    case Some(p) =>
      match decode(p)
      case NotJson => None
      case Json(d) => d
  }

  /** The deltas of a run of chunks, in order. */
  function Deltas(cs: seq<Chunk>, decode: string -> Event): (r: seq<string>)
    ensures |r| <= |cs|
  {
    if cs == [] then []
    else
      var last := cs[|cs| - 1];
      Deltas(cs[..|cs| - 1], decode) + (if LineDelta(last.line, decode).Some? then [LineDelta(last.line, decode).value] else [])
  }

  /** The concatenation of some strings. */
  function Concat(ds: seq<string>): string {
    if ds == [] then [] else Concat(ds[..|ds| - 1]) + ds[|ds| - 1]
  }

  /** When the first delta arrived, if one did. */
  function FirstTokenAt(cs: seq<Chunk>, decode: string -> Event): Option<int> {
    if cs == [] then None
    else
      var last := cs[|cs| - 1];
      var before := FirstTokenAt(cs[..|cs| - 1], decode);
      if before.Some? then before
      else if LineDelta(last.line, decode).Some? then Some(last.at)
      else None
  }

  /** The streaming reply for a body read from `start` on. */
  function StreamReply(body: Body, decode: string -> Event, start: int): Reply {
    match body.failure
    case Some(m) => Reply("Error: " + m, 0, 0)
    case None =>
      var first := FirstTokenAt(body.chunks, decode);
      Reply(Concat(Deltas(body.chunks, decode)), if first.Some? then first.value - start else 0,
            |Deltas(body.chunks, decode)|)
  }

  /** `chat_with_streaming`: read the lines one by one, accumulating the text,
      the count of deltas and the arrival of the first delta. */
  method ChatWithStreaming(body: Body, decode: string -> Event, start: int) returns (reply: Reply)
    ensures reply == StreamReply(body, decode, start)
    ensures body.failure.Some? ==> reply == Reply("Error: " + body.failure.value, 0, 0)
    ensures body.failure.None? ==> reply.totalTokens == |Deltas(body.chunks, decode)|
  {
    var cs := body.chunks;
    var fullResponse: string := "";
    var tokenCount: nat := 0;
    var firstTokenTime: Option<int> := None;
    for k := 0 to |cs|
      invariant fullResponse == Concat(Deltas(cs[..k], decode))
      invariant tokenCount == |Deltas(cs[..k], decode)|
      invariant firstTokenTime == FirstTokenAt(cs[..k], decode)
      invariant firstTokenTime.None? <==> tokenCount == 0
    {
      var delta := ReadLine(cs[k].line, decode);
      ChunkStep(cs, decode, k, k + 1);
      if delta.Some? {
        if tokenCount == 0 {
          firstTokenTime := Some(cs[k].at);
        }
        fullResponse := fullResponse + delta.value;
        tokenCount := tokenCount + 1;
      }
    }
    assert cs[..|cs|] == cs;
    if body.failure.Some? {
      return Reply("Error: " + body.failure.value, 0, 0);
    }
    var ttft := if firstTokenTime.Some? then firstTokenTime.value - start else 0;
    reply := Reply(fullResponse, ttft, tokenCount);
  }

  /** The steps taken on one line: skip it when empty, drop one `data: `,
      skip the end marker, decode, and take the delta when there is one. */
  method ReadLine(line: string, decode: string -> Event) returns (delta: Option<string>)
    ensures delta == LineDelta(line, decode)
  {
    delta := None;
    var payload := line;
    if payload != [] {
      if StartsWith(payload, DataPrefix) {
        payload := payload[|DataPrefix|..];
      }
      if payload != DoneMarker {
        match decode(payload)
        case NotJson =>
        case Json(d) => delta := d;
      }
    }
  }

  /** One more chunk: the spec functions of a prefix one longer. */
  lemma ChunkStep(cs: seq<Chunk>, decode: string -> Event, k: nat, next: nat)
    requires k < |cs| && next == k + 1
    ensures var d := LineDelta(cs[k].line, decode);
      && Deltas(cs[..next], decode) == Deltas(cs[..k], decode) + (if d.Some? then [d.value] else [])
      && Concat(Deltas(cs[..next], decode)) == Concat(Deltas(cs[..k], decode)) + (if d.Some? then d.value else "")
      && FirstTokenAt(cs[..next], decode)
         == (if FirstTokenAt(cs[..k], decode).Some? then FirstTokenAt(cs[..k], decode)
             else if d.Some? then Some(cs[k].at) else None)
  {
    assert cs[..next][..k] == cs[..k];
    var d := LineDelta(cs[k].line, decode);
    var before, now := Deltas(cs[..k], decode), Deltas(cs[..next], decode);
    if d.Some? {
      assert now == before + [d.value];
      assert now[..|now| - 1] == before;
    } else {
      assert now == before + [];
      assert now == before;
      assert Concat(before) + "" == Concat(before);
    }
  }

  /** The first delta is recorded exactly when some delta arrives. */
  lemma {:induction false} FirstTokenWhenDelta(cs: seq<Chunk>, decode: string -> Event)
    ensures FirstTokenAt(cs, decode).None? <==> Deltas(cs, decode) == []
  {
    if cs != [] {
      FirstTokenWhenDelta(cs[..|cs| - 1], decode);
    }
  }

  /** The time recorded is that of the first chunk with a delta. */
  lemma {:induction false} FirstTokenIsFirst(cs: seq<Chunk>, decode: string -> Event, t: int)
    requires FirstTokenAt(cs, decode) == Some(t)
    ensures exists i :: (0 <= i < |cs| && cs[i].at == t && LineDelta(cs[i].line, decode).Some?
                         && forall j :: 0 <= j < i ==> LineDelta(cs[j].line, decode).None?)
  {
    var init := cs[..|cs| - 1];
    if FirstTokenAt(init, decode).Some? {
      FirstTokenIsFirst(init, decode, t);
      var i :| 0 <= i < |init| && init[i].at == t && LineDelta(init[i].line, decode).Some?
        && forall j :: 0 <= j < i ==> LineDelta(init[j].line, decode).None?;
      assert forall j :: 0 <= j <= i ==> cs[j] == init[j];
    } else {
      NoFirstTokenNoDelta(init, decode);
      assert forall j :: 0 <= j < |init| ==> cs[j] == init[j];
    }
  }

  /** Before any delta, no chunk had one. */
  lemma {:induction false} NoFirstTokenNoDelta(cs: seq<Chunk>, decode: string -> Event)
    requires FirstTokenAt(cs, decode).None?
    ensures forall j :: 0 <= j < |cs| ==> LineDelta(cs[j].line, decode).None?
  {
    if cs != [] {
      var init := cs[..|cs| - 1];
      NoFirstTokenNoDelta(init, decode);
      assert forall j :: 0 <= j < |init| ==> cs[j] == init[j];
    }
  }

  /** Deltas of a concatenation of runs. */
  lemma {:induction false} DeltasAppend(a: seq<Chunk>, b: seq<Chunk>, decode: string -> Event)
    ensures Deltas(a + b, decode) == Deltas(a, decode) + Deltas(b, decode)
    decreases |b|
  {
    if b == [] {
      assert a + b == a;
    } else {
      assert (a + b)[..|a + b| - 1] == a + b[..|b| - 1];
      DeltasAppend(a, b[..|b| - 1], decode);
    }
  }

  /** First arrival in a concatenation of runs. */
  lemma {:induction false} FirstTokenAppend(a: seq<Chunk>, b: seq<Chunk>, decode: string -> Event)
    ensures FirstTokenAt(a + b, decode)
      == if FirstTokenAt(a, decode).Some? then FirstTokenAt(a, decode) else FirstTokenAt(b, decode)
    decreases |b|
  {
    if b == [] {
      assert a + b == a;
    } else {
      assert (a + b)[..|a + b| - 1] == a + b[..|b| - 1];
      FirstTokenAppend(a, b[..|b| - 1], decode);
    }
  }

  /** A chunk without a delta changes nothing wherever it comes: empty
      lines, end markers and lines that are not JSON are skipped, and the
      reading goes on after them. */
  lemma SkippedChunkIgnored(a: seq<Chunk>, c: Chunk, b: seq<Chunk>, failure: Option<string>,
                            decode: string -> Event, start: int)
    requires LineDelta(c.line, decode).None?
    ensures StreamReply(Body(a + [c] + b, failure), decode, start) == StreamReply(Body(a + b, failure), decode, start)
  {
    DeltasAppend(a + [c], b, decode);
    DeltasAppend(a, b, decode);
    DeltasAppend(a, [c], decode);
    FirstTokenAppend(a + [c], b, decode);
    FirstTokenAppend(a, b, decode);
    FirstTokenAppend(a, [c], decode);
    assert [c][..0] == [];
    assert Deltas([c], decode) == [];
    assert FirstTokenAt([c], decode) == None;
    assert Deltas(a, decode) + [] == Deltas(a, decode);
  }

  /** Which lines carry no delta: an empty line, the end marker with or
      without the prefix, and a payload that is not JSON. A second `data: `
      is not removed. */
  lemma SkippedLines(decode: string -> Event, x: string)
    ensures LineDelta("", decode).None?
    ensures LineDelta(DoneMarker, decode).None?
    ensures LineDelta(DataPrefix + DoneMarker, decode).None?
    ensures decode(x) == NotJson && x != [] && !StartsWith(x, DataPrefix) ==> LineDelta(x, decode).None?
    ensures Payload(DataPrefix + DataPrefix + x) == Some(DataPrefix + x)
  {
    assert StartsWith(DataPrefix + DoneMarker, DataPrefix);
    assert (DataPrefix + DoneMarker)[|DataPrefix|..] == DoneMarker;
    var y := DataPrefix + DataPrefix + x;
    assert StartsWith(y, DataPrefix);
    assert y[|DataPrefix|..] == DataPrefix + x;
    assert (DataPrefix + x)[..|DoneMarker|] != DoneMarker by {
      assert (DataPrefix + x)[0] == 'd';
    }
  }

  /** Every delta counts as a token, an empty one too: it adds one to the
      count and nothing to the text. */
  lemma EmptyDeltaCounted(a: seq<Chunk>, c: Chunk, decode: string -> Event, start: int)
    requires LineDelta(c.line, decode) == Some("")
    ensures var before := StreamReply(Body(a, None), decode, start);
      var after := StreamReply(Body(a + [c], None), decode, start);
      after.totalTokens == before.totalTokens + 1 && after.content == before.content
  {
    var ca := a + [c];
    assert ca[..|ca| - 1] == a;
    assert Deltas(ca, decode) == Deltas(a, decode) + [""];
    assert Deltas(ca, decode)[..|Deltas(ca, decode)| - 1] == Deltas(a, decode);
    assert Concat(Deltas(ca, decode)) == Concat(Deltas(a, decode)) + "";
  }

  /** What the plain call returns. */
  datatype PlainReply = PlainReply(content: string, totalTokens: nat)

  /** `chat_without_streaming`, given the reply text or the request's error:
      the count is the number of whitespace-separated words. */
  function ChatWithoutStreaming(reply: Result<string, string>): PlainReply {
    match reply
    case Ok(text) => PlainReply(text, |Words(text)|)
    case Err(m) => PlainReply("Error: " + m, 0)
  }

  /** A reply of words separated by single spaces counts each word once. */
  lemma PlainTokenCount(ws: seq<string>)
    requires forall k :: 0 <= k < |ws| ==> IsWord(ws[k])
    ensures ChatWithoutStreaming(Ok(Join(ws, " "))) == PlainReply(Join(ws, " "), |ws|)
  {
    WordsOfJoin(ws);
  }
}

=== FILE: tools.dfy ===
/** The agent's tool registry: tools registered by name with a description,
    a function and parameter descriptions, looked up, listed in registration
    order and executed. The registry's dictionary is a map plus the
    sequence of its keys in insertion order, which is the order Python
    dictionaries iterate in. A tool's function cannot be inspected, so
    executing one takes what the call returned or raised as an argument. */
module Tools {
  import opened Wrappers
  import opened PyText

  /** One parameter description of a tool. */
  datatype Param = Param(name: string, typ: string, description: string)

  /** The functions the default registry holds, and any other callable. */
  datatype ToolFunction = CalculatorFn | CurrentTimeFn | SearchWikipediaFn | OtherFn(id: nat)

  /** A registry entry. */
  datatype Entry = Entry(description: string, fn: ToolFunction, parameters: seq<Param>)

  /** An item of `list_tools`: the entry without its function. */
  datatype ToolInfo = ToolInfo(name: string, description: string, parameters: seq<Param>)

  /** The registry's dictionary keeps one key per tool, in insertion order. */
  ghost predicate WellFormed(tools: map<string, Entry>, order: seq<string>) {
    (forall k :: k in tools <==> k in order)
    && forall i, j :: 0 <= i < j < |order| ==> order[i] != order[j]
  }

  /** `self.tools[name] = {...}`: the entry replaces any earlier one; a new
      name goes to the end of the iteration order, a known one keeps its
      place. */
  function Register(tools: map<string, Entry>, order: seq<string>, name: string, e: Entry)
    : (r: (map<string, Entry>, seq<string>))
    ensures r.0 == tools[name := e]
    ensures name in tools ==> r.1 == order
    ensures name !in tools ==> r.1 == order + [name]
  {
    (tools[name := e], if name in tools then order else order + [name])
  }

  /** The entry `register_tool` stores: `parameters or []`. */
  function MakeEntry(description: string, fn: ToolFunction, parameters: Option<seq<Param>>): (e: Entry)
    ensures e.description == description && e.fn == fn
    ensures parameters.Some? ==> e.parameters == parameters.value
    ensures parameters.None? ==> e.parameters == []
  {
    Entry(description, fn, match parameters case Some(ps) => ps case None => [])
  }

  /** The message of the `ValueError` raised for an unknown name. */
  function NotFound(name: string): string {
    "Tool '" + name + "' not found in registry"
  }

  /** `get_tool`: the entry, or the `ValueError` for an unknown name. */
  function Lookup(tools: map<string, Entry>, name: string): (r: Result<Entry, string>)
    ensures r.Ok? <==> name in tools
    ensures r.Ok? ==> r.value == tools[name]
    ensures r.Err? ==> r.error == NotFound(name)
  {
    if name in tools then Ok(tools[name]) else Err(NotFound(name))
  }

  /** `list_tools`: one item per key in iteration order. */
  function List(tools: map<string, Entry>, order: seq<string>): (r: seq<ToolInfo>)
    requires forall k :: k in order ==> k in tools
    ensures |r| == |order|
  {
    seq(|order|, i requires 0 <= i < |order| =>
      ToolInfo(order[i], tools[order[i]].description, tools[order[i]].parameters))
  }

  /** The item `list_tools` shows for an entry. */
  function Info(name: string, e: Entry): ToolInfo {
    ToolInfo(name, e.description, e.parameters)
  }

  /** Registration keeps the dictionary well formed. */
  lemma RegisterWellFormed(tools: map<string, Entry>, order: seq<string>, name: string, e: Entry)
    requires WellFormed(tools, order)
    ensures var r := Register(tools, order, name, e); WellFormed(r.0, r.1)
  {
    var r := Register(tools, order, name, e);
    if name !in tools {
      forall i, j | 0 <= i < j < |r.1|
        ensures r.1[i] != r.1[j]
      {
        if j == |order| {
          assert r.1[i] == order[i];
        }
      }
    }
  }

  /** After registration the name looks up to the new entry, and every
      other name to what it did before. */
  lemma LookupAfterRegister(tools: map<string, Entry>, order: seq<string>, name: string, e: Entry, other: string)
    ensures Lookup(Register(tools, order, name, e).0, name) == Ok(e)
    ensures other != name ==> Lookup(Register(tools, order, name, e).0, other) == Lookup(tools, other)
  {
  }

  /** Every listed item is the registered entry of its name, without the
      function, and the listed names are the registered names, each once. */
  lemma ListMatchesRegistry(tools: map<string, Entry>, order: seq<string>)
    requires WellFormed(tools, order)
    ensures var r := List(tools, order);
      (forall i :: 0 <= i < |r| ==> r[i].name in tools && r[i] == Info(r[i].name, tools[r[i].name]))
      && (forall k :: k in tools <==> exists i :: 0 <= i < |r| && r[i].name == k)
      && forall i, j :: 0 <= i < j < |r| ==> r[i].name != r[j].name
  {
    var r := List(tools, order);
    forall k | k in tools
      ensures exists i :: 0 <= i < |r| && r[i].name == k
    {
      var i :| 0 <= i < |order| && order[i] == k;
      assert r[i].name == k;
    }
  }

  /** Registering a new name appends its item to the listing. */
  lemma ListRegisterNew(tools: map<string, Entry>, order: seq<string>, name: string, e: Entry)
    requires WellFormed(tools, order) && name !in tools
    ensures var r := Register(tools, order, name, e);
      List(r.0, r.1) == List(tools, order) + [Info(name, e)]
  {
    var r := Register(tools, order, name, e);
    var before := List(tools, order);
    var after := List(r.0, r.1);
    forall i | 0 <= i < |order|
      ensures after[i] == before[i]
    {
      assert order[i] != name;
    }
    assert after == before + [Info(name, e)];
  }

  /** Re-registering a known name replaces its item in place: the listing
      keeps its length and its order. */
  lemma ListRegisterExisting(tools: map<string, Entry>, order: seq<string>, name: string, e: Entry)
    requires WellFormed(tools, order) && name in tools
    ensures var r := Register(tools, order, name, e);
      var after := List(r.0, r.1);
      var before := List(tools, order);
      |after| == |before|
      && forall i :: 0 <= i < |before| ==>
           after[i] == if before[i].name == name then Info(name, e) else before[i]
  {
  }

  /** The string an exception raised by the tool's function comes back as. */
  function ExecutionError(name: string, message: string): string {
    "Error executing tool '" + name + "': " + message
  }

  /** `execute_tool`: an unknown name raises; otherwise the function's
      result, or its exception turned into a returned string. `call` is what
      the function returned (`Ok`) or the message of what it raised (`Err`). */
  function Execute(tools: map<string, Entry>, name: string, call: Result<string, string>): (r: Result<string, string>)
    ensures r.Err? <==> name !in tools
    ensures r.Err? ==> r.error == NotFound(name)
    ensures name in tools && call.Ok? ==> r == Ok(call.value)
    ensures name in tools && call.Err? ==> r == Ok(ExecutionError(name, call.error))
  {
    if name !in tools then Err(NotFound(name))
    else match call
      case Ok(v) => Ok(v)
      case Err(m) => Ok(ExecutionError(name, m))
  }

  /** `ToolRegistry`: the dictionary of tools, updated in place by
      registration; `get_tool`, `list_tools` and `execute_tool` only read it
      and are `Lookup`, `List` and `Execute` of its two fields. */
  class ToolRegistry {
    var tools: map<string, Entry>
    var order: seq<string>

    ghost predicate Valid()
      reads this
    {
      WellFormed(tools, order)
    }

    constructor ()
      ensures Valid() && tools == map[] && order == []
    {
      tools := map[];
      order := [];
    }

    /** `register_tool`. */
    method RegisterTool(name: string, description: string, fn: ToolFunction, parameters: Option<seq<Param>>)
      requires Valid()
      modifies this
      ensures Valid()
      ensures (tools, order) == Register(old(tools), old(order), name, MakeEntry(description, fn, parameters))
    {
      RegisterWellFormed(tools, order, name, MakeEntry(description, fn, parameters));
      var r := Register(tools, order, name, MakeEntry(description, fn, parameters));
      tools := r.0;
      order := r.1;
    }
  }

  // ------------------------------------------------------------ the tools

  /** The expression `calculator` hands to the evaluator: every '^' written
      as Python's power operator "**". */
  function CalculatorExpression(expression: string): (r: string)
    ensures '^' !in r
    ensures '^' !in expression ==> r == expression
  {
    ReplaceChar(expression, '^', "**")
  }

  /** The number of occurrences of `c` in `s`. */
  function Count(s: string, c: char): nat {
    if s == [] then 0 else (if s[0] == c then 1 else 0) + Count(s[1..], c)
  }

  /** Each caret grows the expression by one character, and nothing else
      changes length. */
  lemma {:induction false} CalculatorExpressionLength(expression: string)
    ensures |CalculatorExpression(expression)| == |expression| + Count(expression, '^')
  {
    if expression != [] {
      CalculatorExpressionLength(expression[1..]);
    }
  }

  /** `calculator`: the evaluator's value for the rewritten expression, or
      the `ValueError` "Invalid expression: <reason>" when evaluation fails.
      `eval` stands for Python's `eval` with the math names in scope. */
  function Calculator(expression: string, eval: string -> Result<string, string>): (r: Result<string, string>)
    ensures eval(CalculatorExpression(expression)).Ok? ==> r == eval(CalculatorExpression(expression))
    ensures eval(CalculatorExpression(expression)).Err? ==>
      r == Err("Invalid expression: " + eval(CalculatorExpression(expression)).error)
  {
    match eval(CalculatorExpression(expression))
    case Ok(v) => Ok(v)
    case Err(m) => Err("Invalid expression: " + m)
  }

  /** The timezone `get_current_time` reports when none is given. */
  const DefaultTimezone: string := "UTC"

  /** `get_current_time`: the clock reading `now`, already formatted, labelled
      with the requested timezone (which does not change the reading). */
  function CurrentTime(timezone: string, now: string): (r: string)
    ensures StartsWith(r, "Current time (")
    ensures OccursAt(r, timezone, 14) && OccursAt(r, "): ", 14 + |timezone|)
    ensures r[17 + |timezone|..] == now
  {
    var r := "Current time (" + timezone + "): " + now;
    assert r[..14] == "Current time (";
    assert r[14..14 + |timezone|] == timezone;
    assert r[14 + |timezone|..17 + |timezone|] == "): ";
    r
  }

  /** The text of the mock Wikipedia answer around the query. */
  const WikipediaHead: string := "Here's what I found about '"
  const WikipediaTail: string := "' on Wikipedia: "
    + "This is a mock implementation. In a real agent, this would "
    + "connect to the Wikipedia API and return actual search results."

  /** `search_wikipedia`: a fixed mock answer quoting the query; the limit
      is unused. */
  function SearchWikipedia(query: string, limit: int): (r: string)
    ensures |r| == |WikipediaHead| + |query| + |WikipediaTail|
    ensures StartsWith(r, WikipediaHead) && OccursAt(r, query, |WikipediaHead|)
  {
    var r := WikipediaHead + query + WikipediaTail;
    assert r[..|WikipediaHead|] == WikipediaHead;
    assert r[|WikipediaHead|..|WikipediaHead| + |query|] == query;
    r
  }

  const CalculatorParams: seq<Param> :=
    [Param("expression", "string", "The mathematical expression to evaluate")]
  const CurrentTimeParams: seq<Param> :=
    [Param("timezone", "string", "The timezone to get the time for (default: UTC)")]
  const SearchParams: seq<Param> :=
    [Param("query", "string", "The search query"),
     Param("limit", "integer", "Maximum number of results to return (default: 1)")]

  const CalculatorEntry: Entry := Entry("Perform mathematical calculations", CalculatorFn, CalculatorParams)
  const CurrentTimeEntry: Entry := Entry("Get the current time in a specified timezone", CurrentTimeFn, CurrentTimeParams)
  const SearchEntry: Entry := Entry("Search Wikipedia for information about a topic", SearchWikipediaFn, SearchParams)

  /** The names of the default tools, in registration order. */
  const DefaultNames: seq<string> := ["calculator", "get_current_time", "search_wikipedia"]

  /** `create_default_tool_registry`: the calculator, the clock and the
      Wikipedia search, registered in that order. */
  method CreateDefaultToolRegistry() returns (registry: ToolRegistry)
    ensures fresh(registry) && registry.Valid()
    ensures registry.order == DefaultNames
    ensures registry.tools == map[DefaultNames[0] := CalculatorEntry, DefaultNames[1] := CurrentTimeEntry,
                                  DefaultNames[2] := SearchEntry]
  {
    registry := new ToolRegistry();
    registry.RegisterTool(DefaultNames[0], CalculatorEntry.description, CalculatorFn, Some(CalculatorParams));
    registry.RegisterTool(DefaultNames[1], CurrentTimeEntry.description, CurrentTimeFn, Some(CurrentTimeParams));
    registry.RegisterTool(DefaultNames[2], SearchEntry.description, SearchWikipediaFn, Some(SearchParams));
  }
}

=== FILE: transform.dfy ===
/** The dataset transform of the e-commerce analytics project
    (edtech/vyaparbazaar-main/scripts/transform_to_vyaparbazaar.py): city
    lists per Indian state, customers and sellers moved to a random Indian
    place, dates moved into 2021-2023 and put back in a sensible order,
    categories renamed and instalments kept only where they make sense.
    Every random draw is a parameter. */
module Transform {
  import opened Wrappers

  // ---------------------------------------------------------------- places

  const IndianStates: seq<string> := [
    "Maharashtra", "Delhi", "Karnataka", "Tamil Nadu", "Telangana",
    "Gujarat", "Uttar Pradesh", "West Bengal", "Rajasthan", "Kerala",
    "Haryana", "Madhya Pradesh", "Punjab", "Bihar", "Andhra Pradesh",
    "Odisha", "Assam", "Jharkhand", "Uttarakhand", "Chhattisgarh",
    "Himachal Pradesh", "Goa", "Tripura", "Manipur", "Meghalaya"]

  /** The states listed with their major cities before the fill loop, in
      the order of the dictionary literal. */
  const ListedPairs: seq<(string, seq<string>)> := [
    ("Maharashtra", ["Mumbai", "Pune", "Nagpur", "Thane", "Nashik"]),
    ("Delhi", ["New Delhi", "Delhi", "Noida", "Gurgaon", "Faridabad"]),
    ("Karnataka", ["Bangalore", "Mysore", "Hubli", "Mangalore", "Belgaum"]),
    ("Tamil Nadu", ["Chennai", "Coimbatore", "Madurai", "Tiruchirappalli", "Salem"]),
    ("Telangana", ["Hyderabad", "Warangal", "Nizamabad", "Karimnagar", "Khammam"]),
    ("Gujarat", ["Ahmedabad", "Surat", "Vadodara", "Rajkot", "Gandhinagar"]),
    ("Uttar Pradesh", ["Lucknow", "Kanpur", "Agra", "Varanasi", "Meerut"]),
    ("West Bengal", ["Kolkata", "Howrah", "Durgapur", "Asansol", "Siliguri"]),
    ("Rajasthan", ["Jaipur", "Jodhpur", "Udaipur", "Kota", "Ajmer"]),
    ("Kerala", ["Thiruvananthapuram", "Kochi", "Kozhikode", "Thrissur", "Kollam"])]

  /** A dictionary literal: later entries win. */
  function MapOf(pairs: seq<(string, seq<string>)>): map<string, seq<string>> {
    if pairs == [] then map[]
    else MapOf(pairs[..|pairs| - 1])[pairs[|pairs| - 1].0 := pairs[|pairs| - 1].1]
  }

  /** Every value of a dictionary literal is one of its entries' values. */
  lemma {:induction false} MapOfValues(pairs: seq<(string, seq<string>)>, s: string)
    requires s in MapOf(pairs)
    ensures exists i :: 0 <= i < |pairs| && MapOf(pairs)[s] == pairs[i].1
  {
    var n := |pairs| - 1;
    if s != pairs[n].0 {
      MapOfValues(pairs[..n], s);
      var i :| 0 <= i < n && MapOf(pairs[..n])[s] == pairs[..n][i].1;
      assert pairs[..n][i] == pairs[i];
    }
  }

  /** `MAJOR_CITIES` as written. */
  function ListedCities(): map<string, seq<string>> {
    MapOf(ListedPairs)
  }

  /** The three made-up towns of a state without listed cities. */
  function GenericCities(state: string): (r: seq<string>)
    ensures |r| == 3
  {
    [state + " City", state + " Town", state + " Nagar"]
  }

  /** The city table after the fill loop has seen `states`: every state
      seen that had no entry gets its generic towns. */
  function Filled(cities: map<string, seq<string>>, states: seq<string>): map<string, seq<string>> {
    if states == [] then cities
    else
      var before := Filled(cities, states[..|states| - 1]);
      var s := states[|states| - 1];
      if s in before then before else before[s := GenericCities(s)]
  }

  /** The fill loop: afterwards every state has a city list; listed states
      keep theirs, the others get their generic towns, and nothing else is added. */
  method FillCities(cities: map<string, seq<string>>, states: seq<string>) returns (r: map<string, seq<string>>)
    ensures r == Filled(cities, states)
    ensures r.Keys == cities.Keys + set s | s in states
    ensures forall s :: s in cities ==> s in r && r[s] == cities[s]
    ensures forall s :: s in states && s !in cities ==> s in r && r[s] == GenericCities(s)
  {
    r := cities;
    for k := 0 to |states|
      invariant r == Filled(cities, states[..k])
    {
      assert states[..k + 1][..k] == states[..k];
      var state := states[k];
      if state !in r {
        r := r[state := GenericCities(state)];
      }
    }
    assert states[..|states|] == states;
    FilledSpec(cities, states);
  }

  /** What the filled table holds. */
  lemma {:induction false} FilledSpec(cities: map<string, seq<string>>, states: seq<string>)
    ensures Filled(cities, states).Keys == cities.Keys + set s | s in states
    ensures forall s :: s in cities ==> s in Filled(cities, states) && Filled(cities, states)[s] == cities[s]
    ensures forall s :: s in states && s !in cities ==>
      s in Filled(cities, states) && Filled(cities, states)[s] == GenericCities(s)
  {
    if states != [] {
      var init := states[..|states| - 1];
      FilledSpec(cities, init);
      assert forall s :: s in states <==> s in init || s == states[|states| - 1];
    }
  }

  /** `MAJOR_CITIES` once filled. */
  function MajorCities(): map<string, seq<string>> {
    Filled(ListedCities(), IndianStates)
  }

  /** Every state of the list has a city list of three or five cities, so
      a city can always be chosen. */
  lemma MajorCitiesCover(state: string)
    requires state in IndianStates
    ensures state in MajorCities() && |MajorCities()[state]| >= 3
  {
    FilledSpec(ListedCities(), IndianStates);
    if state in ListedCities() {
      MapOfValues(ListedPairs, state);
      ListedFive();
    }
  }

  /** Each listed state has five cities. */
  lemma ListedFive()
    ensures forall i :: 0 <= i < |ListedPairs| ==> |ListedPairs[i].1| == 5
  {
    var towns := seq(|ListedPairs|, i requires 0 <= i < |ListedPairs| => |ListedPairs[i].1|);
    assert towns == [5, 5, 5, 5, 5, 5, 5, 5, 5, 5];
  }

  /** One row's `random.choice` draws: a state, a city of that state and a postcode. */
  datatype PlaceDraw = PlaceDraw(state: nat, city: nat, postcode: string)

  /** The draws `random.choice` can make. */
  predicate ValidDraw(d: PlaceDraw) {
    d.state < |IndianStates| && IndianStates[d.state] in MajorCities()
    && d.city < |MajorCities()[IndianStates[d.state]]|
  }

  datatype Customer = Customer(id: string, uniqueId: string)
  datatype IndianCustomer = IndianCustomer(id: string, uniqueId: string, postcode: string, city: string, state: string)

  /** `transform_customers`: ids kept, a state drawn from the list and a city
      of that state. */
  method TransformCustomers(rows: seq<Customer>, draws: seq<PlaceDraw>) returns (out: seq<IndianCustomer>)
    requires |draws| == |rows| && forall k :: 0 <= k < |draws| ==> ValidDraw(draws[k])
    ensures |out| == |rows|
    ensures forall k :: 0 <= k < |out| ==>
      && out[k].id == rows[k].id && out[k].uniqueId == rows[k].uniqueId
      && out[k].postcode == draws[k].postcode
      && out[k].state in IndianStates
      && out[k].state in MajorCities() && out[k].city in MajorCities()[out[k].state]
      && ValidDraw(draws[k]) && out[k].state == IndianStates[draws[k].state]
      && out[k].city == MajorCities()[out[k].state][draws[k].city]
  {
    var cities := MajorCities();
    out := [];
    for k := 0 to |rows|
      invariant |out| == k
      invariant forall j :: 0 <= j < k ==>
        && out[j].id == rows[j].id && out[j].uniqueId == rows[j].uniqueId
        && out[j].postcode == draws[j].postcode
        && out[j].state in IndianStates
        && out[j].state in cities && out[j].city in cities[out[j].state]
        && out[j].state == IndianStates[draws[j].state]
        && out[j].city == cities[out[j].state][draws[j].city]
    {
      var state := IndianStates[draws[k].state];
      var city := cities[state][draws[k].city];
      out := out + [IndianCustomer(rows[k].id, rows[k].uniqueId, draws[k].postcode, city, state)];
    }
  }

  datatype IndianSeller = IndianSeller(id: string, postcode: string, city: string, state: string)

  /** `transform_sellers`: the same for sellers. */
  method TransformSellers(ids: seq<string>, draws: seq<PlaceDraw>) returns (out: seq<IndianSeller>)
    requires |draws| == |ids| && forall k :: 0 <= k < |draws| ==> ValidDraw(draws[k])
    ensures |out| == |ids|
    ensures forall k :: 0 <= k < |out| ==>
      && out[k].id == ids[k] && out[k].postcode == draws[k].postcode
      && out[k].state in IndianStates
      && out[k].state in MajorCities() && out[k].city in MajorCities()[out[k].state]
      && ValidDraw(draws[k]) && out[k].state == IndianStates[draws[k].state]
      && out[k].city == MajorCities()[out[k].state][draws[k].city]
  {
    var cities := MajorCities();
    out := [];
    for k := 0 to |ids|
      invariant |out| == k
      invariant forall j :: 0 <= j < k ==>
        && out[j].id == ids[j] && out[j].postcode == draws[j].postcode
        && out[j].state in IndianStates
        && out[j].state in cities && out[j].city in cities[out[j].state]
        && out[j].state == IndianStates[draws[j].state]
        && out[j].city == cities[out[j].state][draws[j].city]
    {
      var state := IndianStates[draws[k].state];
      var city := cities[state][draws[k].city];
      out := out + [IndianSeller(ids[k], draws[k].postcode, city, state)];
    }
  }

  // ----------------------------------------------------------------- dates

  /** Seconds in a day: source timestamps are in seconds. */
  const DaySeconds: nat := 86400

  /** Days from 2021-01-01 to 2023-12-31. Mapped dates are day numbers
      counted from 2021-01-01. */
  const NewSpan: nat := 1094

  /** `timedelta.days` of a difference in seconds. */
  function WholeDays(seconds: int): int {
    seconds / DaySeconds
  }

  /** The whole days are rounded down, also for a negative difference. */
  lemma WholeDaysFloor(seconds: int)
    ensures var d := WholeDays(seconds); d * DaySeconds <= seconds < d * DaySeconds + DaySeconds
  {
  }

  /** `int(x)` of a quotient. */
  function TruncDiv(a: int, b: int): int
    requires b > 0
  {
    if a >= 0 then a / b else -((-a) / b)
  }

  /** The quotient is rounded toward zero: it has the sign of `a`, and a
      negative quotient is rounded up. */
  lemma TruncDivTowardZero(a: int, b: int)
    requires b > 0
    ensures var q := TruncDiv(a, b);
      && (0 <= a ==> 0 <= q && q * b <= a < q * b + b)
      && (a < 0 ==> q <= 0 && q * b - b < a <= q * b)
  {
  }

  /** The random draws of one call of `map_date`: the jitter, and the
      offsets used when the date falls before the start or after the end. */
  datatype DateDraw = DateDraw(jitter: int, early: int, late: int)

  predicate ValidDateDraw(d: DateDraw) {
    -10 <= d.jitter <= 10 && 0 <= d.early <= 30 && 0 <= d.late <= 30
  }

  /** `map_date`: a timestamp moved proportionally from the original range
      (starting at `originalStart`, `originalSpan` days long) into
      2021-01-01..2023-12-31, jittered, then pulled back inside. */
  function MapDate(t: int, originalStart: int, originalSpan: int, d: DateDraw): (r: int)
    ensures 0 <= d.early <= 30 && 0 <= d.late <= 30 ==> 0 <= r <= NewSpan
  {
    var daysFromStart := WholeDays(t - originalStart);
    var offset := if originalSpan > 0 then TruncDiv(daysFromStart * NewSpan, originalSpan) else 0;
    var day := offset + d.jitter;
    var day' := if day < 0 then d.early else day;
    if day' > NewSpan then NewSpan - d.late else day'
  }

  /** A date of the original range that lands inside after jitter keeps its
      proportional place: it is the offset plus the jitter. */
  lemma MapDateProportional(t: int, originalStart: int, originalSpan: int, d: DateDraw)
    requires originalSpan > 0 && originalStart <= t
    requires WholeDays(t - originalStart) <= originalSpan
    requires 0 <= TruncDiv(WholeDays(t - originalStart) * NewSpan, originalSpan) + d.jitter <= NewSpan
    ensures MapDate(t, originalStart, originalSpan, d)
      == (WholeDays(t - originalStart) * NewSpan) / originalSpan + d.jitter
    ensures (WholeDays(t - originalStart) * NewSpan) / originalSpan <= NewSpan
  {
    var days := WholeDays(t - originalStart);
    assert 0 <= days;
    DivMonotone(days * NewSpan, originalSpan * NewSpan, originalSpan);
    assert originalSpan * NewSpan / originalSpan == NewSpan;
  }

  /** Division by a positive number keeps order. */
  lemma DivMonotone(a: int, b: int, c: int)
    requires 0 <= a <= b && c > 0
    ensures a / c <= b / c
  {
    var qa, qb := a / c, b / c;
    assert a == c * qa + a % c && 0 <= a % c < c;
    assert b == c * qb + b % c && 0 <= b % c < c;
    if qa > qb {
      MulMonotone(c, qb + 1, qa);
    }
  }

  /** Multiplying by a non-negative number keeps order. */
  lemma MulMonotone(c: int, x: int, y: int)
    requires c >= 0 && x <= y
    ensures c * x <= c * y
  {
    assert c * y - c * x == c * (y - x);
  }

  /** `df[col].apply(lambda x: map_date(x) if pd.notna(x) else x)`. */
  function MapColumn(col: seq<Option<int>>, originalStart: int, originalSpan: int, draws: seq<DateDraw>): (r: seq<Option<int>>)
    requires |draws| == |col|
    ensures |r| == |col|
    ensures forall k :: 0 <= k < |col| ==> (r[k].None? <==> col[k].None?)
    ensures forall k :: 0 <= k < |col| && col[k].Some? ==>
      r[k].value == MapDate(col[k].value, originalStart, originalSpan, draws[k])
    ensures (forall k :: 0 <= k < |draws| ==> ValidDateDraw(draws[k])) ==>
      forall k :: 0 <= k < |r| && r[k].Some? ==> 0 <= r[k].value <= NewSpan
  {
    if col == [] then []
    else
      var n := |col| - 1;
      var before := MapColumn(col[..n], originalStart, originalSpan, draws[..n]);
      before + [if col[n].Some? then Some(MapDate(col[n].value, originalStart, originalSpan, draws[n])) else None]
  }

  /** The earliest of some timestamps (`min()`). */
  function Earliest(ts: seq<int>): (m: int)
    requires ts != []
    ensures m in ts && forall k :: 0 <= k < |ts| ==> m <= ts[k]
  {
    if |ts| == 1 then ts[0]
    else
      var rest := Earliest(ts[..|ts| - 1]);
      assert forall k :: 0 <= k < |ts| - 1 ==> ts[..|ts| - 1][k] == ts[k];
      if ts[|ts| - 1] < rest then ts[|ts| - 1] else rest
  }

  /** The latest of some timestamps (`max()`). */
  function Latest(ts: seq<int>): (m: int)
    requires ts != []
    ensures m in ts && forall k :: 0 <= k < |ts| ==> ts[k] <= m
  {
    if |ts| == 1 then ts[0]
    else
      var rest := Latest(ts[..|ts| - 1]);
      assert forall k :: 0 <= k < |ts| - 1 ==> ts[..|ts| - 1][k] == ts[k];
      if ts[|ts| - 1] > rest then ts[|ts| - 1] else rest
  }

  /** The original span in whole days: never negative, and every timestamp
      of the reference column is at most that many days from the start. */
  lemma OriginalSpanCovers(ts: seq<int>, k: nat)
    requires k < |ts|
    ensures 0 <= WholeDays(ts[k] - Earliest(ts)) <= WholeDays(Latest(ts) - Earliest(ts))
  {
    DivMonotone(ts[k] - Earliest(ts), Latest(ts) - Earliest(ts), DaySeconds);
  }

  // ---------------------------------------------------------- order fix-up

  /** An order's dates after mapping, in day numbers; the purchase date is
      always present. */
  datatype OrderDates = OrderDates(purchase: int, approved: Option<int>, carrier: Option<int>,
                                   delivered: Option<int>, estimated: Option<int>)

  /** The draws of one order's fix-up: approval, carrier, delivery and
      estimate delays in days. */
  datatype FixDraw = FixDraw(approve: int, carrier: int, deliver: int, estimate: int)

  predicate ValidFixDraw(d: FixDraw) {
    0 <= d.approve <= 2 && 1 <= d.carrier <= 3 && 1 <= d.deliver <= 7 && 7 <= d.estimate <= 15
  }

  /** The fix-up of one order: approval no earlier than purchase plus a
      delay; carrier and delivery, each only when present, after the step
      before; the estimate a week or two after purchase. */
  function FixOrder(o: OrderDates, d: FixDraw): (f: OrderDates)
    ensures f.purchase == o.purchase && f.approved.Some? && f.estimated.Some?
    ensures f.carrier.Some? <==> o.carrier.Some?
    ensures f.delivered.Some? <==> o.delivered.Some?
    ensures ValidFixDraw(d) ==> OrderedAfterFix(o, f)
  {
    var approved := if o.approved.Some? then Max(o.purchase, o.approved.value) + d.approve
                    else o.purchase + d.approve;
    var carrier := if o.carrier.Some? then Some(approved + d.carrier) else None;
    var base := if carrier.Some? then carrier.value else approved;
    var delivered := if o.delivered.Some? then Some(base + d.deliver) else None;
    OrderDates(o.purchase, Some(approved), carrier, delivered, Some(o.purchase + d.estimate))
  }

  /** The dates after a fix-up with draws in range are in order: purchase,
      approval, carrier, delivery, each gap within its draw's range. */
  predicate OrderedAfterFix(o: OrderDates, f: OrderDates)
    requires f.approved.Some? && f.estimated.Some?
  {
    && o.purchase <= f.approved.value
    && (o.approved.Some? ==> o.approved.value <= f.approved.value <= Max(o.purchase, o.approved.value) + 2)
    && (o.approved.None? ==> f.approved.value <= o.purchase + 2)
    && (f.carrier.Some? ==> f.approved.value + 1 <= f.carrier.value <= f.approved.value + 3)
    && (f.delivered.Some? ==> f.approved.value + 1 <= f.delivered.value)
    && (f.delivered.Some? && f.carrier.Some? ==> f.carrier.value + 1 <= f.delivered.value <= f.carrier.value + 7)
    && (f.delivered.Some? && f.carrier.None? ==> f.delivered.value <= f.approved.value + 7)
    && o.purchase + 7 <= f.estimated.value <= o.purchase + 15
  }

  function Max(a: int, b: int): int {
    if a >= b then a else b
  }

  /** The fix-up can move a date out of 2021-2023: an order bought on the
      last day gets an estimate a week later. */
  lemma FixOrderMayLeaveRange()
    ensures var f := FixOrder(OrderDates(NewSpan, None, None, None, None), FixDraw(0, 1, 1, 7));
      f.estimated.value > NewSpan
  {
  }

  /** The order fix-up loop, writing each row in place. */
  method FixOrders(orders: array<OrderDates>, draws: seq<FixDraw>)
    requires |draws| == orders.Length
    modifies orders
    ensures forall k :: 0 <= k < orders.Length ==> orders[k] == FixOrder(old(orders[k]), draws[k])
  {
    for i := 0 to orders.Length
      invariant forall k :: 0 <= k < i ==> orders[k] == FixOrder(old(orders[k]), draws[k])
      invariant forall k :: i <= k < orders.Length ==> orders[k] == old(orders[k])
    {
      var row := orders[i];
      var approved := if row.approved.Some? then Max(row.purchase, row.approved.value) + draws[i].approve
                      else row.purchase + draws[i].approve;
      orders[i] := orders[i].(approved := Some(approved));
      if row.carrier.Some? {
        orders[i] := orders[i].(carrier := Some(approved + draws[i].carrier));
      }
      var carrierDate := if orders[i].carrier.Some? then orders[i].carrier.value else approved;
      if row.delivered.Some? {
        orders[i] := orders[i].(delivered := Some(carrierDate + draws[i].deliver));
      }
      orders[i] := orders[i].(estimated := Some(row.purchase + draws[i].estimate));
    }
  }

  // --------------------------------------------------------------- reviews

  /** A review's dates after mapping, in day numbers. */
  datatype ReviewDates = ReviewDates(creation: Option<int>, answer: Option<int>)

  /** The review fix-up: an answer, when there is one, comes `delay` days
      after creation (and is lost with a missing creation date). */
  function FixReview(r: ReviewDates, delay: int): (f: ReviewDates)
    ensures f.creation == r.creation
    ensures f.answer.Some? <==> r.answer.Some? && r.creation.Some?
    ensures 0 <= delay <= 3 && f.answer.Some? ==> r.creation.value <= f.answer.value <= r.creation.value + 3
  {
    if r.answer.Some? then
      ReviewDates(r.creation, if r.creation.Some? then Some(r.creation.value + delay) else None)
    else r
  }

  /** The review fix-up loop, writing each row in place. */
  method FixReviews(reviews: array<ReviewDates>, delays: seq<int>)
    requires |delays| == reviews.Length
    modifies reviews
    ensures forall k :: 0 <= k < reviews.Length ==> reviews[k] == FixReview(old(reviews[k]), delays[k])
  {
    for i := 0 to reviews.Length
      invariant forall k :: 0 <= k < i ==> reviews[k] == FixReview(old(reviews[k]), delays[k])
      invariant forall k :: i <= k < reviews.Length ==> reviews[k] == old(reviews[k])
    {
      var row := reviews[i];
      if row.answer.Some? {
        var answer := if row.creation.Some? then Some(row.creation.value + delays[i]) else None;
        reviews[i] := reviews[i].(answer := answer);
      }
    }
  }

  // ------------------------------------------------- categories and payments

  const CategoryMapping: map<string, string> := map[
    "cama_mesa_banho" := "home_furnishing",
    "beleza_saude" := "beauty_personal_care",
    "esporte_lazer" := "sports_fitness",
    "moveis_decoracao" := "furniture_decor",
    "informatica_acessorios" := "computers_accessories",
    "utilidades_domesticas" := "home_kitchen",
    "relogios_presentes" := "watches_gifts",
    "telefonia" := "mobile_phones",
    "automotivo" := "automotive",
    "brinquedos" := "toys_games",
    "cool_stuff" := "gadgets_electronics",
    "perfumaria" := "fragrances",
    "bebes" := "baby_products",
    "eletronicos" := "electronics",
    "papelaria" := "stationery",
    "fashion_bolsas_e_acessorios" := "fashion_bags_accessories",
    "fashion_calcados" := "footwear",
    "fashion_roupa_feminina" := "womens_clothing",
    "fashion_roupa_masculina" := "mens_clothing",
    "fashion_underwear_e_moda_praia" := "lingerie_sleepwear",
    "fashion_esporte" := "sportswear",
    "flores" := "flowers_gifts",
    "alimentos" := "grocery_gourmet",
    "alimentos_bebidas" := "food_beverages",
    "casa_conforto" := "home_improvement",
    "casa_conforto_2" := "home_appliances",
    "construcao_ferramentas_construcao" := "tools_hardware",
    "construcao_ferramentas_jardim" := "garden_outdoor",
    "construcao_ferramentas_seguranca" := "safety_tools",
    "ferramentas_jardim" := "gardening_tools",
    "industria_comercio_e_negocios" := "business_industrial",
    "livros_interesse_geral" := "books_general",
    "livros_tecnicos" := "books_technical",
    "musica" := "music_instruments",
    "pet_shop" := "pet_supplies",
    "artes" := "arts_crafts",
    "malas_acessorios" := "luggage_travel",
    "climatizacao" := "air_conditioning",
    "consoles_games" := "gaming_consoles",
    "dvds_blu_ray" := "movies_tv_shows",
    "eletrodomesticos" := "appliances",
    "eletrodomesticos_2" := "kitchen_appliances",
    "eletroportateis" := "small_appliances",
    "artigos_de_festas" := "party_supplies",
    "artigos_de_natal" := "festival_decorations",
    "audio" := "audio_devices",
    "market_place" := "marketplace_items",
    "portateis_casa_forno_e_cafe" := "kitchen_dining",
    "cine_foto" := "cameras_photography",
    "tablets_impressao_imagem" := "tablets_printers",
    "telefonia_fixa" := "landline_phones",
    "pcs" := "desktop_computers",
    "sinalizacao_e_seguranca" := "safety_security"]

  /** `CATEGORY_MAPPING.get(x, x) if pd.notna(x) else x`. */
  function MapCategory(c: Option<string>): (r: Option<string>)
    ensures r.None? <==> c.None?
    ensures c.Some? && c.value in CategoryMapping ==> r == Some(CategoryMapping[c.value])
    ensures c.Some? && c.value !in CategoryMapping ==> r == c
  {
    match c
    case None => None
    case Some(x) => Some(if x in CategoryMapping then CategoryMapping[x] else x)
  }

  /** The payment types whose instalments are kept. */
  const InstallmentTypes: seq<string> := ["credit_card", "EMI"]

  /** The instalments of a payment after the transform. */
  function Installments(paymentType: string, installments: int): (r: int)
    ensures paymentType in InstallmentTypes ==> r == installments
    ensures paymentType !in InstallmentTypes ==> r == 1
  {
    if paymentType in InstallmentTypes then installments else 1
  }
}

=== FILE: vector_index.dfy ===
/** The vector-index bookkeeping of the RAG service: which FAISS index a
    service builds, how added chunks are numbered in the chunk store, and how
    the raw `(distance, index)` row of a search becomes ranked, scored results.
    The index itself is a list of stored vectors; the nearest-neighbour search
    is an input (the row FAISS returns). */
module VectorIndex {
  import opened Wrappers

  /** The FAISS index classes the service can build. */
  datatype IndexKind = InnerProduct | L2

  /** `_create_index()`: an inner-product index for "cosine", an L2 index for
      every other index type. */
  function CreateIndex(indexType: string): (k: IndexKind)
    ensures k == InnerProduct <==> indexType == "cosine"
  {
    if indexType == "cosine" then InnerProduct else L2
  }

  type Metadata = map<string, string>

  /** A chunk handed to `add_chunks`: its text, its embedding and, when the
      dictionary has the key, its metadata. */
  datatype NewChunk = NewChunk(text: string, embedding: seq<real>, metadata: Option<Metadata>)

  /** An entry of `chunk_store`. */
  datatype StoredChunk = StoredChunk(text: string, metadata: Metadata, index: int)

  /** The score of a result: `1 / (1 + distance)` for the "l2" index type, the
      raw value the index returned otherwise. */
  datatype Score = InverseDistance(distance: real) | RawDistance(distance: real)

  datatype SearchResult = SearchResult(text: string, metadata: Metadata, score: Score, rank: int)

  /** What `save_index` writes and `load_index` reads back: the index (its
      class and vectors) and the chunk store. */
  datatype Snapshot = Snapshot(kind: IndexKind, vectors: seq<seq<real>>, store: seq<StoredChunk>)

  /** The embeddings of a batch, in order. */
  function Embeddings(chunks: seq<NewChunk>): (r: seq<seq<real>>)
    ensures |r| == |chunks|
  {
    seq(|chunks|, i requires 0 <= i < |chunks| => chunks[i].embedding)
  }

  /** The chunk-store entry of the `i`-th chunk of a batch whose first entry
      goes to position `start`; metadata defaults to `{}`. */
  function StoredAt(chunks: seq<NewChunk>, start: int, i: nat): StoredChunk
    requires i < |chunks|
  {
    StoredChunk(chunks[i].text,
                if chunks[i].metadata.Some? then chunks[i].metadata.value else map[],
                start + i)
  }

  /** The chunk-store entries of a batch added at position `start`. */
  function StoredBatch(chunks: seq<NewChunk>, start: int): (r: seq<StoredChunk>)
    ensures |r| == |chunks|
  {
    seq(|chunks|, i requires 0 <= i < |chunks| => StoredAt(chunks, start, i))
  }

  /** Every entry records its own position. */
  predicate Positioned(store: seq<StoredChunk>) {
    forall k :: 0 <= k < |store| ==> store[k].index == k
  }

  /** A batch added at the end of a positioned store keeps it positioned, and
      each chunk lands at `len(chunk_store) + i` with its own text. */
  lemma AppendKeepsPositions(store: seq<StoredChunk>, chunks: seq<NewChunk>)
    requires Positioned(store)
    ensures var s := store + StoredBatch(chunks, |store|);
      Positioned(s) && forall i :: 0 <= i < |chunks| ==> s[|store| + i].text == chunks[i].text
  {
    var s := store + StoredBatch(chunks, |store|);
    forall k | 0 <= k < |s| ensures s[k].index == k {
      if k >= |store| {
        assert s[k] == StoredAt(chunks, |store|, k - |store|);
      }
    }
  }

  /** The score of a raw result. */
  function ScoreFor(indexType: string, distance: real): Score {
    if indexType == "l2" then InverseDistance(distance) else RawDistance(distance)
  }

  /** The result for position `i` of the raw row, which names a stored chunk. */
  function ResultAt(store: seq<StoredChunk>, indexType: string, row: seq<(real, int)>, i: nat): SearchResult
    requires i < |row| && 0 <= row[i].1 < |store|
  {
    var chunk := store[row[i].1];
    SearchResult(chunk.text, chunk.metadata, ScoreFor(indexType, row[i].0), i + 1)
  }

  /** Every entry of a raw row is the sentinel -1 or a position in the store. */
  predicate RowFits(store: seq<StoredChunk>, row: seq<(real, int)>) {
    forall i :: 0 <= i < |row| ==> row[i].1 == -1 || 0 <= row[i].1 < |store|
  }

  /** The results `search` assembles from a raw row. */
  function Results(store: seq<StoredChunk>, indexType: string, row: seq<(real, int)>): seq<SearchResult>
    requires RowFits(store, row)
  {
    if row == [] then []
    else
      var n := |row| - 1;
      Results(store, indexType, row[..n]) + (if row[n].1 != -1 then [ResultAt(store, indexType, row, n)] else [])
  }

  /** A result is kept only for a row entry that is not the sentinel; it
      carries the text and metadata of the chunk that entry names, the entry's
      score and, as rank, the entry's 1-based position in the raw row. */
  lemma {:induction false} ResultsSound(store: seq<StoredChunk>, indexType: string, row: seq<(real, int)>)
    requires RowFits(store, row)
    ensures |Results(store, indexType, row)| <= |row|
    ensures forall x :: x in Results(store, indexType, row) ==>
      1 <= x.rank <= |row| && row[x.rank - 1].1 != -1 && x == ResultAt(store, indexType, row, x.rank - 1)
  {
    if row != [] {
      var n := |row| - 1;
      var init := row[..n];
      assert RowFits(store, init);
      ResultsSound(store, indexType, init);
      forall x | x in Results(store, indexType, init)
        ensures 1 <= x.rank <= |row| && row[x.rank - 1].1 != -1 && x == ResultAt(store, indexType, row, x.rank - 1)
      {
        assert init[x.rank - 1] == row[x.rank - 1];
      }
    }
  }

  /** Results come in row order: ranks strictly increase (and so are distinct),
      skipping the positions of sentinels. */
  lemma {:induction false} ResultsOrdered(store: seq<StoredChunk>, indexType: string, row: seq<(real, int)>)
    requires RowFits(store, row)
    ensures var r := Results(store, indexType, row);
      forall j :: 0 < j < |r| ==> r[j - 1].rank < r[j].rank
  {
    if row != [] {
      var n := |row| - 1;
      var init := row[..n];
      assert RowFits(store, init);
      ResultsOrdered(store, indexType, init);
      ResultsSound(store, indexType, init);
      var prev := Results(store, indexType, init);
      if |prev| > 0 {
        assert prev[|prev| - 1] in prev;
      }
    }
  }

  /** No entry is lost: every row entry that is not the sentinel has a result
      with its rank. */
  lemma {:induction false} ResultsComplete(store: seq<StoredChunk>, indexType: string, row: seq<(real, int)>, i: nat)
    requires RowFits(store, row) && i < |row| && row[i].1 != -1
    ensures ResultAt(store, indexType, row, i) in Results(store, indexType, row)
  {
    var n := |row| - 1;
    var init := row[..n];
    assert RowFits(store, init);
    if i < n {
      assert init[i] == row[i];
      ResultsComplete(store, indexType, init, i);
      assert ResultAt(store, indexType, init, i) == ResultAt(store, indexType, row, i);
    }
  }

  /** The similarity `1 / (1 + distance)` of an L2 result: in (0, 1] for a
      distance of 0 or more. */
  function Similarity(distance: real): (s: real)
    requires distance >= 0.0
    ensures 0.0 < s <= 1.0
  {
    var s := 1.0 / (1.0 + distance);
    assert s * (1.0 + distance) == 1.0;
    assert s > 0.0;
    assert s * distance == 1.0 - s;
    assert s <= 1.0;
    s
  }

  /** Closer results score higher. */
  lemma SimilarityAntitone(d1: real, d2: real)
    requires 0.0 <= d1 <= d2
    ensures Similarity(d2) <= Similarity(d1)
  {
    var s1, s2 := Similarity(d1), Similarity(d2);
    assert s1 * (1.0 + d1) == 1.0 && s2 * (1.0 + d2) == 1.0;
    assert s2 * (1.0 + d1) <= s2 * (1.0 + d2);
    if s1 < s2 {
      assert false;
    }
  }

  class FaissService {
    var dimension: int
    var indexType: string
    var kind: IndexKind
    var vectors: seq<seq<real>>
    var chunkStore: seq<StoredChunk>

    /** One stored vector per stored chunk, each chunk at its own position. */
    ghost predicate Valid()
      reads this
    {
      |vectors| == |chunkStore| && Positioned(chunkStore)
    }

    /** `FAISSService(dimension, index_type)`: an empty index of the class
        `_create_index` picks, and an empty chunk store. */
    constructor (dimension: int, indexType: string)
      ensures this.dimension == dimension && this.indexType == indexType
      ensures kind == CreateIndex(indexType) && vectors == [] && chunkStore == []
      ensures Valid()
    {
      this.dimension := dimension;
      this.indexType := indexType;
      kind := CreateIndex(indexType);
      vectors := [];
      chunkStore := [];
    }

    /** `add_chunks(chunks)`: the index takes the embeddings, then the i-th
        chunk is stored at position `len(chunk_store) + i`. The index rejects,
        by raising, a batch whose vectors do not all have `dimension` entries,
        and an empty batch, whose array has one axis instead of two. */
    method AddChunks(chunks: seq<NewChunk>) returns (ok: bool)
      modifies this`vectors, this`chunkStore
      ensures ok <==> chunks != [] && forall c :: c in chunks ==> |c.embedding| == dimension
      ensures ok ==> (vectors == old(vectors) + Embeddings(chunks)
                      && chunkStore == old(chunkStore) + StoredBatch(chunks, |old(chunkStore)|))
      ensures !ok ==> vectors == old(vectors) && chunkStore == old(chunkStore)
      ensures old(Valid()) ==> Valid()
    {
      ok := chunks != [] && forall c :: c in chunks ==> |c.embedding| == dimension;
      if !ok {
        return;
      }
      var startIdx := |chunkStore|;
      vectors := vectors + Embeddings(chunks);
      for i := 0 to |chunks|
        invariant vectors == old(vectors) + Embeddings(chunks)
        invariant chunkStore == old(chunkStore) + StoredBatch(chunks[..i], startIdx)
      {
        var chunk := chunks[i];
        var chunkData := StoredChunk(chunk.text, if chunk.metadata.Some? then chunk.metadata.value else map[],
                                     startIdx + i);
        assert StoredBatch(chunks[..i + 1], startIdx) == StoredBatch(chunks[..i], startIdx) + [chunkData];
        chunkStore := chunkStore + [chunkData];
      }
      assert chunks[..|chunks|] == chunks;
      if old(Valid()) {
        AppendKeepsPositions(old(chunkStore), chunks);
      }
    }

    /** `search(query, k)`, given the row of `(distance, index)` pairs FAISS
        returns for the query: `k` entries, each -1 or a stored position. */
    method Search(row: seq<(real, int)>, k: int) returns (results: seq<SearchResult>)
      requires |row| == k && RowFits(chunkStore, row)
      ensures results == Results(chunkStore, indexType, row)
    {
      results := [];
      for i := 0 to |row|
        invariant results == Results(chunkStore, indexType, row[..i])
      {
        var (dist, idx) := row[i];
        assert row[..i + 1][..i] == row[..i];
        if idx != -1 {
          var chunkData := chunkStore[idx];
          var score := if indexType == "l2" then InverseDistance(dist) else RawDistance(dist);
          results := results + [SearchResult(chunkData.text, chunkData.metadata, score, i + 1)];
        }
      }
      assert row[..|row|] == row;
    }

    /** `save_index(directory)`: what is written. */
    method SaveIndex() returns (s: Snapshot)
      ensures s == Snapshot(kind, vectors, chunkStore)
    {
      s := Snapshot(kind, vectors, chunkStore);
    }

    /** `load_index(directory)`: the index and the chunk store are replaced by
        what was saved; the dimension and the index type stay as they were. */
    method LoadIndex(s: Snapshot)
      modifies this`kind, this`vectors, this`chunkStore
      ensures kind == s.kind && vectors == s.vectors && chunkStore == s.store
    {
      kind := s.kind;
      vectors := s.vectors;
      chunkStore := s.store;
    }
  }

  /** An index type other than "l2" and "cosine" (say "L2") builds an L2 index
      but reports its raw distances as scores, so closer chunks score lower. */
  lemma OtherIndexTypeScoresRawDistances(indexType: string, distance: real)
    requires indexType != "l2" && indexType != "cosine"
    ensures CreateIndex(indexType) == L2 && ScoreFor(indexType, distance) == RawDistance(distance)
  {
  }

  /** Scoring by the class of index actually built: an L2 index always reports
      `1 / (1 + distance)`. */
  function IntendedScore(kind: IndexKind, distance: real): (s: Score)
    ensures kind == L2 ==> s.InverseDistance?
    ensures kind == InnerProduct ==> s.RawDistance?
    ensures s.distance == distance
  {
    if kind == L2 then InverseDistance(distance) else RawDistance(distance)
  }

  /** With intended scoring every index type scores L2 results by similarity. */
  lemma IntendedScoreFollowsIndex(indexType: string, distance: real)
    ensures IntendedScore(CreateIndex(indexType), distance).InverseDistance? <==> indexType != "cosine"
  {
  }
}

=== FILE: wrappers.dfy ===
/** Failure-carrying wrappers shared by every module of the model. */
module Wrappers {

  /** A value that may be absent (Python's `None`). */
  datatype Option<T> = None | Some(value: T)

  /** The outcome of an operation that can raise: a value, or the error it raised. */
  datatype Result<T, E> = Ok(value: T) | Err(error: E)

  /** The values of the `Some` entries of `xs`, in order: a loop that appends
      an item only when it has one. */
  function Somes<T>(xs: seq<Option<T>>): (r: seq<T>)
    ensures |r| <= |xs|
  {
    if xs == [] then []
    else Somes(xs[..|xs| - 1]) + (if xs[|xs| - 1].Some? then [xs[|xs| - 1].value] else [])
  }

  /** The values of a prefix one entry longer. */
  lemma SomesPrefixStep<T>(xs: seq<Option<T>>, i: nat)
    requires i < |xs|
    ensures Somes(xs[..i + 1]) == Somes(xs[..i]) + (if xs[i].Some? then [xs[i].value] else [])
  {
    assert xs[..i + 1][..i] == xs[..i];
  }

  /** Every value kept comes from an entry of `xs`. */
  lemma {:induction false} SomesFrom<T>(xs: seq<Option<T>>, y: T)
    requires y in Somes(xs)
    ensures exists i :: 0 <= i < |xs| && xs[i] == Some(y)
  {
    var init := xs[..|xs| - 1];
    if y in Somes(init) {
      SomesFrom(init, y);
      var i :| 0 <= i < |init| && init[i] == Some(y);
      assert xs[i] == init[i];
    }
  }

  /** When every entry has a value, all are kept, at their own positions. */
  lemma {:induction false} SomesAll<T>(xs: seq<Option<T>>)
    requires forall i :: 0 <= i < |xs| ==> xs[i].Some?
    ensures |Somes(xs)| == |xs|
    ensures forall i :: 0 <= i < |xs| ==> Somes(xs)[i] == xs[i].value
  {
    if xs != [] {
      var init := xs[..|xs| - 1];
      SomesAll(init);
      assert forall i :: 0 <= i < |init| ==> Somes(xs)[i] == Somes(init)[i];
    }
  }
}
